=== FILE: README.md ===
# Clouni configuration tool — a Dafny model of its core

Clouni's configuration tool takes a provider-level TOSCA template and turns it
into scripts for a configuration tool (Ansible by default, or Terraform run from
Ansible). This project models the core of that translation in Dafny:

- **Template values** (`Values`, `Utils`): YAML/JSON values as an immutable
  `Value` datatype. Dictionaries are association lists in insertion order.
  `tosca_type_parse`, `deep_update_dict`, `replace_brackets` and the URL helpers
  are modelled here.
- **Template dependencies** (`TemplateDependencies`): how
  `resolve_in_template_dependencies` finds which templates a node depends on.
  It also records the source and target of every relationship template that a
  requirement names.
- **Type definitions** (`TypeDefinitions`): how `fulfil_definitions_with_parents`
  flattens each type definition over its `derived_from` chain and marks
  software types.
- **Operation graph** (`OperationGraph`): the whole of
  `sort_nodes_and_operations_by_graph_dependency` and `update_relationships`:
  - a lifecycle chain for each node;
  - template dependencies tied to the latest operation of each dependency;
  - relationship operations spliced in next to their source or target;
  - the lists and their reversal that the tool walks for create and delete.
- **Provider resource** (`ProviderResource`): how one resource is prepared:
  - property defaults and configuration arguments;
  - the ends of a relationship;
  - the host of a node;
  - the flattened requirement definitions;
  - node-filter arguments, which become lookup tasks.
- **Configuration tools** (`ConfigurationTools`, `Tasks`, `AnsibleTool`,
  `TerraformTool`):
  - the common base class and the references collected for
    `get_operation_output`;
  - the tasks built for an interface operation;
  - the Ansible create and delete tasks;
  - the Terraform document and its apply task.
- **Instance model** (`InstanceModel`): the log of resource snapshots that the
  Ansible tool appends to, and how the newest snapshot is read back.
- **Registry and gRPC front end** (`ToolRegistry`, `GrpcServer`):
  - looking up a tool class by name;
  - validating and defaulting a request;
  - the debug and log-level settings of one translation;
  - the response status;
  - the argument checks of `serve`.

Calls that the model cannot see are passed in as parameters:

- file and YAML I/O, where an append-only log stands for the file;
- `json.dumps`, `str()` and `yaml.load`;
- the random number generator;
- the artifact executor;
- the translation pipeline behind the server.

Each is named where it is used.

## Model

| member | source | states |
|---|---|---|
| Utils.TypeParse | configuration_tool/common/utils.py:14-22 | a type splits into three parts exactly when it holds at least two dots; namespace and category are dot-free and the three parts joined with dots give the type back |
| Utils.TypeParseJoin | configuration_tool/common/utils.py:14-22 | splitting inverts joining: a dot-free namespace and category joined with any type name parse back to the same triple |
| Utils.DeepUpdate | configuration_tool/common/utils.py:47-59 | the merged dictionary has the union of both key sets, and every key the overrides do not name keeps its old value |
| Utils.DeepUpdateLookup | configuration_tool/common/utils.py:51-58 | every overridden key holds the merge of its old value with its override |
| Utils.MergeValueCases | configuration_tool/common/utils.py:52-58 | the merge rule case by case: nested dictionaries merge, two lists, tuples or sets of the same kind are concatenated or united, anything else is replaced |
| Utils.ReplaceBrackets | configuration_tool/common/utils.py:84-101 | strings are escaped or unescaped; dictionary keys are always escaped while dictionary values and list items are processed recursively with the same direction, in order; other values pass through unchanged |
| Utils.UnescapeEscape | configuration_tool/common/utils.py:86-90 | unescaping undoes escaping for any string free of backslashes, and each of the six replacements of the unescape chain is tracked |
| Utils.ReplaceBracketsRoundTrip | configuration_tool/common/utils.py:84-101 | escaping then unescaping a value gives it back when its strings hold no backslash and its keys no brace |
| Utils.EscapeNoBraces | configuration_tool/common/utils.py:87 | a string without braces is left as it is |
| Utils.DependenciesUrl | configuration_tool/common/utils.py:76-77 | the URL is the endpoint's dependency prefix followed by the cluster, the node-type separator and the type |
| Utils.DependenciesUrlInjective | configuration_tool/common/utils.py:76-77 | for one endpoint and type, distinct clusters get distinct dependency URLs |
| Utils.LoadingUrl | configuration_tool/common/utils.py:80-81 | the URL is the endpoint's loading prefix followed by the cluster name |
| Utils.LoadingUrlInjective | configuration_tool/common/utils.py:80-81 | for one endpoint, distinct clusters get distinct loading URLs |
| TemplateDependencies.AddDependency | configuration_tool/providers/common/tosca_template.py:103-108 | records the dependency unless it is `SELF` or the node itself; no other node's entry changes, nothing else is added, and freedom from self-dependency is kept |
| TemplateDependencies.AddDependencyIdempotent | configuration_tool/providers/common/tosca_template.py:103-108 | recording the same dependency twice is the same as recording it once |
| TemplateDependencies.RelationNamed | configuration_tool/providers/common/tosca_template.py:75-80 | a requirement names a relationship template exactly when its `relationship` is a string that does not parse as a type |
| TemplateDependencies.ResolveRequirementBody | configuration_tool/providers/common/tosca_template.py:71-90 | a `node` or `relationship` that is a template name becomes a dependency; a named relationship gets this node as its source and the requirement's `node` as its target; only this node's entry grows; a body that is not a map fails |
| TemplateDependencies.NodeTypesOf | configuration_tool/providers/common/tosca_template.py:94-98 | collects every `node` type the requirement definitions name, never the node's own type, and fails on a definition that is not a map |
| TemplateDependencies.RequiredNodeTypes | configuration_tool/providers/common/tosca_template.py:92-98 | the collected types exclude the node's own type, and every requirement definition was a map |
| TemplateDependencies.AddTypeDependencies | configuration_tool/providers/common/tosca_template.py:99-101 | every template whose type is required becomes a dependency of the node (except the node itself), and other nodes' entries are unchanged |
| TemplateDependencies.TypesRequiredBy | configuration_tool/providers/common/tosca_template.py:92-98 | the required types of a node never include its own type |
| TemplateDependencies.ResolveNode | configuration_tool/providers/common/tosca_template.py:69-101 | scanning one node only grows that node's entry, keeps freedom from self-dependency, and records every template of a required type |
| TemplateDependencies.ResolveTemplateDependencies | configuration_tool/providers/common/tosca_template.py:63-101 | after the whole scan, no node depends on itself or on `SELF` |
| TemplateDependencies.TypeDependencyRecorded | configuration_tool/providers/common/tosca_template.py:92-101 | a template of a type that a node requires ends up among that node's dependencies, whatever is scanned after it |
| TemplateDependencies.RequirementNamedRecorded | configuration_tool/providers/common/tosca_template.py:69-90 | after the whole scan, every template a node's requirements name under `node` or `relationship` is among that node's dependencies, unless it is `SELF` or the node itself, and every relationship so named has recorded ends |
| TemplateDependencies.DependencyExplained | configuration_tool/providers/common/tosca_template.py:63-108 | after the whole scan, every dependency of a node is named by that node's requirements or is a template of a type its type's requirement definitions name |
| TemplateDependencies.RelationExplained | configuration_tool/providers/common/tosca_template.py:78-85 | after the whole scan, every recorded relation is named by the requirements of the node recorded as its source |
| TemplateDependencies.BodyExplained | configuration_tool/providers/common/tosca_template.py:75-90 | one requirement body adds only the templates it names and rewrites only the relation it names, with this node as its source |
| TemplateDependencies.EntriesRecord | configuration_tool/providers/common/tosca_template.py:71-90 | the bodies of one requirement record every template they name, and every relationship among them, and keep earlier relations |
| TemplateDependencies.RequirementsRecord | configuration_tool/providers/common/tosca_template.py:70-90 | a node's requirements list records every template it names and keeps earlier relations |
| TemplateDependencies.TypeDependenciesExplained | configuration_tool/providers/common/tosca_template.py:99-101 | the type scan adds only templates whose type is required |
| TemplateDependencies.NodeExplained | configuration_tool/providers/common/tosca_template.py:69-101 | scanning one node adds only templates its requirements name or templates of a required type, and rewrites only relations its requirements name |
| TypeDefinitions.ParentOf | configuration_tool/providers/common/tosca_template.py:330-331 | a missing or null `derived_from` means no parent; a string is the parent; anything else is an error |
| TypeDefinitions.Finish | configuration_tool/providers/common/tosca_template.py:343-346 | the type becomes ready and is a software type exactly when flagged; only the corrected version stores the full definition |
| TypeDefinitions.FullDefinition | configuration_tool/providers/common/tosca_template.py:323-346 | a ready type returns its definition unchanged; otherwise the type becomes ready, and no type under flattening further up is made ready |
| TypeDefinitions.ParentDefinition | configuration_tool/providers/common/tosca_template.py:332-340 | a parent equal to the child is rejected; a ready parent gives its stored definition, and the parent is ready afterwards |
| TypeDefinitions.WithParent | configuration_tool/providers/common/tosca_template.py:341-346 | the full definition is the parent's deep-updated with the child's, and the type is software when its name or its parent says so |
| TypeDefinitions.FulfilReady | configuration_tool/providers/common/tosca_template.py:348-351 | after the loop every defined type is ready |
| TypeDefinitions.FullDefinitionExtends | configuration_tool/providers/common/tosca_template.py:323-346 | flattening only adds ready types, finds software types only among new ones, keeps the stored keys, and changes only newly ready entries |
| TypeDefinitions.FulfilCorrected | configuration_tool/providers/common/tosca_template.py:323-351 | with each full definition stored when computed, every type ends up as its parent's full definition deep-updated with its own, and software exactly when its name or an ancestor makes it so |
| TypeDefinitions.AsWrittenLeavesParentUnflattened | configuration_tool/providers/common/tosca_template.py:335-351 | for `C` derived from `P` derived from `G`, listed child first, the code as written leaves `P` with its own unflattened definition |
| OperationGraph.DeclaredNames | configuration_tool/providers/common/tosca_template.py:209-214 | the names an interface value holds, as `in` tests them: a map's keys, a list's, tuple's or set's string members, the operation names that occur inside a string; `in` on a number, a boolean or `None` fails |
| OperationGraph.Interface | configuration_tool/providers/common/tosca_template.py:209-214 | a template that is not a map fails; with `interfaces` present but not a map, a name it holds fails when indexed and one it does not hold leaves the interface absent; a present interface gives its declared names |
| OperationGraph.AddEdges | configuration_tool/providers/common/tosca_template.py:219-226 | adding edges to one key unions them with what it had; every other key is unchanged |
| OperationGraph.UnionGraphs | configuration_tool/providers/common/tosca_template.py:204-228 | merging two graphs unions the keys, and a key on both sides holds the union of its dependencies |
| OperationGraph.PresentOps | configuration_tool/providers/common/tosca_template.py:212-214 | keeps exactly the candidates whose names the interface holds, in lifecycle order |
| OperationGraph.LifecycleOps | configuration_tool/providers/common/tosca_template.py:201-214 | `create` comes first; then exactly those of `configure, start, stop, delete` whose names the `Standard` interface holds, in lifecycle order |
| OperationGraph.NodeChainShape | configuration_tool/providers/common/tosca_template.py:218-226 | a node's keys are exactly its operations; `create` carries the template dependencies, and each later operation depends on the previous one |
| OperationGraph.ChainGraphKeys | configuration_tool/providers/common/tosca_template.py:198-228 | every key of the first graph is a lifecycle operation of a template |
| OperationGraph.ChainGraphElement | configuration_tool/providers/common/tosca_template.py:204-228 | for distinct template names, each template's part of the merged graph is exactly its own chain |
| OperationGraph.LatestOperation | configuration_tool/providers/common/tosca_template.py:232-241 | gives the highest lifecycle operation the template has in the graph, and none exactly when it has no operation |
| OperationGraph.Remap | configuration_tool/providers/common/tosca_template.py:229-242 | the keys are unchanged; each dependency becomes the operation it stands for and nothing else is added; the result is closed under dependency |
| OperationGraph.RemapKeepsRef | configuration_tool/providers/common/tosca_template.py:236-238 | a dependency on an existing operation survives the remapping |
| OperationGraph.CreateWaitsForLatest | configuration_tool/providers/common/tosca_template.py:204-241 | with the bans as written or corrected, a template-level dependency of a node makes its `create` wait for the latest operation of that dependency in the finished graph |
| OperationGraph.ChainSurvives | configuration_tool/providers/common/tosca_template.py:218-285 | with the bans as written or corrected, each operation of a node's chain still waits for the previous one in the finished graph |
| OperationGraph.UpdateRelationship | configuration_tool/providers/common/tosca_template.py:312-321 | the relationship operation waits for the anchor; every other operation that waited for the anchor, except banned ones of the same relationship, now also waits for it; nothing is removed; the only new edges are that one and those |
| OperationGraph.SpliceStep | configuration_tool/providers/common/tosca_template.py:257-279 | one step only grows the graph and adds at most the key of its own operation |
| OperationGraph.SpliceElement | configuration_tool/providers/common/tosca_template.py:252-285 | a template's splice only grows the graph, and new keys are only operations of that relationship |
| OperationGraph.SpliceAll | configuration_tool/providers/common/tosca_template.py:252-285 | the splice of all templates only grows the graph, and every new key is a relationship operation |
| OperationGraph.SpliceStepsAnchors | configuration_tool/providers/common/tosca_template.py:252-285 | splicing a relationship's steps in order leaves each step whose operation is declared waiting for that operation's anchor on the peer |
| OperationGraph.SpliceAllAnchors | configuration_tool/providers/common/tosca_template.py:252-321 | after splicing every template, each operation a relationship's `Configure` interface declares waits for the peer's anchor chosen before any splice |
| OperationGraph.SplicedGraphAnchors | configuration_tool/providers/common/tosca_template.py:244-321 | in the finished graph, with the bans as written or corrected, each declared relationship operation waits for the peer's `configure` (for `post_configure_*`, when the peer has one) or else its `create` |
| OperationGraph.SplicedGraphKeys | configuration_tool/providers/common/tosca_template.py:193-285 | with the bans as written or corrected, the finished graph fails when the chains do, and each of its keys is a lifecycle operation of a template or a relationship operation |
| OperationGraph.ChainGraphFails | configuration_tool/providers/common/tosca_template.py:204-228 | merging the chains fails exactly when some node's `Standard` interface cannot be read |
| OperationGraph.UpdateRelationshipKeepsPreFirst | configuration_tool/providers/common/tosca_template.py:312-321 | with the corrected bans, one update never makes a `pre_configure_X` wait for its own `post_configure_X` |
| OperationGraph.SpliceAllKeepsPreFirst | configuration_tool/providers/common/tosca_template.py:244-285 | with the corrected bans, no relationship's `pre_configure_X` waits for its own `post_configure_X`, in any template order |
| OperationGraph.SplicedGraphPreFirst | configuration_tool/providers/common/tosca_template.py:244-285 | the finished graph has no `pre_configure_X` waiting for its own `post_configure_X` |
| OperationGraph.PreConfigureSourceAndAddSourceIndependent | configuration_tool/providers/common/tosca_template.py:257-279 | a relationship's `pre_configure_source` and `add_source` never wait for each other |
| OperationGraph.AsWrittenPostConfigureBeforePre | configuration_tool/providers/common/tosca_template.py:260-276 | as written, if the target has no `configure`, `pre_configure_target` is made to wait for `post_configure_target` |
| OperationGraph.Reverse | configuration_tool/providers/common/tosca_template.py:295-307 | `b` lists `a` exactly when `a` depends on `b`, each once; keys nobody depends on are absent |
| OperationGraph.ForwardLists | configuration_tool/providers/common/tosca_template.py:299-307 | each operation's list holds exactly its dependencies, each once |
| OperationGraph.Materialize | configuration_tool/providers/common/tosca_template.py:286-310 | fails exactly when some dependency is not an operation of the graph; otherwise lays the graph out: the forward lists hold exactly each operation's dependencies, and the reversed lists exactly its dependants, or copy the forward lists for a graph of at most one key |
| OperationGraph.SortByGraphDependency | configuration_tool/providers/common/tosca_template.py:193-310 | with the bans as written or corrected: fails when the graph cannot be built, and otherwise succeeds exactly when it is closed; it then lays the graph out, one duplicate-free list per operation holding exactly its dependencies, and the reversed lists holding exactly the dependants |
| ProviderResource.TemplateTypeOf | configuration_tool/providers/common/provider_resource.py:37 | the type of a template that has one; a missing key is an error |
| ProviderResource.TypeName | configuration_tool/providers/common/provider_resource.py:37-39 | the type name exists exactly when the type has two dots, and is what follows the second one |
| ProviderResource.DefaultOf | configuration_tool/providers/common/provider_resource.py:255-256 | a property has a default exactly when its definition gives a non-null one |
| ProviderResource.SetDefault | configuration_tool/providers/common/provider_resource.py:253-258 | one property gets its default when missing or null; every other property and template key is unchanged |
| ProviderResource.SetDefaults | configuration_tool/providers/common/provider_resource.py:252-258 | every template key other than `properties` is unchanged |
| ProviderResource.SetDefaultsFills | configuration_tool/providers/common/provider_resource.py:252-258 | each declared property with a default that the template leaves missing or null gets it; every other property keeps its value |
| ProviderResource.ConfigurationArgs | configuration_tool/providers/common/provider_resource.py:51-56 | the arguments are exactly the declared properties the template gives a non-null value, with that value |
| ProviderResource.DefaultsBecomeArguments | configuration_tool/providers/common/provider_resource.py:49-56 | after defaulting, every declared property with a default is an argument, holding the template's value if non-null and the default otherwise |
| ProviderResource.RelationSourceTarget | configuration_tool/providers/common/provider_resource.py:60-62 | the recorded source and target of a relationship, or none when unrecorded |
| ProviderResource.RelationEndsFromRequirement | configuration_tool/providers/common/provider_resource.py:60-62 | a relationship named by a requirement has the requiring node as its source and the requirement's `node` as its target |
| ProviderResource.HostIpParameter | configuration_tool/providers/common/provider_resource.py:92-93 | the address parameter is public or private, and a valid one is kept |
| ProviderResource.HostFrom | configuration_tool/providers/common/provider_resource.py:85-94 | fails exactly when two hosting requirements are met, and otherwise takes its host from the first hosting requirement |
| ProviderResource.Host | configuration_tool/providers/common/provider_resource.py:80-94 | no host without a HostedOn requirement; one such requirement gives its node and address parameter; two fail |
| ProviderResource.HostNameShape | configuration_tool/providers/common/provider_resource.py:94 | a host is a hosting requirement's node, an underscore and one of the two address parameters |
| ProviderResource.NamedParams | configuration_tool/providers/common/provider_resource.py:246-247 | the copy has `name` set to the requirement's name, and every other key as in the parameters |
| ProviderResource.NameEach | configuration_tool/providers/common/provider_resource.py:236-248 | succeeds exactly when every parameter set is a map, giving one named copy per pair, in order |
| ProviderResource.RequirementDefinitions | configuration_tool/providers/common/provider_resource.py:233-250 | one named copy per requirement pair, in declaration order |
| ProviderResource.FlattenParams | configuration_tool/providers/common/provider_resource.py:158-160 | a parameter map becomes the alternating list of its keys and values |
| ProviderResource.PairUpFlatten | configuration_tool/providers/common/provider_resource.py:158-160 | pairing the flat list up again gives the map back |
| ProviderResource.NodeFilterParams | configuration_tool/providers/common/provider_resource.py:157-165 | a map is flattened reversibly; a list passes as it is; anything else fails |
| ProviderResource.InnerValueStep | configuration_tool/providers/common/provider_resource.py:123-126 | only the named argument changes; it must be a map when present, and its `value` is replaced when set |
| ProviderResource.ApplyInnerValue | configuration_tool/providers/common/provider_resource.py:114-126 | an unset inner value changes nothing; a set one must be a map, and the keys of the arguments never change |
| ProviderResource.ApplyInnerValueSets | configuration_tool/providers/common/provider_resource.py:123-126 | each named argument whose `value` is set gets the named value; every other argument is unchanged |
| ProviderResource.Subscripts | configuration_tool/providers/common/provider_resource.py:148-149 | succeeds exactly when every name is a string; one name gives one subscript |
| ProviderResource.FactsValue | configuration_tool/providers/common/provider_resource.py:142-156 | the facts variable, plus one subscript from a string or from a map's entry for the key (empty if missing); an unset variable adds none; anything else fails |
| ProviderResource.NodeFilterSource | configuration_tool/providers/common/provider_resource.py:134-137 | the prefix, key and postfix, unless the exceptions map names a source for the key |
| ProviderResource.NodeFilterTasksShape | configuration_tool/providers/common/provider_resource.py:166-222 | all seven lookup tasks run through the configuration tool with their keys in the source's order: the source's facts go to the facts register, are exposed as `target_objects` and shown, the parameters are passed as `input_args`, `equals` matches them into `result`, and the requested value is taken from `result.matched_object` |
| ProviderResource.SourceValueExecutorParametersShape | configuration_tool/providers/common/provider_resource.py:167-172 | a task written source, value, executor, parameters holds exactly those four fields, in that order |
| ProviderResource.SourceParametersValueExecutorShape | configuration_tool/providers/common/provider_resource.py:173-180 | a task written source, parameters, value, executor holds exactly those four fields, in that order |
| ProviderResource.SourceParametersExecutorValueShape | configuration_tool/providers/common/provider_resource.py:189-196 | a task written source, parameters, executor, value holds exactly those four fields, in that order |
| ProviderResource.NodeFilterOf | configuration_tool/providers/common/provider_resource.py:128-133 | an argument is a node filter only when it is a map with a truthy filter key, value and parameters |
| ProviderResource.ResolveNodeFilter | configuration_tool/providers/common/provider_resource.py:133-224 | a node-filter argument becomes the executor's rendering of its own lookup tasks, and leaves behind the reshaped inner variable |
| ProviderResource.NodeFiltersFrom | configuration_tool/providers/common/provider_resource.py:127-225 | the loop keeps the set of argument keys |
| ProviderResource.NodeFilters | configuration_tool/providers/common/provider_resource.py:104-225 | only the Ansible tool resolves node filters, and the argument keys never change |
| ProviderResource.NodeFiltersCorrected | configuration_tool/providers/common/provider_resource.py:127-225 | with the correction, each node-filter argument is resolved against the configured inner variable and every other argument is unchanged |
| ProviderResource.AsWrittenSecondFilterUsesFirstKey | configuration_tool/providers/common/provider_resource.py:142-149 | as written, a second node-filter argument reads the facts under the subscript configured for the first argument's key |
| ProviderResource.CorrectedSecondFilterUsesOwnKey | configuration_tool/providers/common/provider_resource.py:142-149 | with the correction, the same argument reads the facts under the subscript of its own key |
| ConfigurationTools.NewTool | configuration_tool/configuration_tools/common/configuration_tool.py:16-22 | a tool without a name cannot be built; otherwise the queue, operation info and variables start empty |
| ConfigurationTools.InterfacesOf | configuration_tool/configuration_tools/common/configuration_tool.py:51-65 | the template's `interfaces`, or an empty map when it declares none |
| ConfigurationTools.Outputs | configuration_tool/configuration_tools/common/configuration_tool.py:89-106 | a value other than a map or list holds no reference |
| ConfigurationTools.OutputsAreReferences | configuration_tool/configuration_tools/common/configuration_tool.py:89-106 | a value is collected exactly when a `get_operation_output` key reachable through maps and lists holds it |
| ConfigurationTools.OutputsOfConcat | configuration_tool/configuration_tools/common/configuration_tool.py:102-104 | the references of a concatenated list are those of the first part followed by those of the second |
| ConfigurationTools.CollectedNotSearched | configuration_tool/configuration_tools/common/configuration_tool.py:98-99 | a collected value is returned whole and not searched further |
| ConfigurationTools.Resolved | configuration_tool/configuration_tools/common/configuration_tool.py:75-76 | a leading `SELF` is replaced by the element's name, and nothing else changes |
| ConfigurationTools.Reference | configuration_tool/configuration_tools/common/configuration_tool.py:74-79 | a reference succeeds exactly when it is a non-empty list or string whose first three parts (after `SELF` becomes the element name) and last part are strings; its key is then the lower-cased `_`-join of those three parts and its output the last part; a non-subscriptable reference fails |
| ConfigurationTools.ReferenceOfSelf | configuration_tool/configuration_tools/common/configuration_tool.py:74-79 | a full `SELF` reference is keyed by the element's own name |
| ConfigurationTools.RecordFrame | configuration_tool/configuration_tools/common/configuration_tool.py:79-87 | one reference adds at most its operation's key, and every other key is unchanged |
| ConfigurationTools.RecordRecords | configuration_tool/configuration_tools/common/configuration_tool.py:79-87 | after one reference, its output id `<output>_<n>` is recorded under its operation |
| ConfigurationTools.RecordKeeps | configuration_tool/configuration_tools/common/configuration_tool.py:80-87 | a reference to another output leaves a recorded id in place |
| ConfigurationTools.References | configuration_tool/configuration_tools/common/configuration_tool.py:74-79 | the references resolve, in order, exactly when each one is well formed, each to its own key and output |
| ConfigurationTools.ManageOperationOutput | configuration_tool/configuration_tools/common/configuration_tool.py:67-87 | succeeds exactly when every reference is well formed |
| ConfigurationTools.ManageKeepsKeys | configuration_tool/configuration_tools/common/configuration_tool.py:67-87 | the pass never loses a key of the operation info |
| ConfigurationTools.ManageRecordsEach | configuration_tool/configuration_tools/common/configuration_tool.py:74-87 | every reference not repeated later ends with an id whose number lies in [1000, 9999] |
| ConfigurationTools.RecordAllKeeps | configuration_tool/configuration_tools/common/configuration_tool.py:74-87 | later references to other outputs leave a recorded id in place |
| ConfigurationTools.RecordAllKeepsKeys | configuration_tool/configuration_tools/common/configuration_tool.py:74-87 | recording a sequence of references never loses a key |
| ConfigurationTools.RecordAllRecords | configuration_tool/configuration_tools/common/configuration_tool.py:74-87 | a reference not repeated later ends with the id drawn for it |
| InstanceModel.CategoryName | configuration_tool/configuration_tools/ansible/instance_model/instance_model.py:52-55 | the node-templates section answers `nodes`, the other `relationships` |
| InstanceModel.CategoryOf | configuration_tool/configuration_tools/ansible/instance_model/instance_model.py:16-27 | only node and relationship types have a section, matching the category of their type |
| InstanceModel.LabelShape | configuration_tool/configuration_tools/ansible/instance_model/instance_model.py:33-34 | the labels of one update start with `<name>_1` and grow with each delta |
| InstanceModel.LabelPrefix | configuration_tool/configuration_tools/ansible/instance_model/instance_model.py:33-34 | each label is a proper prefix of every later one |
| InstanceModel.LabelsDistinct | configuration_tool/configuration_tools/ansible/instance_model/instance_model.py:33-34 | the deltas of one update get distinct labels |
| InstanceModel.Latest | configuration_tool/configuration_tools/ansible/instance_model/instance_model.py:38-41 | none exactly when no record holds the label; otherwise a snapshot some record holds under it |
| InstanceModel.Applied | configuration_tool/configuration_tools/ansible/instance_model/instance_model.py:42-43 | the snapshot's `attributes` are deep-merged with the delta, and every other field is kept |
| InstanceModel.Bases | configuration_tool/configuration_tools/ansible/instance_model/instance_model.py:36-41 | one base per remaining delta; it succeeds whenever the template and the logged snapshots are maps; what each base is, is stated by `InstanceModel.DeltaBase` |
| InstanceModel.DeltaBase | configuration_tool/configuration_tools/ansible/instance_model/instance_model.py:33-43 | each delta starts from the newest logged snapshot under its own label, else from the start of the delta before it, and the first from the template |
| InstanceModel.Written | configuration_tool/configuration_tools/ansible/instance_model/instance_model.py:42-44 | one record per snapshot, each in the element's section |
| InstanceModel.Deltas | configuration_tool/configuration_tools/ansible/instance_model/instance_model.py:33-44 | one record per delta; it succeeds whenever the template and the logged snapshots are maps |
| InstanceModel.Update | configuration_tool/configuration_tools/ansible/instance_model/instance_model.py:12-44 | deleting writes nothing; an unknown category fails; the log only grows, by one record when initialising and by one per delta otherwise |
| InstanceModel.ActualState | configuration_tool/configuration_tools/ansible/instance_model/instance_model.py:47-57 | succeeds exactly when some record holds `<name>_1` in either section |
| InstanceModel.ActualStateIsNewest | configuration_tool/configuration_tools/ansible/instance_model/instance_model.py:50-55 | reading gives the snapshot of the newest record of either section holding `<name>_1`, with that section's word |
| InstanceModel.ActualStateIsLatest | configuration_tool/configuration_tools/ansible/instance_model/instance_model.py:50-55 | when only section `c` ever holds `<name>_1`, reading gives the newest such snapshot of that section and its word |
| InstanceModel.ReadAfterInit | configuration_tool/configuration_tools/ansible/instance_model/instance_model.py:28-32 | reading right after an initialising update returns the template under its category |
| InstanceModel.WrittenAt | configuration_tool/configuration_tools/ansible/instance_model/instance_model.py:42-44 | each record holds its delta's snapshot under that delta's label |
| InstanceModel.WrittenKeeps | configuration_tool/configuration_tools/ansible/instance_model/instance_model.py:42-44 | each record repeats every entry of the starting mapping that no delta relabels |
| InstanceModel.WrittenLabels | configuration_tool/configuration_tools/ansible/instance_model/instance_model.py:33-44 | record `j` holds exactly the labels of deltas `0..j` on top of the starting mapping |
| InstanceModel.ReadAfterUpdate | configuration_tool/configuration_tools/ansible/instance_model/instance_model.py:33-57 | reading after an update gives the first delta applied to the newest earlier `<name>_1` snapshot (or the template); later deltas are never read back |
| Tasks.TaskName | configuration_tool/configuration_tools/ansible/configuration_tool.py:64 | the register name has the same length and no `-`, and every other character is kept |
| Tasks.Rap | configuration_tool/configuration_tools/ansible/configuration_tool.py:225-227 | the variable is framed by `{{ ` and ` }}` and otherwise unchanged |
| Tasks.ScriptPathShape | configuration_tool/configuration_tools/ansible/configuration_tool.py:209-217 | an absolute script is included from itself, a relative one from the artifacts directory |
| Tasks.ExtraArgs | configuration_tool/configuration_tools/ansible/configuration_tool.py:117-123 | no extra arguments when none are given; given a map, it succeeds exactly when its `global` entry and the element's entry are maps (each defaulting to empty); a key the element names holds the merge of its `global` value and the element's value, and every other key keeps its `global` value |
| Tasks.UpdateAll | configuration_tool/configuration_tools/ansible/configuration_tool.py:219-220 | every task emitted so far is updated with the extra arguments |
| Tasks.ScriptTasks | configuration_tool/configuration_tools/ansible/configuration_tool.py:208-221 | one `include` is added per script, after the tasks so far |
| Tasks.IncludeTask | configuration_tool/configuration_tools/ansible/configuration_tool.py:209-218 | includes the script's path, and is asynchronous exactly when a non-zero timeout is set |
| Tasks.ScriptTasksCarry | configuration_tool/configuration_tools/ansible/configuration_tool.py:208-221 | every task before the includes and every include but the last carries the extra arguments; the last include is emitted bare |
| Tasks.TimeoutOf | configuration_tool/configuration_tools/ansible/configuration_tool.py:140-145 | integers and booleans convert; a string converts exactly when it parses; anything else is the timeout error |
| Tasks.ImplementationOf | configuration_tool/configuration_tools/ansible/configuration_tool.py:129-133 | a string operation is its own implementation; a map gives its non-null `implementation` entry; anything else fails |
| Tasks.DependencyTasks | configuration_tool/configuration_tools/ansible/configuration_tool.py:159-190 | a dependency without a type and a file adds nothing; one with a `deploy_path` first gets a `copy` of the file from the target directory to that path; one with a checksum and an algorithm then gets a `stat` of the file registered as `checksum`, a `debug` of the registered value and a `fail` naming the file when the checksum differs; it fails exactly when one of these is needed and the file is not a string |
| Tasks.DependenciesTasks | configuration_tool/configuration_tools/ansible/configuration_tool.py:157-193 | succeeds exactly when every dependency does |
| Tasks.Details | configuration_tool/configuration_tools/ansible/configuration_tool.py:139-199 | checks timeout, operation host, dependencies and primary in order; it fails exactly when one of them is badly typed, a dependency's tasks fail, or, as written, an `operation_host` is named at all; the dependency tasks are those of the `dependencies` list; `primary` replaces the implementations; the timeout is updated only when given |
| Tasks.Scripts | configuration_tool/configuration_tools/ansible/configuration_tool.py:137-208 | a list of strings gives those scripts in order, and a list holding a non-string fails; a map gives its keys, in order, as the scripts; a set is refused (see "## Left out") |
| Tasks.InputTasks | configuration_tool/configuration_tools/ansible/configuration_tool.py:201-207 | no inputs means no tasks; as written, a string operation fails, while the correction gives it no inputs |
| Tasks.InterfaceStep | configuration_tool/configuration_tools/ansible/configuration_tool.py:128-221 | an interface that is not a map fails; one the element type does not act on leaves the tasks and the timeout as they were; a successful step never shortens the task list |
| Tasks.StepOfScript | configuration_tool/configuration_tools/ansible/configuration_tool.py:128-221 | with the short form treated as having no inputs, an operation given as one script name includes that script after the tasks so far |
| Tasks.PrimaryStep | configuration_tool/configuration_tools/ansible/configuration_tool.py:139-218 | an implementation mapping with a `primary` script and a non-zero timeout includes that script once, asynchronously, and keeps the timeout |
| Tasks.StepOfScripts | configuration_tool/configuration_tools/ansible/configuration_tool.py:128-221 | an operation mapping implemented by a list of scripts, with no inputs, includes those scripts after the tasks so far, merging the extra arguments into the earlier tasks as `ScriptTasks` does |
| Tasks.InterfaceTasksOfScripts | configuration_tool/configuration_tools/ansible/configuration_tool.py:128-222 | a node's `Standard` interface whose operation is implemented by a list of scripts yields exactly the `include` tasks of those scripts |
| Tasks.GetFromInterfaceOfScripts | configuration_tool/configuration_tools/ansible/configuration_tool.py:115-222 | for such a node, `get_from_interface` yields the scripts' `include` tasks with the element's merged extra arguments |
| Tasks.FreshScriptsCarry | configuration_tool/configuration_tools/ansible/configuration_tool.py:208-221 | of those tasks, every `include` but the last carries the extra arguments and the last is emitted bare |
| Tasks.InterfaceTasks | configuration_tool/configuration_tools/ansible/configuration_tool.py:128-222 | interfaces that are not a map fail; no interfaces give no tasks |
| Tasks.AsWrittenShortFormFails | configuration_tool/configuration_tools/ansible/configuration_tool.py:201 | as written, a node operation given as a script name fails instead of including the script |
| Tasks.CorrectedShortFormIncludes | configuration_tool/configuration_tools/ansible/configuration_tool.py:128-222 | with the correction, the same operation includes its script once, synchronously |
| Tasks.AsWrittenOperationHostFails | configuration_tool/configuration_tools/ansible/configuration_tool.py:146-153 | as written, a node operation whose `primary` script names its host by a string yields no tasks, only the `AttributeError` of the missing resolver |
| Tasks.CorrectedOperationHostIncludes | configuration_tool/configuration_tools/ansible/configuration_tool.py:128-221 | corrected, the same operation includes its `primary` script once, as it does when no host is named |
| Tasks.PrimaryWithTimeout | configuration_tool/configuration_tools/ansible/configuration_tool.py:139-218 | a `primary` script with a non-zero timeout is included once, asynchronously for that timeout |
| Tasks.MalformedImplementationFails | configuration_tool/configuration_tools/ansible/configuration_tool.py:139-199 | a badly typed timeout, primary or dependencies fails the whole operation |
| Tasks.GetFromInterface | configuration_tool/configuration_tools/ansible/configuration_tool.py:115-222 | bad extra arguments or interfaces fail; a template without interfaces gives no tasks |
| AnsibleTool.GetForCreate | configuration_tool/configuration_tools/ansible/configuration_tool.py:36-71 | one task with the description, the unchanged configuration arguments under the module, and the register name; the extra arguments win on any key they name |
| AnsibleTool.CreateTask | configuration_tool/configuration_tools/ansible/configuration_tool.py:64-68 | the task holds exactly the description, the module with the configuration arguments, and the register name |
| AnsibleTool.IdOf | configuration_tool/configuration_tools/ansible/configuration_tool.py:88-93 | a revision gives an id exactly when it is a mapping whose attributes are a truthy mapping with a truthy id (and, for a floating IP, port details that are a mapping): the id itself, or for a floating IP the pair `[device_id, floating_ip_address]`; it fails exactly on a non-mapping revision, truthy attributes that are not a mapping, or a floating IP without port details |
| AnsibleTool.IdsFromShape | configuration_tool/configuration_tools/ansible/configuration_tool.py:83-94 | succeeds exactly when every revision does; at most one id per revision, each truthy, or a pair for a floating IP; every revision that has an id has it collected |
| AnsibleTool.IdsFromContents | configuration_tool/configuration_tools/ansible/configuration_tool.py:83-94 | the collected ids are exactly those that some revision contributes |
| AnsibleTool.IdsOfConcat | configuration_tool/configuration_tools/ansible/configuration_tool.py:83-94 | scanning two runs of revisions gives the ids of the first followed by those of the second |
| AnsibleTool.DeleteArgsShape | configuration_tool/configuration_tools/ansible/configuration_tool.py:95-110 | the module deletes each listed item: by name, or for a floating IP by server and address with purge |
| AnsibleTool.DeleteTask | configuration_tool/configuration_tools/ansible/configuration_tool.py:95-110 | the task holds exactly the description, the module with the delete arguments, and the list of ids to loop over |
| AnsibleTool.GetForDelete | configuration_tool/configuration_tools/ansible/configuration_tool.py:73-113 | one task that deletes every collected id; it fails exactly when the extra arguments or a revision do |
| AnsibleTool.DeleteTakesGlobalOnly | configuration_tool/configuration_tools/ansible/configuration_tool.py:76-81 | the delete task takes the `global` extra arguments and never the element's own |
| TerraformTool.ResourceDocument | configuration_tool/configuration_tools/terraform/configuration_tool.py:174-182 | the document nests the arguments under `resource`, the module, then the task name |
| TerraformTool.ShellScript | configuration_tool/configuration_tools/terraform/configuration_tool.py:187-188 | the script is the here-document header, the document, then `EOF` |
| TerraformTool.ApplyArgs | configuration_tool/configuration_tools/terraform/configuration_tool.py:193-197 | applies the project named by the task name, present and force-initialised |
| TerraformTool.WriteTask | configuration_tool/configuration_tools/terraform/configuration_tool.py:185-189 | the writing task holds exactly the description and a `shell` script that writes the serialised resource document to `main.tf.json` |
| TerraformTool.ApplyTask | configuration_tool/configuration_tools/terraform/configuration_tool.py:190-198 | after the `shell` key is dropped, the applying task holds exactly the description, the `terraform` arguments for the task's project, and the task name as its register |
| TerraformTool.GetForCreate | configuration_tool/configuration_tools/terraform/configuration_tool.py:148-201 | two tasks: one writes the document and takes no extra arguments; one applies it, registers under the task name, and lets the extra arguments win |
| TerraformTool.WriteIgnoresExtraArgs | configuration_tool/configuration_tools/terraform/configuration_tool.py:185-190 | the document-writing task is the same whatever the extra arguments |
| ToolRegistry.Resolve | configuration_tool/configuration_tools/combined/combine_configuration_tools.py:13-19 | finds a class exactly when its name is registered: the first with that name, after the names tried before it; otherwise none and every name |
| ToolRegistry.RegisteredToolsResolve | configuration_tool/configuration_tools/combined/combine_configuration_tools.py:7-17 | every registered class is found under its own name, after the names registered before it |
| GrpcServer.RequestParse | grpc_server/clouni_configuration_tool.py:77-107 | the template, then the cluster name, are required; given fields are kept; empty ones default to `ansible`, no extra and `info` |
| GrpcServer.ParseRoundTrip | grpc_server/clouni_configuration_tool.py:77-107 | parsed arguments sent again parse to themselves |
| GrpcServer.ParseKeepsExplicitFields | grpc_server/clouni_configuration_tool.py:77-107 | a request naming every field parses to exactly those fields |
| GrpcServer.ServerSettings | grpc_server/clouni_configuration_tool.py:35-43 | debugging is on exactly when the level is `debug` or the flag is set, and the flag forces that level; a non-empty extra is loaded, and the settings fail exactly when that load fails |
| GrpcServer.SettingsIdempotent | grpc_server/clouni_configuration_tool.py:35-40 | applying the settings to their own normalised level changes nothing, and the extra document loads for both or for neither |
| GrpcServer.Serve | grpc_server/clouni_configuration_tool.py:56-74 | a bad request fails before any response; an extra document that does not load answers `ERROR` with the loader's message; otherwise the status is `OK` with the content exactly when the translation succeeds, else `ERROR` with its message |
| GrpcServer.VerbosityLevel | grpc_server/clouni_configuration_tool.py:179-191 | a verbosity count of 1, 2 or 3 gives error, warning or info respectively, and any other count gives debug |
| GrpcServer.VerbosityOfFlags | grpc_server/clouni_configuration_tool.py:126-129 | the count defaults to 3, so no `-v` logs at info and any `-v` at debug; error and warning are never reached through flags |
| GrpcServer.VerbosityMonotone | grpc_server/clouni_configuration_tool.py:179-191 | from a count of 1 upwards, a higher count never raises the threshold |
| GrpcServer.Hosts | grpc_server/clouni_configuration_tool.py:193-194 | no hosts given means listening on `[::]`; given hosts are kept as they are |
| GrpcServer.CheckServeArgs | grpc_server/clouni_configuration_tool.py:197-205 | fails on fewer than one worker, then on a negative port; a zero port is accepted with a warning |

## Left out

- File and YAML I/O: the instance-model file is an append-only list of records. The YAML loader, `json.dumps`, `str()` and the artifact executor are function parameters.
- InstanceModel.Update: the file's write buffering is modelled as a fixed rule. Records written by an update are not seen by that update's own reads through the second handle, which read only the records logged before it; actual flushing behaviour is not modelled.
- AnsibleTool.GetForDelete: takes the element's revisions as a list. The source imports `get_actual_state_of_instance_model` from `configuration_tool.configuration_tools.common.instance_model.instance_model`, which is not part of this model, so its scan over `index` is abstracted into that list.
- Tasks.InterfaceStep: its contract does not give the tasks of an acting step in general. They are pinned for an operation implemented by one script (`Tasks.StepOfScript`), by a list of scripts (`Tasks.StepOfScripts`) and by a `primary` script (`Tasks.PrimaryStep`); a successful step rewrites the earlier tasks through `Tasks.UpdateAll` rather than only appending.
- Tasks.Scripts: a Python set of implementations is iterated in hash order at configuration_tool/configuration_tools/ansible/configuration_tool.py:200 and 208. A set value does not determine that order, so the model refuses a set with `ImplementationsNotSequence` where Python would emit one include per member. `Tasks.InterfaceStep` does the same. Parsed YAML holds a set only through an explicit `!!set` tag.
- Tasks.Details: as written, a string `operation_host` raises `AttributeError` (see "## Findings"). The corrected step goes on, but it leaves the element's host as it is. Choosing the host of the target's `create` operation needs `_resolve_tosca_travers` and the operations graph, and the source does not define either for the tools.
- ConfigurationTools.ManageOperationOutput: the random numbers drawn in [1000, 9999] are a parameter. In-place aliasing of the references (the `SELF` rewrite) is not modelled.
- The Kubernetes tool is not part of this model. Its name `kubernetes`, and the tool names `ansible` and `terraform`, are assumed, because the reserved-keys module is not part of this model either.
- Not modelled, because they only orchestrate the modelled parts or do I/O: `to_dsl` and the runners, the translator entry point, `parse_args`, server start-up and daemonisation, `create_artifact`, and `ToolConfiguration` loading.
- ProviderResource: `replace_requirements_with_node_filter`, the provider requirement objects and the capability and artifact arguments (configuration_tool/providers/common/provider_resource.py:64-78, 96-102) depend on `ProviderRequirements` and `get_property_value`, which this model does not include. Requirements enter as already-resolved pairs.
- `_provider_nodes` / `_provider_relations` filtering and the reading of the definition file are not modelled. Templates enter as a list of elements.
- TypeDefinitions.FullDefinition: Python's recursion limit on an inheritance cycle is modelled as an error when a type under flattening is reached again. The explicit self-derivation exit is an error too.
- Utils.MergeValue: a key that is not a string, and Python set semantics for unhashable members, are not modelled. Set members are a Dafny set.
- ConfigurationTools.Reference: `lower()` is ASCII-only. Non-ASCII case mapping is not modelled.
- Strings.ParseInt: Python `int()` on strings with surrounding whitespace or underscores is not modelled. Such strings fail here.
- OperationGraph: the graph's keys are `(template, operation)` pairs rather than `name:op` strings. The `str(templ)` rendering of the schedule is replaced by the keys themselves. Dictionary iteration order of the lists is a free choice (`ToList`), as in the source's set iteration.
- OperationGraph.Interface: `in` on a string is modelled for the ten operation names the graph asks about; other substrings are not needed. Any other type that does not support `in` fails with the `TypeError` of an integer.
- TypeDefinitions.Fulfil: `__init__` calls `fulfil_definitions_with_parents` at configuration_tool/providers/common/tosca_template.py:27, before `self.definitions` is assigned at line 44, so as written the constructor would raise `AttributeError` before any flattening; the model takes the definitions as a parameter, as the method's own body expects.
- ProviderResource: the in-place rewriting of `configuration_args[elem]` at configuration_tool/providers/common/provider_resource.py:123-126, which aliases the template's own `properties` entry (line 56), is not modelled; the model returns new values and leaves the input template unchanged.
- GrpcServer.ServerSettings: an extra document that is `Some("")` is treated like none, as Python's truthiness test does.
- Logging calls are left out. Only the decisions they accompany are modelled.

## Findings

| source | as written | input that shows it | evidently intended | confidence | as-written member | corrected member |
|---|---|---|---|---|---|---|
| configuration_tool/providers/common/tosca_template.py:335-351 | a parent flattened inside the child's recursive call is marked ready, but its full definition is never stored; when the loop reaches it, the stored original is returned | `C` derived from `P` derived from `G`, listed `C, P, G`; `P` ends without the keys of `G` | every type holds its parent's full definition deep-updated with its own | not executed | TypeDefinitions.AsWrittenLeavesParentUnflattened | TypeDefinitions.FulfilCorrected |
| configuration_tool/providers/common/tosca_template.py:270-276 | `post_configure_target` anchored on the target's `create` (no `configure`) is added to every operation waiting on that `create`, including the same relationship's `pre_configure_target` | a relationship declaring `pre_configure_target` and `post_configure_target` whose target has no `configure` | `pre_configure_X` and `post_configure_X` run in parallel, as the source's comment states | not executed | OperationGraph.AsWrittenPostConfigureBeforePre | OperationGraph.SplicedGraphPreFirst |
| configuration_tool/configuration_tools/ansible/configuration_tool.py:201 | a short-form operation (a string) is asked for `inputs` with `.get`, which a string lacks | a node with `interfaces: {Standard: {create: script.yaml}}` | the string is accepted at lines 130-131 and 137-138, so its script should be included with no inputs | not executed | Tasks.AsWrittenShortFormFails | Tasks.CorrectedShortFormIncludes |
| configuration_tool/configuration_tools/ansible/configuration_tool.py:146-153 | a string `operation_host` is resolved with `self._resolve_tosca_travers` and `self.operations_graph`, which neither `AnsibleConfigurationTool` nor its base `ConfigurationTool` (configuration_tool/configuration_tools/common/configuration_tool.py:14-110) defines, so the call raises `AttributeError` | a node operation `{implementation: {primary: s.yaml, operation_host: h}}` | the host is looked up and the operation's scripts are still included | not executed | Tasks.AsWrittenOperationHostFails | Tasks.CorrectedOperationHostIncludes |
| configuration_tool/providers/common/provider_resource.py:142-149 | `node_filter_inner_variable` is reassigned inside the loop over arguments, so later arguments see the first argument's subscript list instead of the per-key map | two node-filter arguments `a`, `b` with inner variable `{a: x, b: y}`; `b` reads `["x"]` | each argument uses the subscript configured for its own key | not executed | ProviderResource.AsWrittenSecondFilterUsesFirstKey | ProviderResource.CorrectedSecondFilterUsesOwnKey |

`OperationGraph.SplicedGraph` and `OperationGraph.SortByGraphDependency`
take a `corrected` flag: `false` gives the bans of
configuration_tool/providers/common/tosca_template.py:257-279 as written,
`true` the corrected ones. The lemmas about chains, template dependencies
and anchors hold for both.

The same short-form defect is in the Terraform tool's `get_from_interface`
(configuration_tool/configuration_tools/terraform/configuration_tool.py:121),
which shares `Tasks.GetFromInterface` in this model, and so is the
`operation_host` lookup (same file, lines 65-74).

`Tasks.GetFromInterface` and the functions below it take a `corrected`
flag too: `false` gives the short-form and `operation_host` failures as
written, `true` the corrected behaviour.

=== FILE: ansible_tool.dfy ===
/** The Ansible configuration tool: the task that creates one resource, the
    task that deletes every recorded instance of it, and the tasks of an
    interface operation (shared with the Terraform tool in `Tasks`). */
module AnsibleTool {
  import opened Wrappers
  import opened Values
  import opened Strings
  import Tasks

  // Error messages, as the source raises or reports them.
  const AttributesNotMapping := "AttributeError: the attributes are not a mapping"
  const PortDetailsNotMapping := "AttributeError: the port details are not a mapping"
  const StateNotMapping := "AttributeError: the state is not a mapping"

  const ToolName := "ansible"
  const FloatingIp := "openstack.nodes.FloatingIp"
  const WithList := "with_list"
  const AttributesKey := "attributes"
  const IdKey := "id"
  const PortDetails := "port_details"
  const DeviceId := "device_id"
  const FloatingIpAddress := "floating_ip_address"

  // ---------------------------------------------------------------------
  // get_for_create
  // ---------------------------------------------------------------------

  /** The create task before the extra arguments: the description, the
      module with the configuration arguments, and the register name, set
      in that order. */
  function CreateTask(name: string, configArgs: Entries, description: Value, moduleKey: string): (t: Tasks.Task)
    ensures KeySet(t) == {Tasks.NameKey, moduleKey, Tasks.Register}
    ensures Lookup(t, Tasks.Register) == Some(Str(Tasks.TaskName(name)))
    ensures moduleKey != Tasks.Register ==> Lookup(t, moduleKey) == Some(Dict(configArgs))
    ensures moduleKey != Tasks.NameKey ==> Lookup(t, Tasks.NameKey) == Some(description)
  {
    Put(Put(Put([], Tasks.NameKey, description), moduleKey, Dict(configArgs)), Tasks.Register, Str(Tasks.TaskName(name)))
  }

  /** `get_for_create`: exactly one task. The module receives the
      configuration arguments unchanged (`state: present` never reaches
      it), and the element's extra arguments are merged last, so they win
      over every key they name. */
  function GetForCreate(name: string, configArgs: Entries, description: Value, moduleKey: string,
                        additional: Option<Value>): (r: Result<seq<Tasks.Task>>)
    ensures r.Ok? <==> Tasks.ExtraArgs(additional, Some(name)).Ok?
    ensures additional.None? ==> r.Ok?
    ensures r.Ok? ==> |r.value| == 1
    ensures r.Ok? ==>
              var extra := Tasks.ExtraArgs(additional, Some(name)).value;
              var t := r.value[0];
              && KeySet(t) == {Tasks.NameKey, moduleKey, Tasks.Register} + KeySet(extra)
              && (Tasks.Register !in KeySet(extra) ==> Lookup(t, Tasks.Register) == Some(Str(Tasks.TaskName(name))))
              && (moduleKey != Tasks.Register && moduleKey !in KeySet(extra) ==> Lookup(t, moduleKey) == Some(Dict(configArgs)))
              && (moduleKey != Tasks.NameKey && Tasks.NameKey !in KeySet(extra) ==> Lookup(t, Tasks.NameKey) == Some(description))
              && (DistinctKeys(extra) ==> forall k :: k in KeySet(extra) ==> Lookup(t, k) == Lookup(extra, k))
  {
    var extra :- Tasks.ExtraArgs(additional, Some(name));
    Ok([Update(CreateTask(name, configArgs, description, moduleKey), extra)])
  }

  // ---------------------------------------------------------------------
  // get_for_delete
  // ---------------------------------------------------------------------

  /** `v.get(key)` on a mapping, with `None` for a missing key; anything
      that is not a mapping reads as `None` as well. */
  function Get(v: Value, key: string): Value
  {
    if v.Dict? then Lookup(v.entries, key).GetOr(Null) else Null
  }

  /** What one recorded revision contributes to the ids to delete: nothing
      unless its attributes carry a truthy `id`; then the id itself, or for
      a floating IP the pair of the server it is attached to and its
      address. A revision that is not a mapping, truthy attributes that are
      not one, or missing port details of a floating IP fail. */
  function IdOf(typeName: string, state: Value): (r: Result<Option<Value>>)
    ensures r.Ok? && r.value.Some? <==>
              && state.Dict? && Get(state, AttributesKey).Dict? && Truthy(Get(state, AttributesKey))
              && Truthy(Get(Get(state, AttributesKey), IdKey))
              && (typeName == FloatingIp ==> Get(Get(state, AttributesKey), PortDetails).Dict?)
    ensures r.Err? <==>
              || !state.Dict?
              || (Truthy(Get(state, AttributesKey)) && !Get(state, AttributesKey).Dict?)
              || (Get(state, AttributesKey).Dict? && Truthy(Get(state, AttributesKey))
                  && Truthy(Get(Get(state, AttributesKey), IdKey))
                  && typeName == FloatingIp && !Get(Get(state, AttributesKey), PortDetails).Dict?)
    ensures r.Ok? && r.value.Some? && typeName != FloatingIp ==>
              r.value.value == Get(Get(state, AttributesKey), IdKey)
    ensures r.Ok? && r.value.Some? && typeName == FloatingIp ==>
              r.value.value == List([Get(Get(Get(state, AttributesKey), PortDetails), DeviceId),
                                     Get(Get(state, AttributesKey), FloatingIpAddress)])
    ensures r.Ok? && r.value.Some? ==> Truthy(r.value.value)
  {
    if !state.Dict? then Err(StateNotMapping)
    else
      var attrs := Lookup(state.entries, AttributesKey).GetOr(Null);
      if !Truthy(attrs) then Ok(None)
      else if !attrs.Dict? then Err(AttributesNotMapping)
      else
        var id := Lookup(attrs.entries, IdKey).GetOr(Null);
        if !Truthy(id) then Ok(None)
        else if typeName != FloatingIp then Ok(Some(id))
        else
          var port := Lookup(attrs.entries, PortDetails).GetOr(Null);
          if !port.Dict? then Err(PortDetailsNotMapping)
          else Ok(Some(List([Lookup(port.entries, DeviceId).GetOr(Null),
                             Lookup(attrs.entries, FloatingIpAddress).GetOr(Null)])))
  }

  /** The ids of every revision, in revision order. */
  function IdsFrom(typeName: string, revisions: seq<Value>): (r: Result<seq<Value>>)
    decreases |revisions|
  {
    if |revisions| == 0 then Ok([])
    else
      match IdOf(typeName, revisions[0])
      case Err(msg) => Err(msg)
      case Ok(first) =>
        match IdsFrom(typeName, revisions[1..])
        case Err(msg) => Err(msg)
        case Ok(rest) => Ok(Listed(first) + rest)
  }

  /** The id a revision contributes, as a list of zero or one ids. */
  function Listed(id: Option<Value>): (r: seq<Value>)
    ensures |r| <= 1 && (id.Some? ==> r == [id.value])
  {
    if id.Some? then [id.value] else []
  }

  /** The scan succeeds exactly when every revision does, and collects at
      most one id per revision: a truthy id, or a pair for a floating IP.
      Every revision that has an id has it collected. */
  lemma {:induction false} IdsFromShape(typeName: string, revisions: seq<Value>)
    ensures IdsFrom(typeName, revisions).Ok? <==> forall j :: 0 <= j < |revisions| ==> IdOf(typeName, revisions[j]).Ok?
    ensures var r := IdsFrom(typeName, revisions);
            r.Ok? ==> |r.value| <= |revisions|
    ensures var r := IdsFrom(typeName, revisions);
            r.Ok? && typeName != FloatingIp ==> forall j :: 0 <= j < |r.value| ==> Truthy(r.value[j])
    ensures var r := IdsFrom(typeName, revisions);
            r.Ok? && typeName == FloatingIp ==> forall j :: 0 <= j < |r.value| ==> r.value[j].List? && |r.value[j].items| == 2
    ensures var r := IdsFrom(typeName, revisions);
            r.Ok? ==> forall j :: 0 <= j < |revisions| && IdOf(typeName, revisions[j]).value.Some? ==>
                                   IdOf(typeName, revisions[j]).value.value in r.value
    decreases |revisions|
  {
    if |revisions| > 0 {
      assert forall j :: 1 <= j < |revisions| ==> revisions[1..][j - 1] == revisions[j];
      IdsFromShape(typeName, revisions[1..]);
    }
    if IdsFrom(typeName, revisions).Ok? {
      IdsFromContents(typeName, revisions);
    }
  }

  /** The ids collected are exactly those the revisions contribute: every
      revision with a truthy id (or a floating IP's pair) has it collected,
      and nothing else is. */
  lemma {:induction false} IdsFromContents(typeName: string, revisions: seq<Value>)
    requires IdsFrom(typeName, revisions).Ok?
    ensures forall x :: x in IdsFrom(typeName, revisions).value <==>
                          exists j :: 0 <= j < |revisions| && IdOf(typeName, revisions[j]) == Ok(Some(x))
    decreases |revisions|
  {
    if |revisions| > 0 {
      var tail := revisions[1..];
      var first := IdOf(typeName, revisions[0]).value;
      var rest := IdsFrom(typeName, tail).value;
      IdsFromContents(typeName, tail);
      assert IdsFrom(typeName, revisions).value == Listed(first) + rest;
      forall x
        ensures x in IdsFrom(typeName, revisions).value <==>
                exists j :: 0 <= j < |revisions| && IdOf(typeName, revisions[j]) == Ok(Some(x))
      {
        if x in rest {
          var j :| 0 <= j < |tail| && IdOf(typeName, tail[j]) == Ok(Some(x));
          assert tail[j] == revisions[j + 1];
        }
        if exists j :: 0 <= j < |revisions| && IdOf(typeName, revisions[j]) == Ok(Some(x)) {
          var j :| 0 <= j < |revisions| && IdOf(typeName, revisions[j]) == Ok(Some(x));
          if j > 0 {
            assert revisions[j] == tail[j - 1];
          }
        }
      }
    }
  }

  /** Scanning two runs of revisions one after the other collects the ids
      of the first, then those of the second. */
  lemma IdsOfConcat(typeName: string, a: seq<Value>, b: seq<Value>)
    ensures IdsFrom(typeName, a + b).Ok? <==> IdsFrom(typeName, a).Ok? && IdsFrom(typeName, b).Ok?
    ensures IdsFrom(typeName, a + b).Ok? ==> IdsFrom(typeName, a + b).value == IdsFrom(typeName, a).value + IdsFrom(typeName, b).value
  {
    IdsOkConcat(typeName, a, b);
    if IdsFrom(typeName, a + b).Ok? {
      IdsValueConcat(typeName, a, b);
    }
  }

  lemma {:induction false} IdsOkConcat(typeName: string, a: seq<Value>, b: seq<Value>)
    ensures IdsFrom(typeName, a + b).Ok? <==> IdsFrom(typeName, a).Ok? && IdsFrom(typeName, b).Ok?
    decreases |a|
  {
    if |a| == 0 {
      assert a + b == b;
    } else {
      assert (a + b)[1..] == a[1..] + b;
      assert (a + b)[0] == a[0];
      IdsOkConcat(typeName, a[1..], b);
    }
  }

  lemma {:induction false} IdsValueConcat(typeName: string, a: seq<Value>, b: seq<Value>)
    requires IdsFrom(typeName, a).Ok? && IdsFrom(typeName, b).Ok?
    ensures IdsFrom(typeName, a + b) == Ok(IdsFrom(typeName, a).value + IdsFrom(typeName, b).value)
    decreases |a|
  {
    if |a| == 0 {
      assert a + b == b;
      assert [] + IdsFrom(typeName, b).value == IdsFrom(typeName, b).value;
    } else {
      var rest := a[1..];
      SplitHead(a, b);
      IdsFromCons(typeName, a[0], rest);
      IdsValueConcat(typeName, rest, b);
      IdsFromCons(typeName, a[0], rest + b);
      var pre := Listed(IdOf(typeName, a[0]).value);
      var x, y := IdsFrom(typeName, rest).value, IdsFrom(typeName, b).value;
      calc {
        IdsFrom(typeName, a + b);
        IdsFrom(typeName, [a[0]] + (rest + b));
        Ok(pre + IdsFrom(typeName, rest + b).value);
        Ok(pre + (x + y));
        { Associative(pre, x, y); }
        Ok((pre + x) + y);
        Ok(IdsFrom(typeName, a).value + y);
      }
    }
  }

  lemma SplitHead<T>(a: seq<T>, b: seq<T>)
    requires |a| > 0
    ensures a + b == [a[0]] + (a[1..] + b) && a == [a[0]] + a[1..]
  {
  }

  lemma Associative<T>(a: seq<T>, b: seq<T>, c: seq<T>)
    ensures a + (b + c) == (a + b) + c
  {
  }

  /** The scan of one more revision in front. */
  lemma IdsFromCons(typeName: string, v: Value, rest: seq<Value>)
    requires IdsFrom(typeName, [v] + rest).Ok? || (IdOf(typeName, v).Ok? && IdsFrom(typeName, rest).Ok?)
    ensures IdOf(typeName, v).Ok? && IdsFrom(typeName, rest).Ok?
    ensures IdsFrom(typeName, [v] + rest) == Ok(Listed(IdOf(typeName, v).value) + IdsFrom(typeName, rest).value)
  {
    assert ([v] + rest)[1..] == rest;
  }


  /** The module arguments that delete every listed id. */
  function DeleteArgs(typeName: string): Entries
  {
    if typeName != FloatingIp then
      [(Tasks.NameKey, Str(Tasks.Rap("item"))), (Tasks.StateKey, Str("absent"))]
    else
      [("server", Str(Tasks.Rap("item[0]"))), (FloatingIpAddress, Str(Tasks.Rap("item[1]"))),
       ("purge", Str("yes")), (Tasks.StateKey, Str("absent"))]
  }

  /** The module deletes each listed item: by name, or for a floating IP by
      the server it is attached to and its address, purging it. */
  lemma DeleteArgsShape(typeName: string)
    ensures Lookup(DeleteArgs(typeName), Tasks.StateKey) == Some(Str("absent"))
    ensures typeName != FloatingIp ==>
              var r := DeleteArgs(typeName);
              && KeySet(r) == {Tasks.NameKey, Tasks.StateKey}
              && Lookup(r, Tasks.NameKey) == Some(Str(Tasks.Rap("item")))
    ensures typeName == FloatingIp ==>
              var r := DeleteArgs(typeName);
              && KeySet(r) == {"server", FloatingIpAddress, "purge", Tasks.StateKey}
              && Lookup(r, "server") == Some(Str(Tasks.Rap("item[0]")))
              && Lookup(r, FloatingIpAddress) == Some(Str(Tasks.Rap("item[1]")))
              && Lookup(r, "purge") == Some(Str("yes"))
  {
    var r := DeleteArgs(typeName);
    var last := [(Tasks.StateKey, Str("absent"))];
    assert last[1..] == [] && KeySet(last) == {Tasks.StateKey};
    if typeName != FloatingIp {
      assert r[1..] == last;
      assert KeySet(r) == {Tasks.NameKey} + KeySet(last);
    } else {
      var tail := [("purge", Str("yes"))] + last;
      assert r[1..][1..] == tail && tail[1..] == last;
      assert KeySet(tail) == {"purge", Tasks.StateKey};
      assert Lookup(tail, "purge") == Some(Str("yes"));
      assert Lookup(r[1..], "purge") == Lookup(tail, "purge");
      assert Lookup(r[1..][1..], Tasks.StateKey) == Some(Str("absent"));
    }
  }

  function DeleteTask(typeName: string, ids: seq<Value>, description: Value, moduleKey: string): (t: Tasks.Task)
    ensures KeySet(t) == {Tasks.NameKey, moduleKey, WithList}
    ensures Lookup(t, WithList) == Some(List(ids))
    ensures moduleKey != WithList ==> Lookup(t, moduleKey) == Some(Dict(DeleteArgs(typeName)))
    ensures moduleKey != Tasks.NameKey ==> Lookup(t, Tasks.NameKey) == Some(description)
  {
    Put(Put(Put([], Tasks.NameKey, description), moduleKey, Dict(DeleteArgs(typeName))), WithList, List(ids))
  }

  /** `get_for_delete` over the revisions the instance model holds for the
      element, in order: exactly one task that deletes each collected id in
      turn. Only the `global` extra arguments apply. */
  function GetForDelete(typeName: string, revisions: seq<Value>, description: Value, moduleKey: string,
                        additional: Option<Value>): (r: Result<seq<Tasks.Task>>)
    ensures r.Ok? <==> Tasks.ExtraArgs(additional, None).Ok? && IdsFrom(typeName, revisions).Ok?
    ensures r.Ok? ==> |r.value| == 1
    ensures r.Ok? ==>
              var extra := Tasks.ExtraArgs(additional, None).value;
              var t := r.value[0];
              && KeySet(t) == {Tasks.NameKey, moduleKey, WithList} + KeySet(extra)
              && (moduleKey != WithList && WithList !in KeySet(extra) ==>
                    Lookup(t, WithList) == Some(List(IdsFrom(typeName, revisions).value)))
              && (moduleKey != WithList && moduleKey !in KeySet(extra) ==> Lookup(t, moduleKey) == Some(Dict(DeleteArgs(typeName))))
              && (moduleKey != Tasks.NameKey && Tasks.NameKey !in KeySet(extra) ==> Lookup(t, Tasks.NameKey) == Some(description))
  {
    var extra :- Tasks.ExtraArgs(additional, None);
    var ids :- IdsFrom(typeName, revisions);
    Ok([Update(DeleteTask(typeName, ids, description, moduleKey), extra)])
  }

  /** The delete task takes the `global` extra arguments and no others,
      whatever the element's own entry holds. */
  lemma DeleteTakesGlobalOnly(typeName: string, revisions: seq<Value>, description: Value, moduleKey: string,
                              additional: Option<Value>)
    requires additional.Some?
    requires GetForDelete(typeName, revisions, description, moduleKey, additional).Ok?
    ensures KeySet(GetForDelete(typeName, revisions, description, moduleKey, additional).value[0])
            == {Tasks.NameKey, moduleKey, WithList} + KeySet(Lookup(additional.value.entries, Tasks.GlobalKey).GetOr(Dict([])).entries)
  {
    var extra := Tasks.ExtraArgs(additional, None);
    assert extra.Ok?;
    assert KeySet(Dict([]).entries) == {};
  }
}

=== FILE: configuration_tools_common.dfy ===
/** The logic shared by every configuration tool: collecting the
    `get_operation_output` references of a template, giving each referenced
    output a generated id, reading the interfaces of an element, and the
    guard that every concrete tool declares a name. */
module ConfigurationTools {
  import opened Wrappers
  import opened Values
  import opened Strings
  import Utils

  // Error messages, as the source raises or reports them.
  const IndexOutOfRange := "IndexError: list index out of range"
  const ConcatenateNonStr := "TypeError: can only concatenate str"
  const JoinNonStr := "TypeError: sequence item: expected str instance"
  const ReferenceNotSubscriptable := "TypeError: the operation reference is not subscriptable"

  const GetOperationOutput := "get_operation_output"
  const SelfName := "SELF"
  const InterfacesKey := "interfaces"
  const OutputIds := "output_ids"
  const OutputIdRangeStart := 1000
  const OutputIdRangeEnd := 9999

  /** The state a tool starts with. */
  datatype Tool = Tool(toolName: string, operationsQueue: seq<Value>, operationsInfo: Entries, variables: Entries)

  /** Constructing a tool: a class that does not declare its name cannot be
      instantiated; otherwise the queue, the operation info and the global
      variables start empty. */
  function NewTool(toolName: Option<string>): (r: Result<Tool>)
    ensures r.Ok? <==> toolName.Some?
    ensures r.Ok? ==> r.value.toolName == toolName.value
    ensures r.Ok? ==> r.value.operationsQueue == [] && r.value.operationsInfo == [] && r.value.variables == []
  {
    match toolName
    case None => Err("NotImplementedError")
    case Some(n) => Ok(Tool(n, [], [], []))
  }

  /** The `interfaces` of a node or relationship template, or an empty
      mapping when it declares none. */
  function InterfacesOf(tmpl: Entries): (r: Value)
    ensures InterfacesKey in KeySet(tmpl) ==> Some(r) == Lookup(tmpl, InterfacesKey)
    ensures InterfacesKey !in KeySet(tmpl) ==> r == Dict([])
  {
    Lookup(tmpl, InterfacesKey).GetOr(Dict([]))
  }

  // ---------------------------------------------------------------------
  // list_get_operation_outputs
  // ---------------------------------------------------------------------

  /** Every value stored under a `get_operation_output` key, at any depth of
      mappings and lists, in traversal order. A collected value is not
      searched further; any other kind of value holds no reference. */
  function Outputs(data: Value): (r: seq<Value>)
    ensures !(data.Dict? || data.List?) ==> r == []
    decreases data, if data.Dict? then |data.entries| + 1 else if data.List? then |data.items| + 1 else 0
  {
    match data
    case Dict(es) => EntryOutputs(es, 0)
    case List(items) => ItemOutputs(items, 0)
    case _ => []
  }

  function EntryOutputs(es: Entries, i: nat): seq<Value>
    requires i <= |es|
    decreases Dict(es), |es| - i
  {
    if i == |es| then []
    else
      assert es[i] in es;
      (if es[i].0 == GetOperationOutput then [es[i].1] else Outputs(es[i].1)) + EntryOutputs(es, i + 1)
  }

  function ItemOutputs(items: seq<Value>, i: nat): seq<Value>
    requires i <= |items|
    decreases List(items), |items| - i
  {
    if i == |items| then []
    else
      assert items[i] in items;
      Outputs(items[i]) + ItemOutputs(items, i + 1)
  }

  /** `data` refers to `x`: some `get_operation_output` key reachable
      through mappings and lists, without passing another such key, holds
      `x`. This is the reference definition the collection is checked
      against. */
  ghost predicate Refers(data: Value, x: Value)
    decreases data
  {
    match data
    case Dict(es) =>
      exists i :: 0 <= i < |es| && (if es[i].0 == GetOperationOutput then es[i].1 == x else Refers(es[i].1, x))
    case List(items) =>
      exists i :: 0 <= i < |items| && Refers(items[i], x)
    case _ => false
  }

  /** Entry `i` refers to `x`. */
  ghost predicate RefersAt(es: Entries, i: nat, x: Value)
    requires i < |es|
  {
    if es[i].0 == GetOperationOutput then es[i].1 == x else Refers(es[i].1, x)
  }

  /** Item `i` refers to `x`. */
  ghost predicate ItemRefers(items: seq<Value>, i: nat, x: Value)
    requires i < |items|
  {
    Refers(items[i], x)
  }

  /** A value is collected exactly when the template refers to it. */
  lemma {:induction false} OutputsAreReferences(data: Value, x: Value)
    ensures x in Outputs(data) <==> Refers(data, x)
    decreases data, if data.Dict? then |data.entries| + 1 else if data.List? then |data.items| + 1 else 0
  {
    match data
    case Dict(es) =>
      EntryOutputsAreReferences(es, 0, x);
      assert Outputs(data) == EntryOutputs(es, 0);
      if Refers(data, x) {
        var j :| 0 <= j < |es| && (if es[j].0 == GetOperationOutput then es[j].1 == x else Refers(es[j].1, x));
        assert 0 <= j < |es| && RefersAt(es, j, x);
      }
      if exists j :: 0 <= j < |es| && RefersAt(es, j, x) {
        var j :| 0 <= j < |es| && RefersAt(es, j, x);
        assert (if es[j].0 == GetOperationOutput then es[j].1 == x else Refers(es[j].1, x));
      }
    case List(items) =>
      ItemOutputsAreReferences(items, 0, x);
      if Refers(data, x) {
        var j :| 0 <= j < |items| && Refers(items[j], x);
        assert 0 <= j < |items| && ItemRefers(items, j, x);
      }
      if exists j :: 0 <= j < |items| && ItemRefers(items, j, x) {
        var j :| 0 <= j < |items| && ItemRefers(items, j, x);
        assert Refers(items[j], x);
      }
    case _ =>
  }

  lemma {:induction false} EntryOutputsAreReferences(es: Entries, i: nat, x: Value)
    requires i <= |es|
    ensures x in EntryOutputs(es, i) <==> exists j :: i <= j < |es| && RefersAt(es, j, x)
    decreases Dict(es), |es| - i
  {
    if i < |es| {
      assert es[i] in es;
      EntryOutputsAreReferences(es, i + 1, x);
      var head := if es[i].0 == GetOperationOutput then [es[i].1] else Outputs(es[i].1);
      if es[i].0 != GetOperationOutput {
        OutputsAreReferences(es[i].1, x);
      }
      assert x in head <==> RefersAt(es, i, x);
      assert EntryOutputs(es, i) == head + EntryOutputs(es, i + 1);
      assert x in EntryOutputs(es, i) <==> x in head || x in EntryOutputs(es, i + 1);
      assert (exists j :: i <= j < |es| && RefersAt(es, j, x))
         <==> RefersAt(es, i, x) || exists j :: i + 1 <= j < |es| && RefersAt(es, j, x) by {
        if RefersAt(es, i, x) {
          assert i <= i < |es| && RefersAt(es, i, x);
        }
        if exists j :: i + 1 <= j < |es| && RefersAt(es, j, x) {
          var j :| i + 1 <= j < |es| && RefersAt(es, j, x);
          assert i <= j < |es| && RefersAt(es, j, x);
        }
        if exists j :: i <= j < |es| && RefersAt(es, j, x) {
          var j :| i <= j < |es| && RefersAt(es, j, x);
          if j > i {
            assert i + 1 <= j < |es| && RefersAt(es, j, x);
          }
        }
      }
    }
  }

  lemma {:induction false} ItemOutputsAreReferences(items: seq<Value>, i: nat, x: Value)
    requires i <= |items|
    ensures x in ItemOutputs(items, i) <==> exists j :: i <= j < |items| && ItemRefers(items, j, x)
    decreases List(items), |items| - i
  {
    if i < |items| {
      assert items[i] in items;
      ItemOutputsAreReferences(items, i + 1, x);
      OutputsAreReferences(items[i], x);
      assert x in Outputs(items[i]) <==> ItemRefers(items, i, x);
      assert ItemOutputs(items, i) == Outputs(items[i]) + ItemOutputs(items, i + 1);
      assert x in ItemOutputs(items, i) <==> x in Outputs(items[i]) || x in ItemOutputs(items, i + 1);
      assert (exists j :: i <= j < |items| && ItemRefers(items, j, x))
         <==> ItemRefers(items, i, x) || exists j :: i + 1 <= j < |items| && ItemRefers(items, j, x) by {
        if ItemRefers(items, i, x) {
          assert i <= i < |items| && ItemRefers(items, i, x);
        }
        if exists j :: i + 1 <= j < |items| && ItemRefers(items, j, x) {
          var j :| i + 1 <= j < |items| && ItemRefers(items, j, x);
          assert i <= j < |items| && ItemRefers(items, j, x);
        }
        if exists j :: i <= j < |items| && ItemRefers(items, j, x) {
          var j :| i <= j < |items| && ItemRefers(items, j, x);
          if j > i {
            assert i + 1 <= j < |items| && ItemRefers(items, j, x);
          }
        }
      }
    }
  }

  /** The collection follows list order: the references of a concatenation
      are those of the first part followed by those of the second. */
  lemma {:induction false} OutputsOfConcat(a: seq<Value>, b: seq<Value>)
    ensures Outputs(List(a + b)) == Outputs(List(a)) + Outputs(List(b))
  {
    ItemOutputsSplit(a, b, 0);
  }

  lemma {:induction false} ItemOutputsSplit(a: seq<Value>, b: seq<Value>, i: nat)
    requires i <= |a|
    ensures ItemOutputs(a + b, i) == ItemOutputs(a, i) + ItemOutputs(b, 0)
    decreases |a| - i
  {
    if i < |a| {
      ItemOutputsSplit(a, b, i + 1);
      assert (a + b)[i] == a[i];
    } else {
      ItemOutputsShift(a, b, 0);
    }
  }

  lemma {:induction false} ItemOutputsShift(a: seq<Value>, b: seq<Value>, j: nat)
    requires j <= |b|
    ensures ItemOutputs(a + b, |a| + j) == ItemOutputs(b, j)
    decreases |b| - j
  {
    if j < |b| {
      ItemOutputsShift(a, b, j + 1);
      assert (a + b)[|a| + j] == b[j];
    }
  }

  /** A collected value is returned whole, even when it holds references
      of its own. */
  lemma CollectedNotSearched(v: Value)
    ensures Outputs(Dict([(GetOperationOutput, v)])) == [v]
  {
    assert EntryOutputs([(GetOperationOutput, v)], 1) == [];
  }

  // ---------------------------------------------------------------------
  // manage_operation_output
  // ---------------------------------------------------------------------

  /** The elements of a reference: a list's items, or, for a string, its
      characters (which indexing and slicing a Python string produce). */
  function Parts(ref: Value): (r: Option<seq<Value>>)
    ensures ref.List? ==> r == Some(ref.items)
    ensures ref.Str? ==> r.Some? && |r.value| == |ref.s|
    ensures !(ref.List? || ref.Str?) ==> r.None?
  {
    match ref
    case List(items) => Some(items)
    case Str(s) => Some(seq(|s|, i requires 0 <= i < |s| => Str([s[i]])))
    case _ => None
  }

  function Min(a: nat, b: nat): nat
  {
    if a < b then a else b
  }

  predicate AllStr(vs: seq<Value>)
  {
    forall i :: 0 <= i < |vs| ==> vs[i].Str?
  }

  function Strs(vs: seq<Value>): (r: seq<string>)
    requires AllStr(vs)
    ensures |r| == |vs|
    ensures forall i :: 0 <= i < |vs| ==> r[i] == vs[i].s
  {
    if |vs| == 0 then [] else [vs[0].s] + Strs(vs[1..])
  }

  /** A reference with a leading `SELF` replaced by the element's name. */
  function Resolved(parts: seq<Value>, elementName: string): (r: seq<Value>)
    ensures |r| == |parts|
    ensures |parts| > 0 ==> r[0] == (if parts[0] == Str(SelfName) then Str(elementName) else parts[0])
    ensures forall i :: 0 < i < |parts| ==> r[i] == parts[i]
  {
    if |parts| > 0 && parts[0] == Str(SelfName) then [Str(elementName)] + parts[1..] else parts
  }

  /** The operation-info key and the output name of one reference: the
      lower-cased `_`-join of its first three elements and its last
      element. An empty reference, or one whose joined or last elements
      are not strings, is an error. */
  function Reference(ref: Value, elementName: string): (r: Result<(string, string)>)
    ensures r.Ok? <==> (Parts(ref).Some? && |Parts(ref).value| > 0
                        && AllStr(Resolved(Parts(ref).value, elementName)[..Min(3, |Parts(ref).value|)])
                        && Resolved(Parts(ref).value, elementName)[|Parts(ref).value| - 1].Str?)
    ensures r.Ok? ==> var p := Resolved(Parts(ref).value, elementName);
                      && r.value.0 == Lower(Join("_", Strs(p[..Min(3, |p|)])))
                      && r.value.1 == p[|p| - 1].s
    ensures Parts(ref).None? ==> r == Err(ReferenceNotSubscriptable)
  {
    match Parts(ref)
    case None => Err(ReferenceNotSubscriptable)
    case Some(parts) =>
      if |parts| == 0 then Err(IndexOutOfRange)
      else
        var p := Resolved(parts, elementName);
        var head := p[..Min(3, |p|)];
        if !AllStr(head) then Err(JoinNonStr)
        else if !p[|p| - 1].Str? then Err(ConcatenateNonStr)
        else Ok((Lower(Join("_", Strs(head))), p[|p| - 1].s))
  }

  /** A full reference `[SELF, interface, operation, output]` is keyed by
      the element's own name. */
  lemma ReferenceOfSelf(elementName: string, interface: string, operation: string, output: string)
    ensures Reference(List([Str(SelfName), Str(interface), Str(operation), Str(output)]), elementName)
            == Ok((Lower(elementName + "_" + interface + "_" + operation), output))
  {
    var ref := [Str(SelfName), Str(interface), Str(operation), Str(output)];
    var p := [Str(elementName), Str(interface), Str(operation), Str(output)];
    assert Parts(List(ref)) == Some(ref);
    assert Resolved(ref, elementName) == p;
    assert p[..Min(3, |p|)] == [Str(elementName), Str(interface), Str(operation)];
    var head := [Str(elementName), Str(interface), Str(operation)];
    assert AllStr(head) && p[3].Str?;
    assert Strs(head) == [elementName, interface, operation];
    JoinThree(elementName, interface, operation);
    assert Reference(List(ref), elementName) == Ok((Lower(Join("_", Strs(head))), output));
  }

  lemma JoinThree(a: string, b: string, c: string)
    ensures Join("_", [a, b, c]) == a + "_" + b + "_" + c
  {
    assert [a, b, c][1..] == [b, c] && [b, c][1..] == [c];
    assert Join("_", [b, c]) == b + "_" + c;
  }

  /** The id recorded for output `out` of operation `key`, if any. */
  function OutputId(info: Entries, key: string, out: string): Option<string>
  {
    OpOutputId(Lookup(info, key), out)
  }

  /** The id recorded for output `out` in an operation's info. */
  function OpOutputId(op: Option<Value>, out: string): Option<string>
  {
    match op
    case Some(Dict(entries)) =>
      (match Lookup(entries, OutputIds)
       case Some(Dict(ids)) =>
         (match Lookup(ids, out)
          case Some(Str(s)) => Some(s)
          case _ => None)
       case _ => None)
    case _ => None
  }

  /** The update one reference makes to the operation info. */
  function InfoUpdate(out: string, id: string): Value
  {
    Dict([(OutputIds, Dict([(out, Str(id))]))])
  }

  function MergeValue1(prev: Option<Value>, k: string, v: Value): Value
  {
    Utils.MergeValue(prev, Dict([(k, v)]))
  }

  /** The entries of an optional mapping, if it is one. */
  function EntriesOf(v: Option<Value>): Option<Entries>
  {
    if v.Some? && v.value.Dict? then Some(v.value.entries) else None
  }

  /** Deep-merging a one-key mapping: the key holds the merge of its old
      value (if the old value was a mapping) and the new one; every other
      key keeps its old value, or is absent when the old value was not a
      mapping. */
  lemma MergeOne(prev: Option<Value>, k: string, v: Value)
    ensures MergeValue1(prev, k, v).Dict?
    ensures Lookup(MergeValue1(prev, k, v).entries, k)
            == Some(Utils.MergeValue(if EntriesOf(prev).Some? then Lookup(EntriesOf(prev).value, k) else None, v))
    ensures forall k' :: k' != k ==>
              Lookup(MergeValue1(prev, k, v).entries, k') == (if EntriesOf(prev).Some? then Lookup(EntriesOf(prev).value, k') else None)
  {
    var overrides := [(k, v)];
    assert Lookup(overrides, k) == Some(v);
    assert KeySet(overrides) == {k} by {
      assert overrides[1..] == [];
    }
    Utils.MergeValueCases(prev, Dict(overrides));
    if prev.Some? && prev.value.Dict? {
      Utils.DeepUpdateLookup(prev.value.entries, overrides, k);
    } else {
      assert Lookup(overrides[1..], k) == None;
    }
  }

  /** Merging `{output_ids: {out: id}}` into an operation's info records
      the id. */
  lemma MergeRecords(prev: Option<Value>, out: string, id: string)
    ensures OpOutputId(Some(MergeValue1(prev, OutputIds, Dict([(out, Str(id))]))), out) == Some(id)
  {
    MergeOne(prev, OutputIds, Dict([(out, Str(id))]));
    var prevIds := if EntriesOf(prev).Some? then Lookup(EntriesOf(prev).value, OutputIds) else None;
    assert Utils.MergeValue(prevIds, Dict([(out, Str(id))])) == MergeValue1(prevIds, out, Str(id));
    MergeOne(prevIds, out, Str(id));
    var prevId := if EntriesOf(prevIds).Some? then Lookup(EntriesOf(prevIds).value, out) else None;
    Utils.MergeValueCases(prevId, Str(id));
  }

  /** Merging an id for another output keeps a recorded id. */
  lemma MergeKeeps(prev: Option<Value>, out': string, id: string, out: string)
    requires out' != out
    requires OpOutputId(prev, out).Some?
    ensures OpOutputId(Some(MergeValue1(prev, OutputIds, Dict([(out', Str(id))]))), out) == OpOutputId(prev, out)
  {
    MergeOne(prev, OutputIds, Dict([(out', Str(id))]));
    var prevIds := Lookup(EntriesOf(prev).value, OutputIds);
    assert Utils.MergeValue(prevIds, Dict([(out', Str(id))])) == MergeValue1(prevIds, out', Str(id));
    MergeOne(prevIds, out', Str(id));
  }

  /** One resolved reference `(key, out)` drawing `n`: the id
      `<out>_<n>` is deep-merged into the info under `key`. */
  function Record(info: Entries, key: string, out: string, n: int): Entries
  {
    Utils.DeepUpdate(info, [(key, InfoUpdate(out, out + "_" + IntToString(n)))])
  }

  /** One reference adds at most its operation's key to the operation
      info, and leaves every other key as it was. */
  lemma RecordFrame(info: Entries, key: string, out: string, n: int)
    ensures KeySet(Record(info, key, out, n)) == KeySet(info) + {key}
    ensures forall k :: k != key ==> Lookup(Record(info, key, out, n), k) == Lookup(info, k)
  {
    var overrides := [(key, InfoUpdate(out, out + "_" + IntToString(n)))];
    assert KeySet(overrides) == {key} by {
      assert overrides[1..] == [];
    }
  }

  /** The operation's info after one reference is the old info merged with
      the reference's update. */
  lemma RecordAt(info: Entries, key: string, out: string, n: int)
    ensures Lookup(Record(info, key, out, n), key)
            == Some(MergeValue1(Lookup(info, key), OutputIds, Dict([(out, Str(out + "_" + IntToString(n)))])))
  {
    var overrides := [(key, InfoUpdate(out, out + "_" + IntToString(n)))];
    assert Lookup(overrides, key) == Some(InfoUpdate(out, out + "_" + IntToString(n)));
    assert KeySet(overrides) == {key} by {
      assert overrides[1..] == [];
    }
    Utils.DeepUpdateLookup(info, overrides, key);
  }

  /** After one reference its output id is recorded. */
  lemma RecordRecords(info: Entries, key: string, out: string, n: int)
    ensures OutputId(Record(info, key, out, n), key, out) == Some(out + "_" + IntToString(n))
  {
    RecordAt(info, key, out, n);
    MergeRecords(Lookup(info, key), out, out + "_" + IntToString(n));
  }

  /** A reference to another output leaves a recorded id in place. */
  lemma RecordKeeps(info: Entries, key': string, out': string, n: int, key: string, out: string)
    requires (key', out') != (key, out)
    requires OutputId(info, key, out).Some?
    ensures OutputId(Record(info, key', out', n), key, out) == OutputId(info, key, out)
  {
    if key' == key {
      RecordAt(info, key', out', n);
      MergeKeeps(Lookup(info, key), out', out' + "_" + IntToString(n), out);
    } else {
      RecordFrame(info, key', out', n);
    }
  }

  /** The references resolved in order; the first malformed one is the
      error. */
  function References(refs: seq<Value>, elementName: string): (r: Result<seq<(string, string)>>)
    ensures r.Ok? <==> forall i :: 0 <= i < |refs| ==> Reference(refs[i], elementName).Ok?
    ensures r.Ok? ==> |r.value| == |refs|
    ensures r.Ok? ==> forall i :: 0 <= i < |refs| ==> r.value[i] == Reference(refs[i], elementName).value
    decreases |refs|
  {
    if |refs| == 0 then Ok([])
    else
      var first := Reference(refs[0], elementName);
      var rest := References(refs[1..], elementName);
      assert forall i :: 1 <= i < |refs| ==> refs[1..][i - 1] == refs[i];
      if first.Err? then Err(first.msg)
      else if rest.Err? then Err(rest.msg)
      else Ok([first.value] + rest.value)
  }

  /** Every resolved reference recorded in order, the `i`-th drawing
      `numbers[i]`. */
  function RecordAll(info: Entries, keys: seq<(string, string)>, numbers: seq<int>): Entries
    requires |numbers| == |keys|
    decreases |keys|
  {
    if |keys| == 0 then info
    else RecordAll(Record(info, keys[0].0, keys[0].1, numbers[0]), keys[1..], numbers[1..])
  }

  /** `manage_operation_output`: every reference in order, the `i`-th
      drawing the number `numbers[i]` from [1000, 9999]. A malformed
      reference raises, so the pass has no result. */
  function ManageOperationOutput(info: Entries, refs: seq<Value>, elementName: string, numbers: seq<int>): (r: Result<Entries>)
    requires |numbers| == |refs|
    requires forall i :: 0 <= i < |numbers| ==> OutputIdRangeStart <= numbers[i] <= OutputIdRangeEnd
    ensures r.Ok? <==> forall i :: 0 <= i < |refs| ==> Reference(refs[i], elementName).Ok?
  {
    var keys :- References(refs, elementName);
    Ok(RecordAll(info, keys, numbers))
  }

  /** Recording never loses a key of the operation info. */
  lemma {:induction false} RecordAllKeepsKeys(info: Entries, keys: seq<(string, string)>, numbers: seq<int>)
    requires |numbers| == |keys|
    ensures KeySet(info) <= KeySet(RecordAll(info, keys, numbers))
    decreases |keys|
  {
    if |keys| > 0 {
      RecordFrame(info, keys[0].0, keys[0].1, numbers[0]);
      RecordAllKeepsKeys(Record(info, keys[0].0, keys[0].1, numbers[0]), keys[1..], numbers[1..]);
    }
  }

  /** Later references to other outputs leave a recorded id in place. */
  lemma {:induction false} RecordAllKeeps(info: Entries, keys: seq<(string, string)>, numbers: seq<int>, key: string, out: string)
    requires |numbers| == |keys|
    requires forall j :: 0 <= j < |keys| ==> keys[j] != (key, out)
    requires OutputId(info, key, out).Some?
    ensures OutputId(RecordAll(info, keys, numbers), key, out) == OutputId(info, key, out)
    decreases |keys|
  {
    if |keys| > 0 {
      RecordKeeps(info, keys[0].0, keys[0].1, numbers[0], key, out);
      assert forall j :: 1 <= j < |keys| ==> keys[1..][j - 1] == keys[j];
      RecordAllKeeps(Record(info, keys[0].0, keys[0].1, numbers[0]), keys[1..], numbers[1..], key, out);
    }
  }

  /** A reference that no later reference repeats ends up with the id
      drawn for it. */
  lemma {:induction false} RecordAllRecords(info: Entries, keys: seq<(string, string)>, numbers: seq<int>, i: nat)
    requires |numbers| == |keys|
    requires i < |keys|
    requires forall j :: i < j < |keys| ==> keys[j] != keys[i]
    ensures OutputId(RecordAll(info, keys, numbers), keys[i].0, keys[i].1) == Some(keys[i].1 + "_" + IntToString(numbers[i]))
    decreases |keys|
  {
    var info' := Record(info, keys[0].0, keys[0].1, numbers[0]);
    assert forall j :: 1 <= j < |keys| ==> keys[1..][j - 1] == keys[j];
    if i > 0 {
      RecordAllRecords(info', keys[1..], numbers[1..], i - 1);
    } else {
      RecordRecords(info, keys[0].0, keys[0].1, numbers[0]);
      RecordAllKeeps(info', keys[1..], numbers[1..], keys[0].0, keys[0].1);
    }
  }

  /** The whole pass never loses a key of the operation info. */
  lemma ManageKeepsKeys(info: Entries, refs: seq<Value>, elementName: string, numbers: seq<int>)
    requires |numbers| == |refs|
    requires forall i :: 0 <= i < |numbers| ==> OutputIdRangeStart <= numbers[i] <= OutputIdRangeEnd
    requires ManageOperationOutput(info, refs, elementName, numbers).Ok?
    ensures KeySet(info) <= KeySet(ManageOperationOutput(info, refs, elementName, numbers).value)
  {
    RecordAllKeepsKeys(info, References(refs, elementName).value, numbers);
  }

  /** Every reference that no later reference repeats ends up with an id
      `<output>_<n>`, `n` in [1000, 9999], in the operation info. */
  lemma ManageRecordsEach(info: Entries, refs: seq<Value>, elementName: string, numbers: seq<int>, i: nat)
    requires |numbers| == |refs|
    requires forall j :: 0 <= j < |numbers| ==> OutputIdRangeStart <= numbers[j] <= OutputIdRangeEnd
    requires ManageOperationOutput(info, refs, elementName, numbers).Ok?
    requires i < |refs|
    requires forall j :: i < j < |refs| ==> Reference(refs[j], elementName) != Reference(refs[i], elementName)
    ensures var (key, out) := Reference(refs[i], elementName).value;
            exists n :: OutputIdRangeStart <= n <= OutputIdRangeEnd
              && OutputId(ManageOperationOutput(info, refs, elementName, numbers).value, key, out) == Some(out + "_" + IntToString(n))
  {
    var keys := References(refs, elementName).value;
    assert forall j :: i < j < |refs| ==> keys[j] != keys[i];
    RecordAllRecords(info, keys, numbers, i);
  }
}

=== FILE: grpc_server.dfy ===
/** The gRPC front end: validating and defaulting the fields of a request,
    the debug and log-level settings of one translation, the mapping of the
    translation's outcome to a response, and the checks `serve` makes of
    its command-line arguments. */
module GrpcServer {
  import opened Wrappers
  import opened Values

  const DefaultTool := "ansible"
  const DefaultLogLevel := "info"
  const DebugLevel := "debug"
  const DefaultHost := "[::]"
  const MissingTemplate := "Request field 'provider_template' is required"
  const MissingCluster := "Request field 'cluster_name' is required"
  const BadMaxWorkers := "Invalid max_workers argument: should be greater than 0. Exiting"
  const BadPort := "Invalid port argument: should be greater or equal than 0. Exiting"

  /** A request as it arrives: unset string fields are empty, unset flags
      are false. */
  datatype Request = Request(providerTemplate: string, clusterName: string, delete: bool,
                             configurationTool: string, extra: string, logLevel: string, debug: bool)

  /** The arguments of one translation. */
  datatype Args = Args(providerTemplate: string, clusterName: string, delete: bool,
                       configurationTool: string, extra: Option<string>, logLevel: string, debug: bool)

  /** `_RequestParse`: the template and the cluster name are required, in
      that order; the other fields fall back to their defaults when empty. */
  function RequestParse(req: Request): (r: Result<Args>)
    ensures req.providerTemplate == "" ==> r == Err(MissingTemplate)
    ensures req.providerTemplate != "" && req.clusterName == "" ==> r == Err(MissingCluster)
    ensures r.Ok? <==> req.providerTemplate != "" && req.clusterName != ""
    ensures r.Ok? ==> r.value.providerTemplate == req.providerTemplate && r.value.clusterName == req.clusterName
    ensures r.Ok? ==> r.value.delete == req.delete && r.value.debug == req.debug
    ensures r.Ok? ==> r.value.configurationTool != "" && r.value.logLevel != "" && r.value.extra != Some("")
    ensures r.Ok? && req.configurationTool != "" ==> r.value.configurationTool == req.configurationTool
    ensures r.Ok? && req.configurationTool == "" ==> r.value.configurationTool == DefaultTool
    ensures r.Ok? ==> (r.value.extra.None? <==> req.extra == "")
    ensures r.Ok? && req.logLevel == "" ==> r.value.logLevel == DefaultLogLevel
  {
    if req.providerTemplate == "" then Err(MissingTemplate)
    else if req.clusterName == "" then Err(MissingCluster)
    else
      Ok(Args(req.providerTemplate, req.clusterName, req.delete,
              if req.configurationTool != "" then req.configurationTool else DefaultTool,
              if req.extra != "" then Some(req.extra) else None,
              if req.logLevel != "" then req.logLevel else DefaultLogLevel,
              req.debug))
  }

  /** The request that spells out every argument. */
  function AsRequest(args: Args): Request
  {
    Request(args.providerTemplate, args.clusterName, args.delete, args.configurationTool,
            args.extra.GetOr(""), args.logLevel, args.debug)
  }

  /** Parsing loses nothing: arguments parsed once parse back to
      themselves when sent again. */
  lemma ParseRoundTrip(req: Request)
    requires RequestParse(req).Ok?
    ensures RequestParse(AsRequest(RequestParse(req).value)) == RequestParse(req)
  {
  }

  /** A request naming every field is parsed to exactly what it names. */
  lemma ParseKeepsExplicitFields(args: Args)
    requires args.providerTemplate != "" && args.clusterName != ""
    requires args.configurationTool != "" && args.logLevel != "" && args.extra != Some("")
    ensures RequestParse(AsRequest(args)) == Ok(args)
  {
  }

  /** The settings one translation runs with. */
  datatype Settings = Settings(args: Args, extra: Option<Value>, logLevel: string, debug: bool)

  /** `TranslatorServer`: debugging is on when the log level asks for it or
      the debug flag is set, and the flag also forces the `debug` level;
      a non-empty extra document is loaded (`load` stands for the YAML
      loader, which fails on a malformed document). */
  function ServerSettings(args: Args, load: string -> Result<Value>): (r: Result<Settings>)
    ensures r.Err? <==> args.extra.Some? && args.extra.value != "" && load(args.extra.value).Err?
    ensures r.Err? ==> r.msg == load(args.extra.value).msg
    ensures r.Ok? ==> (r.value.debug <==> args.logLevel == DebugLevel || args.debug)
    ensures r.Ok? ==> (r.value.debug <==> r.value.logLevel == DebugLevel)
    ensures r.Ok? && !args.debug ==> r.value.logLevel == args.logLevel
    ensures r.Ok? ==> (r.value.extra.Some? <==> args.extra.Some? && args.extra.value != "")
    ensures r.Ok? && r.value.extra.Some? ==> Ok(r.value.extra.value) == load(args.extra.value)
  {
    var level := if args.debug then DebugLevel else args.logLevel;
    var debug := args.logLevel == DebugLevel || args.debug;
    if args.extra.Some? && args.extra.value != "" then
      match load(args.extra.value)
      case Ok(v) => Ok(Settings(args, Some(v), level, debug))
      case Err(msg) => Err(msg)
    else Ok(Settings(args, None, level, debug))
  }

  /** Normalising twice changes nothing more: settings derived from the
      arguments they were derived from, with the normalised level, are the
      same, and loading the extra document fails for both or for neither. */
  lemma SettingsIdempotent(args: Args, load: string -> Result<Value>)
    ensures var s := ServerSettings(args, load);
            var s' := ServerSettings(args.(logLevel := if s.Ok? then s.value.logLevel else args.logLevel), load);
            && (s'.Ok? <==> s.Ok?)
            && (s.Ok? ==> s'.value.debug == s.value.debug && s'.value.logLevel == s.value.logLevel
                          && s'.value.extra == s.value.extra)
  {
  }

  datatype Status = OK | ERROR

  datatype Response = Response(status: Status, content: string, error: string)

  /** The servicer: a request that does not parse fails before any response
      exists; otherwise a successful translation answers `OK` with its
      content, and a failure inside the `try` (loading the extra document
      or translating) answers `ERROR` with the message. `translate` stands
      for the whole translation pipeline. */
  function Serve(req: Request, load: string -> Result<Value>, translate: Settings -> Result<string>): (r: Result<Response>)
    ensures r.Err? <==> RequestParse(req).Err?
    ensures r.Err? ==> r.msg == RequestParse(req).msg
    ensures r.Ok? && ServerSettings(RequestParse(req).value, load).Err? ==>
              r.value.status == ERROR && r.value.error == ServerSettings(RequestParse(req).value, load).msg
    ensures r.Ok? && ServerSettings(RequestParse(req).value, load).Ok? ==>
              var outcome := translate(ServerSettings(RequestParse(req).value, load).value);
              && (r.value.status == OK <==> outcome.Ok?)
              && (outcome.Ok? ==> r.value.content == outcome.value)
              && (outcome.Err? ==> r.value.error == outcome.msg)
  {
    var args :- RequestParse(req);
    match ServerSettings(args, load)
    case Err(msg) => Ok(Response(ERROR, "", msg))
    case Ok(settings) =>
      match translate(settings)
      case Ok(content) => Ok(Response(OK, content, ""))
      case Err(msg) => Ok(Response(ERROR, "", msg))
  }

  /** Logger thresholds, as the standard `logging` levels. */
  datatype Level = Error | Warning | Info | Debug

  function Severity(l: Level): nat
  {
    match l
    case Error => 40
    case Warning => 30
    case Info => 20
    case Debug => 10
  }

  /** The level `serve` sets for a verbosity count: 1 is `ERROR`, 2
      `WARNING`, 3 `INFO` and any other count `DEBUG`. */
  function VerbosityLevel(verbose: int): (r: Level)
    ensures r == Debug <==> verbose !in {1, 2, 3}
    ensures verbose == 1 <==> r == Error
    ensures verbose == 2 <==> r == Warning
    ensures verbose == 3 <==> r == Info
  {
    if verbose == 1 then Error
    else if verbose == 2 then Warning
    else if verbose == 3 then Info
    else Debug
  }

  /** The verbosity count `parse_args` yields: `--verbose` counts its
      occurrences on top of the default 3. */
  function VerbosityCount(flags: nat): (r: int)
    ensures r >= 3
  {
    3 + flags
  }

  /** With no `-v` the server logs at `INFO`; every `-v` makes it log at
      `DEBUG`, so the `ERROR` and `WARNING` levels are reached only by a
      verbosity count passed in directly. */
  lemma VerbosityOfFlags(flags: nat)
    ensures flags == 0 <==> VerbosityLevel(VerbosityCount(flags)) == Info
    ensures flags > 0 <==> VerbosityLevel(VerbosityCount(flags)) == Debug
    ensures VerbosityLevel(VerbosityCount(flags)) !in {Error, Warning}
  {
  }

  /** More verbosity never raises the threshold: from a count of 1 upwards
      each step lets at least as many messages through. */
  lemma VerbosityMonotone(a: int, b: int)
    requires 1 <= a <= b
    ensures Severity(VerbosityLevel(b)) <= Severity(VerbosityLevel(a))
  {
  }

  /** The hosts to listen on: `[::]` when none is given. */
  function Hosts(hosts: Option<seq<string>>): (r: seq<string>)
    ensures hosts.None? ==> r == [DefaultHost]
    ensures hosts.Some? ==> r == hosts.value
  {
    hosts.GetOr([DefaultHost])
  }

  /** The argument checks of `serve`, in order: at least one worker, then a
      non-negative port. A zero port is accepted with a warning, reported
      here as `true`. */
  function CheckServeArgs(maxWorkers: int, port: int): (r: Result<bool>)
    ensures r.Err? <==> maxWorkers < 1 || port < 0
    ensures maxWorkers < 1 ==> r == Err(BadMaxWorkers)
    ensures maxWorkers >= 1 && port < 0 ==> r == Err(BadPort)
    ensures r.Ok? ==> (r.value <==> port == 0)
  {
    if maxWorkers < 1 then Err(BadMaxWorkers)
    else if port < 0 then Err(BadPort)
    else Ok(port == 0)
  }
}

=== FILE: instance_model.dfy ===
/** The Ansible instance model: an append-only log of template snapshots,
    one per applied attribute delta, and the read that recovers the newest
    snapshot of a template.

    The log file `instance_model_<cluster>.yaml` is a YAML list; every write
    appends a one-element list holding the current state, so the model keeps
    the file as a `seq<Record>` in write order. */
module InstanceModel {
  import opened Wrappers
  import opened Values
  import opened Strings
  import Utils

  // Error messages, as the source raises or reports them.
  const TemplateNotMapping := "AssertionError: the template to update is not a mapping"
  const UnknownType := "Unknown tosca type: "
  const NoSuchTagPrefix := "Node or relationship with name "
  const NoSuchTagSuffix := " does not exists"
  const EmptyInstanceModel := "TypeError: the empty instance model cannot be scanned"

  const Nodes := "nodes"
  const Relationships := "relationships"
  const AttributesKey := "attributes"

  /** The two sections a record can hold: `node_templates` or
      `relationship_templates`. */
  datatype Category = NodeTemplates | RelationshipTemplates

  /** One appended list element: `{category: {tag: snapshot, ...}}`. */
  datatype Record = Record(category: Category, states: Entries)

  /** The category word returned to callers (`nodes` / `relationships`). */
  function CategoryName(c: Category): (r: string)
    ensures r == Nodes <==> c == NodeTemplates
    ensures r == Relationships <==> c == RelationshipTemplates
  {
    match c
    case NodeTemplates => Nodes
    case RelationshipTemplates => Relationships
  }

  /** The section an element of type `typeName` is logged under: the middle
      part of `namespace.category.name`; any other category is rejected. */
  function CategoryOf(typeName: string): (r: Option<Category>)
    ensures r.Some? <==> Utils.TypeCategory(typeName) in {Some(Nodes), Some(Relationships)}
    ensures r.Some? ==> Utils.TypeCategory(typeName) == Some(CategoryName(r.value))
  {
    var category := Utils.TypeCategory(typeName);
    if category == Some(Nodes) then Some(NodeTemplates)
    else if category == Some(Relationships) then Some(RelationshipTemplates)
    else None
  }

  /** The label of the `i`-th delta (from 0) of one update: the name grows
      by `_<i+1>` on every delta, so the labels are `n_1`, `n_1_2`,
      `n_1_2_3`, ... */
  function Label(name: string, i: nat): string
  {
    if i == 0 then name + "_1" else Label(name, i - 1) + "_" + IntToString(i + 1)
  }

  /** Every label of an update starts with `<name>_1`, and each delta adds
      at least two characters. */
  lemma {:induction false} LabelShape(name: string, i: nat)
    ensures |Label(name, i)| >= |name| + 2 + 2 * i
    ensures Label(name, i)[..|name| + 2] == name + "_1"
  {
    if i > 0 {
      var prev := Label(name, i - 1);
      LabelShape(name, i - 1);
      assert (prev + "_" + IntToString(i + 1))[..|name| + 2] == prev[..|name| + 2];
    }
  }

  /** Every label is a proper prefix of the labels of later deltas. */
  lemma {:induction false} LabelPrefix(name: string, i: nat, j: nat)
    requires i < j
    ensures |Label(name, i)| < |Label(name, j)|
    ensures Label(name, j)[..|Label(name, i)|] == Label(name, i)
    decreases j
  {
    var prev := Label(name, j - 1);
    assert Label(name, j) == prev + "_" + IntToString(j + 1);
    if i < j - 1 {
      LabelPrefix(name, i, j - 1);
    }
  }

  lemma LabelsDistinct(name: string, i: nat, j: nat)
    requires i != j
    ensures Label(name, i) != Label(name, j)
  {
    if i < j { LabelPrefix(name, i, j); } else { LabelPrefix(name, j, i); }
  }

  /** Record `rec` holds a snapshot labelled `tag` in section `c`. */
  predicate Holds(rec: Record, c: Category, tag: string)
  {
    rec.category == c && tag in KeySet(rec.states)
  }

  /** The snapshot labelled `tag` in the newest record of section `c`
      that holds one: the newest-first scan of the log. */
  function Latest(log: seq<Record>, c: Category, tag: string): (r: Option<Value>)
    ensures r.None? <==> forall j :: 0 <= j < |log| ==> !Holds(log[j], c, tag)
    ensures r.Some? ==> exists j :: 0 <= j < |log| && Holds(log[j], c, tag) && r == Lookup(log[j].states, tag)
                                    && forall m :: j < m < |log| ==> !Holds(log[m], c, tag)
  {
    LatestBefore(log, |log|, c, tag)
  }

  /** The scan of the first `n` records, newest first. */
  function LatestBefore(log: seq<Record>, n: nat, c: Category, tag: string): (r: Option<Value>)
    requires n <= |log|
    ensures r.None? <==> forall j :: 0 <= j < n ==> !Holds(log[j], c, tag)
    ensures r.Some? ==> exists j :: 0 <= j < n && Holds(log[j], c, tag) && r == Lookup(log[j].states, tag)
                                    && forall m :: j < m < n ==> !Holds(log[m], c, tag)
  {
    if n == 0 then None
    else if Holds(log[n - 1], c, tag) then Lookup(log[n - 1].states, tag)
    else LatestBefore(log, n - 1, c, tag)
  }

  /** Every snapshot the log keeps in section `c` is a mapping. */
  ghost predicate SnapshotsAreDicts(log: seq<Record>, c: Category)
  {
    forall j, k :: 0 <= j < |log| && Holds(log[j], c, k) ==> Lookup(log[j].states, k).value.Dict?
  }

  /** One delta applied to a snapshot: the snapshot's `attributes` are deep
      merged with the delta, every other field is kept. */
  function Applied(base: Entries, delta: Value): (r: Value)
    ensures r.Dict?
    ensures Lookup(r.entries, AttributesKey) == Some(Utils.MergeValue(Lookup(base, AttributesKey), delta))
    ensures forall k :: k != AttributesKey ==> Lookup(r.entries, k) == Lookup(base, k)
  {
    var overrides := [(AttributesKey, delta)];
    assert Lookup(overrides, AttributesKey) == Some(delta);
    assert KeySet(overrides) == {AttributesKey} by {
      assert overrides[1..] == [];
    }
    Utils.DeepUpdateLookup(base, overrides, AttributesKey);
    Dict(Utils.DeepUpdate(base, overrides))
  }

  /** The snapshots the deltas `attributes[i..]` of one update start from.
      Each is the newest logged snapshot under the delta's label, else the
      previous delta's start (`tmpl`), which must be a mapping. The log is
      read through a second handle while this update's own writes are still
      buffered, so the lookup sees `prior` only. */
  function Bases(prior: seq<Record>, c: Category, name: string, tmpl: Value,
                 attributes: seq<Value>, i: nat): (r: Result<seq<Entries>>)
    requires i <= |attributes|
    ensures r.Ok? ==> |r.value| == |attributes| - i
    ensures tmpl.Dict? && SnapshotsAreDicts(prior, c) ==> r.Ok?
    decreases |attributes| - i
  {
    if i == |attributes| then Ok([])
    else
      var base := Latest(prior, c, Label(name, i)).GetOr(tmpl);
      if !base.Dict? then Err(TemplateNotMapping)
      else
        match Bases(prior, c, name, base, attributes, i + 1)
        case Err(msg) => Err(msg)
        case Ok(rest) => Ok([base.entries] + rest)
  }

  /** The first base of `Bases` and the bases after it. */
  lemma BasesCons(prior: seq<Record>, c: Category, name: string, tmpl: Value, attributes: seq<Value>, i: nat)
    requires i < |attributes|
    requires Bases(prior, c, name, tmpl, attributes, i).Ok?
    ensures var base := Latest(prior, c, Label(name, i)).GetOr(tmpl);
            && base.Dict?
            && Bases(prior, c, name, base, attributes, i + 1).Ok?
            && Bases(prior, c, name, tmpl, attributes, i).value
               == [base.entries] + Bases(prior, c, name, base, attributes, i + 1).value
  {
  }

  /** The first of the bases from delta `i` on. */
  lemma BaseAtFirst(prior: seq<Record>, c: Category, name: string, tmpl: Value, attributes: seq<Value>, i: nat)
    requires i < |attributes|
    requires Bases(prior, c, name, tmpl, attributes, i).Ok?
    ensures Dict(Bases(prior, c, name, tmpl, attributes, i).value[0]) == Latest(prior, c, Label(name, i)).GetOr(tmpl)
  {
    BasesCons(prior, c, name, tmpl, attributes, i);
    var base := Latest(prior, c, Label(name, i)).GetOr(tmpl);
    ConsAt(base.entries, Bases(prior, c, name, base, attributes, i + 1).value, 0);
  }

  /** Delta `j = i + k` starts from the newest logged snapshot under its
      own label, else from the start of the delta before it (the template
      for the first): the source rebinds `tmpl` to each snapshot it finds. */
  lemma {:induction false} BaseAt(prior: seq<Record>, c: Category, name: string, tmpl: Value,
                                  attributes: seq<Value>, i: nat, k: nat, j: nat)
    requires i <= |attributes|
    requires Bases(prior, c, name, tmpl, attributes, i).Ok?
    requires k < |Bases(prior, c, name, tmpl, attributes, i).value|
    requires j == i + k
    ensures var r := Bases(prior, c, name, tmpl, attributes, i).value;
            Dict(r[k]) == Latest(prior, c, Label(name, j)).GetOr(if k == 0 then tmpl else Dict(r[k - 1]))
    decreases k
  {
    if k == 0 {
      BaseAtFirst(prior, c, name, tmpl, attributes, i);
    } else {
      BasesCons(prior, c, name, tmpl, attributes, i);
      var base := Latest(prior, c, Label(name, i)).GetOr(tmpl);
      ConsShift(base.entries, Bases(prior, c, name, base, attributes, i + 1).value,
                Bases(prior, c, name, tmpl, attributes, i).value, k);
      BaseAt(prior, c, name, base, attributes, i + 1, k - 1, j);
    }
  }

  /** Over a whole update: delta `k` starts from the newest logged snapshot
      under its own label, else from the start of delta `k - 1`, and the
      first from the template. */
  lemma DeltaBase(prior: seq<Record>, c: Category, name: string, tmpl: Value, attributes: seq<Value>, k: nat)
    requires Bases(prior, c, name, tmpl, attributes, 0).Ok?
    requires k < |attributes|
    ensures var r := Bases(prior, c, name, tmpl, attributes, 0).value;
            k < |r| && Dict(r[k]) == Latest(prior, c, Label(name, k)).GetOr(if k == 0 then tmpl else Dict(r[k - 1]))
  {
    BaseAt(prior, c, name, tmpl, attributes, 0, k, k);
  }

  /** Neighbouring elements of a sequence with one element put in front. */
  lemma ConsShift<T>(x: T, xs: seq<T>, r: seq<T>, k: nat)
    requires r == [x] + xs
    requires 0 < k < |r|
    ensures k - 1 < |xs| && r[k] == xs[k - 1]
    ensures r[k - 1] == if k == 1 then x else xs[k - 2]
  {
  }

  /** An element of a sequence with one element put in front. */
  lemma ConsAt<T>(x: T, xs: seq<T>, j: nat)
    requires j <= |xs|
    ensures ([x] + xs)[j] == if j == 0 then x else xs[j - 1]
  {
  }

  /** The records written for the snapshots `snaps` of deltas `i, i+1, ...`:
      the update keeps one mapping and dumps all of it after every delta,
      so each record also repeats the snapshots of the earlier deltas. */
  function Written(c: Category, name: string, i: nat, snaps: seq<Value>, state: Entries): (r: seq<Record>)
    ensures |r| == |snaps|
    ensures forall j :: 0 <= j < |r| ==> r[j].category == c
    decreases |snaps|
  {
    if |snaps| == 0 then []
    else
      var next := Put(state, Label(name, i), snaps[0]);
      [Record(c, next)] + Written(c, name, i + 1, snaps[1..], next)
  }

  /** The records of one update: each delta applied to its base. */
  function Deltas(prior: seq<Record>, c: Category, name: string, tmpl: Value,
                  attributes: seq<Value>): (r: Result<seq<Record>>)
    ensures r.Ok? ==> |r.value| == |attributes|
    ensures tmpl.Dict? && SnapshotsAreDicts(prior, c) ==> r.Ok?
  {
    match Bases(prior, c, name, tmpl, attributes, 0)
    case Err(msg) => Err(msg)
    case Ok(bases) =>
      Ok(Written(c, name, 0, Snapshots(bases, attributes), []))
  }

  /** `update_instance_model`: with `delete` nothing is written; with `init`
      the template itself is written under `<name>_1`; otherwise one record
      per attribute delta. */
  function Update(log: seq<Record>, tmpl: Value, typeName: string, name: string,
                  attributes: seq<Value>, delete: bool, init: bool): (r: Result<seq<Record>>)
    ensures delete ==> r == Ok(log)
    ensures !delete && CategoryOf(typeName).None? ==> r.Err?
    ensures r.Ok? ==> |log| <= |r.value| && r.value[..|log|] == log
    ensures r.Ok? && !delete && !init ==> |r.value| == |log| + |attributes|
    ensures r.Ok? && !delete && init ==> |r.value| == |log| + 1
  {
    if delete then Ok(log)
    else
      match CategoryOf(typeName)
      case None => Err(UnknownType + typeName)
      case Some(c) =>
        if init then Ok(log + [Record(c, [(name + "_1", tmpl)])])
        else if |attributes| == 0 then Ok(log)
        else if |log| == 0 then Err(EmptyInstanceModel)
        else
          match Deltas(log, c, name, tmpl, attributes)
          case Err(msg) => Err(msg)
          case Ok(written) =>
            assert (log + written)[..|log|] == log;
            Ok(log + written)
  }

  /** `get_actual_state_of_instance_model`: the newest snapshot labelled
      `<name>_1`, in either section, with the section's category word. */
  function ActualState(log: seq<Record>, name: string): (r: Result<(Value, string)>)
    ensures r.Ok? <==> exists j :: 0 <= j < |log| && (Holds(log[j], NodeTemplates, name + "_1") || Holds(log[j], RelationshipTemplates, name + "_1"))
  {
    ActualStateBefore(log, |log|, name)
  }

  /** The read over the first `n` records, newest first. */
  function ActualStateBefore(log: seq<Record>, n: nat, name: string): (r: Result<(Value, string)>)
    requires n <= |log|
    ensures r.Ok? <==> exists j :: 0 <= j < n && (Holds(log[j], NodeTemplates, name + "_1") || Holds(log[j], RelationshipTemplates, name + "_1"))
  {
    var tag := name + "_1";
    if n == 0 then Err(NoSuchTagPrefix + tag + NoSuchTagSuffix)
    else if Holds(log[n - 1], NodeTemplates, tag) then Ok((Lookup(log[n - 1].states, tag).value, Nodes))
    else if Holds(log[n - 1], RelationshipTemplates, tag) then Ok((Lookup(log[n - 1].states, tag).value, Relationships))
    else ActualStateBefore(log, n - 1, name)
  }

  /** Reading the log gives the snapshot of the newest record, of either
      section, that holds `<name>_1`, with that record's category word. */
  lemma ActualStateIsNewest(log: seq<Record>, name: string, j: nat)
    requires j < |log| && name + "_1" in KeySet(log[j].states)
    requires forall m :: j < m < |log| ==> name + "_1" !in KeySet(log[m].states)
    ensures ActualState(log, name) == Ok((Lookup(log[j].states, name + "_1").value, CategoryName(log[j].category)))
  {
    ActualStateBeforeNewest(log, |log|, name, j);
  }

  lemma {:induction false} ActualStateBeforeNewest(log: seq<Record>, n: nat, name: string, j: nat)
    requires j < n <= |log| && name + "_1" in KeySet(log[j].states)
    requires forall m :: j < m < n ==> name + "_1" !in KeySet(log[m].states)
    ensures ActualStateBefore(log, n, name) == Ok((Lookup(log[j].states, name + "_1").value, CategoryName(log[j].category)))
    decreases n
  {
    var tag := name + "_1";
    if j < n - 1 {
      assert !Holds(log[n - 1], NodeTemplates, tag) && !Holds(log[n - 1], RelationshipTemplates, tag);
      ActualStateBeforeNewest(log, n - 1, name, j);
    } else {
      assert Holds(log[j], log[j].category, tag);
    }
  }

  /** When no record of the other section holds `<name>_1`, reading the
      log is the newest-first scan of section `c`. */
  lemma ActualStateIsLatest(log: seq<Record>, name: string, c: Category)
    requires exists j :: 0 <= j < |log| && Holds(log[j], c, name + "_1")
    requires forall j :: 0 <= j < |log| ==> log[j].category == c || name + "_1" !in KeySet(log[j].states)
    ensures ActualState(log, name) == Ok((Latest(log, c, name + "_1").value, CategoryName(c)))
  {
    var tag := name + "_1";
    var j :| 0 <= j < |log| && Holds(log[j], c, tag) && Latest(log, c, tag) == Lookup(log[j].states, tag)
             && forall m :: j < m < |log| ==> !Holds(log[m], c, tag);
    ActualStateIsNewest(log, name, j);
  }

  /** The read returns the last record's snapshot when that record holds
      the label. */
  lemma ActualStateOfLast(log: seq<Record>, name: string, c: Category)
    requires |log| > 0 && Holds(log[|log| - 1], c, name + "_1")
    ensures ActualState(log, name) == Ok((Lookup(log[|log| - 1].states, name + "_1").value, CategoryName(c)))
  {
  }

  /** Reading the record just written by an initialising update returns
      the template, under its category. */
  lemma ReadAfterInit(log: seq<Record>, tmpl: Value, typeName: string, name: string, attributes: seq<Value>)
    requires CategoryOf(typeName).Some?
    ensures Update(log, tmpl, typeName, name, attributes, false, true).Ok?
    ensures ActualState(Update(log, tmpl, typeName, name, attributes, false, true).value, name)
            == Ok((tmpl, Utils.TypeCategory(typeName).value))
  {
    var c := CategoryOf(typeName).value;
    var log' := log + [Record(c, [(name + "_1", tmpl)])];
    assert Lookup([(name + "_1", tmpl)], name + "_1") == Some(tmpl);
    assert log'[..|log'| - 1] == log;
    assert Holds(log'[|log'| - 1], c, name + "_1");
  }

  /** Record `j` holds the snapshot of delta `i + j` under its label. */
  lemma WrittenAt(c: Category, name: string, i: nat, snaps: seq<Value>, state: Entries, j: nat)
    requires j < |snaps|
    ensures Lookup(Written(c, name, i, snaps, state)[j].states, Label(name, i + j)) == Some(snaps[j])
  {
    WrittenAtDelta(c, name, i, snaps, state, j, i + j);
  }

  /** `WrittenAt` with the delta number `m` named, so that the label stays
      the same term through the induction. */
  lemma {:induction false} WrittenAtDelta(c: Category, name: string, i: nat, snaps: seq<Value>, state: Entries, j: nat, m: nat)
    requires j < |snaps| && m == i + j
    ensures Lookup(Written(c, name, i, snaps, state)[j].states, Label(name, m)) == Some(snaps[j])
    decreases |snaps|
  {
    var next := Put(state, Label(name, i), snaps[0]);
    if j > 0 {
      WrittenAtDelta(c, name, i + 1, snaps[1..], next, j - 1, m);
      WrittenShift(c, name, i, snaps, state, j);
    } else {
      WrittenFirst(c, name, i, snaps, state);
    }
  }

  /** The first record holds the first snapshot under the first label. */
  lemma WrittenFirst(c: Category, name: string, i: nat, snaps: seq<Value>, state: Entries)
    requires |snaps| > 0
    ensures Written(c, name, i, snaps, state)[0].states == Put(state, Label(name, i), snaps[0])
  {
  }

  /** Record `j > 0` is record `j - 1` of the rest of the update. */
  lemma WrittenShift(c: Category, name: string, i: nat, snaps: seq<Value>, state: Entries, j: nat)
    requires 0 < j < |snaps|
    ensures Written(c, name, i, snaps, state)[j]
            == Written(c, name, i + 1, snaps[1..], Put(state, Label(name, i), snaps[0]))[j - 1]
    ensures snaps[1..][j - 1] == snaps[j]
  {
  }

  /** The records of an update accumulate: each repeats, unchanged, every
      entry of the mapping it started from that no delta relabels. */
  lemma {:induction false} WrittenKeeps(c: Category, name: string, i: nat, snaps: seq<Value>, state: Entries, tag: string)
    requires forall m :: i <= m < i + |snaps| ==> Label(name, m) != tag
    ensures forall j :: 0 <= j < |snaps| ==> Lookup(Written(c, name, i, snaps, state)[j].states, tag) == Lookup(state, tag)
    decreases |snaps|
  {
    if |snaps| > 0 {
      var next := Put(state, Label(name, i), snaps[0]);
      WrittenKeeps(c, name, i + 1, snaps[1..], next, tag);
      var r := Written(c, name, i, snaps, state);
      var rest := Written(c, name, i + 1, snaps[1..], next);
      forall j | 0 <= j < |snaps| ensures Lookup(r[j].states, tag) == Lookup(state, tag) {
        if j > 0 {
          assert r[j] == rest[j - 1];
        }
      }
    }
  }

  /** The labels of the `n` deltas from delta `i` on. */
  function LabelsFrom(name: string, i: nat, n: nat): (r: set<string>)
    ensures forall m :: i <= m < i + n ==> Label(name, m) in r
    decreases n
  {
    if n == 0 then {} else {Label(name, i)} + LabelsFrom(name, i + 1, n - 1)
  }

  /** Record `j` of an update holds exactly the labels of deltas `i..i+j`
      on top of the mapping it started from. */
  lemma {:induction false} WrittenLabels(c: Category, name: string, i: nat, snaps: seq<Value>, state: Entries)
    ensures forall j :: 0 <= j < |snaps| ==>
              KeySet(Written(c, name, i, snaps, state)[j].states) == KeySet(state) + LabelsFrom(name, i, j + 1)
    decreases |snaps|
  {
    if |snaps| > 0 {
      var next := Put(state, Label(name, i), snaps[0]);
      WrittenLabels(c, name, i + 1, snaps[1..], next);
      var r := Written(c, name, i, snaps, state);
      var rest := Written(c, name, i + 1, snaps[1..], next);
      forall j | 0 <= j < |snaps|
        ensures KeySet(r[j].states) == KeySet(state) + LabelsFrom(name, i, j + 1)
      {
        assert LabelsFrom(name, i, j + 1) == {Label(name, i)} + LabelsFrom(name, i + 1, j);
        if j > 0 {
          assert r[j] == rest[j - 1];
        }
      }
    }
  }

  /** Reading after an update with at least one delta returns the first
      delta applied to the newest earlier snapshot labelled `<name>_1`, or
      to the given template when the log holds none: the later deltas,
      written under the longer labels, are never read back. */
  lemma ReadAfterUpdate(log: seq<Record>, tmpl: Value, typeName: string, name: string, attributes: seq<Value>)
    requires Update(log, tmpl, typeName, name, attributes, false, false).Ok?
    requires |attributes| >= 1
    ensures var base := Latest(log, CategoryOf(typeName).value, name + "_1").GetOr(tmpl);
            base.Dict? &&
            ActualState(Update(log, tmpl, typeName, name, attributes, false, false).value, name)
              == Ok((Applied(base.entries, attributes[0]), Utils.TypeCategory(typeName).value))
  {
    var c := CategoryOf(typeName).value;
    UpdateWrites(log, tmpl, typeName, name, attributes);
    var bases := Bases(log, c, name, tmpl, attributes, 0).value;
    var snaps := Snapshots(bases, attributes);
    var written := Written(c, name, 0, snaps, []);
    var log' := log + written;
    FirstBase(log, c, name, tmpl, attributes);
    LastHoldsFirst(c, name, snaps);
    assert Label(name, 0) == name + "_1";
    assert log'[|log'| - 1] == written[|snaps| - 1];
    ActualStateOfLast(log', name, c);
  }

  /** The snapshot of each delta: the delta applied to its base. */
  function Snapshots(bases: seq<Entries>, attributes: seq<Value>): (r: seq<Value>)
    requires |bases| <= |attributes|
    ensures |r| == |bases| && forall k :: 0 <= k < |bases| ==> r[k] == Applied(bases[k], attributes[k])
  {
    seq(|bases|, k requires 0 <= k < |bases| => Applied(bases[k], attributes[k]))
  }

  /** An update with deltas appends the records of its snapshots. */
  lemma UpdateWrites(log: seq<Record>, tmpl: Value, typeName: string, name: string, attributes: seq<Value>)
    requires Update(log, tmpl, typeName, name, attributes, false, false).Ok?
    requires |attributes| >= 1
    ensures CategoryOf(typeName).Some?
    ensures var c := CategoryOf(typeName).value;
            && Bases(log, c, name, tmpl, attributes, 0).Ok?
            && |Bases(log, c, name, tmpl, attributes, 0).value| == |attributes|
            && Update(log, tmpl, typeName, name, attributes, false, false).value
               == log + Written(c, name, 0, Snapshots(Bases(log, c, name, tmpl, attributes, 0).value, attributes), [])
  {
  }

  /** The first delta starts from the newest snapshot under `<name>_1`, or
      from the template. */
  lemma FirstBase(log: seq<Record>, c: Category, name: string, tmpl: Value, attributes: seq<Value>)
    requires |attributes| >= 1 && Bases(log, c, name, tmpl, attributes, 0).Ok?
    ensures var base := Latest(log, c, Label(name, 0)).GetOr(tmpl);
            base.Dict? && Bases(log, c, name, tmpl, attributes, 0).value[0] == base.entries
  {
  }

  /** The last record of an update still holds the first snapshot under
      `<name>_1`: the later deltas use longer labels. */
  lemma LastHoldsFirst(c: Category, name: string, snaps: seq<Value>)
    requires |snaps| >= 1
    ensures var last := Written(c, name, 0, snaps, [])[|snaps| - 1];
            last.category == c && Lookup(last.states, Label(name, 0)) == Some(snaps[0])
  {
    var next := Put([], Label(name, 0), snaps[0]);
    forall m | 1 <= m < |snaps| ensures Label(name, m) != Label(name, 0) {
      LabelsDistinct(name, m, 0);
    }
    WrittenKeeps(c, name, 1, snaps[1..], next, Label(name, 0));
    if |snaps| > 1 {
      assert Written(c, name, 0, snaps, [])[|snaps| - 1] == Written(c, name, 1, snaps[1..], next)[|snaps| - 2];
    }
  }
}

=== FILE: operation_graph.dfy ===
/** The lifecycle-operation dependency graph of `ProviderToscaTemplate`
    (`sort_nodes_and_operations_by_graph_dependency` and
    `update_relationships`).

    The source keys its graphs by strings `"<template name>:<operation>"`;
    here a key is the pair `OpKey(name, op)`. Template names are assumed to
    hold no `:`, so that the pair and the string determine each other. While
    the graph is being built, a dependency is either a key (`OpRef`, the
    previous operation of a chain) or a bare template name (`NameRef`, a
    template-level dependency not yet tied to an operation), mirroring the
    two kinds of strings the source stores in the same sets. */
module OperationGraph {
  import opened Wrappers
  import opened Values
  import opened Utils

  // Error messages, as the source raises or reports them.
  const UnknownDependency := "KeyError: dependency is not an operation of the graph"
  const NoneNotIterable := "argument of type 'NoneType' is not iterable"
  const TemplateNotMap := "template is not a map"
  const IntNotIterable := "argument of type 'int' is not iterable"
  const BoolNotIterable := "argument of type 'bool' is not iterable"
  const NotSubscriptable := "indices must be integers or slices, not str"
  const UnsupportedOperand := "unsupported operand type(s) for +"

  // ---------------------------------------------------------------------
  // Operations and keys
  // ---------------------------------------------------------------------

  datatype Op =
    | Create | Configure | Start | Stop | Delete
    | PreConfigureSource | PreConfigureTarget | PostConfigureSource | PostConfigureTarget | AddSource

  /** The operation name as written in a TOSCA interface. */
  function OpName(o: Op): string
  {
    match o
    case Create => "create"
    case Configure => "configure"
    case Start => "start"
    case Stop => "stop"
    case Delete => "delete"
    case PreConfigureSource => "pre_configure_source"
    case PreConfigureTarget => "pre_configure_target"
    case PostConfigureSource => "post_configure_source"
    case PostConfigureTarget => "post_configure_target"
    case AddSource => "add_source"
  }

  /** Position in the node lifecycle `create, configure, start, stop,
      delete`; relationship operations come after all of them. */
  function Rank(o: Op): nat
  {
    match o
    case Create => 0
    case Configure => 1
    case Start => 2
    case Stop => 3
    case Delete => 4
    case _ => 5
  }

  /** An operation of the `Standard` (node lifecycle) interface. */
  predicate IsLifecycle(o: Op)
  {
    Rank(o) <= 4
  }

  datatype OpKey = OpKey(name: string, op: Op)

  datatype Dep = OpRef(key: OpKey) | NameRef(name: string)

  /** The graph before dependencies are tied to operations. */
  type RawGraph = map<OpKey, set<Dep>>

  /** `k -> g[k]`: operation `k` runs after every operation of `g[k]`. */
  type Graph = map<OpKey, set<OpKey>>

  /** A node or relationship template taking part in the graph: its name,
      its TOSCA type, its template body and, for a relationship, the source
      and target recorded for it by the requirement scan (`None` when no
      requirement names the relationship). */
  datatype Element = Element(name: string, typeName: string, tmpl: Value, source: Option<Value>, target: Option<Value>)

  function Names(elements: seq<Element>): set<string>
  {
    set i | 0 <= i < |elements| :: elements[i].name
  }

  /** Template names are the keys of a dictionary, hence distinct. */
  predicate DistinctNames(elements: seq<Element>)
  {
    forall i, j :: 0 <= i < j < |elements| ==> elements[i].name != elements[j].name
  }

  /** `deep_update_dict(g, {k: s})` on a graph whose values are sets: a new
      key gets `s`, an existing one the union. */
  function AddEdges<T>(g: map<OpKey, set<T>>, k: OpKey, s: set<T>): (r: map<OpKey, set<T>>)
    ensures r.Keys == g.Keys + {k}
    ensures r[k] == (if k in g then g[k] else {}) + s
    ensures forall k' :: k' in g && k' != k ==> r[k'] == g[k']
  {
    g[k := (if k in g then g[k] else {}) + s]
  }

  /** `deep_update_dict(a, b)` on graphs whose values are sets: the keys are
      the union, and a key on both sides holds the union of its sets. */
  function UnionGraphs<T>(a: map<OpKey, set<T>>, b: map<OpKey, set<T>>): (r: map<OpKey, set<T>>)
    ensures r.Keys == a.Keys + b.Keys
    ensures forall k :: k in a && k !in b ==> r[k] == a[k]
    ensures forall k :: k in b && k !in a ==> r[k] == b[k]
    ensures forall k :: k in a && k in b ==> r[k] == a[k] + b[k]
  {
    map k | k in a.Keys + b.Keys :: (if k in a then a[k] else {}) + (if k in b then b[k] else {})
  }

  // ---------------------------------------------------------------------
  // Interfaces of a template
  // ---------------------------------------------------------------------

  /** Python's `sub in s` on two strings: `sub` occurs in `s`. */
  predicate InString(sub: string, s: string)
  {
    exists i :: 0 <= i <= |s| && sub <= s[i..]
  }

  /** The names of every operation the graph knows. */
  const OpNames: seq<string> := ["create", "configure", "start", "stop", "delete", "pre_configure_source",
                                 "pre_configure_target", "post_configure_source", "post_configure_target", "add_source"]

  /** The operation names `name in v` accepts, for an interface value `v`:
      the keys of a mapping, the string members of a list, tuple or set,
      and the operation names occurring in a string. Any other value makes
      `in` raise a `TypeError`. */
  function DeclaredNames(v: Value): (r: Result<set<string>>)
    ensures v.Dict? ==> r == Ok(KeySet(v.entries))
    ensures v.List? ==> r.Ok? && forall n :: n in r.value <==> Str(n) in v.items
    ensures v.Tuple? ==> r.Ok? && forall n :: n in r.value <==> Str(n) in v.elems
    ensures v.Set? ==> r.Ok? && forall n :: n in r.value <==> Str(n) in v.members
    ensures v.Str? ==> r.Ok? && forall o :: OpName(o) in r.value <==> InString(OpName(o), v.s)
    ensures v.Null? || v.Int? || v.Bool? <==> r.Err?
  {
    match v
    case Dict(es) => Ok(KeySet(es))
    case List(xs) => Ok(set x | x in xs && x.Str? :: x.s)
    case Tuple(xs) => Ok(set x | x in xs && x.Str? :: x.s)
    case Set(xs) => Ok(set x | x in xs && x.Str? :: x.s)
    case Str(s) =>
      var r := set n | n in OpNames && InString(n, s);
      assert forall o :: OpName(o) in OpNames;
      Ok(r)
    case Null => Err(NoneNotIterable)
    case Int(_) => Err(IntNotIterable)
    case Bool(_) => Err(BoolNotIterable)
  }

  /** Whether `name in v` holds for the `interfaces` value `v` when `v` is
      not a mapping; subscripting such a `v` by `name` afterwards raises. */
  function MemberOf(name: string, v: Value): Result<bool>
  {
    match v
    case List(xs) => Ok(Str(name) in xs)
    case Tuple(xs) => Ok(Str(name) in xs)
    case Set(xs) => Ok(Str(name) in xs)
    case Str(s) => Ok(InString(name, s))
    case Null => Err(NoneNotIterable)
    case Int(_) => Err(IntNotIterable)
    case Bool(_) => Err(BoolNotIterable)
    case Dict(es) => Ok(name in KeySet(es))
  }

  /** `'interfaces' in tmpl and iface in tmpl['interfaces']`, then the
      operation names `op in tmpl['interfaces'][iface]` accepts. An absent
      `interfaces` entry or interface gives `None`. An `interfaces` value
      that is a list, tuple, set or string holding `iface` cannot be
      subscripted by it; one that is `None`, a number or a boolean cannot
      be searched; either is a `TypeError`. */
  function Interface(tmpl: Value, iface: string): (r: Result<Option<set<string>>>)
    ensures !tmpl.Dict? ==> r.Err?
    ensures tmpl.Dict? && Lookup(tmpl.entries, "interfaces").Some? && !Lookup(tmpl.entries, "interfaces").value.Dict? ==>
              (r.Ok? <==> MemberOf(iface, Lookup(tmpl.entries, "interfaces").value) == Ok(false)) && (r.Ok? ==> r.value.None?)
    ensures tmpl.Dict? && Lookup(tmpl.entries, "interfaces").None? ==> r == Ok(None)
    ensures tmpl.Dict? && Lookup(tmpl.entries, "interfaces") == Some(Dict([])) ==> r == Ok(None)
    ensures r.Ok? && r.value.Some? ==>
              tmpl.Dict? && Lookup(tmpl.entries, "interfaces").Some? && Lookup(tmpl.entries, "interfaces").value.Dict?
              && Lookup(Lookup(tmpl.entries, "interfaces").value.entries, iface).Some?
              && DeclaredNames(Lookup(Lookup(tmpl.entries, "interfaces").value.entries, iface).value) == Ok(r.value.value)
  {
    if !tmpl.Dict? then Err(TemplateNotMap)
    else
      match Lookup(tmpl.entries, "interfaces")
      case None => Ok(None)
      case Some(Dict(ifs)) =>
        (match Lookup(ifs, iface)
         case None => Ok(None)
         case Some(v) =>
           match DeclaredNames(v)
           case Err(msg) => Err(msg)
           case Ok(names) => Ok(Some(names)))
      case Some(v) =>
        match MemberOf(iface, v)
        case Err(msg) => Err(msg)
        case Ok(found) => if found then Err(NotSubscriptable) else Ok(None)
  }

  // ---------------------------------------------------------------------
  // Per-node operation chain
  // ---------------------------------------------------------------------

  /** `lifecycle`: the optional node operations, in order. */
  const Lifecycle: seq<Op> := [Configure, Start, Stop, Delete]

  /** The candidates whose name is declared in `ops`, in candidate order. */
  function PresentOps(cands: seq<Op>, ops: set<string>): (r: seq<Op>)
    requires forall i, j :: 0 <= i < j < |cands| ==> Rank(cands[i]) < Rank(cands[j])
    ensures forall o :: o in r <==> o in cands && OpName(o) in ops
    ensures forall i, j :: 0 <= i < j < |r| ==> Rank(r[i]) < Rank(r[j])
  {
    if |cands| == 0 then []
    else
      var rest := PresentOps(cands[1..], ops);
      forall j | 0 <= j < |rest|
        ensures Rank(cands[0]) < Rank(rest[j])
      {
        assert rest[j] in cands[1..];
        var m :| 0 <= m < |cands[1..]| && cands[1..][m] == rest[j];
        assert cands[m + 1] == rest[j];
      }
      if OpName(cands[0]) in ops then [cands[0]] + rest else rest
  }

  /** The operations of a node: `create` always, then those of
      `configure, start, stop, delete` its `Standard` interface declares. */
  function LifecycleOps(std: Option<set<string>>): (ops: seq<Op>)
    ensures |ops| >= 1 && ops[0] == Create
    ensures forall o :: o in ops[1..] <==> o in Lifecycle && std.Some? && OpName(o) in std.value
    ensures forall i, j :: 0 <= i < j < |ops| ==> Rank(ops[i]) < Rank(ops[j])
    ensures forall o :: o in ops ==> IsLifecycle(o)
  {
    if std.None? then [Create]
    else
      var rest := PresentOps(Lifecycle, std.value);
      PresentLifecycle(std.value);
      assert ([Create] + rest)[1..] == rest;
      [Create] + rest
  }

  /** The declared optional operations come after `create`. */
  lemma PresentLifecycle(ops: set<string>)
    ensures forall i, j :: 0 <= i < j < |Lifecycle| ==> Rank(Lifecycle[i]) < Rank(Lifecycle[j])
    ensures forall o :: o in PresentOps(Lifecycle, ops) ==> 1 <= Rank(o) <= 4
  {
    assert Rank(Lifecycle[0]) == 1 && Rank(Lifecycle[1]) == 2 && Rank(Lifecycle[2]) == 3 && Rank(Lifecycle[3]) == 4;
    forall o | o in PresentOps(Lifecycle, ops) ensures 1 <= Rank(o) <= 4 {
      assert o in Lifecycle;
    }
  }

  /** Index of an operation in a sequence that holds it. */
  function Position(ops: seq<Op>, o: Op): (i: nat)
    requires o in ops
    ensures i < |ops| && ops[i] == o
  {
    if ops[0] == o then 0 else 1 + Position(ops[1..], o)
  }

  /** The chain of one node: each operation depends on the one before it,
      and `create` carries the node's template-level dependencies
      (`NodeChainShape`). */
  function NodeChain(n: string, ops: seq<Op>, createDeps: set<Dep>): RawGraph
    requires |ops| >= 1 && ops[0] == Create
  {
    map o | o in ops :: OpKey(n, o) := ChainStep(n, ops, o, createDeps)
  }

  /** The keys of a node's chain are exactly its operations; `create`
      carries the template dependencies, and each later operation depends
      on the one before it. */
  lemma NodeChainShape(n: string, ops: seq<Op>, createDeps: set<Dep>)
    requires |ops| >= 1 && ops[0] == Create
    requires forall i, j :: 0 <= i < j < |ops| ==> Rank(ops[i]) < Rank(ops[j])
    ensures forall k :: k in NodeChain(n, ops, createDeps) <==> k.name == n && k.op in ops
    ensures NodeChain(n, ops, createDeps)[OpKey(n, Create)] == createDeps
    ensures forall i :: 1 <= i < |ops| ==> NodeChain(n, ops, createDeps)[OpKey(n, ops[i])] == {OpRef(OpKey(n, ops[i - 1]))}
  {
    var g := NodeChain(n, ops, createDeps);
    forall i | 1 <= i < |ops|
      ensures g[OpKey(n, ops[i])] == {OpRef(OpKey(n, ops[i - 1]))}
    {
      PositionSorted(ops, i);
      assert Rank(ops[0]) < Rank(ops[i]);
      assert OpKey(n, ops[i]) in g;
    }
  }

  /** The dependencies of operation `o` within its node's chain. */
  function ChainStep(n: string, ops: seq<Op>, o: Op, createDeps: set<Dep>): set<Dep>
    requires |ops| >= 1 && ops[0] == Create && o in ops
  {
    if o == Create then createDeps
    else
      var p := Position(ops, o);
      assert p != 0;
      {OpRef(OpKey(n, ops[p - 1]))}
  }

  /** In a sequence strictly ordered by rank, each operation sits at its
      own index. */
  lemma {:induction false} PositionSorted(ops: seq<Op>, i: nat)
    requires forall a, b :: 0 <= a < b < |ops| ==> Rank(ops[a]) < Rank(ops[b])
    requires i < |ops|
    ensures Position(ops, ops[i]) == i
  {
    if i > 0 {
      assert Rank(ops[0]) < Rank(ops[i]);
      assert ops[1..][i - 1] == ops[i];
      PositionSorted(ops[1..], i - 1);
    }
  }

  /** `nodes.intersection(self.template_dependencies.get(templ_name, set()))`,
      as bare names. */
  function CreateDeps(n: string, names: set<string>, templateDeps: map<string, set<string>>): set<Dep>
  {
    set x | x in names && n in templateDeps && x in templateDeps[n] :: NameRef(x)
  }

  /** The chain contributed by one template; only node templates have one. */
  function ElementChain(e: Element, names: set<string>, templateDeps: map<string, set<string>>): Result<RawGraph>
  {
    if TypeCategory(e.typeName) != Some("nodes") then Ok(map[])
    else
      var std :- Interface(e.tmpl, "Standard");
      Ok(NodeChain(e.name, LifecycleOps(std), CreateDeps(e.name, names, templateDeps)))
  }

  /** The keys of a template's chain are lifecycle operations of that
      template. */
  lemma ElementChainKeys(e: Element, names: set<string>, templateDeps: map<string, set<string>>)
    requires ElementChain(e, names, templateDeps).Ok?
    ensures forall k :: k in ElementChain(e, names, templateDeps).value ==> k.name == e.name && IsLifecycle(k.op)
  {
    if TypeCategory(e.typeName) == Some("nodes") {
      var std := Interface(e.tmpl, "Standard").value;
      NodeChainShape(e.name, LifecycleOps(std), CreateDeps(e.name, names, templateDeps));
    }
  }

  /** The `dependencies` dictionary: every template's chain, merged. */
  function ChainGraph(elements: seq<Element>, names: set<string>, templateDeps: map<string, set<string>>): Result<RawGraph>
  {
    if |elements| == 0 then Ok(map[])
    else
      var first :- ElementChain(elements[0], names, templateDeps);
      var rest :- ChainGraph(elements[1..], names, templateDeps);
      Ok(UnionGraphs(first, rest))
  }

  /** Merging fails exactly when some node's `Standard` interface cannot be
      read. */
  lemma {:induction false} ChainGraphFails(elements: seq<Element>, names: set<string>, templateDeps: map<string, set<string>>)
    ensures ChainGraph(elements, names, templateDeps).Err? <==>
              exists i :: 0 <= i < |elements| && ElementChain(elements[i], names, templateDeps).Err?
  {
    if |elements| > 0 {
      ChainGraphFails(elements[1..], names, templateDeps);
      if ChainGraph(elements[1..], names, templateDeps).Err? {
        var j :| 0 <= j < |elements[1..]| && ElementChain(elements[1..][j], names, templateDeps).Err?;
        assert elements[1..][j] == elements[j + 1];
      }
      if exists i :: 0 <= i < |elements| && ElementChain(elements[i], names, templateDeps).Err? {
        var i :| 0 <= i < |elements| && ElementChain(elements[i], names, templateDeps).Err?;
        if i > 0 {
          assert elements[1..][i - 1] == elements[i];
        }
      }
    }
  }

  /** Every key of the merged graph is a lifecycle operation of one of the
      templates. */
  lemma {:induction false} ChainGraphKeys(elements: seq<Element>, names: set<string>, templateDeps: map<string, set<string>>)
    requires ChainGraph(elements, names, templateDeps).Ok?
    ensures forall k :: k in ChainGraph(elements, names, templateDeps).value ==> k.name in Names(elements) && IsLifecycle(k.op)
  {
    if |elements| > 0 {
      var first := ElementChain(elements[0], names, templateDeps).value;
      var rest := ChainGraph(elements[1..], names, templateDeps).value;
      ChainGraphKeys(elements[1..], names, templateDeps);
      ElementChainKeys(elements[0], names, templateDeps);
      forall k | k in rest ensures k.name in Names(elements) {
        var j :| 0 <= j < |elements[1..]| && elements[1..][j].name == k.name;
        assert elements[j + 1].name == k.name;
      }
      assert elements[0].name in Names(elements);
    }
  }

  /** Within the merged graph, the keys of a template are exactly those of
      its own chain, with the same dependencies. */
  lemma {:induction false} ChainGraphElement(elements: seq<Element>, names: set<string>, templateDeps: map<string, set<string>>, i: nat, k: OpKey)
    requires DistinctNames(elements)
    requires ChainGraph(elements, names, templateDeps).Ok?
    requires i < |elements|
    requires k.name == elements[i].name
    ensures ElementChain(elements[i], names, templateDeps).Ok?
    ensures var g := ChainGraph(elements, names, templateDeps).value;
            var c := ElementChain(elements[i], names, templateDeps).value;
            (k in g <==> k in c) && (k in c ==> g[k] == c[k])
  {
    var first := ElementChain(elements[0], names, templateDeps).value;
    var rest := ChainGraph(elements[1..], names, templateDeps).value;
    assert DistinctNames(elements[1..]);
    ChainGraphKeys(elements[1..], names, templateDeps);
    ElementChainKeys(elements[0], names, templateDeps);
    if i == 0 {
      assert elements[0].name !in Names(elements[1..]);
      assert k !in rest;
    } else {
      ChainGraphElement(elements[1..], names, templateDeps, i - 1, k);
      assert elements[1..][i - 1] == elements[i];
      assert elements[0].name != elements[i].name;
      assert k !in first;
    }
  }

  // ---------------------------------------------------------------------
  // Tying dependencies to operations
  // ---------------------------------------------------------------------

  /** The latest existing lifecycle operation of template `n`, trying
      `delete, stop, start, configure, create` in that order. */
  function LatestOperation(g: RawGraph, n: string): (r: Option<OpKey>)
    ensures r.Some? ==> r.value in g && r.value.name == n && IsLifecycle(r.value.op)
    ensures r.Some? ==> forall o :: IsLifecycle(o) && Rank(o) > Rank(r.value.op) ==> OpKey(n, o) !in g
    ensures r.None? <==> forall o :: IsLifecycle(o) ==> OpKey(n, o) !in g
  {
    if OpKey(n, Delete) in g then Some(OpKey(n, Delete))
    else if OpKey(n, Stop) in g then Some(OpKey(n, Stop))
    else if OpKey(n, Start) in g then Some(OpKey(n, Start))
    else if OpKey(n, Configure) in g then Some(OpKey(n, Configure))
    else if OpKey(n, Create) in g then Some(OpKey(n, Create))
    else None
  }

  /** The operation a dependency stands for: a key stands for itself, a
      template name for its latest operation; a name with no operation
      (a relationship, say) stands for nothing and is dropped. */
  function Resolve(g: RawGraph, d: Dep): Option<OpKey>
  {
    match d
    case OpRef(k) => if k in g then Some(k) else None
    case NameRef(n) => LatestOperation(g, n)
  }

  /** `new_dependencies`: every dependency replaced by the operation it
      stands for. The result is closed: every operation depended upon is a
      key of the graph. */
  function Remap(g: RawGraph): (r: Graph)
    ensures r.Keys == g.Keys
    ensures forall k, t :: k in r && t in r[k] ==> t in r
    ensures forall k, d :: k in g && d in g[k] && Resolve(g, d).Some? ==> Resolve(g, d).value in r[k]
    ensures forall k, t :: k in r && t in r[k] ==> exists d :: d in g[k] && Resolve(g, d) == Some(t)
  {
    map k | k in g :: set d | d in g[k] && Resolve(g, d).Some? :: Resolve(g, d).value
  }

  // ---------------------------------------------------------------------
  // Splicing relationship operations
  // ---------------------------------------------------------------------

  /** `update_relationships`: the relationship operation `rel:relOp` runs
      after the anchor `peer:anchorOp`, and every other operation that ran
      after the anchor now also runs after the relationship operation,
      except the relationship's own `banned` operations. */
  function UpdateRelationship(g: Graph, rel: string, peer: string, relOp: Op, anchorOp: Op, banned: set<Op>): (r: Graph)
    ensures r.Keys == g.Keys + {OpKey(rel, relOp)}
    ensures OpKey(peer, anchorOp) in r[OpKey(rel, relOp)]
    ensures forall k :: k in g ==> g[k] <= r[k]
    ensures forall k :: k in g && k != OpKey(rel, relOp) && OpKey(peer, anchorOp) in g[k] && !(k.name == rel && k.op in banned)
              ==> OpKey(rel, relOp) in r[k]
    ensures forall k, t :: k in r && t in r[k] ==>
              (k in g && t in g[k]) || (k == OpKey(rel, relOp) && t == OpKey(peer, anchorOp))
              || (t == OpKey(rel, relOp) && k in g && k != OpKey(rel, relOp) && OpKey(peer, anchorOp) in g[k] && !(k.name == rel && k.op in banned))
    ensures forall k :: k in g && k != OpKey(rel, relOp) && (k.name == rel && k.op in banned) ==> r[k] == g[k]
  {
    var rk := OpKey(rel, relOp);
    var anchor := OpKey(peer, anchorOp);
    var g1 := AddEdges(g, rk, {anchor});
    map k | k in g1 :: if k != rk && !(k.name == rel && k.op in banned) && anchor in g1[k] then g1[k] + {rk} else g1[k]
  }

  /** The relationship operations the graph schedules, in the order they
      are spliced; `add_target`, `target_changed` and `remove_target` are
      only warned about. */
  const RelationshipOps: seq<Op> := [PreConfigureSource, PreConfigureTarget, PostConfigureSource, PostConfigureTarget, AddSource]

  /** Whether a relationship operation runs next to the relationship's
      source (otherwise its target). */
  predicate OnSource(o: Op)
  {
    o == PreConfigureSource || o == PostConfigureSource || o == AddSource
  }

  /** `post_configure_*` runs after the peer's `configure` if the graph has
      one, else after its `create`; the other operations after `create`. */
  function AnchorOp(g: Graph, relOp: Op, peer: string): Op
  {
    if (relOp == PostConfigureSource || relOp == PostConfigureTarget) && OpKey(peer, Configure) in g then Configure
    else Create
  }

  /** The operations of the same relationship that must not be made to wait
      for `relOp`. As written, `pre_configure_source` and `add_source` ban
      each other and nothing else is banned; the corrected version also keeps
      `pre_configure_X` from waiting for `post_configure_X`. */
  function Banned(relOp: Op, corrected: bool): set<Op>
  {
    match relOp
    case PreConfigureSource => {AddSource}
    case AddSource => {PreConfigureSource}
    case PostConfigureSource => if corrected then {PreConfigureSource} else {}
    case PostConfigureTarget => if corrected then {PreConfigureTarget} else {}
    case _ => {}
  }

  /** The name of the template at one end of a relationship: `None + ':'`
      (a relationship no requirement names) is a `TypeError`. */
  function EndName(end: Option<Value>): Result<string>
  {
    match end
    case Some(Str(s)) => Ok(s)
    case _ => Err(UnsupportedOperand)
  }

  /** One `if '<op>' in ...['Configure']` block of the splice. */
  function SpliceStep(g: Graph, e: Element, conf: set<string>, relOp: Op, corrected: bool): (r: Result<Graph>)
    ensures r.Ok? ==> g.Keys <= r.value.Keys && forall k :: k in g ==> g[k] <= r.value[k]
    ensures r.Ok? ==> forall k :: k in r.value && k !in g ==> k == OpKey(e.name, relOp)
  {
    if OpName(relOp) !in conf then Ok(g)
    else
      var peer :- EndName(if OnSource(relOp) then e.source else e.target);
      Ok(UpdateRelationship(g, e.name, peer, relOp, AnchorOp(g, relOp, peer), Banned(relOp, corrected)))
  }

  /** The splice of one template: nothing for a node, and for a relationship
      with a `Configure` interface the steps for `pre_configure_source`,
      `pre_configure_target`, `post_configure_source`,
      `post_configure_target` and `add_source`, in that order. No edge is
      removed, and the only new keys are the relationship's own operations. */
  function SpliceElement(g: Graph, e: Element, corrected: bool): (r: Result<Graph>)
    ensures r.Ok? ==> g.Keys <= r.value.Keys && forall k :: k in g ==> g[k] <= r.value[k]
    ensures r.Ok? ==> forall k :: k in r.value && k !in g ==> k.name == e.name && k.op in RelationshipOps
  {
    if TypeCategory(e.typeName) != Some("relationships") then Ok(g)
    else
      var conf :- Interface(e.tmpl, "Configure");
      if conf.None? then Ok(g)
      else
        var c := conf.value;
        var g1 :- SpliceStep(g, e, c, PreConfigureSource, corrected);
        var g2 :- SpliceStep(g1, e, c, PreConfigureTarget, corrected);
        var g3 :- SpliceStep(g2, e, c, PostConfigureSource, corrected);
        var g4 :- SpliceStep(g3, e, c, PostConfigureTarget, corrected);
        SpliceStep(g4, e, c, AddSource, corrected)
  }

  /** The splice of every template, in iteration order. */
  function SpliceAll(g: Graph, elements: seq<Element>, corrected: bool): (r: Result<Graph>)
    ensures r.Ok? ==> g.Keys <= r.value.Keys && forall k :: k in g ==> g[k] <= r.value[k]
    ensures r.Ok? ==> forall k :: k in r.value && k !in g ==> k.op in RelationshipOps
    decreases |elements|
  {
    if |elements| == 0 then Ok(g)
    else
      match SpliceElement(g, elements[0], corrected)
      case Err(m) => Err(m)
      case Ok(g1) =>
        var r := SpliceAll(g1, elements[1..], corrected);
        assert r.Ok? ==> forall k :: k in g ==> g[k] <= g1[k] <= r.value[k];
        r
  }

  // ---------------------------------------------------------------------
  // Every declared relationship operation waits for its anchor
  // ---------------------------------------------------------------------

  /** `e` is a relationship whose `Configure` interface declares `relOp`. */
  ghost predicate Declares(e: Element, relOp: Op)
  {
    && TypeCategory(e.typeName) == Some("relationships")
    && Interface(e.tmpl, "Configure").Ok?
    && Interface(e.tmpl, "Configure").value.Some?
    && OpName(relOp) in Interface(e.tmpl, "Configure").value.value
  }

  /** The template `relOp` of `e` runs next to. */
  function Peer(e: Element, relOp: Op): Result<string>
  {
    EndName(if OnSource(relOp) then e.source else e.target)
  }

  /** In `h`, `relOp` of `e` waits for the peer's operation that `AnchorOp`
      picks in `g`. */
  ghost predicate WaitsForAnchor(g: Graph, h: Graph, e: Element, relOp: Op)
  {
    && Peer(e, relOp).Ok?
    && OpKey(e.name, relOp) in h
    && OpKey(Peer(e, relOp).value, AnchorOp(g, relOp, Peer(e, relOp).value)) in h[OpKey(e.name, relOp)]
  }

  /** `h` makes `a` wait for `b`. */
  predicate HasEdge(h: Graph, a: OpKey, b: OpKey)
  {
    a in h && b in h[a]
  }

  /** Adding no `configure` never changes an anchor. */
  lemma AnchorStable(g: Graph, h: Graph, relOp: Op, peer: string)
    requires g.Keys <= h.Keys
    requires forall k :: k in h && k !in g ==> k.op != Configure
    ensures AnchorOp(h, relOp, peer) == AnchorOp(g, relOp, peer)
  {
  }

  /** Waiting for an anchor survives any growth of the graph. */
  lemma WaitsForAnchorGrows(g: Graph, h: Graph, h': Graph, e: Element, relOp: Op)
    requires h.Keys <= h'.Keys && forall k :: k in h ==> h[k] <= h'[k]
    ensures WaitsForAnchor(g, h, e, relOp) ==> WaitsForAnchor(g, h', e, relOp)
  {
  }

  /** One step leaves its operation waiting for the anchor. */
  lemma SpliceStepAnchors(g: Graph, e: Element, conf: set<string>, relOp: Op, corrected: bool)
    requires SpliceStep(g, e, conf, relOp, corrected).Ok?
    requires OpName(relOp) in conf
    ensures WaitsForAnchor(g, SpliceStep(g, e, conf, relOp, corrected).value, e, relOp)
  {
  }

  /** The steps for `ops`, in order: the splice of one relationship is the
      steps for `RelationshipOps`. */
  function SpliceSteps(g: Graph, e: Element, conf: set<string>, ops: seq<Op>, corrected: bool): (r: Result<Graph>)
    ensures r.Ok? ==> g.Keys <= r.value.Keys && forall k :: k in g ==> g[k] <= r.value[k]
    ensures r.Ok? ==> forall k :: k in r.value && k !in g ==> k.op in ops
    decreases |ops|
  {
    if |ops| == 0 then Ok(g)
    else
      var g1 :- SpliceStep(g, e, conf, ops[0], corrected);
      var r := SpliceSteps(g1, e, conf, ops[1..], corrected);
      assert r.Ok? ==> forall k :: k in g ==> g[k] <= g1[k] <= r.value[k];
      r
  }

  lemma SpliceElementIsSteps(g: Graph, e: Element, corrected: bool, c: set<string>)
    requires TypeCategory(e.typeName) == Some("relationships") && Interface(e.tmpl, "Configure") == Ok(Some(c))
    ensures SpliceElement(g, e, corrected) == SpliceSteps(g, e, c, RelationshipOps, corrected)
  {
    var ops := RelationshipOps;
    assert ops[1..] == [PreConfigureTarget, PostConfigureSource, PostConfigureTarget, AddSource];
    assert ops[1..][1..] == [PostConfigureSource, PostConfigureTarget, AddSource];
    assert ops[1..][1..][1..] == [PostConfigureTarget, AddSource];
    assert ops[1..][1..][1..][1..] == [AddSource];
    assert ops[1..][1..][1..][1..][1..] == [];
    var r1 := SpliceStep(g, e, c, PreConfigureSource, corrected);
    if r1.Ok? {
      var r2 := SpliceStep(r1.value, e, c, PreConfigureTarget, corrected);
      if r2.Ok? {
        var r3 := SpliceStep(r2.value, e, c, PostConfigureSource, corrected);
        if r3.Ok? {
          var r4 := SpliceStep(r3.value, e, c, PostConfigureTarget, corrected);
          if r4.Ok? {
            var r5 := SpliceStep(r4.value, e, c, AddSource, corrected);
            assert SpliceSteps(r4.value, e, c, [AddSource], corrected) == r5;
          }
        }
      }
    }
  }

  /** The steps for `ops` leave each declared one waiting for its anchor. */
  lemma {:induction false} SpliceStepsAnchors(g: Graph, e: Element, c: set<string>, ops: seq<Op>, corrected: bool, relOp: Op)
    requires SpliceSteps(g, e, c, ops, corrected).Ok?
    requires relOp in ops && OpName(relOp) in c && Configure !in ops
    ensures WaitsForAnchor(g, SpliceSteps(g, e, c, ops, corrected).value, e, relOp)
    decreases |ops|
  {
    var g1 := SpliceStep(g, e, c, ops[0], corrected).value;
    var h := SpliceSteps(g1, e, c, ops[1..], corrected).value;
    assert SpliceSteps(g, e, c, ops, corrected).value == h;
    if ops[0] == relOp {
      SpliceStepAnchors(g, e, c, relOp, corrected);
      WaitsForAnchorGrows(g, g1, h, e, relOp);
    } else {
      SpliceStepsAnchors(g1, e, c, ops[1..], corrected, relOp);
      WaitsForAnchorRebase(g, g1, h, e, relOp);
    }
  }

  /** The steps of a relationship's splice leave each operation its
      `Configure` interface declares waiting for that operation's anchor. */
  lemma RelationshipStepsAnchors(g: Graph, e: Element, c: set<string>, corrected: bool, relOp: Op)
    requires SpliceSteps(g, e, c, RelationshipOps, corrected).Ok?
    requires relOp in RelationshipOps && OpName(relOp) in c
    ensures WaitsForAnchor(g, SpliceSteps(g, e, c, RelationshipOps, corrected).value, e, relOp)
  {
    assert Configure !in RelationshipOps;
    SpliceStepsAnchors(g, e, c, RelationshipOps, corrected, relOp);
  }

  /** After splicing every template, each operation a relationship's
      `Configure` interface declares waits for its anchor, the peer's
      operation chosen in the graph before any splice. */
  lemma {:induction false} SpliceAllAnchors(g: Graph, elements: seq<Element>, corrected: bool, i: nat, e: Element, relOp: Op)
    requires SpliceAll(g, elements, corrected).Ok?
    requires i < |elements| && elements[i] == e && relOp in RelationshipOps
    ensures Declares(e, relOp) ==> WaitsForAnchor(g, SpliceAll(g, elements, corrected).value, e, relOp)
    decreases |elements|
  {
    if i == 0 {
      SpliceAllAnchorsHead(g, elements, corrected, relOp);
    } else {
      var g1 := SpliceElement(g, elements[0], corrected).value;
      SpliceAllUnfold(g, elements, corrected);
      TailAt(elements, i);
      SpliceAllAnchors(g1, elements[1..], corrected, i - 1, e, relOp);
      SpliceElementAddsNoConfigure(g, elements[0], corrected);
      WaitsForAnchorRebase(g, g1, SpliceAll(g1, elements[1..], corrected).value, e, relOp);
    }
  }

  lemma SpliceAllAddsNoConfigure(g: Graph, elements: seq<Element>, corrected: bool)
    requires SpliceAll(g, elements, corrected).Ok?
    ensures forall k :: k in SpliceAll(g, elements, corrected).value && k !in g ==> k.op != Configure
  {
    assert Configure !in RelationshipOps;
  }

  lemma SpliceElementAddsNoConfigure(g: Graph, e: Element, corrected: bool)
    requires SpliceElement(g, e, corrected).Ok?
    ensures forall k :: k in SpliceElement(g, e, corrected).value && k !in g ==> k.op != Configure
  {
    assert Configure !in RelationshipOps;
  }

  lemma SpliceAllAnchorsHead(g: Graph, elements: seq<Element>, corrected: bool, relOp: Op)
    requires SpliceAll(g, elements, corrected).Ok?
    requires 0 < |elements| && relOp in RelationshipOps
    ensures Declares(elements[0], relOp) ==> WaitsForAnchor(g, SpliceAll(g, elements, corrected).value, elements[0], relOp)
  {
    var e := elements[0];
    var g1 := SpliceElement(g, e, corrected).value;
    SpliceAllUnfold(g, elements, corrected);
    if Declares(e, relOp) {
      var c := Interface(e.tmpl, "Configure").value.value;
      SpliceElementIsSteps(g, e, corrected, c);
      RelationshipStepsAnchors(g, e, c, corrected, relOp);
      WaitsForAnchorGrows(g, g1, SpliceAll(g1, elements[1..], corrected).value, e, relOp);
    }
  }

  /** The element at `i` is the tail's element at `i - 1`. */
  lemma TailAt<T>(s: seq<T>, i: nat)
    requires 0 < i < |s|
    ensures s[1..][i - 1] == s[i]
  {
  }

  /** A successful splice of every template is the splice of the rest after
      the first. */
  lemma SpliceAllUnfold(g: Graph, elements: seq<Element>, corrected: bool)
    requires SpliceAll(g, elements, corrected).Ok? && |elements| > 0
    ensures SpliceElement(g, elements[0], corrected).Ok?
    ensures SpliceAll(g, elements, corrected) == SpliceAll(SpliceElement(g, elements[0], corrected).value, elements[1..], corrected)
  {
  }

  /** An anchor read in a graph grown by no `configure` is the anchor read
      before the growth. */
  lemma WaitsForAnchorRebase(g: Graph, g1: Graph, h: Graph, e: Element, relOp: Op)
    requires g.Keys <= g1.Keys
    requires forall k :: k in g1 && k !in g ==> k.op != Configure
    ensures WaitsForAnchor(g1, h, e, relOp) ==> WaitsForAnchor(g, h, e, relOp)
  {
    if Peer(e, relOp).Ok? {
      AnchorStable(g, g1, relOp, Peer(e, relOp).value);
    }
  }

  // ---------------------------------------------------------------------
  // Ordering of a relationship's own operations
  // ---------------------------------------------------------------------

  /** No `pre_configure_X` of a relationship waits for the same
      relationship's `post_configure_X`. */
  predicate PreNeverWaitsForPost(g: Graph)
  {
    (forall k :: k in g && k.op == PreConfigureSource ==> OpKey(k.name, PostConfigureSource) !in g[k])
    && (forall k :: k in g && k.op == PreConfigureTarget ==> OpKey(k.name, PostConfigureTarget) !in g[k])
  }

  /** A corrected relationship update keeps every `pre_configure_X` clear
      of its `post_configure_X`. */
  lemma UpdateRelationshipKeepsPreFirst(g: Graph, rel: string, peer: string, relOp: Op, anchorOp: Op)
    requires PreNeverWaitsForPost(g)
    requires IsLifecycle(anchorOp)
    ensures PreNeverWaitsForPost(UpdateRelationship(g, rel, peer, relOp, anchorOp, Banned(relOp, true)))
  {
    var r := UpdateRelationship(g, rel, peer, relOp, anchorOp, Banned(relOp, true));
    var rk := OpKey(rel, relOp);
    forall k | k in r && k.op == PreConfigureSource
      ensures OpKey(k.name, PostConfigureSource) !in r[k]
    {
      if k.name == rel && relOp == PostConfigureSource && k in g {
        assert k.op in Banned(relOp, true);
      }
    }
    forall k | k in r && k.op == PreConfigureTarget
      ensures OpKey(k.name, PostConfigureTarget) !in r[k]
    {
      if k.name == rel && relOp == PostConfigureTarget && k in g {
        assert k.op in Banned(relOp, true);
      }
    }
  }

  lemma SpliceStepKeepsPreFirst(g: Graph, e: Element, conf: set<string>, relOp: Op)
    requires PreNeverWaitsForPost(g)
    requires SpliceStep(g, e, conf, relOp, true).Ok?
    ensures PreNeverWaitsForPost(SpliceStep(g, e, conf, relOp, true).value)
  {
    if OpName(relOp) in conf {
      var peer := EndName(if OnSource(relOp) then e.source else e.target).value;
      UpdateRelationshipKeepsPreFirst(g, e.name, peer, relOp, AnchorOp(g, relOp, peer));
    }
  }

  lemma SpliceElementKeepsPreFirst(g: Graph, e: Element)
    requires PreNeverWaitsForPost(g)
    requires SpliceElement(g, e, true).Ok?
    ensures PreNeverWaitsForPost(SpliceElement(g, e, true).value)
  {
    if TypeCategory(e.typeName) == Some("relationships") && Interface(e.tmpl, "Configure").value.Some? {
      var c := Interface(e.tmpl, "Configure").value.value;
      var g1 := SpliceStep(g, e, c, PreConfigureSource, true).value;
      SpliceStepKeepsPreFirst(g, e, c, PreConfigureSource);
      var g2 := SpliceStep(g1, e, c, PreConfigureTarget, true).value;
      SpliceStepKeepsPreFirst(g1, e, c, PreConfigureTarget);
      var g3 := SpliceStep(g2, e, c, PostConfigureSource, true).value;
      SpliceStepKeepsPreFirst(g2, e, c, PostConfigureSource);
      var g4 := SpliceStep(g3, e, c, PostConfigureTarget, true).value;
      SpliceStepKeepsPreFirst(g3, e, c, PostConfigureTarget);
      SpliceStepKeepsPreFirst(g4, e, c, AddSource);
    }
  }

  /** With the corrected bans, however the templates are ordered, no
      relationship's `pre_configure_X` ends up waiting for its own
      `post_configure_X`: the two may run in parallel, as the comment at
      configuration_tool/providers/common/tosca_template.py:244-250 says of
      `post_configure_target` and `pre_configure_target` (and of the
      source pair) when the node has no `configure`. */
  lemma {:induction false} SpliceAllKeepsPreFirst(g: Graph, elements: seq<Element>)
    requires PreNeverWaitsForPost(g)
    requires SpliceAll(g, elements, true).Ok?
    ensures PreNeverWaitsForPost(SpliceAll(g, elements, true).value)
    decreases |elements|
  {
    if |elements| > 0 {
      SpliceElementKeepsPreFirst(g, elements[0]);
      SpliceAllKeepsPreFirst(SpliceElement(g, elements[0], true).value, elements[1..]);
    }
  }

  /** The template at the end of the relationship an operation runs next to. */
  function End(e: Element, relOp: Op): Option<Value>
  {
    if OnSource(relOp) then e.source else e.target
  }

  /** A step whose operation is declared is one relationship update. */
  lemma SpliceStepUpdates(g: Graph, e: Element, conf: set<string>, relOp: Op, corrected: bool)
    requires OpName(relOp) in conf
    requires SpliceStep(g, e, conf, relOp, corrected).Ok?
    ensures EndName(End(e, relOp)).Ok?
    ensures var peer := EndName(End(e, relOp)).value;
            SpliceStep(g, e, conf, relOp, corrected).value
              == UpdateRelationship(g, e.name, peer, relOp, AnchorOp(g, relOp, peer), Banned(relOp, corrected))
  {
  }

  /** As written, a relationship declaring both `pre_configure_target` and
      `post_configure_target`, whose target has no `configure` operation,
      makes `pre_configure_target` wait for `post_configure_target`: both are
      anchored on the target's `create`, and the second splice adds itself to
      everything that waits for that anchor, the first one included. */
  lemma AsWrittenPostConfigureBeforePre(g: Graph, e: Element, c: set<string>, target: string)
    requires TypeCategory(e.typeName) == Some("relationships")
    requires Interface(e.tmpl, "Configure") == Ok(Some(c))
    requires OpName(PreConfigureTarget) in c && OpName(PostConfigureTarget) in c
    requires e.target == Some(Str(target))
    requires OpKey(target, Configure) !in g
    requires SpliceElement(g, e, false).Ok?
    ensures var r := SpliceElement(g, e, false).value;
            OpKey(e.name, PreConfigureTarget) in r && OpKey(e.name, PostConfigureTarget) in r[OpKey(e.name, PreConfigureTarget)]
  {
    var g1 := SpliceStep(g, e, c, PreConfigureSource, false).value;
    var g2 := SpliceStep(g1, e, c, PreConfigureTarget, false).value;
    var g3 := SpliceStep(g2, e, c, PostConfigureSource, false).value;
    var g4 := SpliceStep(g3, e, c, PostConfigureTarget, false).value;
    assert SpliceElement(g, e, false) == SpliceStep(g4, e, c, AddSource, false);
    var pre := OpKey(e.name, PreConfigureTarget);
    var post := OpKey(e.name, PostConfigureTarget);
    var configure := OpKey(target, Configure);
    StepAddsNoKey(g, e, c, PreConfigureSource, false, configure);
    PreTargetAnchored(g1, e, c, target);
    StepAddsNoKey(g2, e, c, PostConfigureSource, false, configure);
    StepKeepsEdge(g2, e, c, PostConfigureSource, false, pre, OpKey(target, Create));
    PostTargetAfterPre(g3, e, c, target);
    StepKeepsEdge(g4, e, c, AddSource, false, pre, post);
  }

  /** A step keeps every edge. */
  lemma StepKeepsEdge(g: Graph, e: Element, conf: set<string>, relOp: Op, corrected: bool, k: OpKey, t: OpKey)
    requires SpliceStep(g, e, conf, relOp, corrected).Ok?
    requires k in g && t in g[k]
    ensures var r := SpliceStep(g, e, conf, relOp, corrected).value;
            k in r && t in r[k]
  {
  }

  /** A step adds no key other than the relationship's operation. */
  lemma StepAddsNoKey(g: Graph, e: Element, conf: set<string>, relOp: Op, corrected: bool, k: OpKey)
    requires SpliceStep(g, e, conf, relOp, corrected).Ok?
    requires k !in g && k.op != relOp
    ensures k !in SpliceStep(g, e, conf, relOp, corrected).value
  {
  }

  /** With no `configure` on the target, `pre_configure_target` waits for
      the target's `create`. */
  lemma PreTargetAnchored(g: Graph, e: Element, c: set<string>, target: string)
    requires OpName(PreConfigureTarget) in c
    requires e.target == Some(Str(target))
    requires OpKey(target, Configure) !in g
    requires SpliceStep(g, e, c, PreConfigureTarget, false).Ok?
    ensures var r := SpliceStep(g, e, c, PreConfigureTarget, false).value;
            var pre := OpKey(e.name, PreConfigureTarget);
            pre in r && OpKey(target, Create) in r[pre] && OpKey(target, Configure) !in r
  {
    SpliceStepUpdates(g, e, c, PreConfigureTarget, false);
    assert AnchorOp(g, PreConfigureTarget, target) == Create;
  }

  /** As written, `post_configure_target`, anchored on the same `create`,
      is added to everything that waits for it, `pre_configure_target`
      included. */
  lemma PostTargetAfterPre(g: Graph, e: Element, c: set<string>, target: string)
    requires OpName(PostConfigureTarget) in c
    requires e.target == Some(Str(target))
    requires OpKey(target, Configure) !in g
    requires OpKey(e.name, PreConfigureTarget) in g && OpKey(target, Create) in g[OpKey(e.name, PreConfigureTarget)]
    requires SpliceStep(g, e, c, PostConfigureTarget, false).Ok?
    ensures var r := SpliceStep(g, e, c, PostConfigureTarget, false).value;
            var pre := OpKey(e.name, PreConfigureTarget);
            pre in r && OpKey(e.name, PostConfigureTarget) in r[pre]
  {
    SpliceStepUpdates(g, e, c, PostConfigureTarget, false);
    assert AnchorOp(g, PostConfigureTarget, target) == Create;
    assert Banned(PostConfigureTarget, false) == {};
  }

  /** `pre_configure_source` and `add_source` of one relationship never
      wait for each other, provided the graph held none of that
      relationship's operations before its splice. */
  lemma PreConfigureSourceAndAddSourceIndependent(g: Graph, e: Element, corrected: bool)
    requires forall k :: k in g ==> k.name != e.name
    requires forall k, t :: k in g && t in g[k] ==> t.name != e.name
    requires SpliceElement(g, e, corrected).Ok?
    ensures var r := SpliceElement(g, e, corrected).value;
            var pcs := OpKey(e.name, PreConfigureSource);
            var add := OpKey(e.name, AddSource);
            (pcs in r ==> add !in r[pcs]) && (add in r ==> pcs !in r[add])
  {
    if TypeCategory(e.typeName) == Some("relationships") && Interface(e.tmpl, "Configure").value.Some? {
      var c := Interface(e.tmpl, "Configure").value.value;
      var g1 := SpliceStep(g, e, c, PreConfigureSource, corrected).value;
      var g2 := SpliceStep(g1, e, c, PreConfigureTarget, corrected).value;
      var g3 := SpliceStep(g2, e, c, PostConfigureSource, corrected).value;
      var g4 := SpliceStep(g3, e, c, PostConfigureTarget, corrected).value;
      assert SpliceElement(g, e, corrected) == SpliceStep(g4, e, c, AddSource, corrected);
      var add := OpKey(e.name, AddSource);
      NoNewTargetsOf(g, e, c, PreConfigureSource, corrected, add);
      NoNewTargetsOf(g1, e, c, PreConfigureTarget, corrected, add);
      NoNewTargetsOf(g2, e, c, PostConfigureSource, corrected, add);
      NoNewTargetsOf(g3, e, c, PostConfigureTarget, corrected, add);
      AddSourceStepIndependent(g4, e, c, corrected);
    }
  }

  /** The `add_source` step, on a graph that neither holds nor waits for
      the relationship's `add_source`. */
  lemma AddSourceStepIndependent(g: Graph, e: Element, c: set<string>, corrected: bool)
    requires OpKey(e.name, AddSource) !in g
    requires forall k, t :: k in g && t in g[k] ==> t != OpKey(e.name, AddSource)
    requires SpliceStep(g, e, c, AddSource, corrected).Ok?
    ensures var r := SpliceStep(g, e, c, AddSource, corrected).value;
            var pcs := OpKey(e.name, PreConfigureSource);
            var add := OpKey(e.name, AddSource);
            (pcs in r ==> add !in r[pcs]) && (add in r ==> pcs !in r[add])
  {
    if OpName(AddSource) in c {
      SpliceStepUpdates(g, e, c, AddSource, corrected);
      var pcs := OpKey(e.name, PreConfigureSource);
      assert pcs.op in Banned(AddSource, corrected);
    }
  }

  /** A step adds no edge towards, and no key for, an operation of the
      relationship other than its own. */
  lemma NoNewTargetsOf(g: Graph, e: Element, conf: set<string>, relOp: Op, corrected: bool, x: OpKey)
    requires x.name == e.name && x.op != relOp && x.op in RelationshipOps
    requires x !in g && forall k, t :: k in g && t in g[k] ==> t != x
    requires SpliceStep(g, e, conf, relOp, corrected).Ok?
    ensures var r := SpliceStep(g, e, conf, relOp, corrected).value;
            x !in r && forall k, t :: k in r && t in r[k] ==> t != x
  {
    if OpName(relOp) in conf {
      SpliceStepUpdates(g, e, conf, relOp, corrected);
    }
  }

  // ---------------------------------------------------------------------
  // The whole graph
  // ---------------------------------------------------------------------

  /** The graph after chaining, tying dependencies to operations and
      splicing the relationship operations, with the bans as written or
      corrected. */
  function SplicedGraph(elements: seq<Element>, templateDeps: map<string, set<string>>, corrected: bool): Result<Graph>
  {
    var raw :- ChainGraph(elements, Names(elements), templateDeps);
    SpliceAll(Remap(raw), elements, corrected)
  }

  /** The finished graph fails with the chains, and its every key is either
      a lifecycle operation of a template or a relationship operation. */
  lemma SplicedGraphKeys(elements: seq<Element>, templateDeps: map<string, set<string>>, corrected: bool)
    ensures ChainGraph(elements, Names(elements), templateDeps).Err? ==> SplicedGraph(elements, templateDeps, corrected).Err?
    ensures SplicedGraph(elements, templateDeps, corrected).Ok? ==>
              forall k :: k in SplicedGraph(elements, templateDeps, corrected).value ==>
                (k.name in Names(elements) && IsLifecycle(k.op)) || k.op in RelationshipOps
  {
    if SplicedGraph(elements, templateDeps, corrected).Ok? {
      var raw := ChainGraph(elements, Names(elements), templateDeps).value;
      ChainGraphKeys(elements, Names(elements), templateDeps);
      assert SplicedGraph(elements, templateDeps, corrected) == SpliceAll(Remap(raw), elements, corrected);
    }
  }

  /** Every relationship's `pre_configure_X` is free of its own
      `post_configure_X` in the finished graph. */
  lemma SplicedGraphPreFirst(elements: seq<Element>, templateDeps: map<string, set<string>>)
    requires SplicedGraph(elements, templateDeps, true).Ok?
    ensures PreNeverWaitsForPost(SplicedGraph(elements, templateDeps, true).value)
  {
    var raw := ChainGraph(elements, Names(elements), templateDeps).value;
    var g := Remap(raw);
    ChainGraphKeys(elements, Names(elements), templateDeps);
    assert forall k :: k in g ==> IsLifecycle(k.op);
    SpliceAllKeepsPreFirst(g, elements);
  }

  /** Each operation of a node's chain still runs after the previous one in
      the finished graph. */
  lemma ChainSurvives(elements: seq<Element>, templateDeps: map<string, set<string>>, corrected: bool, i: nat, std: Option<set<string>>, j: nat)
    requires DistinctNames(elements)
    requires i < |elements|
    requires TypeCategory(elements[i].typeName) == Some("nodes")
    requires Interface(elements[i].tmpl, "Standard") == Ok(std)
    requires 1 <= j < |LifecycleOps(std)|
    requires SplicedGraph(elements, templateDeps, corrected).Ok?
    ensures var g := SplicedGraph(elements, templateDeps, corrected).value;
            var n := elements[i].name;
            var ops := LifecycleOps(std);
            OpKey(n, ops[j]) in g && OpKey(n, ops[j - 1]) in g[OpKey(n, ops[j])]
  {
    var raw := ChainGraph(elements, Names(elements), templateDeps).value;
    RemappedChainEdge(elements, templateDeps, i, std, j);
    assert SplicedGraph(elements, templateDeps, corrected) == SpliceAll(Remap(raw), elements, corrected);
  }

  /** In the finished graph each operation a relationship's `Configure`
      interface declares waits for the peer's `configure` (for
      `post_configure_*`, when the peer has one) or else its `create`. */
  lemma SplicedGraphAnchors(elements: seq<Element>, templateDeps: map<string, set<string>>, corrected: bool, i: nat, relOp: Op)
    requires SplicedGraph(elements, templateDeps, corrected).Ok?
    requires i < |elements| && relOp in RelationshipOps
    requires Declares(elements[i], relOp)
    ensures Peer(elements[i], relOp).Ok?
    ensures var g := SplicedGraph(elements, templateDeps, corrected).value;
            var peer := Peer(elements[i], relOp).value;
            OpKey(elements[i].name, relOp) in g && OpKey(peer, AnchorOp(g, relOp, peer)) in g[OpKey(elements[i].name, relOp)]
  {
    var raw := ChainGraph(elements, Names(elements), templateDeps).value;
    var g := SplicedGraph(elements, templateDeps, corrected).value;
    assert SplicedGraph(elements, templateDeps, corrected) == SpliceAll(Remap(raw), elements, corrected);
    SpliceAllAnchors(Remap(raw), elements, corrected, i, elements[i], relOp);
    SpliceAllAddsNoConfigure(Remap(raw), elements, corrected);
    AnchorStable(Remap(raw), g, relOp, Peer(elements[i], relOp).value);
  }

  lemma RemappedChainEdge(elements: seq<Element>, templateDeps: map<string, set<string>>, i: nat, std: Option<set<string>>, j: nat)
    requires DistinctNames(elements)
    requires i < |elements|
    requires TypeCategory(elements[i].typeName) == Some("nodes")
    requires Interface(elements[i].tmpl, "Standard") == Ok(std)
    requires 1 <= j < |LifecycleOps(std)|
    requires ChainGraph(elements, Names(elements), templateDeps).Ok?
    ensures var g := Remap(ChainGraph(elements, Names(elements), templateDeps).value);
            var n := elements[i].name;
            var ops := LifecycleOps(std);
            OpKey(n, ops[j]) in g && OpKey(n, ops[j - 1]) in g[OpKey(n, ops[j])]
  {
    var raw := ChainGraph(elements, Names(elements), templateDeps).value;
    var n := elements[i].name;
    var ops := LifecycleOps(std);
    RawChainEdge(elements, templateDeps, i, std, j);
    RemapKeepsRef(raw, OpKey(n, ops[j]), OpKey(n, ops[j - 1]));
  }

  lemma RawChainEdge(elements: seq<Element>, templateDeps: map<string, set<string>>, i: nat, std: Option<set<string>>, j: nat)
    requires DistinctNames(elements)
    requires i < |elements|
    requires TypeCategory(elements[i].typeName) == Some("nodes")
    requires Interface(elements[i].tmpl, "Standard") == Ok(std)
    requires 1 <= j < |LifecycleOps(std)|
    requires ChainGraph(elements, Names(elements), templateDeps).Ok?
    ensures var raw := ChainGraph(elements, Names(elements), templateDeps).value;
            var n := elements[i].name;
            var ops := LifecycleOps(std);
            OpKey(n, ops[j]) in raw && OpKey(n, ops[j - 1]) in raw && OpRef(OpKey(n, ops[j - 1])) in raw[OpKey(n, ops[j])]
  {
    var names := Names(elements);
    var n := elements[i].name;
    var ops := LifecycleOps(std);
    NodeElementChain(elements[i], names, templateDeps, std);
    ChainLink(n, ops, CreateDeps(n, names, templateDeps), j);
    ChainGraphElement(elements, names, templateDeps, i, OpKey(n, ops[j - 1]));
    ChainGraphElement(elements, names, templateDeps, i, OpKey(n, ops[j]));
  }

  /** The chain of a node template is its node chain. */
  lemma NodeElementChain(e: Element, names: set<string>, templateDeps: map<string, set<string>>, std: Option<set<string>>)
    requires TypeCategory(e.typeName) == Some("nodes")
    requires Interface(e.tmpl, "Standard") == Ok(std)
    ensures ElementChain(e, names, templateDeps) == Ok(NodeChain(e.name, LifecycleOps(std), CreateDeps(e.name, names, templateDeps)))
  {
  }

  /** Two neighbouring operations of a chain are both keys, the later one
      waiting for the earlier. */
  lemma ChainLink(n: string, ops: seq<Op>, createDeps: set<Dep>, j: nat)
    requires |ops| >= 1 && ops[0] == Create
    requires forall a, b :: 0 <= a < b < |ops| ==> Rank(ops[a]) < Rank(ops[b])
    requires 1 <= j < |ops|
    ensures var c := NodeChain(n, ops, createDeps);
            OpKey(n, ops[j - 1]) in c && OpKey(n, ops[j]) in c && OpRef(OpKey(n, ops[j - 1])) in c[OpKey(n, ops[j])]
  {
    var c := NodeChain(n, ops, createDeps);
    NodeChainShape(n, ops, createDeps);
    assert ops[j - 1] in ops && ops[j] in ops;
    assert OpKey(n, ops[j - 1]).op in ops && OpKey(n, ops[j]).op in ops;
  }

  /** A dependency on an existing key survives the remapping unchanged. */
  lemma RemapKeepsRef(raw: RawGraph, k: OpKey, t: OpKey)
    requires k in raw && t in raw && OpRef(t) in raw[k]
    ensures k in Remap(raw) && t in Remap(raw)[k]
  {
    assert Resolve(raw, OpRef(t)) == Some(t);
  }

  /** A template-level dependency `x` of node `n` becomes, in the finished
      graph, a dependency of `n:create` on the latest operation of `x`. */
  lemma CreateWaitsForLatest(elements: seq<Element>, templateDeps: map<string, set<string>>, corrected: bool, i: nat, x: string)
    requires DistinctNames(elements)
    requires i < |elements|
    requires TypeCategory(elements[i].typeName) == Some("nodes")
    requires x in Names(elements)
    requires elements[i].name in templateDeps && x in templateDeps[elements[i].name]
    requires SplicedGraph(elements, templateDeps, corrected).Ok?
    requires LatestOperation(ChainGraph(elements, Names(elements), templateDeps).value, x).Some?
    ensures var g := SplicedGraph(elements, templateDeps, corrected).value;
            var raw := ChainGraph(elements, Names(elements), templateDeps).value;
            var create := OpKey(elements[i].name, Create);
            create in g && LatestOperation(raw, x).value in g[create]
  {
    var names := Names(elements);
    var raw := ChainGraph(elements, names, templateDeps).value;
    var create := OpKey(elements[i].name, Create);
    RawCreateDep(elements, templateDeps, i, x);
    RemapKeepsName(raw, create, x);
    assert SplicedGraph(elements, templateDeps, corrected) == SpliceAll(Remap(raw), elements, corrected);
  }

  /** Before the remapping, `n:create` lists `x` by name. */
  lemma RawCreateDep(elements: seq<Element>, templateDeps: map<string, set<string>>, i: nat, x: string)
    requires DistinctNames(elements)
    requires i < |elements|
    requires TypeCategory(elements[i].typeName) == Some("nodes")
    requires x in Names(elements)
    requires elements[i].name in templateDeps && x in templateDeps[elements[i].name]
    requires ChainGraph(elements, Names(elements), templateDeps).Ok?
    ensures var raw := ChainGraph(elements, Names(elements), templateDeps).value;
            var create := OpKey(elements[i].name, Create);
            create in raw && NameRef(x) in raw[create]
  {
    var names := Names(elements);
    var n := elements[i].name;
    ChainGraphElement(elements, names, templateDeps, i, OpKey(n, Create));
    var std := Interface(elements[i].tmpl, "Standard").value;
    NodeElementChain(elements[i], names, templateDeps, std);
    var c := NodeChain(n, LifecycleOps(std), CreateDeps(n, names, templateDeps));
    NodeChainShape(n, LifecycleOps(std), CreateDeps(n, names, templateDeps));
    assert OpKey(n, Create) in c;
    assert NameRef(x) in CreateDeps(n, names, templateDeps);
  }

  /** A dependency on a template by name becomes one on its latest
      operation. */
  lemma RemapKeepsName(raw: RawGraph, k: OpKey, x: string)
    requires k in raw && NameRef(x) in raw[k]
    requires LatestOperation(raw, x).Some?
    ensures k in Remap(raw) && LatestOperation(raw, x).value in Remap(raw)[k]
  {
    assert Resolve(raw, NameRef(x)) == LatestOperation(raw, x);
  }

  /** Every operation depended upon is itself a key; the source indexes its
      template table with each one and raises `KeyError` otherwise. */
  predicate Closed(g: Graph)
  {
    forall k, t :: k in g && t in g[k] ==> t in g
  }

  predicate NoDuplicates<T(==)>(s: seq<T>)
  {
    forall i, j :: 0 <= i < j < |s| ==> s[i] != s[j]
  }

  /** A list holding the members of a set, each once, in some order. */
  method ToList(s: set<OpKey>) returns (xs: seq<OpKey>)
    ensures forall x :: x in xs <==> x in s
    ensures NoDuplicates(xs)
  {
    xs := [];
    var rest := s;
    while rest != {}
      invariant rest <= s
      invariant forall x :: x in xs <==> x in s && x !in rest
      invariant NoDuplicates(xs)
      decreases |rest|
    {
      var x :| x in rest;
      xs := xs + [x];
      rest := rest - {x};
    }
  }

  /** `rev` is a well-formed partial reversal of `g`: every listed pair is
      an edge of `g`, and no list is empty or repeats itself. */
  predicate PartialReverse(g: Graph, rev: map<OpKey, seq<OpKey>>)
  {
    && (forall b :: b in rev ==> forall a :: a in rev[b] ==> a in g && b in g[a])
    && (forall b :: b in rev ==> |rev[b]| > 0 && NoDuplicates(rev[b]))
  }

  /** `reversed_templ_dependencies`: `b` lists `a` exactly when `a` depends
      on `b`, each `a` once. Keys that nothing depends on are absent. */
  method Reverse(g: Graph) returns (rev: map<OpKey, seq<OpKey>>)
    ensures forall a, b :: a in g && b in g[a] ==> b in rev && a in rev[b]
    ensures forall b :: b in rev ==> forall a :: a in rev[b] ==> a in g && b in g[a]
    ensures forall b :: b in rev ==> |rev[b]| > 0 && NoDuplicates(rev[b])
  {
    rev := map[];
    var todo := g.Keys;
    while todo != {}
      invariant todo <= g.Keys
      invariant forall a, b :: a in g && a !in todo && b in g[a] ==> b in rev && a in rev[b]
      invariant PartialReverse(g, rev)
      decreases |todo|
    {
      var a :| a in todo;
      var before := rev;
      rev := AddReversed(g, rev, a);
      forall a', b | a' in g && a' !in todo && b in g[a']
        ensures b in rev && a' in rev[b]
      {
        assert b in before && a' in before[b];
      }
      todo := todo - {a};
    }
  }

  /** Lists `a` under each operation it depends on. Nothing listed before
      is lost. */
  method AddReversed(g: Graph, rev0: map<OpKey, seq<OpKey>>, a: OpKey) returns (rev: map<OpKey, seq<OpKey>>)
    requires a in g
    requires PartialReverse(g, rev0)
    ensures PartialReverse(g, rev)
    ensures forall b :: b in g[a] ==> b in rev && a in rev[b]
    ensures forall b, a' :: b in rev0 && a' in rev0[b] ==> b in rev && a' in rev[b]
  {
    rev := rev0;
    var targets := g[a];
    while targets != {}
      invariant targets <= g[a]
      invariant forall b, a' :: b in rev0 && a' in rev0[b] ==> b in rev && a' in rev[b]
      invariant forall b :: b in g[a] && b !in targets ==> b in rev && a in rev[b]
      invariant PartialReverse(g, rev)
      decreases |targets|
    {
      var b :| b in targets;
      if b !in rev {
        rev := rev[b := [a]];
      } else if a !in rev[b] {
        rev := rev[b := rev[b] + [a]];
      }
      targets := targets - {b};
    }
  }

  /** The two graphs the translator schedules with: `forward` for
      deployment, `reversed` for teardown. */
  datatype Schedule = Schedule(forward: map<OpKey, seq<OpKey>>, reversed: map<OpKey, seq<OpKey>>)

  /** `templ_dependencies`: each operation's dependencies as a list. */
  method ForwardLists(g: Graph) returns (forward: map<OpKey, seq<OpKey>>)
    ensures forward.Keys == g.Keys
    ensures forall k :: k in g ==> NoDuplicates(forward[k]) && forall t :: t in forward[k] <==> t in g[k]
  {
    forward := map[];
    var todo := g.Keys;
    while todo != {}
      invariant todo <= g.Keys
      invariant forward.Keys == g.Keys - todo
      invariant forall k :: k in forward ==> NoDuplicates(forward[k]) && forall t :: t in forward[k] <==> t in g[k]
      decreases |todo|
    {
      var k :| k in todo;
      var xs := ToList(g[k]);
      forward := forward[k := xs];
      todo := todo - {k};
    }
  }

  /** `s` lays out `g`: one duplicate-free list per node holding exactly
      its dependencies, and, for more than one node, the reversed lists
      holding exactly the dependants. */
  ghost predicate LaysOut(g: Graph, s: Schedule)
  {
    && s.forward.Keys == g.Keys
    && (forall k :: k in g ==> NoDuplicates(s.forward[k]) && forall t :: t in s.forward[k] <==> t in g[k])
    && (|g| <= 1 ==> s.reversed == s.forward)
    && (|g| > 1 ==>
          && (forall a, b :: a in g && b in g[a] ==> b in s.reversed && a in s.reversed[b])
          && (forall b :: b in s.reversed ==> forall a :: a in s.reversed[b] ==> a in g && b in g[a])
          && (forall b :: b in s.reversed ==> NoDuplicates(s.reversed[b])))
  }

  /** The last part of `sort_nodes_and_operations_by_graph_dependency`:
      the graph as lists, and its reversal. It fails exactly when some
      dependency is not an operation of the graph; otherwise `forward`
      lists each operation's dependencies and `reversed` is its inverse,
      except that a graph of at most one operation is its own reversal. */
  method Materialize(g: Graph) returns (r: Result<Schedule>)
    ensures r.Ok? <==> Closed(g)
    ensures r.Ok? ==> LaysOut(g, r.value)
  {
    if !Closed(g) {
      return Err(UnknownDependency);
    }
    var forward := ForwardLists(g);
    var reversed := Reverse(g);
    if |g| <= 1 {
      reversed := forward;
    }
    return Ok(Schedule(forward, reversed));
  }

  /** `sort_nodes_and_operations_by_graph_dependency`: build the graph,
      then lay it out as lists together with its reversal. */
  method SortByGraphDependency(elements: seq<Element>, templateDeps: map<string, set<string>>, corrected: bool)
    returns (r: Result<Schedule>)
    ensures SplicedGraph(elements, templateDeps, corrected).Err? ==> r.Err?
    ensures SplicedGraph(elements, templateDeps, corrected).Ok? ==> (r.Ok? <==> Closed(SplicedGraph(elements, templateDeps, corrected).value))
    ensures r.Ok? ==> SplicedGraph(elements, templateDeps, corrected).Ok?
    ensures r.Ok? ==> LaysOut(SplicedGraph(elements, templateDeps, corrected).value, r.value)
  {
    var spliced := SplicedGraph(elements, templateDeps, corrected);
    if spliced.Err? {
      return Err(spliced.msg);
    }
    r := Materialize(spliced.value);
  }
}

=== FILE: provider_resource.dfy ===
/** The preparation of one provider resource before it is handed to a
    configuration tool: defaults, configuration arguments, the host a node
    runs on, its requirement definitions and the shaping of node-filter
    lookups. The provider requirement objects, the provider configuration
    and the artifact executor are calls into code outside this model; they
    are inputs here. */
module ProviderResource {
  import opened Wrappers
  import opened Values
  import opened Utils
  import opened TemplateDependencies

  // Error messages, as the source raises or reports them.
  const ArgumentNotMapping := "AttributeError: argument has no attribute 'get'"
  const ExceptionsNotMapping := "AttributeError: exceptions have no attribute 'get'"
  const PropertyDefinitionNotMapping := "AttributeError: property definition has no attribute 'get'"
  const RequirementDefinitionNotMapping := "AttributeError: requirement definition has no attribute 'items'"
  const SourceNotMapping := "AttributeError: source has no attribute 'get'"
  const TypeNotString := "AttributeError: type has no attribute 'split'"
  const SecondHost := "Node can be hosted only on one node"
  const UnsupportedFilterParams := "Not supported type of node filter params"
  const InnerVariableUnsupported := "Provider configuration parameter 'ansible.node_filter: node_filter_inner_variable' has unsupported value"
  const ConcatenateNonStr := "TypeError: can only concatenate str to str"
  const RequirementParamsNotMapping := "TypeError: requirement parameters do not support item assignment"
  const TemplateNotMap := "template is not a map"

  const TypeKey := "type"
  const PropertiesKey := "properties"
  const DefaultKey := "default"
  const RequirementsKey := "requirements"
  const NameKey := "name"
  const PublicAddress := "public_address"
  const PrivateAddress := "private_address"
  const HostedOnType := "HostedOn"

  /** `tmpl[TYPE]`: a missing key is a `KeyError`. */
  function TemplateTypeOf(tmpl: Value): (r: Result<Value>)
    ensures r.Ok? <==> tmpl.Dict? && Lookup(tmpl.entries, TypeKey).Some?
    ensures r.Ok? ==> Lookup(tmpl.entries, TypeKey) == Some(r.value)
  {
    if !tmpl.Dict? then Err(TemplateNotMap)
    else match Lookup(tmpl.entries, TypeKey)
      case None => Err("KeyError: type")
      case Some(t) => Ok(t)
  }

  /** `type_name`: the part of the template's type after its second dot, or
      none when the type has fewer than two dots. */
  function TypeName(tmpl: Value): (r: Result<Option<string>>)
    ensures r.Ok? <==> TemplateTypeOf(tmpl).Ok? && TemplateTypeOf(tmpl).value.Str?
    ensures r.Ok? ==> (r.value.Some? <==> Count(TemplateTypeOf(tmpl).value.s, '.') >= 2)
    ensures r.Ok? && r.value.Some? ==> exists ns, cat :: '.' !in ns && '.' !in cat && ns + "." + cat + "." + r.value.value == TemplateTypeOf(tmpl).value.s
  {
    var t :- TemplateTypeOf(tmpl);
    if !t.Str? then Err(TypeNotString)
    else
      var parsed := TypeParse(t.s);
      if parsed.None? then Ok(None)
      else
        var (ns, cat, n) := parsed.value;
        assert ns + "." + cat + "." + n == t.s;
        Ok(Some(n))
  }

  /** `tmpl.get(PROPERTIES, {})`. */
  function PropertiesOf(tmpl: Entries): (r: Result<Entries>)
    ensures Lookup(tmpl, PropertiesKey).None? ==> r == Ok([])
    ensures r.Ok? && Lookup(tmpl, PropertiesKey).Some? ==> Lookup(tmpl, PropertiesKey) == Some(Dict(r.value))
  {
    DictOrEmpty(Lookup(tmpl, PropertiesKey), "properties")
  }

  /** The non-null default a property definition declares, if any. */
  function DefaultOf(propDef: Value): (r: Option<Value>)
    ensures r.Some? <==> propDef.Dict? && !IsNone(Lookup(propDef.entries, DefaultKey))
    ensures r.Some? ==> Lookup(propDef.entries, DefaultKey) == Some(r.value) && !r.value.Null?
  {
    if propDef.Dict? && !IsNone(Lookup(propDef.entries, DefaultKey)) then Lookup(propDef.entries, DefaultKey) else None
  }

  /** The value `set_defaults` leaves for property `n`: the declared
      default when the template has no value or a null one, else the
      template's own value. */
  function DefaultedValue(defProps: Entries, props: Entries, n: string): Option<Value>
  {
    if n in KeySet(defProps) && DefaultOf(Lookup(defProps, n).value).Some? && IsNone(Lookup(props, n))
    then DefaultOf(Lookup(defProps, n).value)
    else Lookup(props, n)
  }

  /** One property definition of the loop in `set_defaults`. */
  function SetDefault(tmpl: Entries, propName: string, propDef: Value): (r: Result<Entries>)
    ensures r.Ok? <==> PropertiesOf(tmpl).Ok? && propDef.Dict?
    ensures r.Ok? ==> forall k :: k != PropertiesKey ==> Lookup(r.value, k) == Lookup(tmpl, k)
    ensures r.Ok? ==> PropertiesOf(r.value).Ok?
    ensures r.Ok? ==> forall n :: n != propName ==> Lookup(PropertiesOf(r.value).value, n) == Lookup(PropertiesOf(tmpl).value, n)
    ensures r.Ok? ==> Lookup(PropertiesOf(r.value).value, propName) == DefaultedValue([(propName, propDef)], PropertiesOf(tmpl).value, propName)
  {
    var props :- PropertiesOf(tmpl);
    if !propDef.Dict? then Err(PropertyDefinitionNotMapping)
    else if DefaultOf(propDef).Some? && IsNone(Lookup(props, propName)) then
      Ok(Put(tmpl, PropertiesKey, Dict(Put(props, propName, DefaultOf(propDef).value))))
    else Ok(tmpl)
  }

  /** The declared properties of a type definition. */
  function DeclaredProperties(typeDef: Entries): (r: Result<Entries>)
    ensures Lookup(typeDef, PropertiesKey).None? ==> r == Ok([])
  {
    DictOrEmpty(Lookup(typeDef, PropertiesKey), "properties")
  }

  /** Every property definition has the shape `set_defaults` reads. */
  predicate PropertyDefsAreMaps(defProps: Entries)
  {
    forall j :: 0 <= j < |defProps| ==> defProps[j].1.Dict?
  }

  function SetDefaultsFrom(tmpl: Entries, defProps: Entries): (r: Result<Entries>)
    ensures r.Ok? ==> forall k :: k != PropertiesKey ==> Lookup(r.value, k) == Lookup(tmpl, k)
    ensures PropertiesOf(tmpl).Ok? && PropertyDefsAreMaps(defProps) ==> r.Ok?
    ensures |defProps| > 0 && (PropertiesOf(tmpl).Err? || !PropertyDefsAreMaps(defProps)) ==> r.Err?
    decreases |defProps|
  {
    if |defProps| == 0 then Ok(tmpl)
    else
      var t1 :- SetDefault(tmpl, defProps[0].0, defProps[0].1);
      assert PropertyDefsAreMaps(defProps) ==> PropertyDefsAreMaps(defProps[1..]) by {
        if PropertyDefsAreMaps(defProps) {
          forall j | 0 <= j < |defProps[1..]| ensures defProps[1..][j].1.Dict? {
            assert defProps[1..][j] == defProps[j + 1];
          }
        }
      }
      assert !PropertyDefsAreMaps(defProps) && defProps[0].1.Dict? ==> |defProps[1..]| > 0 && !PropertyDefsAreMaps(defProps[1..]) by {
        if !PropertyDefsAreMaps(defProps) && defProps[0].1.Dict? {
          var j :| 0 <= j < |defProps| && !defProps[j].1.Dict?;
          assert defProps[1..][j - 1] == defProps[j];
        }
      }
      SetDefaultsFrom(t1, defProps[1..])
  }

  /** `set_defaults`: the template with every declared default filled in.
      A template or type definition whose properties are not maps is an
      `AttributeError`. */
  function SetDefaults(tmpl: Entries, typeDef: Entries): (r: Result<Entries>)
    ensures r.Ok? ==> forall k :: k != PropertiesKey ==> Lookup(r.value, k) == Lookup(tmpl, k)
  {
    var defProps :- DeclaredProperties(typeDef);
    SetDefaultsFrom(tmpl, defProps)
  }

  lemma {:induction false} SetDefaultsFromFills(tmpl: Entries, defProps: Entries)
    requires DistinctKeys(defProps) && PropertiesOf(tmpl).Ok?
    requires SetDefaultsFrom(tmpl, defProps).Ok?
    ensures PropertiesOf(SetDefaultsFrom(tmpl, defProps).value).Ok?
    ensures forall n :: Lookup(PropertiesOf(SetDefaultsFrom(tmpl, defProps).value).value, n) == DefaultedValue(defProps, PropertiesOf(tmpl).value, n)
    decreases |defProps|
  {
    if |defProps| > 0 {
      var t1 := SetDefault(tmpl, defProps[0].0, defProps[0].1).value;
      assert SetDefaultsFrom(tmpl, defProps) == SetDefaultsFrom(t1, defProps[1..]);
      SetDefaultsFromFills(t1, defProps[1..]);
      forall n ensures DefaultedValue(defProps[1..], PropertiesOf(t1).value, n) == DefaultedValue(defProps, PropertiesOf(tmpl).value, n) {
        DefaultedValueCons(defProps, PropertiesOf(tmpl).value, PropertiesOf(t1).value, n);
      }
    }
  }

  /** Filling the first declared default and then the rest is filling all
      of them, when no property is declared twice. */
  lemma DefaultedValueCons(defProps: Entries, props: Entries, props1: Entries, n: string)
    requires |defProps| > 0 && DistinctKeys(defProps)
    requires n != defProps[0].0 ==> Lookup(props1, n) == Lookup(props, n)
    requires Lookup(props1, defProps[0].0) == DefaultedValue([defProps[0]], props, defProps[0].0)
    ensures DefaultedValue(defProps[1..], props1, n) == DefaultedValue(defProps, props, n)
  {
    if n == defProps[0].0 {
      assert n !in KeySet(defProps[1..]);
      assert Lookup(defProps, n) == Lookup([defProps[0]], n);
    } else {
      assert Lookup(defProps, n) == Lookup(defProps[1..], n);
    }
  }

  /** Every declared property with a non-null default that the template
      leaves missing or null gets that default; every other property of the
      template keeps its value, and so does every other key of the
      template. */
  lemma SetDefaultsFills(tmpl: Entries, typeDef: Entries)
    requires DeclaredProperties(typeDef).Ok? && DistinctKeys(DeclaredProperties(typeDef).value)
    requires PropertiesOf(tmpl).Ok? && SetDefaults(tmpl, typeDef).Ok?
    ensures PropertiesOf(SetDefaults(tmpl, typeDef).value).Ok?
    ensures forall n :: Lookup(PropertiesOf(SetDefaults(tmpl, typeDef).value).value, n) == DefaultedValue(DeclaredProperties(typeDef).value, PropertiesOf(tmpl).value, n)
  {
    SetDefaultsFromFills(tmpl, DeclaredProperties(typeDef).value);
  }

  /** The loop that starts the configuration arguments: each declared
      property whose template value is not null, in declaration order. */
  function ArgumentsFrom(args: Entries, props: Entries, defProps: Entries): (r: Entries)
    ensures forall k :: Lookup(r, k) == if k in KeySet(defProps) && !IsNone(Lookup(props, k)) then Lookup(props, k) else Lookup(args, k)
    decreases |defProps|
  {
    if |defProps| == 0 then args
    else
      var k := defProps[0].0;
      var args1 := if IsNone(Lookup(props, k)) then args else Put(args, k, Lookup(props, k).value);
      ArgumentsFrom(args1, props, defProps[1..])
  }

  /** The configuration arguments of a resource before capabilities,
      artifacts and requirements are added: the declared properties the
      template gives a non-null value, with that value. */
  function ConfigurationArgs(tmpl: Entries, typeDef: Entries): (r: Result<Entries>)
    ensures r.Ok? ==> DeclaredProperties(typeDef).Ok?
    ensures r.Ok? && |DeclaredProperties(typeDef).value| > 0 ==> PropertiesOf(tmpl).Ok?
    ensures r.Ok? ==> forall k :: Lookup(r.value, k).Some? <==> k in KeySet(DeclaredProperties(typeDef).value) && !IsNone(Lookup(PropertiesOf(tmpl).value, k))
    ensures r.Ok? ==> forall k :: Lookup(r.value, k).Some? ==> Lookup(r.value, k) == Lookup(PropertiesOf(tmpl).value, k)
    ensures DeclaredProperties(typeDef).Ok? && PropertiesOf(tmpl).Ok? ==> r.Ok?
  {
    var defProps :- DeclaredProperties(typeDef);
    if |defProps| == 0 then Ok([])
    else
      var props :- PropertiesOf(tmpl);
      Ok(ArgumentsFrom([], props, defProps))
  }

  /** Defaults become arguments: after `set_defaults`, every declared
      property with a non-null default is a configuration argument, holding
      the template's value when it had a non-null one and the default
      otherwise. */
  lemma DefaultsBecomeArguments(tmpl: Entries, typeDef: Entries, n: string)
    requires DeclaredProperties(typeDef).Ok? && DistinctKeys(DeclaredProperties(typeDef).value)
    requires PropertiesOf(tmpl).Ok? && SetDefaults(tmpl, typeDef).Ok?
    requires n in KeySet(DeclaredProperties(typeDef).value) && DefaultOf(Lookup(DeclaredProperties(typeDef).value, n).value).Some?
    ensures ConfigurationArgs(SetDefaults(tmpl, typeDef).value, typeDef).Ok?
    ensures Lookup(ConfigurationArgs(SetDefaults(tmpl, typeDef).value, typeDef).value, n) ==
            if IsNone(Lookup(PropertiesOf(tmpl).value, n)) then DefaultOf(Lookup(DeclaredProperties(typeDef).value, n).value)
            else Lookup(PropertiesOf(tmpl).value, n)
  {
    SetDefaultsFills(tmpl, typeDef);
  }

  /** `relation_target_source.get(name, {}).get(...)`: the source and
      target recorded for a relationship template, none when unrecorded. */
  function RelationSourceTarget(relations: map<string, RelationEnds>, name: string): (r: (Option<Value>, Option<Value>))
    ensures name !in relations ==> r == (None, None)
    ensures name in relations ==> r.0 == Some(Str(relations[name].source))
    ensures name in relations ==> r.1 == relations[name].target
  {
    if name in relations then (Some(Str(relations[name].source)), relations[name].target) else (None, None)
  }

  /** A relationship template named by a requirement has the requiring node
      as its source and the requirement's `node` as its target. */
  lemma RelationEndsFromRequirement(name: string, body: Value, res: Resolution, x: string)
    requires ResolveRequirementBody(name, body, res).Ok?
    requires RelationNamed(body) == Some(x)
    ensures RelationSourceTarget(ResolveRequirementBody(name, body, res).value.relations, x)
         == (Some(Str(name)), NoneIfNull(Lookup(body.entries, "node")))
  {
  }

  /** A requirement as the provider requirement objects present it: the
      relationship type of its definition and the node its data names. */
  datatype Requirement = Requirement(relationship: string, node: string)

  predicate IsHostedOn(req: Requirement)
  {
    ShortTypeName(req.relationship) == Some(HostedOnType)
  }

  /** The host address parameter: anything but the public or private
      address means the private one. */
  function HostIpParameter(p: string): (r: string)
    ensures r == PublicAddress || r == PrivateAddress
    ensures p == PublicAddress || p == PrivateAddress ==> r == p
  {
    if p == PublicAddress || p == PrivateAddress then p else PrivateAddress
  }

  function HostName(req: Requirement, hostIp: string): string
  {
    req.node + "_" + HostIpParameter(hostIp)
  }

  function HostedOnCount(reqs: seq<Requirement>): (n: nat)
    ensures n <= |reqs|
  {
    if |reqs| == 0 then 0 else (if IsHostedOn(reqs[0]) then 1 else 0) + HostedOnCount(reqs[1..])
  }

  /** The position of the first hosting requirement. */
  function FirstHostedOn(reqs: seq<Requirement>): (i: nat)
    requires HostedOnCount(reqs) > 0
    ensures i < |reqs| && IsHostedOn(reqs[i])
    ensures forall j :: 0 <= j < i ==> !IsHostedOn(reqs[j])
  {
    assert reqs[0..] == reqs;
    FirstHostedOnFrom(reqs, 0)
  }

  /** The position of the first hosting requirement at or after `k`. */
  function FirstHostedOnFrom(reqs: seq<Requirement>, k: nat): (i: nat)
    requires k <= |reqs| && HostedOnCount(reqs[k..]) > 0
    ensures k <= i < |reqs| && IsHostedOn(reqs[i])
    ensures forall j :: k <= j < i ==> !IsHostedOn(reqs[j])
    decreases |reqs| - k
  {
    if IsHostedOn(reqs[k]) then k
    else
      assert reqs[k..][1..] == reqs[k + 1..];
      FirstHostedOnFrom(reqs, k + 1)
  }

  /** The host of a node, from its requirements in order: a HostedOn
      requirement sets it to the target node and the address parameter, and
      a second one is an error. */
  function HostFrom(reqs: seq<Requirement>, host: Option<string>, hostIp: string): (r: Result<Option<string>>)
    ensures r.Err? <==> HostedOnCount(reqs) + (if host.Some? then 1 else 0) >= 2
    ensures HostedOnCount(reqs) == 0 ==> r == Ok(host)
    ensures HostedOnCount(reqs) == 1 && host.None? ==> r == Ok(Some(HostName(reqs[FirstHostedOn(reqs)], hostIp)))
  {
    if |reqs| == 0 then Ok(host)
    else if IsHostedOn(reqs[0]) then
      if host.Some? then Err(SecondHost)
      else HostFrom(reqs[1..], Some(HostName(reqs[0], hostIp)), hostIp)
    else
      assert HostedOnCount(reqs) > 0 ==> FirstHostedOn(reqs) == 1 + FirstHostedOn(reqs[1..]) by {
        if HostedOnCount(reqs) > 0 {
          FirstHostedOnTail(reqs);
        }
      }
      HostFrom(reqs[1..], host, hostIp)
  }

  /** Past a first requirement that does not host, the first hosting one
      is one further along in the rest. */
  lemma FirstHostedOnTail(reqs: seq<Requirement>)
    requires HostedOnCount(reqs) > 0 && !IsHostedOn(reqs[0])
    ensures HostedOnCount(reqs[1..]) > 0
    ensures FirstHostedOn(reqs) == 1 + FirstHostedOn(reqs[1..])
  {
    var i := FirstHostedOn(reqs);
    var i' := FirstHostedOn(reqs[1..]);
    assert reqs[1..][i - 1] == reqs[i];
    assert reqs[1..][i'] == reqs[1 + i'];
  }

  /** The `host` of a node resource. */
  function Host(reqs: seq<Requirement>, hostIp: string): (r: Result<Option<string>>)
    ensures r.Err? <==> HostedOnCount(reqs) >= 2
    ensures r == Ok(None) <==> HostedOnCount(reqs) == 0
    ensures HostedOnCount(reqs) == 1 ==> r == Ok(Some(HostName(reqs[FirstHostedOn(reqs)], hostIp)))
  {
    HostFrom(reqs, None, hostIp)
  }

  /** The host name is the target node, an underscore and one of the two
      address parameters. */
  lemma HostNameShape(reqs: seq<Requirement>, hostIp: string, h: string)
    requires Host(reqs, hostIp) == Ok(Some(h))
    ensures exists i :: 0 <= i < |reqs| && IsHostedOn(reqs[i]) && (h == reqs[i].node + "_" + PublicAddress || h == reqs[i].node + "_" + PrivateAddress)
  {
    var i := FirstHostedOn(reqs);
    assert h == reqs[i].node + "_" + HostIpParameter(hostIp);
  }

  /** The `(name, params)` pairs of a list of requirement definitions, in
      declaration order; an item that is not a map contributes none. */
  function RequirementPairs(items: seq<Value>): (r: Entries)
    decreases |items|
  {
    if |items| == 0 then [] else (if items[0].Dict? then items[0].entries else []) + RequirementPairs(items[1..])
  }

  predicate RequirementItemsWellShaped(items: seq<Value>)
  {
    forall i :: 0 <= i < |items| ==> items[i].Dict? && forall j :: 0 <= j < |items[i].entries| ==> items[i].entries[j].1.Dict?
  }

  /** A copy of a requirement definition's parameters with `name` set. */
  function NamedParams(pair: (string, Value)): (r: Value)
    requires pair.1.Dict?
    ensures r.Dict? && Lookup(r.entries, NameKey) == Some(Str(pair.0))
    ensures forall k :: k != NameKey ==> Lookup(r.entries, k) == Lookup(pair.1.entries, k)
  {
    Dict(Put(pair.1.entries, NameKey, Str(pair.0)))
  }

  function NameEach(pairs: Entries): (r: Result<seq<Value>>)
    ensures r.Ok? <==> forall j :: 0 <= j < |pairs| ==> pairs[j].1.Dict?
    ensures r.Ok? ==> |r.value| == |pairs| && forall j :: 0 <= j < |pairs| ==> r.value[j] == NamedParams(pairs[j])
    decreases |pairs|
  {
    if |pairs| == 0 then Ok([])
    else if !pairs[0].1.Dict? then Err(RequirementParamsNotMapping)
    else
      var rest :- NameEach(pairs[1..]);
      assert forall j :: 1 <= j < |pairs| ==> pairs[1..][j - 1] == pairs[j];
      Ok([NamedParams(pairs[0])] + rest)
  }

  /** `type_definition.get(REQUIREMENTS, None) or []`. */
  function RequirementDefinitionList(typeDef: Entries): Value
  {
    var v := Lookup(typeDef, RequirementsKey);
    if v.Some? && Truthy(v.value) then v.value else List([])
  }

  /** `requirement_definitions`: one entry per `(name, params)` pair of the
      type's requirement definitions, in declaration order, each a copy of
      the parameters with `name` set to the requirement's name. A definition
      that is not a map, or parameters that are not a map, are errors. */
  function RequirementDefinitions(typeDef: Entries): (r: Result<seq<Value>>)
    ensures r.Ok? ==> Iterate(RequirementDefinitionList(typeDef)).Ok?
    ensures r.Ok? ==> var pairs := RequirementPairs(Iterate(RequirementDefinitionList(typeDef)).value);
              |r.value| == |pairs| && forall j :: 0 <= j < |pairs| ==> pairs[j].1.Dict? && r.value[j] == NamedParams(pairs[j])
  {
    var items :- Iterate(RequirementDefinitionList(typeDef));
    if exists i :: 0 <= i < |items| && !items[i].Dict? then Err(RequirementDefinitionNotMapping)
    else NameEach(RequirementPairs(items))
  }

  /** Node-filter parameters given as a map become the flat list
      `[k1, v1, k2, v2, ...]`. */
  function FlattenParams(es: Entries): (r: seq<Value>)
    ensures |r| == 2 * |es|
    ensures forall i :: 0 <= i < |es| ==> r[2 * i] == Str(es[i].0) && r[2 * i + 1] == es[i].1
  {
    if |es| == 0 then []
    else
      var rest := FlattenParams(es[1..]);
      var r := [Str(es[0].0), es[0].1] + rest;
      assert forall i :: 0 <= i < |es| ==> r[2 * i] == Str(es[i].0) && r[2 * i + 1] == es[i].1 by {
        forall i | 0 <= i < |es|
          ensures r[2 * i] == Str(es[i].0) && r[2 * i + 1] == es[i].1
        {
          if i > 0 {
            var k := i - 1;
            assert es[i] == es[1..][k];
            assert r[2 * i] == rest[2 * k] && r[2 * i + 1] == rest[2 * k + 1];
          }
        }
      }
      r
  }

  /** The inverse of `FlattenParams`: a flat list of keys and values back
      into pairs, when it has that shape. */
  function PairUp(xs: seq<Value>): (r: Option<Entries>)
    decreases |xs|
  {
    if |xs| == 0 then Some([])
    else if |xs| == 1 || !xs[0].Str? then None
    else match PairUp(xs[2..])
      case None => None
      case Some(rest) => Some([(xs[0].s, xs[1])] + rest)
  }

  lemma {:induction false} PairUpFlatten(es: Entries)
    ensures PairUp(FlattenParams(es)) == Some(es)
  {
    if |es| > 0 {
      PairUpFlatten(es[1..]);
      var r := FlattenParams(es);
      assert r[2..] == FlattenParams(es[1..]);
      assert r[0] == Str(es[0].0) && r[1] == es[0].1;
      assert [(es[0].0, es[0].1)] + es[1..] == es;
    }
  }

  /** The node-filter parameters handed to the filter: a map flattened, a
      list as is, anything else an error. */
  function NodeFilterParams(params: Value): (r: Result<seq<Value>>)
    ensures params.Dict? ==> r.Ok? && PairUp(r.value) == Some(params.entries)
    ensures params.List? ==> r == Ok(params.items)
    ensures !params.Dict? && !params.List? ==> r.Err?
  {
    match params
    case Dict(es) => PairUpFlatten(es); Ok(FlattenParams(es))
    case List(xs) => Ok(xs)
    case _ => Err(UnsupportedFilterParams)
  }

  const SourceKey := "source"
  const ValueKey := "value"
  const ParametersKey := "parameters"
  const ExecutorKey := "executor"
  const NodeFilterKey := "node_filter"
  const NodeFilterFactsRegister := "node_filter_facts_raw"
  const SetFactSource := "set_fact"
  const AnsibleTool := "ansible"
  const InnerValueUnsupported := "Provider configuration parameter 'ansible.node_filter: node_filter_inner_value' has unsupported value"

  /** The `ansible.node_filter` section of the provider configuration. The
      prefix and postfix are strings; the other entries are as configured,
      `Null` when absent. */
  datatype NodeFilterConfig = NodeFilterConfig(prefix: string, postfix: string, exceptions: Value, innerVariable: Value, innerValue: Value)

  /** The argument with its `value` replaced, when the argument is a map
      whose `value` is set; a named argument that is not a map is an error. */
  function InnerValueStep(args: Entries, elem: string, v: Value): (r: Result<Entries>)
    ensures r.Ok? <==> Lookup(args, elem).None? || Lookup(args, elem).value.Dict?
    ensures r.Ok? ==> KeySet(r.value) == KeySet(args)
    ensures r.Ok? ==> forall k :: k != elem ==> Lookup(r.value, k) == Lookup(args, k)
    ensures r.Ok? ==> Lookup(r.value, elem) == InnerValued(Lookup(args, elem), v)
  {
    match Lookup(args, elem)
    case None => Ok(args)
    case Some(a) =>
      if !a.Dict? then Err(ArgumentNotMapping)
      else Ok(Put(args, elem, InnerValued(Some(a), v).value))
  }

  /** The argument `k`, if there is one, is a map. */
  predicate MapOrAbsent(args: Entries, k: string)
  {
    Lookup(args, k).None? || Lookup(args, k).value.Dict?
  }

  /** An argument after `node_filter_inner_value` supplied `v` for it. */
  function InnerValued(arg: Option<Value>, v: Value): Option<Value>
  {
    if arg.Some? && arg.value.Dict? && Truthy(Lookup(arg.value.entries, ValueKey).GetOr(Null))
    then Some(Dict(Put(arg.value.entries, ValueKey, v)))
    else arg
  }

  function InnerValueFrom(args: Entries, inner: Entries, keys: seq<string>): (r: Result<Entries>)
    ensures r.Ok? <==> forall k :: k in keys ==> MapOrAbsent(args, k)
    ensures r.Ok? ==> KeySet(r.value) == KeySet(args)
    ensures r.Ok? ==> forall k :: k !in keys ==> Lookup(r.value, k) == Lookup(args, k)
    decreases |keys|
  {
    if |keys| == 0 then Ok(args)
    else
      assert keys[0] in keys && forall k :: k in keys[1..] ==> k in keys;
      var args1 :- InnerValueStep(args, keys[0], Lookup(inner, keys[0]).GetOr(Null));
      assert forall k :: MapOrAbsent(args1, k) <==> MapOrAbsent(args, k);
      InnerValueFrom(args1, inner, keys[1..])
  }

  /** `node_filter_inner_value`: when set it must be a map, and each
      argument it names whose `value` is set gets the named value. */
  function ApplyInnerValue(args: Entries, inner: Value): (r: Result<Entries>)
    ensures !Truthy(inner) ==> r == Ok(args)
    ensures Truthy(inner) && !inner.Dict? ==> r.Err?
    ensures inner.Dict? ==> (r.Ok? <==> forall k :: k in KeySet(inner.entries) ==> MapOrAbsent(args, k))
    ensures r.Ok? ==> KeySet(r.value) == KeySet(args)
  {
    if !Truthy(inner) then Ok(args)
    else if !inner.Dict? then Err(InnerValueUnsupported)
    else InnerValueOf(args, inner.entries)
  }

  /** The inner values of a map, applied in the map's key order. */
  function InnerValueOf(args: Entries, inner: Entries): (r: Result<Entries>)
    ensures r.Ok? <==> forall k :: k in KeySet(inner) ==> MapOrAbsent(args, k)
    ensures r.Ok? ==> KeySet(r.value) == KeySet(args)
  {
    KeySetIsKeys(inner);
    InnerValueFrom(args, inner, Keys(inner))
  }

  lemma {:induction false} InnerValueFromSets(args: Entries, inner: Entries, keys: seq<string>)
    requires InnerValueFrom(args, inner, keys).Ok?
    requires forall i, j :: 0 <= i < j < |keys| ==> keys[i] != keys[j]
    ensures forall k :: k in keys ==> Lookup(InnerValueFrom(args, inner, keys).value, k) == InnerValued(Lookup(args, k), Lookup(inner, k).GetOr(Null))
    decreases |keys|
  {
    if |keys| > 0 {
      var args1 := InnerValueStep(args, keys[0], Lookup(inner, keys[0]).GetOr(Null)).value;
      assert forall i, j :: 0 <= i < j < |keys[1..]| ==> keys[1..][i] != keys[1..][j] by {
        forall i, j | 0 <= i < j < |keys[1..]| ensures keys[1..][i] != keys[1..][j] {
          assert keys[1..][i] == keys[i + 1] && keys[1..][j] == keys[j + 1];
        }
      }
      InnerValueFromSets(args1, inner, keys[1..]);
      assert keys[0] !in keys[1..];
      forall k | k in keys ensures Lookup(InnerValueFrom(args, inner, keys).value, k) == InnerValued(Lookup(args, k), Lookup(inner, k).GetOr(Null)) {
        assert InnerValueFrom(args, inner, keys) == InnerValueFrom(args1, inner, keys[1..]);
        if k != keys[0] {
          assert k in keys[1..];
        }
      }
    }
  }

  /** Each argument named by the inner-value map whose `value` is set has
      that `value` replaced by the named one; every other argument is left
      as it was. */
  lemma ApplyInnerValueSets(args: Entries, inner: Value)
    requires inner.Dict? && DistinctKeys(inner.entries) && ApplyInnerValue(args, inner).Ok?
    ensures forall k :: Lookup(ApplyInnerValue(args, inner).value, k) ==
              if k in KeySet(inner.entries) then InnerValued(Lookup(args, k), Lookup(inner.entries, k).value) else Lookup(args, k)
  {
    KeySetIsKeys(inner.entries);
    DistinctKeysAreDistinct(inner.entries);
    if Truthy(inner) {
      InnerValueFromSets(args, inner.entries, Keys(inner.entries));
    }
  }

  /** `["v"]`. */
  function Subscript(v: string): string
  {
    "[\"" + v + "\"]"
  }

  /** The `["v"]` subscripts of the facts variable, one per name. */
  function Subscripts(names: seq<Value>): (r: Result<string>)
    ensures r.Ok? <==> forall j :: 0 <= j < |names| ==> names[j].Str?
    ensures |names| == 1 && names[0].Str? ==> r == Ok(Subscript(names[0].s))
    decreases |names|
  {
    if |names| == 0 then Ok("")
    else if !names[0].Str? then Err(ConcatenateNonStr)
    else
      var rest :- Subscripts(names[1..]);
      assert forall j :: 1 <= j < |names| ==> names[1..][j - 1] == names[j];
      assert |names| == 1 ==> rest == "" && Subscript(names[0].s) + rest == Subscript(names[0].s);
      Ok(Subscript(names[0].s) + rest)
  }

  /** The map names a string under `key`. */
  predicate NamesString(es: Entries, key: string)
  {
    Lookup(es, key).Some? && Lookup(es, key).value.Str?
  }

  /** The variable the node-filter facts are read from, for the filter
      `key`, and the `node_filter_inner_variable` as the loop leaves it: a
      map is looked up under `key` (missing means the empty string), a
      string becomes a one-element list, and each name of the list adds a
      subscript. */
  function FactsValue(variable: Value, key: string): (r: Result<(string, Value)>)
    ensures !Truthy(variable) ==> r == Ok((NodeFilterFactsRegister, variable))
    ensures variable.Dict? && NamesString(variable.entries, key) ==> r == Ok((NodeFilterFactsRegister + Subscript(Lookup(variable.entries, key).value.s), List([Lookup(variable.entries, key).value])))
    ensures Truthy(variable) && variable.Dict? && Lookup(variable.entries, key).None? ==> r == Ok((NodeFilterFactsRegister + Subscript(""), List([Str("")])))
    ensures Truthy(variable) && variable.Str? ==> r == Ok((NodeFilterFactsRegister + Subscript(variable.s), List([variable])))
    ensures Truthy(variable) && !variable.Dict? && !variable.Str? && !variable.List? ==> r.Err?
  {
    if !Truthy(variable) then Ok((NodeFilterFactsRegister, variable))
    else
      var v1 := if variable.Dict? then Lookup(variable.entries, key).GetOr(Str("")) else variable;
      var v2 := if v1.Str? then List([v1]) else v1;
      if !v2.List? then Err(InnerVariableUnsupported)
      else
        var suffix :- Subscripts(v2.items);
        Ok((NodeFilterFactsRegister + suffix, v2))
  }

  /** The source the facts are gathered from: the configured prefix and
      postfix around the filter key, unless the exceptions map names a
      source for that key. */
  function NodeFilterSource(cfg: NodeFilterConfig, key: string): (r: Result<Value>)
    ensures !Truthy(cfg.exceptions) ==> r == Ok(Str(cfg.prefix + key + cfg.postfix))
    ensures Truthy(cfg.exceptions) && !cfg.exceptions.Dict? ==> r.Err?
    ensures cfg.exceptions.Dict? && Truthy(Lookup(cfg.exceptions.entries, key).GetOr(Null)) ==> r == Ok(Lookup(cfg.exceptions.entries, key).value)
    ensures cfg.exceptions.Dict? && !Truthy(Lookup(cfg.exceptions.entries, key).GetOr(Null)) ==> r == Ok(Str(cfg.prefix + key + cfg.postfix))
  {
    if !Truthy(cfg.exceptions) then Ok(Str(cfg.prefix + key + cfg.postfix))
    else if !cfg.exceptions.Dict? then Err(ExceptionsNotMapping)
    else
      var named := Lookup(cfg.exceptions.entries, key).GetOr(Null);
      if Truthy(named) then Ok(named) else Ok(Str(cfg.prefix + key + cfg.postfix))
  }

  /** `t` is a task of four distinct keys running `source` with `params`
      through `tool` and registering its result as `value`. */
  predicate IsTask(t: Value, source: Value, params: Entries, value: string, tool: string)
  {
    && t.Dict? && |t.entries| == 4 && DistinctKeys(t.entries)
    && Lookup(t.entries, SourceKey) == Some(source)
    && Lookup(t.entries, ParametersKey) == Some(Dict(params))
    && Lookup(t.entries, ValueKey) == Some(Str(value))
    && Lookup(t.entries, ExecutorKey) == Some(Str(tool))
  }

  /** Four entries under distinct keys: each key finds its own value. */
  lemma FourEntries(a: (string, Value), b: (string, Value), c: (string, Value), d: (string, Value))
    requires a.0 != b.0 && a.0 != c.0 && a.0 != d.0 && b.0 != c.0 && b.0 != d.0 && c.0 != d.0
    ensures DistinctKeys([a, b, c, d])
    ensures Lookup([a, b, c, d], a.0) == Some(a.1) && Lookup([a, b, c, d], b.0) == Some(b.1)
    ensures Lookup([a, b, c, d], c.0) == Some(c.1) && Lookup([a, b, c, d], d.0) == Some(d.1)
    ensures Keys([a, b, c, d]) == [a.0, b.0, c.0, d.0]
  {
    assert [a, b, c, d][1..] == [b, c, d];
    assert [b, c, d][1..] == [c, d];
    assert [c, d][1..] == [d];
    assert [d][1..] == [];
    assert KeySet([d]) == {d.0};
    assert KeySet([c, d]) == {c.0, d.0};
    assert KeySet([b, c, d]) == {b.0, c.0, d.0};
    assert DistinctKeys([d]) && DistinctKeys([c, d]) && DistinctKeys([b, c, d]);
    assert Lookup([d], d.0) == Some(d.1);
    assert Lookup([c, d], c.0) == Some(c.1) && Lookup([c, d], d.0) == Some(d.1);
  }


  /** The three key orders the lookup tasks are written in (see the
      `...Shape` lemmas below). */
  function TaskSourceValueExecutorParameters(source: Value, params: Entries, value: string, tool: string): Value
  {
    Dict([(SourceKey, source), (ValueKey, Str(value)), (ExecutorKey, Str(tool)), (ParametersKey, Dict(params))])
  }

  function TaskSourceParametersValueExecutor(source: Value, params: Entries, value: string, tool: string): Value
  {
    Dict([(SourceKey, source), (ParametersKey, Dict(params)), (ValueKey, Str(value)), (ExecutorKey, Str(tool))])
  }

  function TaskSourceParametersExecutorValue(source: Value, params: Entries, value: string, tool: string): Value
  {
    Dict([(SourceKey, source), (ParametersKey, Dict(params)), (ExecutorKey, Str(tool)), (ValueKey, Str(value))])
  }


  /** The seven tasks that look the filtered object up (see
      `NodeFilterTasksShape`). */
  function NodeFilterTasks(source: Value, facts: string, tool: string, params: seq<Value>, value: string): (r: seq<Value>)
    ensures |r| == 7
  {
    [ TaskSourceValueExecutorParameters(source, [], NodeFilterFactsRegister, tool),
      TaskSourceParametersValueExecutor(Str(SetFactSource), [("target_objects", Str("\\{\\{ " + facts + " \\}\\}"))], "tmp_value", tool),
      TaskSourceParametersValueExecutor(Str("debug"), [("var", Str("target_objects"))], "tmp_value", tool),
      TaskSourceParametersExecutorValue(Str(SetFactSource), [("input_facts", Str("{{ target_objects }}"))], "tmp_value", tool),
      TaskSourceParametersExecutorValue(Str(SetFactSource), [("input_args", List(params))], "tmp_value", tool),
      TaskSourceParametersExecutorValue(Str("equals"), [("input_args", Str("\\{\\{ input_args \\}\\}")), ("input_facts", Str("\\{\\{ target_objects \\}\\}"))], "result", tool),
      TaskSourceParametersValueExecutor(Str(SetFactSource), [(value, Str("\\{\\{ result.matched_object[\"" + value + "\"] \\}\\}"))], "tmp_value", tool)
    ]
  }

  /** Each key order gives a task of the four fields. */
  lemma SourceValueExecutorParametersShape(source: Value, params: Entries, value: string, tool: string)
    ensures IsTask(TaskSourceValueExecutorParameters(source, params, value, tool), source, params, value, tool)
    ensures Keys(TaskSourceValueExecutorParameters(source, params, value, tool).entries) == [SourceKey, ValueKey, ExecutorKey, ParametersKey]
  {
    FourEntries((SourceKey, source), (ValueKey, Str(value)), (ExecutorKey, Str(tool)), (ParametersKey, Dict(params)));
  }

  lemma SourceParametersValueExecutorShape(source: Value, params: Entries, value: string, tool: string)
    ensures IsTask(TaskSourceParametersValueExecutor(source, params, value, tool), source, params, value, tool)
    ensures Keys(TaskSourceParametersValueExecutor(source, params, value, tool).entries) == [SourceKey, ParametersKey, ValueKey, ExecutorKey]
  {
    FourEntries((SourceKey, source), (ParametersKey, Dict(params)), (ValueKey, Str(value)), (ExecutorKey, Str(tool)));
  }

  lemma SourceParametersExecutorValueShape(source: Value, params: Entries, value: string, tool: string)
    ensures IsTask(TaskSourceParametersExecutorValue(source, params, value, tool), source, params, value, tool)
    ensures Keys(TaskSourceParametersExecutorValue(source, params, value, tool).entries) == [SourceKey, ParametersKey, ExecutorKey, ValueKey]
  {
    FourEntries((SourceKey, source), (ParametersKey, Dict(params)), (ExecutorKey, Str(tool)), (ValueKey, Str(value)));
  }

  /** The seven lookup tasks gather the facts from the source into the
      facts register, expose them as `target_objects`, show them, pass them
      and the parameters on, match them with `equals` into `result`, and
      extract the requested value from `result.matched_object`. Every task
      runs through the tool, with its keys in the order the source writes
      them. */
  lemma NodeFilterTasksShape(source: Value, facts: string, tool: string, params: seq<Value>, value: string)
    ensures var r := NodeFilterTasks(source, facts, tool, params, value);
            && IsTask(r[0], source, [], NodeFilterFactsRegister, tool)
            && IsTask(r[1], Str(SetFactSource), [("target_objects", Str("\\{\\{ " + facts + " \\}\\}"))], "tmp_value", tool)
            && IsTask(r[2], Str("debug"), [("var", Str("target_objects"))], "tmp_value", tool)
            && IsTask(r[3], Str(SetFactSource), [("input_facts", Str("{{ target_objects }}"))], "tmp_value", tool)
            && IsTask(r[4], Str(SetFactSource), [("input_args", List(params))], "tmp_value", tool)
            && IsTask(r[5], Str("equals"), [("input_args", Str("\\{\\{ input_args \\}\\}")), ("input_facts", Str("\\{\\{ target_objects \\}\\}"))], "result", tool)
            && IsTask(r[6], Str(SetFactSource), [(value, Str("\\{\\{ result.matched_object[\"" + value + "\"] \\}\\}"))], "tmp_value", tool)
            && Keys(r[0].entries) == [SourceKey, ValueKey, ExecutorKey, ParametersKey]
            && (forall i :: 1 <= i <= 2 || i == 6 ==> Keys(r[i].entries) == [SourceKey, ParametersKey, ValueKey, ExecutorKey])
            && (forall i :: 3 <= i <= 5 ==> Keys(r[i].entries) == [SourceKey, ParametersKey, ExecutorKey, ValueKey])
  {
    SourceValueExecutorParametersShape(source, [], NodeFilterFactsRegister, tool);
    SourceParametersValueExecutorShape(Str(SetFactSource), [("target_objects", Str("\\{\\{ " + facts + " \\}\\}"))], "tmp_value", tool);
    SourceParametersValueExecutorShape(Str("debug"), [("var", Str("target_objects"))], "tmp_value", tool);
    SourceParametersExecutorValueShape(Str(SetFactSource), [("input_facts", Str("{{ target_objects }}"))], "tmp_value", tool);
    SourceParametersExecutorValueShape(Str(SetFactSource), [("input_args", List(params))], "tmp_value", tool);
    SourceParametersExecutorValueShape(Str("equals"), [("input_args", Str("\\{\\{ input_args \\}\\}")), ("input_facts", Str("\\{\\{ target_objects \\}\\}"))], "result", tool);
    SourceParametersValueExecutorShape(Str(SetFactSource), [(value, Str("\\{\\{ result.matched_object[\"" + value + "\"] \\}\\}"))], "tmp_value", tool);
  }

  /** A node-filter argument: a map whose `source` names a filter, with a
      `value` to extract and the `parameters` to match. */
  datatype NodeFilter = NodeFilter(key: Value, value: Value, params: Value)

  /** Whether an argument is a node-filter argument; a `source` that is not
      a map is an error. */
  function NodeFilterOf(arg: Value): (r: Result<Option<NodeFilter>>)
    ensures !arg.Dict? ==> r == Ok(None)
    ensures r.Ok? && r.value.Some? ==> Truthy(r.value.value.key) && Truthy(r.value.value.value) && Truthy(r.value.value.params)
    ensures r.Ok? && r.value.Some? ==> arg.Dict? && Lookup(arg.entries, ValueKey) == Some(r.value.value.value) && Lookup(arg.entries, ParametersKey) == Some(r.value.value.params)
  {
    if !arg.Dict? then Ok(None)
    else
      var src := Lookup(arg.entries, SourceKey);
      if src.Some? && !src.value.Dict? then Err(SourceNotMapping)
      else
        var key := if src.Some? then Lookup(src.value.entries, NodeFilterKey).GetOr(Null) else Null;
        var value := Lookup(arg.entries, ValueKey).GetOr(Null);
        var params := Lookup(arg.entries, ParametersKey).GetOr(Null);
        if Truthy(key) && Truthy(value) && Truthy(params) then Ok(Some(NodeFilter(key, value, params))) else Ok(None)
  }

  /** What a node-filter argument becomes: the rendered result of running its
      lookup tasks through `execute`, which stands for the artifact executor
      and `str`. Also returns the inner variable left for later arguments. */
  function ResolveNodeFilter(nf: NodeFilter, cfg: NodeFilterConfig, variable: Value, tool: string, execute: (seq<Value>, string) -> string): (r: Result<(Value, Value)>)
    ensures r.Ok? ==> nf.key.Str? && nf.value.Str? && FactsValue(variable, nf.key.s).Ok? && NodeFilterParams(nf.params).Ok?
    ensures r.Ok? ==> r.value.1 == FactsValue(variable, nf.key.s).value.1
    ensures r.Ok? ==> NodeFilterSource(cfg, nf.key.s).Ok?
    ensures r.Ok? ==> r.value.0 == Str(execute(NodeFilterTasks(NodeFilterSource(cfg, nf.key.s).value, FactsValue(variable, nf.key.s).value.0, tool, NodeFilterParams(nf.params).value, nf.value.s), nf.value.s))
  {
    if !nf.key.Str? then Err(ConcatenateNonStr)
    else
      var source :- NodeFilterSource(cfg, nf.key.s);
      var facts :- FactsValue(variable, nf.key.s);
      var params :- NodeFilterParams(nf.params);
      if !nf.value.Str? then Err(ConcatenateNonStr)
      else Ok((Str(execute(NodeFilterTasks(source, facts.0, tool, params, nf.value.s), nf.value.s)), facts.1))
  }

  /** The loop over the configuration arguments. As written, the inner
      variable a node-filter argument leaves behind is the one every later
      argument sees; `corrected` gives every argument the configured one. */
  function NodeFiltersFrom(args: Entries, out: Entries, cfg: NodeFilterConfig, variable: Value, tool: string, execute: (seq<Value>, string) -> string, corrected: bool): (r: Result<Entries>)
    ensures r.Ok? ==> KeySet(r.value) == KeySet(out) + KeySet(args)
    decreases |args|
  {
    if |args| == 0 then Ok(out)
    else
      var nf :- NodeFilterOf(args[0].1);
      var step :- if nf.None? then Ok((args[0].1, variable)) else ResolveNodeFilter(nf.value, cfg, variable, tool, execute);
      var next := if corrected then variable else step.1;
      NodeFiltersFrom(args[1..], Put(out, args[0].0, step.0), cfg, next, tool, execute, corrected)
  }

  /** The node-filter stage of a resource: only for the ansible tool, the
      inner values first, then every node-filter argument resolved. */
  function NodeFilters(args: Entries, cfg: NodeFilterConfig, tool: string, execute: (seq<Value>, string) -> string, corrected: bool): (r: Result<Entries>)
    ensures tool != AnsibleTool ==> r == Ok(args)
    ensures r.Ok? ==> KeySet(r.value) == KeySet(args)
  {
    if tool != AnsibleTool then Ok(args)
    else
      var args1 :- ApplyInnerValue(args, cfg.innerValue);
      NodeFiltersFrom(args1, args1, cfg, cfg.innerVariable, tool, execute, corrected)
  }

  /** What one argument becomes when the loop reaches it with `variable`. */
  function ResolvedArg(arg: Value, cfg: NodeFilterConfig, variable: Value, tool: string, execute: (seq<Value>, string) -> string): Result<Value>
  {
    var nf :- NodeFilterOf(arg);
    if nf.None? then Ok(arg)
    else
      var step :- ResolveNodeFilter(nf.value, cfg, variable, tool, execute);
      Ok(step.0)
  }

  /** With the correction every argument is resolved against the configured
      inner variable: a node-filter argument becomes the result of its own
      lookup tasks and every other argument is left as it was. */
  lemma {:induction false} NodeFiltersCorrected(args: Entries, out: Entries, cfg: NodeFilterConfig, variable: Value, tool: string, execute: (seq<Value>, string) -> string)
    requires DistinctKeys(args)
    requires NodeFiltersFrom(args, out, cfg, variable, tool, execute, true).Ok?
    ensures forall i :: 0 <= i < |args| ==> ResolvedArg(args[i].1, cfg, variable, tool, execute).Ok?
    ensures forall i :: 0 <= i < |args| ==>
              Lookup(NodeFiltersFrom(args, out, cfg, variable, tool, execute, true).value, args[i].0) == Some(ResolvedArg(args[i].1, cfg, variable, tool, execute).value)
    ensures forall k :: k !in KeySet(args) ==> Lookup(NodeFiltersFrom(args, out, cfg, variable, tool, execute, true).value, k) == Lookup(out, k)
    decreases |args|
  {
    if |args| > 0 {
      var nf := NodeFilterOf(args[0].1).value;
      var step := if nf.None? then (args[0].1, variable) else ResolveNodeFilter(nf.value, cfg, variable, tool, execute).value;
      var out1 := Put(out, args[0].0, step.0);
      assert NodeFiltersFrom(args, out, cfg, variable, tool, execute, true) == NodeFiltersFrom(args[1..], out1, cfg, variable, tool, execute, true);
      NodeFiltersCorrected(args[1..], out1, cfg, variable, tool, execute);
      var r := NodeFiltersFrom(args, out, cfg, variable, tool, execute, true).value;
      forall i | 0 <= i < |args|
        ensures ResolvedArg(args[i].1, cfg, variable, tool, execute).Ok?
        ensures Lookup(r, args[i].0) == Some(ResolvedArg(args[i].1, cfg, variable, tool, execute).value)
      {
        if i > 0 {
          assert args[i] == args[1..][i - 1];
          KeyAtIndex(args[1..], i - 1);
        }
      }
    }
  }

  /** The filter argument `key`, looking up `value` with parameters `["p"]`. */
  function FilterArg(key: string): Value
  {
    Dict([(SourceKey, Dict([(NodeFilterKey, Str(key))])), (ValueKey, Str("id")), (ParametersKey, List([Str("p")]))])
  }

  /** An inner variable that names the facts subscript per filter key. */
  const PerKeyVariable := Dict([("a", Str("x")), ("b", Str("y"))])
  const PerKeyConfig := NodeFilterConfig("", "", Null, PerKeyVariable, Null)

  lemma FilterArgIsFilter(key: string)
    requires key != ""
    ensures NodeFilterOf(FilterArg(key)) == Ok(Some(NodeFilter(Str(key), Str("id"), List([Str("p")]))))
  {
    var es := FilterArg(key).entries;
    assert Lookup(es, SourceKey) == Some(Dict([(NodeFilterKey, Str(key))]));
    assert Lookup(es, ValueKey) == Some(Str("id"));
    assert Lookup(es[2..], ParametersKey) == Some(List([Str("p")]));
    assert Lookup(es[1..], ParametersKey) == Some(List([Str("p")]));
    assert Lookup(es, ParametersKey) == Some(List([Str("p")]));
  }

  lemma ResolveFilterArg(key: string, variable: Value, execute: (seq<Value>, string) -> string)
    requires FactsValue(variable, key).Ok?
    ensures ResolveNodeFilter(NodeFilter(Str(key), Str("id"), List([Str("p")])), PerKeyConfig, variable, AnsibleTool, execute)
         == Ok((Str(execute(NodeFilterTasks(Str(key), FactsValue(variable, key).value.0, AnsibleTool, [Str("p")], "id"), "id")), FactsValue(variable, key).value.1))
  {
    assert NodeFilterSource(PerKeyConfig, key) == Ok(Str(key)) by {
      assert "" + key + "" == key;
    }
  }

  /** One node-filter argument of the loop. */
  lemma NodeFiltersStep(args: Entries, out: Entries, cfg: NodeFilterConfig, variable: Value, tool: string, execute: (seq<Value>, string) -> string, corrected: bool, nf: NodeFilter, step: (Value, Value))
    requires |args| > 0
    requires NodeFilterOf(args[0].1) == Ok(Some(nf))
    requires ResolveNodeFilter(nf, cfg, variable, tool, execute) == Ok(step)
    ensures NodeFiltersFrom(args, out, cfg, variable, tool, execute, corrected)
         == NodeFiltersFrom(args[1..], Put(out, args[0].0, step.0), cfg, if corrected then variable else step.1, tool, execute, corrected)
  {
  }

  /** As written, the first node-filter argument replaces the per-key map
      by its own subscript list, so the second argument, filtered by `b`,
      reads the facts under `["x"]`, the subscript configured for `a`. */
  lemma AsWrittenSecondFilterUsesFirstKey(execute: (seq<Value>, string) -> string)
    ensures var args := [("a", FilterArg("a")), ("b", FilterArg("b"))];
            var r := NodeFiltersFrom(args, args, PerKeyConfig, PerKeyVariable, AnsibleTool, execute, false);
            r.Ok? && Lookup(r.value, "b") == Some(Str(execute(NodeFilterTasks(Str("b"), NodeFilterFactsRegister + Subscript("x"), AnsibleTool, [Str("p")], "id"), "id")))
  {
    var args := [("a", FilterArg("a")), ("b", FilterArg("b"))];
    assert Lookup(PerKeyVariable.entries, "a") == Some(Str("x"));
    var left := List([Str("x")]);
    assert FactsValue(PerKeyVariable, "a") == Ok((NodeFilterFactsRegister + Subscript("x"), left));
    assert FactsValue(left, "b") == Ok((NodeFilterFactsRegister + Subscript("x"), left));
    FilterArgIsFilter("a");
    FilterArgIsFilter("b");
    ResolveFilterArg("a", PerKeyVariable, execute);
    ResolveFilterArg("b", left, execute);
    var nf := NodeFilter(Str("a"), Str("id"), List([Str("p")]));
    var stepA := ResolveNodeFilter(nf, PerKeyConfig, PerKeyVariable, AnsibleTool, execute).value;
    NodeFiltersStep(args, args, PerKeyConfig, PerKeyVariable, AnsibleTool, execute, false, nf, stepA);
    var out1 := Put(args, "a", stepA.0);
    var nfB := NodeFilter(Str("b"), Str("id"), List([Str("p")]));
    var stepB := ResolveNodeFilter(nfB, PerKeyConfig, left, AnsibleTool, execute).value;
    NodeFiltersStep(args[1..], out1, PerKeyConfig, left, AnsibleTool, execute, false, nfB, stepB);
  }

  /** With the correction the same argument reads the facts under `["y"]`,
      the subscript configured for its own key. */
  lemma CorrectedSecondFilterUsesOwnKey(execute: (seq<Value>, string) -> string)
    ensures var args := [("a", FilterArg("a")), ("b", FilterArg("b"))];
            var r := NodeFiltersFrom(args, args, PerKeyConfig, PerKeyVariable, AnsibleTool, execute, true);
            r.Ok? && Lookup(r.value, "b") == Some(Str(execute(NodeFilterTasks(Str("b"), NodeFilterFactsRegister + Subscript("y"), AnsibleTool, [Str("p")], "id"), "id")))
  {
    var args := [("a", FilterArg("a")), ("b", FilterArg("b"))];
    assert Lookup(PerKeyVariable.entries, "a") == Some(Str("x"));
    assert Lookup(PerKeyVariable.entries, "b") == Some(Str("y"));
    assert FactsValue(PerKeyVariable, "a").Ok?;
    assert FactsValue(PerKeyVariable, "b") == Ok((NodeFilterFactsRegister + Subscript("y"), List([Str("y")])));
    FilterArgIsFilter("a");
    FilterArgIsFilter("b");
    ResolveFilterArg("a", PerKeyVariable, execute);
    ResolveFilterArg("b", PerKeyVariable, execute);
    var nf := NodeFilter(Str("a"), Str("id"), List([Str("p")]));
    var stepA := ResolveNodeFilter(nf, PerKeyConfig, PerKeyVariable, AnsibleTool, execute).value;
    NodeFiltersStep(args, args, PerKeyConfig, PerKeyVariable, AnsibleTool, execute, true, nf, stepA);
    var out1 := Put(args, "a", stepA.0);
    var nfB := NodeFilter(Str("b"), Str("id"), List([Str("p")]));
    var stepB := ResolveNodeFilter(nfB, PerKeyConfig, PerKeyVariable, AnsibleTool, execute).value;
    NodeFiltersStep(args[1..], out1, PerKeyConfig, PerKeyVariable, AnsibleTool, execute, true, nfB, stepB);
  }
}

=== FILE: strings.dfy ===
/** The Python string operations the modelled code relies on:
    `str.replace`, `str(int)`, `int(str)`, `str.lower` and `str.join`. */
module Strings {
  import opened Wrappers

  /** `s.replace(pat, rep)`: leftmost, non-overlapping occurrences of a
      non-empty pattern are replaced, scanning from the left. */
  function Replace(s: string, pat: string, rep: string): string
    requires |pat| > 0
    decreases |s|
  {
    if |s| < |pat| then s
    else if s[..|pat|] == pat then rep + Replace(s[|pat|..], pat, rep)
    else [s[0]] + Replace(s[1..], pat, rep)
  }

  predicate HasPrefix(s: string, p: string)
  {
    |p| <= |s| && s[..|p|] == p
  }

  /** An occurrence of the pattern at the front is replaced. */
  lemma ReplaceHit(pat: string, t: string, rep: string)
    requires |pat| > 0
    ensures Replace(pat + t, pat, rep) == rep + Replace(t, pat, rep)
  {
    assert (pat + t)[..|pat|] == pat;
    assert (pat + t)[|pat|..] == t;
  }

  /** A front character that does not start an occurrence is copied. */
  lemma ReplaceMiss(c: char, t: string, pat: string, rep: string)
    requires |pat| > 0
    requires !HasPrefix([c] + t, pat)
    ensures Replace([c] + t, pat, rep) == [c] + Replace(t, pat, rep)
  {
    assert ([c] + t)[1..] == t;
    if |[c] + t| < |pat| {
      assert |t| < |pat|;
    }
  }

  /** A character that differs from the pattern's first one is copied. */
  lemma ReplaceMissFirst(c: char, t: string, pat: string, rep: string)
    requires |pat| > 0 && c != pat[0]
    ensures Replace([c] + t, pat, rep) == [c] + Replace(t, pat, rep)
  {
    ReplaceMiss(c, t, pat, rep);
  }

  /** A character followed by one that differs from the pattern's second one is copied. */
  lemma ReplaceMissSecond(c: char, d: char, t: string, pat: string, rep: string)
    requires |pat| >= 2 && d != pat[1]
    ensures Replace([c] + ([d] + t), pat, rep) == [c] + Replace([d] + t, pat, rep)
  {
    assert ([c] + ([d] + t))[1] == d;
    ReplaceMiss(c, [d] + t, pat, rep);
  }

  /** Equal strings with the same prefix and suffix have equal middles. */
  lemma CancelAffixes(p: string, a: string, b: string, q: string)
    requires p + a + q == p + b + q
    ensures a == b
  {
    assert |a| == |b|;
    assert a == (p + a + q)[|p|..|p| + |a|];
    assert b == (p + b + q)[|p|..|p| + |b|];
  }

  function DigitChar(d: nat): char
    requires d < 10
  {
    ['0', '1', '2', '3', '4', '5', '6', '7', '8', '9'][d]
  }

  function DigitValue(c: char): nat
    requires '0' <= c <= '9'
  {
    (c as int - '0' as int) as nat
  }

  predicate AllDigits(s: string)
  {
    forall i :: 0 <= i < |s| ==> '0' <= s[i] <= '9'
  }

  /** `str(n)` for a non-negative integer: shortest decimal form. */
  function Decimal(n: nat): (r: string)
    ensures |r| >= 1 && AllDigits(r)
    ensures n < 10 <==> |r| == 1
  {
    if n < 10 then [DigitChar(n)] else Decimal(n / 10) + [DigitChar(n % 10)]
  }

  /** The number a string of decimal digits denotes. */
  function DigitsValue(s: string): nat
    requires AllDigits(s)
  {
    if |s| == 0 then 0 else 10 * DigitsValue(s[..|s| - 1]) + DigitValue(s[|s| - 1])
  }

  lemma {:induction false} DecimalValue(n: nat)
    ensures DigitsValue(Decimal(n)) == n
  {
    var r := Decimal(n);
    if n >= 10 {
      DecimalValue(n / 10);
      assert r[..|r| - 1] == Decimal(n / 10);
    }
  }

  /** Numbers from 1000 to 9999 print with exactly four digits. */
  lemma {:induction false} DecimalFourDigits(n: nat)
    requires 1000 <= n <= 9999
    ensures |Decimal(n)| == 4
  {
    assert 100 <= n / 10 <= 999;
    assert 10 <= n / 100 <= 99;
    assert 1 <= n / 1000 <= 9;
    assert n / 10 / 10 == n / 100;
    assert n / 100 / 10 == n / 1000;
    assert |Decimal(n / 1000)| == 1;
    assert |Decimal(n / 100)| == 2;
    assert |Decimal(n / 10)| == 3;
  }

  /** `str(i)` for any integer. */
  function IntToString(i: int): string
  {
    if i < 0 then "-" + Decimal(-i) else Decimal(i)
  }

  /** `int(s)` for a string: an optional sign followed by decimal digits. */
  function ParseInt(s: string): (r: Option<int>)
    ensures r.Some? ==> |s| > 0
  {
    if |s| > 0 && (s[0] == '-' || s[0] == '+') then
      var body := s[1..];
      if |body| > 0 && AllDigits(body) then
        Some(if s[0] == '-' then -(DigitsValue(body) as int) else DigitsValue(body))
      else None
    else if |s| > 0 && AllDigits(s) then Some(DigitsValue(s))
    else None
  }

  /** `int(str(i)) == i`. */
  lemma ParseIntRoundTrip(i: int)
    ensures ParseInt(IntToString(i)) == Some(i)
  {
    var d := Decimal(if i < 0 then -i else i);
    DecimalValue(if i < 0 then -i else i);
    assert '0' <= d[0] <= '9';
    if i < 0 {
      var s := "-" + d;
      assert s[0] == '-' && s[1..] == d;
      assert ParseInt(s) == Some(-(DigitsValue(d) as int));
    } else {
      assert ParseInt(d) == Some(DigitsValue(d) as int);
    }
  }

  function LowerChar(c: char): char
  {
    if 'A' <= c <= 'Z' then (c as int - 'A' as int + 'a' as int) as char else c
  }

  /** `s.lower()` on ASCII letters. */
  function Lower(s: string): (r: string)
    ensures |r| == |s|
    ensures forall i :: 0 <= i < |s| ==> r[i] == LowerChar(s[i])
  {
    if |s| == 0 then "" else [LowerChar(s[0])] + Lower(s[1..])
  }

  /** `sep.join(parts)`. */
  function Join(sep: string, parts: seq<string>): string
  {
    if |parts| == 0 then ""
    else if |parts| == 1 then parts[0]
    else parts[0] + sep + Join(sep, parts[1..])
  }

  /** `s.replace(a, b)` for single characters: every `a` becomes `b`. */
  function ReplaceChar(s: string, a: char, b: char): (r: string)
    ensures |r| == |s|
    ensures forall i :: 0 <= i < |s| ==> r[i] == (if s[i] == a then b else s[i])
    ensures a !in r || a == b
  {
    if |s| == 0 then "" else [if s[0] == a then b else s[0]] + ReplaceChar(s[1..], a, b)
  }

  lemma {:induction false} ReplaceCharIsReplace(s: string, a: char, b: char)
    ensures Replace(s, [a], [b]) == ReplaceChar(s, a, b)
  {
    if |s| > 0 {
      ReplaceCharIsReplace(s[1..], a, b);
      assert s == [s[0]] + s[1..];
      if s[0] == a {
        ReplaceHit([a], s[1..], [b]);
      } else {
        ReplaceMiss(s[0], s[1..], [a], [b]);
      }
    }
  }
}

=== FILE: tasks.dfy ===
/** The task dictionaries the configuration tools emit and the logic the
    Ansible and Terraform tools share verbatim: merging the extra arguments
    of an element, and turning the implementation of an interface operation
    into `copy`/`stat`/`debug`/`fail`, `set_fact` and `include` tasks. */
module Tasks {
  import opened Wrappers
  import opened Values
  import opened Strings
  import Utils
  import ConfigurationTools

  // Error messages, as the source raises or reports them.
  const ExtraArgsNotMappings := "AssertionError: extra arguments must be mappings"
  const StrHasNoGet := "AttributeError: 'str' object has no attribute 'get'"
  const ExtraArgsNotMapping := "AttributeError: the extra arguments are not a mapping"
  const InputsNotMapping := "AttributeError: the inputs are not a mapping"
  const InterfaceNotMapping := "AttributeError: the interface is not a mapping"
  const InterfacesNotMapping := "AttributeError: the interfaces are not a mapping"
  const OperationNotMapping := "AttributeError: the operation has no attribute 'get'"
  const DependenciesNotList := "Dependencies interface implementation must be a list"
  const TimeoutNotScalar := "Timeout must be a string or integer value"
  const ScriptNotString := "TypeError: a script name is not a string"
  const DependencyFileNotString := "TypeError: the dependency file is not a string"
  // Not raised by Python: the model refuses a set of implementations,
  // whose iteration order a set value does not determine.
  const ImplementationsNotSequence := "a set of implementations has no fixed order"
  const InvalidIntLiteral := "ValueError: invalid literal for int()"
  const OperationHostNotString := "Operation_host must be a string value"
  const OperationHostUnresolved := "AttributeError: the tool has no attribute '_resolve_tosca_travers'"
  const PrimaryNotString := "Primary interface implementation must be a string"

  const ChecksumMsgPrefix := "Checksum of "
  const ChecksumMsgSuffix := " file is incorrect"
  const ChecksumCondition := "checksum.stat.checksum != "

  const GlobalKey := "global"
  const TmpDir := "/tmp/clouni/"
  const ArtifactsDir := "artifacts"

  const NameKey := "name"
  const Register := "register"
  const PathKey := "path"
  const FileKey := "file"
  const StateKey := "state"
  const SetFact := "set_fact"
  const Include := "include"
  const CopyKey := "copy"
  const Src := "src"
  const Dest := "dest"
  const StatKey := "stat"
  const FailKey := "fail"
  const Msg := "msg"
  const When := "when"
  const Async := "async"
  const DebugKey := "debug"
  const TypeKey := "type"
  const DeployPath := "deploy_path"
  const Checksum := "checksum"
  const ChecksumAlgorithm := "checksum_algorithm"
  const GetChecksum := "get_checksum"
  const Implementation := "implementation"
  const Inputs := "inputs"
  const TimeoutKey := "timeout"
  const OperationHost := "operation_host"
  const Dependencies := "dependencies"
  const Primary := "primary"
  const Standard := "Standard"
  const Configure := "Configure"
  const Nodes := "nodes"
  const Relationships := "relationships"

  type Task = Entries

  /** The `register` name of an element: its name with every `-` turned
      into `_`, so that it is a valid Ansible variable. */
  function TaskName(name: string): (r: string)
    ensures |r| == |name|
    ensures '-' !in r
    ensures forall i :: 0 <= i < |name| && name[i] != '-' ==> r[i] == name[i]
  {
    ReplaceChar(name, '-', '_')
  }

  /** `rap_ansible_variable`: a Jinja expression around `s`. */
  function Rap(s: string): (r: string)
    ensures |r| == |s| + 6
    ensures r[..3] == "{{ " && r[3..|r| - 3] == s && r[|r| - 3..] == " }}"
  {
    "{{ " + s + " }}"
  }

  /** POSIX `os.path.join(a, b)`: an absolute `b` replaces `a`; otherwise
      the parts are joined with one `/`. */
  function PathJoin(a: string, b: string): (r: string)
    ensures |b| <= |r| && r[|r| - |b|..] == b
    ensures |b| > 0 && b[0] == '/' ==> r == b
  {
    if |b| > 0 && b[0] == '/' then b
    else if |a| == 0 || a[|a| - 1] == '/' then a + b
    else a + "/" + b
  }

  /** Where an operation's script is included from: a relative script lives
      under the artifacts directory, an absolute one is used as it is. */
  function ScriptPath(script: string): string
  {
    PathJoin(TmpDir, PathJoin(PathJoin(TmpDir, ArtifactsDir), script))
  }

  lemma ScriptPathShape(script: string)
    ensures |script| > 0 && script[0] == '/' ==> ScriptPath(script) == script
    ensures !(|script| > 0 && script[0] == '/') ==> ScriptPath(script) == "/tmp/clouni/artifacts/" + script
  {
    assert PathJoin(TmpDir, ArtifactsDir) == "/tmp/clouni/artifacts";
    if !(|script| > 0 && script[0] == '/') {
      var p := "/tmp/clouni/artifacts" + "/" + script;
      assert p[0] == '/';
      assert p == "/tmp/clouni/artifacts/" + script;
    }
  }

  // ---------------------------------------------------------------------
  // Extra arguments
  // ---------------------------------------------------------------------

  /** The extra arguments an element's tasks receive: none when the caller
      gives none; otherwise the `global` entry deep-updated with the entry
      named after the element (`element = None` when only the global entry
      applies). Both entries must be mappings. */
  function ExtraArgs(additional: Option<Value>, element: Option<string>): (r: Result<Entries>)
    ensures additional.None? ==> r == Ok([])
    ensures additional.Some? && !additional.value.Dict? ==> r.Err?
    ensures r.Ok? && additional.Some? ==>
              var global := Lookup(additional.value.entries, GlobalKey).GetOr(Dict([]));
              var own := if element.Some? then Lookup(additional.value.entries, element.value).GetOr(Dict([])) else Dict([]);
              global.Dict? && own.Dict? && KeySet(r.value) == KeySet(global.entries) + KeySet(own.entries)
              && forall k :: k !in KeySet(own.entries) ==> Lookup(r.value, k) == Lookup(global.entries, k)
    ensures additional.Some? && additional.value.Dict? ==>
              var global := Lookup(additional.value.entries, GlobalKey).GetOr(Dict([]));
              var own := if element.Some? then Lookup(additional.value.entries, element.value).GetOr(Dict([])) else Dict([]);
              r.Ok? <==> global.Dict? && own.Dict?
    ensures r.Ok? && additional.Some? ==>
              var global := Lookup(additional.value.entries, GlobalKey).GetOr(Dict([]));
              var own := if element.Some? then Lookup(additional.value.entries, element.value).GetOr(Dict([])) else Dict([]);
              DistinctKeys(own.entries) ==>
                forall k :: k in KeySet(own.entries) ==>
                  Lookup(r.value, k) == Some(Utils.MergeValue(Lookup(global.entries, k), Lookup(own.entries, k).value))
  {
    match additional
    case None => Ok([])
    case Some(Dict(args)) =>
      var global := Lookup(args, GlobalKey).GetOr(Dict([]));
      var own := if element.Some? then Lookup(args, element.value).GetOr(Dict([])) else Dict([]);
      if !global.Dict? || !own.Dict? then Err(ExtraArgsNotMappings)
      else
        assert DistinctKeys(own.entries) ==>
                 forall k :: k in KeySet(own.entries) ==>
                   Lookup(Utils.DeepUpdate(global.entries, own.entries), k)
                     == Some(Utils.MergeValue(Lookup(global.entries, k), Lookup(own.entries, k).value)) by {
          if DistinctKeys(own.entries) {
            forall k | k in KeySet(own.entries)
              ensures Lookup(Utils.DeepUpdate(global.entries, own.entries), k)
                        == Some(Utils.MergeValue(Lookup(global.entries, k), Lookup(own.entries, k).value))
            {
              Utils.DeepUpdateLookup(global.entries, own.entries, k);
            }
          }
        }
        Ok(Utils.DeepUpdate(global.entries, own.entries))
    case Some(_) => Err(ExtraArgsNotMapping)
  }

  /** `task.update(extra)` for every task emitted so far. */
  function UpdateAll(tasks: seq<Task>, extra: Entries): (r: seq<Task>)
    ensures |r| == |tasks|
    ensures forall j :: 0 <= j < |tasks| ==> r[j] == Update(tasks[j], extra)
  {
    seq(|tasks|, j requires 0 <= j < |tasks| => Update(tasks[j], extra))
  }

  /** Every entry of `extra` is in `task`, and every other key keeps its
      value from `orig`. */
  ghost predicate Carries(task: Task, orig: Task, extra: Entries)
  {
    (forall k :: k in KeySet(extra) ==> Lookup(task, k) == Lookup(extra, k))
    && (forall k :: k !in KeySet(extra) ==> Lookup(task, k) == Lookup(orig, k))
  }

  lemma UpdateCarries(task: Task, orig: Task, extra: Entries)
    requires DistinctKeys(extra)
    requires Carries(task, orig, extra) || task == orig
    ensures Carries(Update(task, extra), orig, extra)
  {
  }

  // ---------------------------------------------------------------------
  // Scripts
  // ---------------------------------------------------------------------

  /** The `include` task of one script, run asynchronously when a non-zero
      timeout is set. */
  function IncludeTask(script: string, timeout: Option<int>): (r: Task)
    ensures Lookup(r, Include) == Some(Str(ScriptPath(script)))
    ensures Async in KeySet(r) <==> timeout.Some? && timeout.value != 0
    ensures timeout.Some? && timeout.value != 0 ==> Lookup(r, Async) == Some(Int(timeout.value))
    ensures KeySet(r) <= {Include, Async}
  {
    IncludeAt(ScriptPath(script), timeout)
  }

  /** The `include` task of the script at `path`. */
  function IncludeAt(path: string, timeout: Option<int>): (r: Task)
    ensures Lookup(r, Include) == Some(Str(path))
    ensures Async in KeySet(r) <==> timeout.Some? && timeout.value != 0
    ensures timeout.Some? && timeout.value != 0 ==> Lookup(r, Async) == Some(Int(timeout.value))
    ensures KeySet(r) <= {Include, Async}
  {
    var only := [(Include, Str(path))];
    assert KeySet(only) == {Include} by { assert only[1..] == []; }
    if timeout.Some? && timeout.value != 0 then
      var r := [(Async, Int(timeout.value))] + only;
      assert r[1..] == only;
      r
    else only
  }

  /** One `include` task per script; before each is appended, the extra
      arguments are merged into every task already emitted. */
  function ScriptTasks(tasks: seq<Task>, scripts: seq<string>, timeout: Option<int>, extra: Entries): (r: seq<Task>)
    ensures |r| == |tasks| + |scripts|
    decreases |scripts|
  {
    if |scripts| == 0 then tasks
    else
      var n := |scripts| - 1;
      UpdateAll(ScriptTasks(tasks, scripts[..n], timeout, extra), extra) + [IncludeTask(scripts[n], timeout)]
  }

  /** Every task emitted before the scripts' `include`s, and every
      `include` but the last, carries the extra arguments; the last
      `include` is emitted as it is. */
  lemma ScriptTasksCarry(tasks: seq<Task>, scripts: seq<string>, timeout: Option<int>, extra: Entries)
    requires DistinctKeys(extra)
    requires |scripts| > 0
    ensures ScriptTasks(tasks, scripts, timeout, extra)[|tasks| + |scripts| - 1] == IncludeTask(scripts[|scripts| - 1], timeout)
    ensures forall j :: 0 <= j < |tasks| ==> Carries(ScriptTasks(tasks, scripts, timeout, extra)[j], tasks[j], extra)
    ensures forall m :: 0 <= m < |scripts| - 1 ==>
              Carries(ScriptTasks(tasks, scripts, timeout, extra)[|tasks| + m], IncludeTask(scripts[m], timeout), extra)
  {
    LastInclude(tasks, scripts, timeout, extra);
    forall j | 0 <= j < |tasks| ensures Carries(ScriptTasks(tasks, scripts, timeout, extra)[j], tasks[j], extra) {
      EarlierCarries(tasks, scripts, timeout, extra, j);
    }
    forall m | 0 <= m < |scripts| - 1
      ensures Carries(ScriptTasks(tasks, scripts, timeout, extra)[|tasks| + m], IncludeTask(scripts[m], timeout), extra)
    {
      IncludeCarries(tasks, scripts, timeout, extra, m, |tasks| + m);
    }
  }

  /** A task emitted before the scripts is merged with the extra
      arguments at least once. */
  lemma {:induction false} EarlierCarries(tasks: seq<Task>, scripts: seq<string>, timeout: Option<int>, extra: Entries, j: nat)
    requires DistinctKeys(extra)
    requires |scripts| > 0 && j < |tasks|
    ensures Carries(ScriptTasks(tasks, scripts, timeout, extra)[j], tasks[j], extra)
    decreases |scripts|
  {
    var n := |scripts| - 1;
    var prev := ScriptTasks(tasks, scripts[..n], timeout, extra);
    MergedAt(tasks, scripts, timeout, extra, j);
    if n > 0 {
      EarlierCarries(tasks, scripts[..n], timeout, extra, j);
    }
    UpdateCarries(prev[j], tasks[j], extra);
  }

  /** The `include` of every script but the last is merged with the
      extra arguments at least once. */
  lemma {:induction false} IncludeCarries(tasks: seq<Task>, scripts: seq<string>, timeout: Option<int>, extra: Entries, m: nat, i: nat)
    requires DistinctKeys(extra)
    requires m < |scripts| - 1 && i == |tasks| + m
    ensures Carries(ScriptTasks(tasks, scripts, timeout, extra)[i], IncludeTask(scripts[m], timeout), extra)
    decreases |scripts|
  {
    var n := |scripts| - 1;
    if m < n - 1 {
      IncludeCarries(tasks, scripts[..n], timeout, extra, m, i);
      KeptInclude(tasks, scripts, timeout, extra, m, i);
    } else {
      LastMerged(tasks, scripts, timeout, extra, m, i);
    }
  }

  /** The `include` of script `m` keeps carrying the extra arguments
      through the round that emits one more script. */
  lemma KeptInclude(tasks: seq<Task>, scripts: seq<string>, timeout: Option<int>, extra: Entries, m: nat, i: nat)
    requires DistinctKeys(extra)
    requires m < |scripts| - 1 && i == |tasks| + m
    ensures var n := |scripts| - 1;
            Carries(ScriptTasks(tasks, scripts[..n], timeout, extra)[i], IncludeTask(scripts[..n][m], timeout), extra)
            ==> Carries(ScriptTasks(tasks, scripts, timeout, extra)[i], IncludeTask(scripts[m], timeout), extra)
  {
    assert scripts[..|scripts| - 1][m] == scripts[m];
    KeptMerged(tasks, scripts, timeout, extra, i, IncludeTask(scripts[m], timeout));
  }

  /** A task that carries the extra arguments keeps carrying them through
      one more round of merging. */
  lemma KeptMerged(tasks: seq<Task>, scripts: seq<string>, timeout: Option<int>, extra: Entries, i: nat, orig: Task)
    requires DistinctKeys(extra)
    requires 0 < |scripts| && i < |tasks| + |scripts| - 1
    ensures Carries(ScriptTasks(tasks, scripts[..|scripts| - 1], timeout, extra)[i], orig, extra)
            ==> Carries(ScriptTasks(tasks, scripts, timeout, extra)[i], orig, extra)
  {
    MergedAt(tasks, scripts, timeout, extra, i);
  }

  /** The `include` emitted bare in one round is merged in the next. */
  lemma LastMerged(tasks: seq<Task>, scripts: seq<string>, timeout: Option<int>, extra: Entries, m: nat, i: nat)
    requires DistinctKeys(extra)
    requires m == |scripts| - 2 && i == |tasks| + m
    ensures Carries(ScriptTasks(tasks, scripts, timeout, extra)[i], IncludeTask(scripts[m], timeout), extra)
  {
    var prefix := scripts[..|scripts| - 1];
    assert |prefix| - 1 == m && prefix[m] == scripts[m];
    MergedAt(tasks, scripts, timeout, extra, i);
    LastIncludeAt(tasks, prefix, timeout, extra, i);
    CarryStarted(ScriptTasks(tasks, scripts, timeout, extra)[i], IncludeTask(scripts[m], timeout), extra);
  }

  lemma LastIncludeAt(tasks: seq<Task>, scripts: seq<string>, timeout: Option<int>, extra: Entries, i: nat)
    requires 0 < |scripts| && i == |tasks| + |scripts| - 1
    ensures ScriptTasks(tasks, scripts, timeout, extra)[i] == IncludeTask(scripts[|scripts| - 1], timeout)
  {
    LastInclude(tasks, scripts, timeout, extra);
  }

  /** The task emitted last is the bare `include` of the last script. */
  lemma LastInclude(tasks: seq<Task>, scripts: seq<string>, timeout: Option<int>, extra: Entries)
    requires 0 < |scripts|
    ensures ScriptTasks(tasks, scripts, timeout, extra)[|tasks| + |scripts| - 1] == IncludeTask(scripts[|scripts| - 1], timeout)
  {
  }

  /** Merging a bare task makes it carry the extra arguments. */
  lemma CarryStarted(merged: Task, orig: Task, extra: Entries)
    requires DistinctKeys(extra)
    requires merged == Update(orig, extra)
    ensures Carries(merged, orig, extra)
  {
  }

  /** Each round of merging updates every task emitted before it. */
  lemma MergedAt(tasks: seq<Task>, scripts: seq<string>, timeout: Option<int>, extra: Entries, i: nat)
    requires 0 < |scripts| && i < |tasks| + |scripts| - 1
    ensures ScriptTasks(tasks, scripts, timeout, extra)[i]
            == Update(ScriptTasks(tasks, scripts[..|scripts| - 1], timeout, extra)[i], extra)
  {
  }

  // ---------------------------------------------------------------------
  // Implementations
  // ---------------------------------------------------------------------

  /** `int(timeout)` for an integer (a boolean is one) or a string. */
  function TimeoutOf(v: Value): (r: Result<int>)
    ensures (v.Int? || v.Bool?) ==> r.Ok?
    ensures v.Int? ==> r == Ok(v.i)
    ensures v.Str? ==> (r.Ok? <==> ParseInt(v.s).Some?)
    ensures !(v.Int? || v.Bool? || v.Str?) ==> r == Err(TimeoutNotScalar)
  {
    match v
    case Int(n) => Ok(n)
    case Bool(b) => Ok(if b then 1 else 0)
    case Str(s) =>
      (match ParseInt(s)
       case Some(n) => Ok(n)
       case None => Err(InvalidIntLiteral))
    case _ => Err(TimeoutNotScalar)
  }

  /** The implementation of an operation: a string stands for itself, a
      mapping gives its `implementation` entry (`None` when missing or
      `null`); anything else has no `get`. */
  function ImplementationOf(op: Value): (r: Result<Option<Value>>)
    ensures op.Str? ==> r == Ok(Some(op))
    ensures op.Dict? ==> r.Ok? && (r.value.Some? <==> !IsNone(Lookup(op.entries, Implementation)))
    ensures !(op.Str? || op.Dict?) ==> r.Err?
  {
    match op
    case Str(_) => Ok(Some(op))
    case Dict(es) =>
      (match Lookup(es, Implementation)
       case None => Ok(None)
       case Some(Null) => Ok(None)
       case Some(v) => Ok(Some(v)))
    case _ => Err(OperationNotMapping)
  }

  /** A dependency the loop looks at: a mapping with a `type` and a
      `file`. */
  predicate IsDependency(dep: Value)
  {
    dep.Dict? && TypeKey in KeySet(dep.entries) && FileKey in KeySet(dep.entries)
  }

  /** The value of `key` in a dependency when it is present and truthy. */
  function TruthyField(dep: Value, key: string): Option<Value>
    requires dep.Dict?
  {
    var v := Lookup(dep.entries, key);
    if v.Some? && Truthy(v.value) then v else None
  }

  /** The copy of a dependency is wanted when it names a deploy path. */
  predicate NeedsCopy(dep: Value)
    requires dep.Dict?
  {
    TruthyField(dep, DeployPath).Some?
  }

  /** The checksum check is wanted when it names a checksum and an
      algorithm. */
  predicate NeedsCheck(dep: Value)
    requires dep.Dict?
  {
    TruthyField(dep, Checksum).Some? && TruthyField(dep, ChecksumAlgorithm).Some?
  }

  /** Where a dependency file lies: under the target directory of the
      temporary directory. */
  function DependencyPath(targetDirectory: string, file: string): (r: string)
    ensures |file| <= |r| && r[|r| - |file|..] == file
  {
    PathJoin(PathJoin(TmpDir, targetDirectory), file)
  }

  /** `{copy: {src: path, dest: dest}}`. */
  function CopyTask(path: string, dest: Value): (t: Task)
    ensures KeySet(t) == {CopyKey} && Lookup(t, CopyKey).value.Dict?
    ensures var args := Lookup(t, CopyKey).value.entries;
            Lookup(args, Src) == Some(Str(path)) && Lookup(args, Dest) == Some(dest)
  {
    [(CopyKey, Dict([(Src, Str(path)), (Dest, dest)]))]
  }

  /** `{stat: {checksum_algorithm, get_checksum: yes, path}, register: checksum}`. */
  function StatTask(algorithm: Value, path: string): (t: Task)
    ensures KeySet(t) == {StatKey, Register} && Lookup(t, StatKey).value.Dict?
    ensures Lookup(t, Register) == Some(Str(Checksum))
    ensures var args := Lookup(t, StatKey).value.entries;
            && Lookup(args, ChecksumAlgorithm) == Some(algorithm)
            && Lookup(args, GetChecksum) == Some(Str("yes"))
            && Lookup(args, PathKey) == Some(Str(path))
  {
    var last := [(PathKey, Str(path))];
    var args := [(ChecksumAlgorithm, algorithm), (GetChecksum, Str("yes"))] + last;
    assert args[1..][1..] == last && last[1..] == [];
    var reg := [(Register, Str(Checksum))];
    assert reg[1..] == [];
    var t := [(StatKey, Dict(args))] + reg;
    assert t[1..] == reg;
    assert KeySet(reg) == {Register};
    assert Lookup(args, PathKey) == Lookup(last, PathKey) by {
      assert ChecksumAlgorithm != PathKey && GetChecksum != PathKey;
    }
    t
  }

  /** `{debug: {msg: "{{ checksum }}"}}`. */
  function ChecksumDebugTask(): (t: Task)
    ensures KeySet(t) == {DebugKey} && Lookup(t, DebugKey) == Some(Dict([(Msg, Str(Rap(Checksum)))]))
  {
    [(DebugKey, Dict([(Msg, Str(Rap(Checksum)))]))]
  }

  /** The `fail` task that fires when the registered checksum differs from
      the declared one (written out by `show`). */
  function ChecksumFailTask(file: string, expected: string): (t: Task)
    ensures KeySet(t) == {FailKey, When} && Lookup(t, FailKey).value.Dict?
    ensures Lookup(Lookup(t, FailKey).value.entries, Msg) == Some(Str(ChecksumMsgPrefix + file + ChecksumMsgSuffix))
    ensures Lookup(t, When) == Some(Str(ChecksumCondition + "\"" + expected + "\""))
  {
    var msg := [(Msg, Str(ChecksumMsgPrefix + file + ChecksumMsgSuffix))];
    var when := [(When, Str(ChecksumCondition + "\"" + expected + "\""))];
    assert msg[1..] == [] && when[1..] == [];
    var t := [(FailKey, Dict(msg))] + when;
    assert t[1..] == when;
    assert KeySet(when) == {When};
    t
  }

  /** The tasks one artifact dependency adds: a `copy` of its file to its
      deploy path, then a checksum check (`stat`, `debug`, `fail`) when it
      declares a checksum and an algorithm. A dependency that is not a
      mapping with a type and a file adds nothing; a file name that is not
      a string cannot be joined into a path. `show` is Python's `str()`. */
  function DependencyTasks(dep: Value, targetDirectory: string, show: Value -> string): (r: Result<seq<Task>>)
    ensures !IsDependency(dep) ==> r == Ok([])
    ensures IsDependency(dep) ==>
              (r.Err? <==> (NeedsCopy(dep) || NeedsCheck(dep)) && !Lookup(dep.entries, FileKey).value.Str?)
    ensures r.Ok? && IsDependency(dep) ==>
              |r.value| == (if NeedsCopy(dep) then 1 else 0) + (if NeedsCheck(dep) then 3 else 0)
    ensures r.Ok? && IsDependency(dep) && NeedsCopy(dep) ==>
              var path := DependencyPath(targetDirectory, Lookup(dep.entries, FileKey).value.s);
              r.value[0] == CopyTask(path, TruthyField(dep, DeployPath).value)
    ensures r.Ok? && IsDependency(dep) && NeedsCheck(dep) ==>
              var file := Lookup(dep.entries, FileKey).value.s;
              var c := if NeedsCopy(dep) then 1 else 0;
              && r.value[c] == StatTask(TruthyField(dep, ChecksumAlgorithm).value, DependencyPath(targetDirectory, file))
              && r.value[c + 1] == ChecksumDebugTask()
              && r.value[c + 2] == ChecksumFailTask(file, show(TruthyField(dep, Checksum).value))
  {
    if !IsDependency(dep) then Ok([])
    else
      var file := Lookup(dep.entries, FileKey).value;
      if !file.Str? then
        if NeedsCopy(dep) || NeedsCheck(dep) then Err(DependencyFileNotString) else Ok([])
      else
        var check := if NeedsCheck(dep) then Some((TruthyField(dep, ChecksumAlgorithm).value, TruthyField(dep, Checksum).value))
                     else None;
        Ok(FileTasks(DependencyPath(targetDirectory, file.s), file.s, TruthyField(dep, DeployPath), check, show))
  }

  /** The tasks of a dependency whose file, a string, lies at `path`: the
      copy to `deployTo`, then the three tasks of the checksum check with
      its algorithm and expected checksum, each when wanted. */
  function FileTasks(path: string, file: string, deployTo: Option<Value>, check: Option<(Value, Value)>,
                     show: Value -> string): (r: seq<Task>)
    ensures |r| == (if deployTo.Some? then 1 else 0) + (if check.Some? then 3 else 0)
    ensures deployTo.Some? ==> r[0] == CopyTask(path, deployTo.value)
    ensures check.Some? ==>
              var c := if deployTo.Some? then 1 else 0;
              && r[c] == StatTask(check.value.0, path)
              && r[c + 1] == ChecksumDebugTask()
              && r[c + 2] == ChecksumFailTask(file, show(check.value.1))
  {
    match check
    case None => if deployTo.Some? then [CopyTask(path, deployTo.value)] else []
    case Some((algorithm, checksum)) =>
      var tail := [StatTask(algorithm, path), ChecksumDebugTask(), ChecksumFailTask(file, show(checksum))];
      if deployTo.Some? then [CopyTask(path, deployTo.value), tail[0], tail[1], tail[2]] else tail
  }

  function DependenciesTasks(deps: seq<Value>, targetDirectory: string, show: Value -> string): (r: Result<seq<Task>>)
    ensures r.Ok? <==> forall j :: 0 <= j < |deps| ==> DependencyTasks(deps[j], targetDirectory, show).Ok?
    decreases |deps|
  {
    if |deps| == 0 then Ok([])
    else
      assert forall j :: 1 <= j < |deps| ==> deps[1..][j - 1] == deps[j];
      match DependencyTasks(deps[0], targetDirectory, show)
      case Err(msg) => Err(msg)
      case Ok(first) =>
        match DependenciesTasks(deps[1..], targetDirectory, show)
        case Err(msg) => Err(msg)
        case Ok(rest) => Ok(first + rest)
  }

  /** What a mapping implementation contributes, checked in the source's
      order (timeout, operation host, dependencies, primary): the
      implementations that remain (the `primary` script as a one-element
      list, else the mapping itself), the dependency tasks, and the timeout
      in force. As written, a string `operation_host` is resolved through
      `_resolve_tosca_travers` and `operations_graph`, which the tool
      classes do not define, so the step raises; `corrected` lets it pass
      with the host left as it is. */
  function Details(impl: Entries, targetDirectory: string, show: Value -> string, timeout: Option<int>, corrected: bool)
    : (r: Result<(Value, seq<Task>, Option<int>)>)
    ensures TimeoutKey in KeySet(impl) && TimeoutOf(Lookup(impl, TimeoutKey).value).Err? ==> r.Err?
    ensures OperationHost in KeySet(impl) && !Lookup(impl, OperationHost).value.Str? ==> r.Err?
    ensures OperationHost in KeySet(impl) && !corrected ==> r.Err?
    ensures (TimeoutKey !in KeySet(impl) || TimeoutOf(Lookup(impl, TimeoutKey).value).Ok?) &&
            OperationHost in KeySet(impl) && Lookup(impl, OperationHost).value.Str? && !corrected
            ==> r == Err(OperationHostUnresolved)
    ensures Dependencies in KeySet(impl) && !Lookup(impl, Dependencies).value.List? ==> r.Err?
    ensures Primary in KeySet(impl) && !Lookup(impl, Primary).value.Str? ==> r.Err?
    ensures r.Ok? && Primary in KeySet(impl) ==> r.value.0 == List([Lookup(impl, Primary).value])
    ensures r.Ok? && Primary !in KeySet(impl) ==> r.value.0 == Dict(impl)
    ensures r.Ok? && Dependencies !in KeySet(impl) ==> r.value.1 == []
    ensures r.Ok? && TimeoutKey in KeySet(impl) ==> r.value.2 == Some(TimeoutOf(Lookup(impl, TimeoutKey).value).value)
    ensures r.Ok? && TimeoutKey !in KeySet(impl) ==> r.value.2 == timeout
    ensures r.Ok? && Dependencies in KeySet(impl) ==>
              Lookup(impl, Dependencies).value.List? &&
              DependenciesTasks(Lookup(impl, Dependencies).value.items, targetDirectory, show) == Ok(r.value.1)
    ensures (Dependencies in KeySet(impl) && Lookup(impl, Dependencies).value.List? &&
             DependenciesTasks(Lookup(impl, Dependencies).value.items, targetDirectory, show).Err?) ==> r.Err?
    ensures r.Err? ==>
              (TimeoutKey in KeySet(impl) && TimeoutOf(Lookup(impl, TimeoutKey).value).Err?) ||
              (OperationHost in KeySet(impl) && (!Lookup(impl, OperationHost).value.Str? || !corrected)) ||
              (Dependencies in KeySet(impl) &&
                 (!Lookup(impl, Dependencies).value.List? ||
                  DependenciesTasks(Lookup(impl, Dependencies).value.items, targetDirectory, show).Err?)) ||
              (Primary in KeySet(impl) && !Lookup(impl, Primary).value.Str?)
  {
    var t :- TimeoutIn(impl, timeout);
    :- Need(OperationHost !in KeySet(impl) || Lookup(impl, OperationHost).value.Str?,
                  OperationHostNotString);
    :- Need(OperationHost !in KeySet(impl) || corrected, OperationHostUnresolved);
    var deps :- DependenciesIn(impl, targetDirectory, show);
    :- Need(Primary !in KeySet(impl) || Lookup(impl, Primary).value.Str?,
                  PrimaryNotString);
    var impls := if Primary in KeySet(impl) then List([Lookup(impl, Primary).value]) else Dict(impl);
    Ok((impls, deps, t))
  }

  /** The timeout in force after an implementation mapping. */
  function TimeoutIn(impl: Entries, timeout: Option<int>): (r: Result<Option<int>>)
    ensures TimeoutKey in KeySet(impl) ==> (r.Ok? <==> TimeoutOf(Lookup(impl, TimeoutKey).value).Ok?)
    ensures TimeoutKey in KeySet(impl) && r.Ok? ==> r.value == Some(TimeoutOf(Lookup(impl, TimeoutKey).value).value)
    ensures TimeoutKey !in KeySet(impl) ==> r == Ok(timeout)
  {
    if TimeoutKey !in KeySet(impl) then Ok(timeout)
    else
      match TimeoutOf(Lookup(impl, TimeoutKey).value)
      case Ok(n) => Ok(Some(n))
      case Err(msg) => Err(msg)
  }

  /** The dependency tasks of an implementation mapping. */
  function DependenciesIn(impl: Entries, targetDirectory: string, show: Value -> string): (r: Result<seq<Task>>)
    ensures Dependencies !in KeySet(impl) ==> r == Ok([])
    ensures Dependencies in KeySet(impl) && !Lookup(impl, Dependencies).value.List? ==> r.Err?
    ensures Dependencies in KeySet(impl) && Lookup(impl, Dependencies).value.List? ==>
              r == DependenciesTasks(Lookup(impl, Dependencies).value.items, targetDirectory, show)
  {
    if Dependencies !in KeySet(impl) then Ok([])
    else if Lookup(impl, Dependencies).value.List? then
      DependenciesTasks(Lookup(impl, Dependencies).value.items, targetDirectory, show)
    else Err(DependenciesNotList)
  }

  /** The scripts of an implementation: the items of a list, the keys of a
      mapping left without `primary`; each must be a string to be joined
      into a path. A set is refused. */
  function Scripts(impls: Value): (r: Result<seq<string>>)
    ensures impls.List? && (forall j :: 0 <= j < |impls.items| ==> impls.items[j].Str?) ==> r.Ok? && |r.value| == |impls.items|
    ensures impls.List? && r.Ok? ==> |r.value| == |impls.items| && forall j :: 0 <= j < |impls.items| ==> impls.items[j] == Str(r.value[j])
    ensures impls.Dict? ==> r.Ok? && |r.value| == |impls.entries| && forall j :: 0 <= j < |impls.entries| ==> r.value[j] == impls.entries[j].0
    ensures impls.Set? ==> r == Err(ImplementationsNotSequence)
  {
    if impls.Set? then Err(ImplementationsNotSequence)
    else
      match Iterate(impls)
      case Err(msg) => Err("TypeError: " + msg)
      case Ok(vs) =>
        if forall j :: 0 <= j < |vs| ==> vs[j].Str? then Ok(seq(|vs|, j requires 0 <= j < |vs| => vs[j].s))
        else Err(ScriptNotString)
  }

  /** One `set_fact` task per operation input, in order. As written the
      source asks a short-form (string) operation for its inputs, which a
      string cannot answer; `corrected` treats such an operation as having
      none. */
  function InputTasks(op: Value, corrected: bool): (r: Result<seq<Task>>)
    ensures op.Str? ==> (r.Ok? <==> corrected)
    ensures op.Str? && corrected ==> r == Ok([])
    ensures op.Dict? && IsNone(Lookup(op.entries, Inputs)) ==> r == Ok([])
    ensures op.Dict? && !IsNone(Lookup(op.entries, Inputs)) && Lookup(op.entries, Inputs).value.Dict? ==>
              var inputs := Lookup(op.entries, Inputs).value.entries;
              r.Ok? && |r.value| == |inputs| && forall j :: 0 <= j < |inputs| ==> r.value[j] == [(SetFact, Dict([inputs[j]]))]
  {
    match op
    case Str(_) => if corrected then Ok([]) else Err(StrHasNoGet)
    case Dict(es) =>
      (match Lookup(es, Inputs)
       case None => Ok([])
       case Some(Null) => Ok([])
       case Some(Dict(inputs)) => Ok(SetFacts(inputs))
       case Some(_) => Err(InputsNotMapping))
    case _ => Err(OperationNotMapping)
  }

  /** A `set_fact` task for each input. */
  function SetFacts(inputs: Entries): (r: seq<Task>)
    ensures |r| == |inputs|
    ensures forall j :: 0 <= j < |inputs| ==> r[j] == [(SetFact, Dict([inputs[j]]))]
  {
    seq(|inputs|, j requires 0 <= j < |inputs| => [(SetFact, Dict([inputs[j]]))])
  }

  /** The interface the tools act on: `Standard` for a node type,
      `Configure` for a relationship type. */
  predicate Acts(interfaceName: string, typeName: string)
  {
    (interfaceName == Standard && Utils.TypeCategory(typeName) == Some(Nodes))
    || (interfaceName == Configure && Utils.TypeCategory(typeName) == Some(Relationships))
  }

  /** One interface: the tasks so far extended by what its `operation`
      contributes, and the timeout in force afterwards. */
  function InterfaceStep(interfaceName: string, iface: Value, typeName: string, operation: string,
                         targetDirectory: string, extra: Entries, show: Value -> string, corrected: bool,
                         tasks: seq<Task>, timeout: Option<int>): (r: Result<(seq<Task>, Option<int>)>)
    ensures !iface.Dict? ==> r.Err?
    ensures iface.Dict? && !Acts(interfaceName, typeName)
            && (Lookup(iface.entries, operation).None? || Lookup(iface.entries, operation).value.Str? || Lookup(iface.entries, operation).value.Dict?)
            ==> r == Ok((tasks, timeout))
    ensures r.Ok? ==> |tasks| <= |r.value.0|
  {
    if !iface.Dict? then Err(InterfaceNotMapping)
    else
      var op := Lookup(iface.entries, operation).GetOr(Dict([]));
      match ImplementationOf(op)
      case Err(msg) => Err(msg)
      case Ok(impl) =>
        if !Acts(interfaceName, typeName) || impl.None? then Ok((tasks, timeout))
        else
          var impls := if impl.value.Str? then List([impl.value]) else impl.value;
          var details :- if impls.Dict? then Details(impls.entries, targetDirectory, show, timeout, corrected) else Ok((impls, [], timeout));
          var (impls', deps, timeout') := details;
          var _ :- if impls'.Set? then Err(ImplementationsNotSequence)
                   else match Iterate(impls') case Err(msg) => Err("TypeError: " + msg) case Ok(_) => Ok(0);
          var inputs :- InputTasks(op, corrected);
          var scripts :- Scripts(impls');
          Ok((ScriptTasks(tasks + deps + inputs, scripts, timeout', extra), timeout'))
  }

  function InterfacesFrom(es: Entries, i: nat, typeName: string, operation: string, targetDirectory: string,
                          extra: Entries, show: Value -> string, corrected: bool,
                          tasks: seq<Task>, timeout: Option<int>): (r: Result<seq<Task>>)
    requires i <= |es|
    decreases |es| - i
  {
    if i == |es| then Ok(tasks)
    else
      match InterfaceStep(es[i].0, es[i].1, typeName, operation, targetDirectory, extra, show, corrected, tasks, timeout)
      case Err(msg) => Err(msg)
      case Ok((tasks', timeout')) =>
        InterfacesFrom(es, i + 1, typeName, operation, targetDirectory, extra, show, corrected, tasks', timeout')
  }

  /** `get_from_interface` once the extra arguments are merged: the tasks
      of `operation` across the element's interfaces, in order. */
  function InterfaceTasks(interfaces: Value, typeName: string, operation: string, targetDirectory: string,
                          extra: Entries, show: Value -> string, corrected: bool): (r: Result<seq<Task>>)
    ensures !interfaces.Dict? ==> r.Err?
    ensures interfaces == Dict([]) ==> r == Ok([])
  {
    if !interfaces.Dict? then Err(InterfacesNotMapping)
    else InterfacesFrom(interfaces.entries, 0, typeName, operation, targetDirectory, extra, show, corrected, [], None)
  }

  /** The interfaces of a node whose `Standard` interface gives `operation`
      in short form, as the name of its script. */
  function ShortForm(operation: string, script: string): Value
  {
    Dict([(Standard, Dict([(operation, Str(script))]))])
  }

  /** With one interface, the tasks are those of its one step. */
  lemma InterfacesOfOne(interfaceName: string, iface: Value, typeName: string, operation: string, targetDirectory: string,
                        extra: Entries, show: Value -> string, corrected: bool, tasks: seq<Task>, timeout: Option<int>)
    requires InterfaceStep(interfaceName, iface, typeName, operation, targetDirectory, extra, show, corrected, [], None)
             == Ok((tasks, timeout))
    ensures InterfaceTasks(Dict([(interfaceName, iface)]), typeName, operation, targetDirectory, extra, show, corrected)
            == Ok(tasks)
  {
    var es := [(interfaceName, iface)];
    assert InterfacesFrom(es, 1, typeName, operation, targetDirectory, extra, show, corrected, tasks, timeout) == Ok(tasks);
  }

  lemma ScriptsOfOne(script: string)
    ensures Scripts(List([Str(script)])) == Ok([script])
  {
    var sc := Scripts(List([Str(script)]));
    assert List([Str(script)]).items[0] == Str(sc.value[0]);
    assert sc.value == [script];
  }

  /** As written, a short-form operation of a node never yields its
      `include`: asking the string for its inputs fails. */
  lemma AsWrittenShortFormFails(typeName: string, operation: string, script: string, targetDirectory: string,
                                extra: Entries, show: Value -> string)
    requires Utils.TypeCategory(typeName) == Some(Nodes)
    ensures InterfaceTasks(ShortForm(operation, script), typeName, operation, targetDirectory, extra, show, false).Err?
  {
    var iface := Dict([(operation, Str(script))]);
    assert Lookup(iface.entries, operation) == Some(Str(script));
    assert InterfaceStep(Standard, iface, typeName, operation, targetDirectory, extra, show, false, [], None).Err?;
  }

  /** Treating a short-form operation as having no inputs, its script is
      included once, synchronously, with nothing else emitted. */
  lemma CorrectedShortFormIncludes(typeName: string, operation: string, script: string, targetDirectory: string,
                                   extra: Entries, show: Value -> string)
    requires Utils.TypeCategory(typeName) == Some(Nodes)
    ensures InterfaceTasks(ShortForm(operation, script), typeName, operation, targetDirectory, extra, show, true)
            == Ok([IncludeTask(script, None)])
  {
    var iface := Dict([(operation, Str(script))]);
    ShortFormStep(typeName, operation, script, targetDirectory, extra, show);
    InterfacesOfOne(Standard, iface, typeName, operation, targetDirectory, extra, show, true, [IncludeTask(script, None)], None);
  }

  lemma ShortFormStep(typeName: string, operation: string, script: string, targetDirectory: string,
                      extra: Entries, show: Value -> string)
    requires Utils.TypeCategory(typeName) == Some(Nodes)
    ensures InterfaceStep(Standard, Dict([(operation, Str(script))]), typeName, operation, targetDirectory, extra, show, true, [], None)
            == Ok(([IncludeTask(script, None)], None))
  {
    var iface := Dict([(operation, Str(script))]);
    assert Lookup(iface.entries, operation) == Some(Str(script));
    assert Acts(Standard, typeName);
    StepOfScript(Standard, iface, typeName, operation, targetDirectory, extra, show, true, [], None, script);
    ScriptTasksOfOne(script, None, extra);
  }

  /** A step whose operation is implemented by one script, with no
      inputs, includes that script. */
  lemma StepOfScript(interfaceName: string, iface: Value, typeName: string, operation: string,
                     targetDirectory: string, extra: Entries, show: Value -> string, corrected: bool,
                     tasks: seq<Task>, timeout: Option<int>, script: string)
    requires iface.Dict? && Acts(interfaceName, typeName)
    requires Lookup(iface.entries, operation) == Some(Str(script))
    requires corrected
    ensures InterfaceStep(interfaceName, iface, typeName, operation, targetDirectory, extra, show, corrected, tasks, timeout)
            == Ok((ScriptTasks(tasks, [script], timeout, extra), timeout))
  {
    var op := Str(script);
    assert ImplementationOf(op) == Ok(Some(op));
    assert InputTasks(op, corrected) == Ok([]);
    assert Iterate(List([op])) == Ok([op]);
    ScriptsOfOne(script);
    assert tasks + [] + [] == tasks;
  }

  /** The list value `[s1, s2, ...]` of some script names. */
  function ScriptList(scripts: seq<string>): (r: Value)
    ensures r.List? && |r.items| == |scripts|
    ensures forall j :: 0 <= j < |scripts| ==> r.items[j] == Str(scripts[j])
  {
    List(seq(|scripts|, j requires 0 <= j < |scripts| => Str(scripts[j])))
  }

  /** A step whose operation is a mapping implemented by a list of
      scripts, with no inputs, no timeout and no dependencies, includes
      those scripts in order after the tasks so far. */
  lemma StepOfScripts(interfaceName: string, iface: Value, typeName: string, operation: string,
                      targetDirectory: string, extra: Entries, show: Value -> string, corrected: bool,
                      tasks: seq<Task>, timeout: Option<int>, op: Entries, scripts: seq<string>)
    requires iface.Dict? && Acts(interfaceName, typeName)
    requires Lookup(iface.entries, operation) == Some(Dict(op))
    requires Lookup(op, Implementation) == Some(ScriptList(scripts)) && Lookup(op, Inputs).None?
    ensures InterfaceStep(interfaceName, iface, typeName, operation, targetDirectory, extra, show, corrected, tasks, timeout)
            == Ok((ScriptTasks(tasks, scripts, timeout, extra), timeout))
  {
    assert ImplementationOf(Dict(op)) == Ok(Some(ScriptList(scripts)));
    assert InputTasks(Dict(op), corrected) == Ok([]);
    StepOfList(interfaceName, iface, typeName, operation, targetDirectory, extra, show, corrected, tasks, timeout, scripts);
  }

  /** A step whose operation names a list of scripts as its implementation
      and has no inputs includes those scripts in order. */
  lemma StepOfList(interfaceName: string, iface: Value, typeName: string, operation: string,
                   targetDirectory: string, extra: Entries, show: Value -> string, corrected: bool,
                   tasks: seq<Task>, timeout: Option<int>, scripts: seq<string>)
    requires iface.Dict? && Acts(interfaceName, typeName)
    requires var op := Lookup(iface.entries, operation).GetOr(Dict([]));
             ImplementationOf(op) == Ok(Some(ScriptList(scripts))) && InputTasks(op, corrected) == Ok([])
    ensures InterfaceStep(interfaceName, iface, typeName, operation, targetDirectory, extra, show, corrected, tasks, timeout)
            == Ok((ScriptTasks(tasks, scripts, timeout, extra), timeout))
  {
    ScriptsOfList(scripts);
    StepOfPlainList(interfaceName, iface, typeName, operation, targetDirectory, extra, show, corrected, tasks, timeout,
                    ScriptList(scripts), scripts);
  }

  lemma ScriptsOfList(scripts: seq<string>)
    ensures Scripts(ScriptList(scripts)) == Ok(scripts)
  {
    var sc := Scripts(ScriptList(scripts));
    assert sc.value == scripts;
  }

  /** A list implementation whose scripts are known is included as is. */
  lemma StepOfPlainList(interfaceName: string, iface: Value, typeName: string, operation: string,
                        targetDirectory: string, extra: Entries, show: Value -> string, corrected: bool,
                        tasks: seq<Task>, timeout: Option<int>, impl: Value, scripts: seq<string>)
    requires iface.Dict? && Acts(interfaceName, typeName) && impl.List? && Scripts(impl) == Ok(scripts)
    requires var op := Lookup(iface.entries, operation).GetOr(Dict([]));
             ImplementationOf(op) == Ok(Some(impl)) && InputTasks(op, corrected) == Ok([])
    ensures InterfaceStep(interfaceName, iface, typeName, operation, targetDirectory, extra, show, corrected, tasks, timeout)
            == Ok((ScriptTasks(tasks, scripts, timeout, extra), timeout))
  {
    assert tasks + [] + [] == tasks;
  }

  /** `get_from_interface` on a node whose `Standard` interface implements
      `operation` by a list of scripts: the scripts are included in order
      with the element's extra arguments merged as `FreshScriptsCarry`
      describes. */
  lemma GetFromInterfaceOfScripts(tmpl: Entries, name: string, typeName: string, targetDirectory: string, operation: string,
                                  additional: Option<Value>, show: Value -> string, corrected: bool,
                                  op: Entries, scripts: seq<string>, extra: Entries)
    requires Utils.TypeCategory(typeName) == Some(Nodes)
    requires ConfigurationTools.InterfacesOf(tmpl) == Dict([(Standard, Dict([(operation, Dict(op))]))])
    requires Lookup(op, Implementation) == Some(ScriptList(scripts)) && Lookup(op, Inputs).None?
    requires ExtraArgs(additional, Some(name)) == Ok(extra)
    ensures GetFromInterface(tmpl, name, typeName, targetDirectory, operation, additional, show, corrected)
            == Ok(ScriptTasks([], scripts, None, extra))
  {
    InterfaceTasksOfScripts(typeName, operation, targetDirectory, extra, show, corrected, op, scripts);
  }

  /** Scripts included into an empty task list: every `include` but the
      last carries the extra arguments, and the last is bare. */
  lemma FreshScriptsCarry(scripts: seq<string>, extra: Entries)
    requires DistinctKeys(extra) && |scripts| > 0
    ensures var r := ScriptTasks([], scripts, None, extra);
            && r[|scripts| - 1] == IncludeTask(scripts[|scripts| - 1], None)
            && forall m :: 0 <= m < |scripts| - 1 ==> Carries(r[m], IncludeTask(scripts[m], None), extra)
  {
    LastInclude([], scripts, None, extra);
    forall m | 0 <= m < |scripts| - 1 ensures Carries(ScriptTasks([], scripts, None, extra)[m], IncludeTask(scripts[m], None), extra) {
      IncludeCarries([], scripts, None, extra, m, m);
    }
  }

  /** The interfaces `{Standard: {operation: op}}` of a node, with `op`
      implemented by a list of scripts, include those scripts in order. */
  lemma InterfaceTasksOfScripts(typeName: string, operation: string, targetDirectory: string, extra: Entries,
                                show: Value -> string, corrected: bool, op: Entries, scripts: seq<string>)
    requires Utils.TypeCategory(typeName) == Some(Nodes)
    requires Lookup(op, Implementation) == Some(ScriptList(scripts)) && Lookup(op, Inputs).None?
    ensures InterfaceTasks(Dict([(Standard, Dict([(operation, Dict(op))]))]), typeName, operation, targetDirectory, extra, show, corrected)
            == Ok(ScriptTasks([], scripts, None, extra))
  {
    var iface := Dict([(operation, Dict(op))]);
    assert Lookup(iface.entries, operation) == Some(Dict(op));
    StepOfScripts(Standard, iface, typeName, operation, targetDirectory, extra, show, corrected, [], None, op, scripts);
    InterfacesOfOne(Standard, iface, typeName, operation, targetDirectory, extra, show, corrected,
                    ScriptTasks([], scripts, None, extra), None);
  }

  lemma ScriptTasksOfOne(script: string, timeout: Option<int>, extra: Entries)
    ensures ScriptTasks([], [script], timeout, extra) == [IncludeTask(script, timeout)]
  {
    assert [script][..0] == [];
  }

  /** A `primary` script with a non-zero timeout is included once and run
      asynchronously for that long. */
  lemma PrimaryWithTimeout(typeName: string, operation: string, primary: string, t: int, targetDirectory: string,
                           extra: Entries, show: Value -> string, corrected: bool)
    requires Utils.TypeCategory(typeName) == Some(Nodes)
    requires t != 0
    ensures var op := Dict([(Implementation, Dict([(TimeoutKey, Int(t)), (Primary, Str(primary))]))]);
            var r := InterfaceTasks(Dict([(Standard, Dict([(operation, op)]))]), typeName, operation, targetDirectory, extra, show, corrected);
            r == Ok([IncludeTask(primary, Some(t))]) && Lookup(r.value[0], Async) == Some(Int(t))
  {
    var op := Dict([(Implementation, Dict([(TimeoutKey, Int(t)), (Primary, Str(primary))]))]);
    PrimaryStep(typeName, operation, primary, t, targetDirectory, extra, show, corrected);
    InterfacesOfOne(Standard, Dict([(operation, op)]), typeName, operation, targetDirectory, extra, show, corrected,
                    [IncludeTask(primary, Some(t))], Some(t));
  }

  lemma PrimaryStep(typeName: string, operation: string, primary: string, t: int, targetDirectory: string,
                    extra: Entries, show: Value -> string, corrected: bool)
    requires Utils.TypeCategory(typeName) == Some(Nodes)
    requires t != 0
    ensures var op := Dict([(Implementation, Dict([(TimeoutKey, Int(t)), (Primary, Str(primary))]))]);
            InterfaceStep(Standard, Dict([(operation, op)]), typeName, operation, targetDirectory, extra, show, corrected, [], None)
            == Ok(([IncludeTask(primary, Some(t))], Some(t)))
  {
    var impl := [(TimeoutKey, Int(t)), (Primary, Str(primary))];
    var op := Dict([(Implementation, Dict(impl))]);
    var iface := Dict([(operation, op)]);
    assert Lookup(iface.entries, operation) == Some(op);
    assert Lookup(op.entries, Implementation) == Some(Dict(impl));
    assert Lookup(op.entries, Inputs) == None;
    assert ImplementationOf(op) == Ok(Some(Dict(impl)));
    assert InputTasks(op, corrected) == Ok([]);
    PrimaryDetails(primary, t, targetDirectory, show, corrected);
    ScriptsOfOne(primary);
    ScriptTasksOfOne(primary, Some(t), extra);
  }

  lemma PrimaryDetails(primary: string, t: int, targetDirectory: string, show: Value -> string, corrected: bool)
    ensures Details([(TimeoutKey, Int(t)), (Primary, Str(primary))], targetDirectory, show, None, corrected)
            == Ok((List([Str(primary)]), [], Some(t)))
  {
    var impl := [(TimeoutKey, Int(t)), (Primary, Str(primary))];
    assert Lookup(impl, TimeoutKey) == Some(Int(t));
    assert Lookup(impl, Primary) == Some(Str(primary));
    assert Lookup(impl, OperationHost) == None;
    assert Lookup(impl, Dependencies) == None;
  }

  /** With one interface, a failing step fails the whole scan. */
  lemma InterfacesOfOneFails(interfaceName: string, iface: Value, typeName: string, operation: string, targetDirectory: string,
                             extra: Entries, show: Value -> string, corrected: bool)
    requires InterfaceStep(interfaceName, iface, typeName, operation, targetDirectory, extra, show, corrected, [], None).Err?
    ensures InterfaceTasks(Dict([(interfaceName, iface)]), typeName, operation, targetDirectory, extra, show, corrected).Err?
  {
  }

  /** An operation of a node whose implementation mapping is malformed
      (a `timeout` that is not an integer or a string, a `primary` that is
      not a string, `dependencies` that are not a list) yields no tasks. */
  lemma MalformedImplementationFails(impl: Entries, typeName: string, operation: string, targetDirectory: string,
                                     extra: Entries, show: Value -> string, corrected: bool)
    requires Utils.TypeCategory(typeName) == Some(Nodes)
    requires || (TimeoutKey in KeySet(impl) && !(Lookup(impl, TimeoutKey).value.Int? || Lookup(impl, TimeoutKey).value.Bool?
                                                  || Lookup(impl, TimeoutKey).value.Str?))
             || (Primary in KeySet(impl) && !Lookup(impl, Primary).value.Str?)
             || (Dependencies in KeySet(impl) && !Lookup(impl, Dependencies).value.List?)
    ensures var op := Dict([(Implementation, Dict(impl))]);
            InterfaceTasks(Dict([(Standard, Dict([(operation, op)]))]), typeName, operation, targetDirectory, extra, show, corrected).Err?
  {
    var op := Dict([(Implementation, Dict(impl))]);
    var iface := Dict([(operation, op)]);
    assert Lookup(iface.entries, operation) == Some(op);
    assert Lookup(op.entries, Implementation) == Some(Dict(impl));
    assert ImplementationOf(op) == Ok(Some(Dict(impl)));
    assert Details(impl, targetDirectory, show, None, corrected).Err?;
    assert InterfaceStep(Standard, iface, typeName, operation, targetDirectory, extra, show, corrected, [], None).Err?;
    InterfacesOfOneFails(Standard, iface, typeName, operation, targetDirectory, extra, show, corrected);
  }

  /** The implementation of an operation that names a `primary` script and
      the host it runs on. */
  function HostedPrimary(primary: string, host: string): Value
  {
    Dict([(Implementation, Dict([(Primary, Str(primary)), (OperationHost, Str(host))]))])
  }

  lemma HostedDetails(primary: string, host: string, targetDirectory: string, show: Value -> string, corrected: bool)
    ensures Details([(Primary, Str(primary)), (OperationHost, Str(host))], targetDirectory, show, None, corrected)
            == if corrected then Ok((List([Str(primary)]), [], None)) else Err(OperationHostUnresolved)
  {
    var impl := [(Primary, Str(primary)), (OperationHost, Str(host))];
    assert Lookup(impl, TimeoutKey) == None;
    assert Lookup(impl, Primary) == Some(Str(primary));
    assert Lookup(impl, OperationHost) == Some(Str(host));
    assert Lookup(impl, Dependencies) == None;
  }

  lemma HostedStep(typeName: string, operation: string, primary: string, host: string, targetDirectory: string,
                   extra: Entries, show: Value -> string, corrected: bool)
    requires Utils.TypeCategory(typeName) == Some(Nodes)
    ensures InterfaceStep(Standard, Dict([(operation, HostedPrimary(primary, host))]), typeName, operation,
                          targetDirectory, extra, show, corrected, [], None)
            == if corrected then Ok(([IncludeTask(primary, None)], None)) else Err(OperationHostUnresolved)
  {
    var op := HostedPrimary(primary, host);
    var iface := Dict([(operation, op)]);
    assert Lookup(iface.entries, operation) == Some(op);
    assert Lookup(op.entries, Implementation) == Some(op.entries[0].1);
    assert Lookup(op.entries, Inputs) == None;
    assert ImplementationOf(op) == Ok(Some(op.entries[0].1));
    assert InputTasks(op, corrected) == Ok([]);
    HostedDetails(primary, host, targetDirectory, show, corrected);
    ScriptsOfOne(primary);
    ScriptTasksOfOne(primary, None, extra);
  }

  /** As written, a node operation whose `primary` script names its host by
      a string yields no tasks at all: resolving the host raises. */
  lemma AsWrittenOperationHostFails(typeName: string, operation: string, primary: string, host: string,
                                    targetDirectory: string, extra: Entries, show: Value -> string)
    requires Utils.TypeCategory(typeName) == Some(Nodes)
    ensures InterfaceTasks(Dict([(Standard, Dict([(operation, HostedPrimary(primary, host))]))]), typeName, operation,
                           targetDirectory, extra, show, false)
            == Err(OperationHostUnresolved)
  {
    var iface := Dict([(operation, HostedPrimary(primary, host))]);
    HostedStep(typeName, operation, primary, host, targetDirectory, extra, show, false);
    assert InterfacesFrom([(Standard, iface)], 0, typeName, operation, targetDirectory, extra, show, false, [], None)
           == Err(OperationHostUnresolved);
  }

  /** Corrected, naming the host leaves the host as it is and the `primary`
      script is included, as it is when no host is named. */
  lemma CorrectedOperationHostIncludes(typeName: string, operation: string, primary: string, host: string,
                                       targetDirectory: string, extra: Entries, show: Value -> string)
    requires Utils.TypeCategory(typeName) == Some(Nodes)
    ensures InterfaceTasks(Dict([(Standard, Dict([(operation, HostedPrimary(primary, host))]))]), typeName, operation,
                           targetDirectory, extra, show, true)
            == Ok([IncludeTask(primary, None)])
  {
    HostedStep(typeName, operation, primary, host, targetDirectory, extra, show, true);
    InterfacesOfOne(Standard, Dict([(operation, HostedPrimary(primary, host))]), typeName, operation,
                    targetDirectory, extra, show, true, [IncludeTask(primary, None)], None);
  }

  // ---------------------------------------------------------------------
  // get_from_interface
  // ---------------------------------------------------------------------

  /** `get_from_interface`: the element's extra arguments, then the tasks of
      `operation` across the interfaces of its template. */
  function GetFromInterface(tmpl: Entries, name: string, typeName: string, targetDirectory: string, operation: string,
                            additional: Option<Value>, show: Value -> string, corrected: bool): (r: Result<seq<Task>>)
    ensures ExtraArgs(additional, Some(name)).Err? ==> r.Err?
    ensures !ConfigurationTools.InterfacesOf(tmpl).Dict? ==> r.Err?
    ensures ConfigurationTools.InterfacesKey !in KeySet(tmpl) && ExtraArgs(additional, Some(name)).Ok? ==> r == Ok([])
  {
    var extra :- ExtraArgs(additional, Some(name));
    InterfaceTasks(ConfigurationTools.InterfacesOf(tmpl), typeName, operation, targetDirectory, extra, show, corrected)
  }
}

=== FILE: template_dependencies.dfy ===
/** The requirement scan of `ProviderToscaTemplate`
    (`resolve_in_template_dependencies` and `add_template_dependency`):
    which templates a node template depends on, and the source and target
    of every relationship template named in a requirement. */
module TemplateDependencies {
  import opened Wrappers
  import opened Values
  import opened Utils

  // Error messages, as the source raises or reports them.
  const NoneHasNoGet := "'NoneType' object has no attribute 'get'"
  const DefinitionNotMap := "definition is not a map"
  const HasNoItems := "object has no attribute 'items'"
  const HasNoSplit := "object has no attribute 'split'"
  const TemplateNotMap := "template is not a map"

  /** The TOSCA keyword for "this template". */
  const Self: string := "SELF"

  /** `template_dependencies`: node name to the names it depends on. */
  type DepMap = map<string, set<string>>

  /** An entry of `_relation_target_source`. */
  datatype RelationEnds = RelationEnds(source: string, target: Option<Value>)

  datatype Resolution = Resolution(deps: DepMap, relations: map<string, RelationEnds>)

  /** No node depends on itself or on `SELF`. */
  predicate NoSelfDependency(deps: DepMap)
  {
    forall n :: n in deps ==> Self !in deps[n] && n !in deps[n]
  }

  /** Every entry of `after` extends the same entry of `before`. */
  predicate Grows(before: DepMap, after: DepMap)
  {
    forall n :: n in before ==> n in after && before[n] <= after[n]
  }

  /** `add_template_dependency(node, dep)`: records `dep` for `node` unless
      it is `SELF` or the node itself. No other entry changes and nothing
      but `dep` is added. */
  function AddDependency(deps: DepMap, node: string, dep: string): (r: DepMap)
    ensures NoSelfDependency(deps) ==> NoSelfDependency(r)
    ensures Grows(deps, r)
    ensures forall n :: n != node ==> (n in r <==> n in deps) && (n in deps ==> r[n] == deps[n])
    ensures dep != Self && dep != node ==> node in r && dep in r[node]
    ensures forall n, d :: n in r && d in r[n] ==> (n in deps && d in deps[n]) || (n == node && d == dep)
  {
    if dep == Self || node == dep then deps
    else deps[node := (if node in deps then deps[node] else {}) + {dep}]
  }

  /** Adding the same dependency twice changes nothing more. */
  lemma AddDependencyIdempotent(deps: DepMap, node: string, dep: string)
    ensures AddDependency(AddDependency(deps, node, dep), node, dep) == AddDependency(deps, node, dep)
  {
    if dep != Self && dep != node {
      var once := AddDependency(deps, node, dep);
      assert once[node] + {dep} == once[node];
    }
  }

  /** The optional value of a `.get` that was not `None`. */
  function NoneIfNull(o: Option<Value>): Option<Value>
  {
    if IsNone(o) then None else o
  }

  /** The requirement body's `key` is the template name `x`: a string
      that does not parse as a three-part type name. */
  predicate NamesTemplate(body: Value, key: string, x: string)
  {
    body.Dict? && Lookup(body.entries, key) == Some(Str(x)) && TypeParse(x).None?
  }

  /** The relationship template a requirement body names, if any. */
  function RelationNamed(body: Value): (r: Option<string>)
    ensures forall x :: r == Some(x) <==> NamesTemplate(body, "relationship", x)
  {
    if body.Dict? && Lookup(body.entries, "relationship").Some? && Lookup(body.entries, "relationship").value.Str?
       && TypeParse(Lookup(body.entries, "relationship").value.s).None?
    then Some(Lookup(body.entries, "relationship").value.s)
    else None
  }

  /** One requirement `{name: body}`: a `relationship` or `node` value that
      is not a three-part type name is the name of a template and becomes a
      dependency; a relationship so named also records this node as its
      source and the requirement's `node` as its target. A non-string value
      is the `AttributeError` of `str.split`. */
  function ResolveRequirementBody(name: string, body: Value, res: Resolution): (r: Result<Resolution>)
    ensures r.Ok? ==> Grows(res.deps, r.value.deps)
    ensures r.Ok? && NoSelfDependency(res.deps) ==> NoSelfDependency(r.value.deps)
    ensures r.Ok? ==> forall n :: n != name ==> (n in r.value.deps <==> n in res.deps) && (n in res.deps ==> r.value.deps[n] == res.deps[n])
    ensures r.Ok? ==> forall x :: NamesTemplate(body, "node", x) && x != Self && x != name ==> name in r.value.deps && x in r.value.deps[name]
    ensures r.Ok? ==> forall x :: NamesTemplate(body, "relationship", x) && x != Self && x != name ==> name in r.value.deps && x in r.value.deps[name]
    ensures r.Ok? ==> forall x :: NamesTemplate(body, "relationship", x) ==> r.value.relations == res.relations[x := RelationEnds(name, NoneIfNull(Lookup(body.entries, "node")))]
    ensures r.Ok? && RelationNamed(body).None? ==> r.value.relations == res.relations
    ensures !body.Dict? ==> r.Err?
  {
    if !body.Dict? then Err(NoneHasNoGet)
    else
      var rel := Lookup(body.entries, "relationship");
      var node := Lookup(body.entries, "node");
      var res1 :-
        if IsNone(rel) then Ok(res)
        else if !rel.value.Str? then Err(HasNoSplit)
        else if TypeParse(rel.value.s).Some? then Ok(res)
        else Ok(Resolution(AddDependency(res.deps, name, rel.value.s),
                           res.relations[rel.value.s := RelationEnds(name, NoneIfNull(node))]));
      if IsNone(node) then Ok(res1)
      else if !node.value.Str? then Err(HasNoSplit)
      else if TypeParse(node.value.s).Some? then Ok(res1)
      else Ok(res1.(deps := AddDependency(res1.deps, name, node.value.s)))
  }

  /** The entries `(req_name, req_body)` of one requirement, in order. */
  function ResolveRequirementEntries(name: string, entries: Entries, res: Resolution): (r: Result<Resolution>)
    ensures r.Ok? ==> Grows(res.deps, r.value.deps)
    ensures r.Ok? && NoSelfDependency(res.deps) ==> NoSelfDependency(r.value.deps)
    ensures r.Ok? ==> forall n :: n != name ==> (n in r.value.deps <==> n in res.deps) && (n in res.deps ==> r.value.deps[n] == res.deps[n])
    decreases |entries|
  {
    if |entries| == 0 then Ok(res)
    else
      var res1 :- ResolveRequirementBody(name, entries[0].1, res);
      ResolveRequirementEntries(name, entries[1..], res1)
  }

  /** The node's `requirements` list; each item must be a map. */
  function ResolveRequirements(name: string, reqs: seq<Value>, res: Resolution): (r: Result<Resolution>)
    ensures r.Ok? ==> Grows(res.deps, r.value.deps)
    ensures r.Ok? && NoSelfDependency(res.deps) ==> NoSelfDependency(r.value.deps)
    ensures r.Ok? ==> forall n :: n != name ==> (n in r.value.deps <==> n in res.deps) && (n in res.deps ==> r.value.deps[n] == res.deps[n])
    decreases |reqs|
  {
    if |reqs| == 0 then Ok(res)
    else if !reqs[0].Dict? then Err(HasNoItems)
    else
      var res1 :- ResolveRequirementEntries(name, reqs[0].entries, res);
      ResolveRequirements(name, reqs[1..], res1)
  }

  /** The `node` types named by the requirement definitions of a node's
      type, other than the node's own type. */
  function RequiredNodeTypes(reqDefs: seq<Value>, ownType: Value): (r: Result<set<Value>>)
    ensures r.Ok? ==> ownType !in r.value
    ensures r.Ok? ==> forall i :: 0 <= i < |reqDefs| ==> reqDefs[i].Dict?
    decreases |reqDefs|
  {
    if |reqDefs| == 0 then Ok({})
    else if !reqDefs[0].Dict? then Err(HasNoItems)
    else
      var here :- NodeTypesOf(reqDefs[0].entries, ownType);
      var rest :- RequiredNodeTypes(reqDefs[1..], ownType);
      Ok(here + rest)
  }

  /** The `node` type a requirement definition names, unless it is `None`
      or the node's own type. */
  function NamedType(reqDef: Value, ownType: Value): set<Value>
    requires reqDef.Dict?
  {
    var n := Lookup(reqDef.entries, "node");
    if !IsNone(n) && n.value != ownType then {n.value} else {}
  }

  function NodeTypesOf(entries: Entries, ownType: Value): (r: Result<set<Value>>)
    ensures r.Ok? ==> ownType !in r.value
    ensures r.Ok? ==> forall j :: 0 <= j < |entries| ==> entries[j].1.Dict?
    ensures r.Ok? ==> forall j :: 0 <= j < |entries| ==> NamedType(entries[j].1, ownType) <= r.value
    decreases |entries|
  {
    if |entries| == 0 then Ok({})
    else if !entries[0].1.Dict? then Err(NoneHasNoGet)
    else
      var rest :- NodeTypesOf(entries[1..], ownType);
      assert forall j :: 1 <= j < |entries| ==> entries[j] == entries[1..][j - 1];
      Ok(NamedType(entries[0].1, ownType) + rest)
  }

  /** `tmpl[TYPE]`: a template that is not a map or has no type is the
      `TypeError`/`KeyError` of the subscript. */
  function TemplateType(tmpl: Value): Result<Value>
  {
    if !tmpl.Dict? then Err(TemplateNotMap)
    else match Lookup(tmpl.entries, "type")
      case Some(t) => Ok(t)
      case None => Err("KeyError: 'type'")
  }

  /** The template `(m, tmpl)` is of one of `types` and may be recorded as a
      dependency of `name`. */
  predicate TypeDependency(m: (string, Value), types: set<Value>, name: string)
  {
    TemplateType(m.1).Ok? && TemplateType(m.1).value in types && m.0 != Self && m.0 != name
  }

  /** Every node template whose type is one of `types` becomes a
      dependency of `name`. */
  function AddTypeDependencies(name: string, all: Entries, types: set<Value>, deps: DepMap): (r: Result<DepMap>)
    ensures r.Ok? ==> Grows(deps, r.value)
    ensures r.Ok? && NoSelfDependency(deps) ==> NoSelfDependency(r.value)
    ensures r.Ok? ==> forall n :: n != name ==> (n in r.value <==> n in deps) && (n in deps ==> r.value[n] == deps[n])
    ensures r.Ok? ==> forall j :: 0 <= j < |all| ==> TemplateType(all[j].1).Ok?
    ensures r.Ok? ==> forall j :: 0 <= j < |all| && TypeDependency(all[j], types, name) ==> name in r.value && all[j].0 in r.value[name]
    decreases |all|
  {
    if |all| == 0 then Ok(deps)
    else
      var t :- TemplateType(all[0].1);
      var deps1 := if t in types then AddDependency(deps, name, all[0].0) else deps;
      var r :- AddTypeDependencies(name, all[1..], types, deps1);
      assert forall j :: 1 <= j < |all| ==> all[j] == all[1..][j - 1];
      Ok(r)
  }

  /** Every template of `all` whose type is among `types` is a dependency of `name`. */
  predicate TypeDependenciesIn(deps: DepMap, name: string, all: Entries, types: set<Value>)
  {
    forall j :: 0 <= j < |all| && TypeDependency(all[j], types, name) ==> name in deps && all[j].0 in deps[name]
  }

  /** The types named by the requirement definitions of a node's type,
      other than the node's own type. */
  function TypesRequiredBy(node: Value, definitions: Entries): (r: Result<set<Value>>)
    ensures r.Ok? ==> TemplateType(node).Ok? && TemplateType(node).value !in r.value
  {
    var ownType :- TemplateType(node);
    var definition :- DefinitionOf(definitions, ownType);
    if !definition.Dict? then Err(DefinitionNotMap)
    else
      var reqDefs :- Iterate(Lookup(definition.entries, "requirements").GetOr(List([])));
      RequiredNodeTypes(reqDefs, ownType)
  }

  /** The scan of one node template: its requirements, then the templates
      whose type its type's requirement definitions name. */
  function ResolveNode(name: string, node: Value, all: Entries, definitions: Entries, res: Resolution): (r: Result<Resolution>)
    ensures r.Ok? ==> Grows(res.deps, r.value.deps)
    ensures r.Ok? && NoSelfDependency(res.deps) ==> NoSelfDependency(r.value.deps)
    ensures r.Ok? ==> forall n :: n != name ==> (n in r.value.deps <==> n in res.deps) && (n in res.deps ==> r.value.deps[n] == res.deps[n])
    ensures r.Ok? ==> TypesRequiredBy(node, definitions).Ok?
    ensures r.Ok? ==> TypeDependenciesIn(r.value.deps, name, all, TypesRequiredBy(node, definitions).value)
  {
    var reqs :- RequirementsOf(node);
    var res1 :- ResolveRequirements(name, reqs, res);
    var types :- TypesRequiredBy(node, definitions);
    var deps :- AddTypeDependencies(name, all, types, res1.deps);
    Ok(res1.(deps := deps))
  }

  /** `node.get(REQUIREMENTS, [])`, iterated. */
  function RequirementsOf(node: Value): Result<seq<Value>>
  {
    if !node.Dict? then Err(TemplateNotMap)
    else Iterate(Lookup(node.entries, "requirements").GetOr(List([])))
  }

  /** `self.definitions[type]`. */
  function DefinitionOf(definitions: Entries, t: Value): Result<Value>
  {
    if !t.Str? then Err("KeyError: type")
    else match Lookup(definitions, t.s)
      case Some(d) => Ok(d)
      case None => Err("KeyError: " + t.s)
  }

  /** `resolve_in_template_dependencies` over the node templates from
      index `i` on. */
  function ResolveFrom(nodes: Entries, i: nat, definitions: Entries, res: Resolution): (r: Result<Resolution>)
    requires i <= |nodes|
    ensures r.Ok? ==> Grows(res.deps, r.value.deps)
    ensures r.Ok? && NoSelfDependency(res.deps) ==> NoSelfDependency(r.value.deps)
    decreases |nodes| - i
  {
    if i == |nodes| then Ok(res)
    else
      var res1 :- ResolveNode(nodes[i].0, nodes[i].1, nodes, definitions, res);
      ResolveFrom(nodes, i + 1, definitions, res1)
  }

  /** `resolve_in_template_dependencies`: starting from no dependencies and
      no relations, no node ends up depending on itself or on `SELF`. */
  function ResolveTemplateDependencies(nodes: Entries, definitions: Entries): (r: Result<Resolution>)
    ensures r.Ok? ==> NoSelfDependency(r.value.deps)
  {
    ResolveFrom(nodes, 0, definitions, Resolution(map[], map[]))
  }

  /** Every node template whose type a node's type requires becomes a
      dependency of that node, whatever the templates scanned after it. */
  lemma TypeDependencyRecorded(nodes: Entries, definitions: Entries, i: nat, j: nat)
    requires i < |nodes| && j < |nodes|
    requires ResolveTemplateDependencies(nodes, definitions).Ok?
    ensures TypesRequiredBy(nodes[i].1, definitions).Ok?
    ensures TypeDependency(nodes[j], TypesRequiredBy(nodes[i].1, definitions).value, nodes[i].0) ==>
              var deps := ResolveTemplateDependencies(nodes, definitions).value.deps;
              nodes[i].0 in deps && nodes[j].0 in deps[nodes[i].0]
  {
    ResolveFromRecords(nodes, 0, definitions, Resolution(map[], map[]), i, j);
  }

  lemma {:induction false} ResolveFromRecords(nodes: Entries, k: nat, definitions: Entries, res: Resolution, i: nat, j: nat)
    requires k <= i < |nodes| && j < |nodes|
    requires ResolveFrom(nodes, k, definitions, res).Ok?
    ensures TypesRequiredBy(nodes[i].1, definitions).Ok?
    ensures TypeDependency(nodes[j], TypesRequiredBy(nodes[i].1, definitions).value, nodes[i].0) ==>
              var deps := ResolveFrom(nodes, k, definitions, res).value.deps;
              nodes[i].0 in deps && nodes[j].0 in deps[nodes[i].0]
    decreases |nodes| - k
  {
    var res1 := ResolveNode(nodes[k].0, nodes[k].1, nodes, definitions, res).value;
    if k < i {
      ResolveFromRecords(nodes, k + 1, definitions, res1, i, j);
    }
  }

  // ---------------------------------------------------------------------
  // The whole scan, both ways
  // ---------------------------------------------------------------------

  /** Some body of one requirement names template `x` under `key`. */
  ghost predicate EntriesName(entries: Entries, key: string, x: string)
  {
    exists b :: 0 <= b < |entries| && NamesTemplate(entries[b].1, key, x)
  }

  /** Some requirement of the list names template `x` under `key`. */
  ghost predicate RequirementsName(reqs: seq<Value>, key: string, x: string)
  {
    exists a :: 0 <= a < |reqs| && reqs[a].Dict? && EntriesName(reqs[a].entries, key, x)
  }

  /** The node template's requirements name template `x` under `key`. */
  ghost predicate NodeNames(node: Value, key: string, x: string)
  {
    RequirementsOf(node).Ok? && RequirementsName(RequirementsOf(node).value, key, x)
  }

  /** One body adds only what it names, and rewrites only the relation it
      names, with this node as the source. */
  lemma BodyExplained(name: string, body: Value, res: Resolution)
    requires ResolveRequirementBody(name, body, res).Ok?
    ensures var r := ResolveRequirementBody(name, body, res).value;
            forall d :: name in r.deps && d in r.deps[name] ==>
              (name in res.deps && d in res.deps[name]) || NamesTemplate(body, "node", d) || NamesTemplate(body, "relationship", d)
    ensures var r := ResolveRequirementBody(name, body, res).value;
            forall x :: x in r.relations ==>
              (x in res.relations && r.relations[x] == res.relations[x]) || (r.relations[x].source == name && NamesTemplate(body, "relationship", x))
  {
    var rel := Lookup(body.entries, "relationship");
    var node := Lookup(body.entries, "node");
    var res1 := if IsNone(rel) || TypeParse(rel.value.s).Some? then res
                else Resolution(AddDependency(res.deps, name, rel.value.s), res.relations[rel.value.s := RelationEnds(name, NoneIfNull(node))]);
    assert ResolveRequirementBody(name, body, res).value.relations == res1.relations;
  }

  /** A body keeps every relation already recorded. */
  lemma BodyKeepsRelations(name: string, body: Value, res: Resolution)
    requires ResolveRequirementBody(name, body, res).Ok?
    ensures res.relations.Keys <= ResolveRequirementBody(name, body, res).value.relations.Keys
  {
    if RelationNamed(body).Some? {
      assert NamesTemplate(body, "relationship", RelationNamed(body).value);
    }
  }

  /** The bodies of one requirement record every template they name, and
      every relationship among them. */
  lemma {:induction false} EntriesRecord(name: string, entries: Entries, res: Resolution, x: string)
    requires ResolveRequirementEntries(name, entries, res).Ok?
    ensures res.relations.Keys <= ResolveRequirementEntries(name, entries, res).value.relations.Keys
    ensures var r := ResolveRequirementEntries(name, entries, res).value;
            (EntriesName(entries, "node", x) || EntriesName(entries, "relationship", x)) && x != Self && x != name ==>
              name in r.deps && x in r.deps[name]
    ensures EntriesName(entries, "relationship", x) ==> x in ResolveRequirementEntries(name, entries, res).value.relations
    decreases |entries|
  {
    if |entries| > 0 {
      var res1 := ResolveRequirementBody(name, entries[0].1, res).value;
      BodyKeepsRelations(name, entries[0].1, res);
      EntriesRecord(name, entries[1..], res1, x);
      forall key | EntriesName(entries, key, x)
        ensures NamesTemplate(entries[0].1, key, x) || EntriesName(entries[1..], key, x)
      {
        var b :| 0 <= b < |entries| && NamesTemplate(entries[b].1, key, x);
        if b > 0 {
          assert entries[1..][b - 1] == entries[b];
        }
      }
    }
  }

  /** The bodies of one requirement add only dependencies they name, and
      rewrite only relations they name, with this node as the source. */
  lemma {:induction false} EntriesExplained(name: string, entries: Entries, res: Resolution)
    requires ResolveRequirementEntries(name, entries, res).Ok?
    ensures var r := ResolveRequirementEntries(name, entries, res).value;
            forall d :: name in r.deps && d in r.deps[name] ==>
              (name in res.deps && d in res.deps[name]) || EntriesName(entries, "node", d) || EntriesName(entries, "relationship", d)
    ensures var r := ResolveRequirementEntries(name, entries, res).value;
            forall x :: x in r.relations ==>
              (x in res.relations && r.relations[x] == res.relations[x]) || (r.relations[x].source == name && EntriesName(entries, "relationship", x))
    decreases |entries|
  {
    if |entries| > 0 {
      var res1 := ResolveRequirementBody(name, entries[0].1, res).value;
      BodyExplained(name, entries[0].1, res);
      EntriesExplained(name, entries[1..], res1);
      forall key, x | EntriesName(entries[1..], key, x)
        ensures EntriesName(entries, key, x)
      {
        var b :| 0 <= b < |entries[1..]| && NamesTemplate(entries[1..][b].1, key, x);
        assert entries[1..][b] == entries[b + 1];
      }
      forall key, x | NamesTemplate(entries[0].1, key, x)
        ensures EntriesName(entries, key, x)
      {
        assert NamesTemplate(entries[0].1, key, x);
      }
    }
  }

  /** The requirements list records every template it names, and every
      relationship among them. */
  lemma {:induction false} RequirementsRecord(name: string, reqs: seq<Value>, res: Resolution, x: string)
    requires ResolveRequirements(name, reqs, res).Ok?
    ensures res.relations.Keys <= ResolveRequirements(name, reqs, res).value.relations.Keys
    ensures var r := ResolveRequirements(name, reqs, res).value;
            (RequirementsName(reqs, "node", x) || RequirementsName(reqs, "relationship", x)) && x != Self && x != name ==>
              name in r.deps && x in r.deps[name]
    ensures RequirementsName(reqs, "relationship", x) ==> x in ResolveRequirements(name, reqs, res).value.relations
    decreases |reqs|
  {
    if |reqs| > 0 {
      var res1 := ResolveRequirementEntries(name, reqs[0].entries, res).value;
      EntriesRecord(name, reqs[0].entries, res, x);
      RequirementsRecord(name, reqs[1..], res1, x);
      forall key | RequirementsName(reqs, key, x)
        ensures EntriesName(reqs[0].entries, key, x) || RequirementsName(reqs[1..], key, x)
      {
        var a :| 0 <= a < |reqs| && reqs[a].Dict? && EntriesName(reqs[a].entries, key, x);
        if a > 0 {
          assert reqs[1..][a - 1] == reqs[a];
        }
      }
    }
  }

  /** The requirements list adds only dependencies it names, and rewrites
      only relations it names, with this node as the source. */
  lemma {:induction false} RequirementsExplained(name: string, reqs: seq<Value>, res: Resolution)
    requires ResolveRequirements(name, reqs, res).Ok?
    ensures var r := ResolveRequirements(name, reqs, res).value;
            forall d :: name in r.deps && d in r.deps[name] ==>
              (name in res.deps && d in res.deps[name]) || RequirementsName(reqs, "node", d) || RequirementsName(reqs, "relationship", d)
    ensures var r := ResolveRequirements(name, reqs, res).value;
            forall x :: x in r.relations ==>
              (x in res.relations && r.relations[x] == res.relations[x]) || (r.relations[x].source == name && RequirementsName(reqs, "relationship", x))
    decreases |reqs|
  {
    if |reqs| > 0 {
      var res1 := ResolveRequirementEntries(name, reqs[0].entries, res).value;
      EntriesExplained(name, reqs[0].entries, res);
      RequirementsExplained(name, reqs[1..], res1);
      forall key, x | RequirementsName(reqs[1..], key, x)
        ensures RequirementsName(reqs, key, x)
      {
        var a :| 0 <= a < |reqs[1..]| && reqs[1..][a].Dict? && EntriesName(reqs[1..][a].entries, key, x);
        assert reqs[1..][a] == reqs[a + 1];
      }
      forall key, x | EntriesName(reqs[0].entries, key, x)
        ensures RequirementsName(reqs, key, x)
      {
        assert reqs[0].Dict? && EntriesName(reqs[0].entries, key, x);
      }
    }
  }

  /** The type scan adds only templates of a required type. */
  lemma {:induction false} TypeDependenciesExplained(name: string, all: Entries, types: set<Value>, deps: DepMap)
    requires AddTypeDependencies(name, all, types, deps).Ok?
    ensures var r := AddTypeDependencies(name, all, types, deps).value;
            forall d :: name in r && d in r[name] ==>
              (name in deps && d in deps[name]) || exists j :: 0 <= j < |all| && all[j].0 == d && TypeDependency(all[j], types, name)
    decreases |all|
  {
    if |all| > 0 {
      var t := TemplateType(all[0].1).value;
      var deps1 := if t in types then AddDependency(deps, name, all[0].0) else deps;
      TypeDependenciesExplained(name, all[1..], types, deps1);
      forall j | 0 <= j < |all[1..]| && TypeDependency(all[1..][j], types, name)
        ensures TypeDependency(all[j + 1], types, name) && all[1..][j].0 == all[j + 1].0
      {
        assert all[1..][j] == all[j + 1];
      }
    }
  }

  /** Scanning one node records every template its requirements name, and
      every relationship among them. */
  lemma NodeRecords(name: string, node: Value, all: Entries, definitions: Entries, res: Resolution, x: string)
    requires ResolveNode(name, node, all, definitions, res).Ok?
    ensures res.relations.Keys <= ResolveNode(name, node, all, definitions, res).value.relations.Keys
    ensures var r := ResolveNode(name, node, all, definitions, res).value;
            (NodeNames(node, "node", x) || NodeNames(node, "relationship", x)) && x != Self && x != name ==>
              name in r.deps && x in r.deps[name]
    ensures NodeNames(node, "relationship", x) ==> x in ResolveNode(name, node, all, definitions, res).value.relations
  {
    var reqs := RequirementsOf(node).value;
    RequirementsRecord(name, reqs, res, x);
  }

  /** Scanning one node adds only dependencies its requirements name or
      templates of a type its type requires, and rewrites only relations
      its requirements name, with this node as the source. */
  lemma NodeExplained(name: string, node: Value, all: Entries, definitions: Entries, res: Resolution)
    requires ResolveNode(name, node, all, definitions, res).Ok?
    ensures var r := ResolveNode(name, node, all, definitions, res).value;
            forall d :: name in r.deps && d in r.deps[name] ==>
              || (name in res.deps && d in res.deps[name])
              || NodeNames(node, "node", d) || NodeNames(node, "relationship", d)
              || exists j :: 0 <= j < |all| && all[j].0 == d && TypeDependency(all[j], TypesRequiredBy(node, definitions).value, name)
    ensures var r := ResolveNode(name, node, all, definitions, res).value;
            forall x :: x in r.relations ==>
              (x in res.relations && r.relations[x] == res.relations[x]) || (r.relations[x].source == name && NodeNames(node, "relationship", x))
  {
    var reqs := RequirementsOf(node).value;
    var res1 := ResolveRequirements(name, reqs, res).value;
    RequirementsExplained(name, reqs, res);
    TypeDependenciesExplained(name, all, TypesRequiredBy(node, definitions).value, res1.deps);
  }

  /** Node `i` accounts for its dependency `d`: its requirements name `d`,
      or `d` is a template of a type that node's type requires. */
  ghost predicate Explained(nodes: Entries, definitions: Entries, i: nat, d: string)
    requires i < |nodes|
  {
    || NodeNames(nodes[i].1, "node", d) || NodeNames(nodes[i].1, "relationship", d)
    || (TypesRequiredBy(nodes[i].1, definitions).Ok?
        && exists j :: 0 <= j < |nodes| && nodes[j].0 == d && TypeDependency(nodes[j], TypesRequiredBy(nodes[i].1, definitions).value, nodes[i].0))
  }

  /** The scan from `k` on records what each later node's requirements name. */
  lemma {:induction false} ResolveFromRecordsNamed(nodes: Entries, k: nat, definitions: Entries, res: Resolution, i: nat, x: string)
    requires k <= i < |nodes|
    requires ResolveFrom(nodes, k, definitions, res).Ok?
    ensures var r := ResolveFrom(nodes, k, definitions, res).value;
            (NodeNames(nodes[i].1, "node", x) || NodeNames(nodes[i].1, "relationship", x)) && x != Self && x != nodes[i].0 ==>
              nodes[i].0 in r.deps && x in r.deps[nodes[i].0]
    ensures NodeNames(nodes[i].1, "relationship", x) ==> x in ResolveFrom(nodes, k, definitions, res).value.relations
    decreases |nodes| - k
  {
    var res1 := ResolveNode(nodes[k].0, nodes[k].1, nodes, definitions, res).value;
    if k < i {
      ResolveFromRecordsNamed(nodes, k + 1, definitions, res1, i, x);
    } else {
      NodeRecords(nodes[k].0, nodes[k].1, nodes, definitions, res, x);
      ResolveFromKeepsRelations(nodes, k + 1, definitions, res1);
    }
  }

  /** The rest of the scan keeps every relation already recorded. */
  lemma {:induction false} ResolveFromKeepsRelations(nodes: Entries, k: nat, definitions: Entries, res: Resolution)
    requires k <= |nodes|
    requires ResolveFrom(nodes, k, definitions, res).Ok?
    ensures res.relations.Keys <= ResolveFrom(nodes, k, definitions, res).value.relations.Keys
    decreases |nodes| - k
  {
    if k < |nodes| {
      var res1 := ResolveNode(nodes[k].0, nodes[k].1, nodes, definitions, res).value;
      NodeRecords(nodes[k].0, nodes[k].1, nodes, definitions, res, "");
      ResolveFromKeepsRelations(nodes, k + 1, definitions, res1);
    }
  }

  /** The scan from `k` on adds to a node only dependencies that one of the
      later nodes of that name accounts for, and rewrites a relation only
      from a later node whose requirements name it. */
  lemma {:induction false} ResolveFromExplained(nodes: Entries, k: nat, definitions: Entries, res: Resolution)
    requires k <= |nodes|
    requires ResolveFrom(nodes, k, definitions, res).Ok?
    ensures var r := ResolveFrom(nodes, k, definitions, res).value;
            forall n, d :: n in r.deps && d in r.deps[n] ==>
              (n in res.deps && d in res.deps[n]) || exists i :: k <= i < |nodes| && nodes[i].0 == n && Explained(nodes, definitions, i, d)
    ensures var r := ResolveFrom(nodes, k, definitions, res).value;
            forall x :: x in r.relations ==>
              (x in res.relations && r.relations[x] == res.relations[x])
              || exists i :: k <= i < |nodes| && nodes[i].0 == r.relations[x].source && NodeNames(nodes[i].1, "relationship", x)
    decreases |nodes| - k
  {
    if k < |nodes| {
      var res1 := ResolveNode(nodes[k].0, nodes[k].1, nodes, definitions, res).value;
      NodeExplained(nodes[k].0, nodes[k].1, nodes, definitions, res);
      ResolveFromExplained(nodes, k + 1, definitions, res1);
      var r := ResolveFrom(nodes, k, definitions, res).value;
      forall n, d | n in res1.deps && d in res1.deps[n] && !(n in res.deps && d in res.deps[n])
        ensures nodes[k].0 == n && Explained(nodes, definitions, k, d)
      {
      }
      forall x | x in res1.relations && !(x in res.relations && res1.relations[x] == res.relations[x])
        ensures res1.relations[x].source == nodes[k].0 && NodeNames(nodes[k].1, "relationship", x)
      {
      }
    }
  }

  /** After the whole scan, every template a node's requirements name is a
      dependency of that node (unless it is `SELF` or the node itself), and
      every relationship they name has recorded ends. */
  lemma RequirementNamedRecorded(nodes: Entries, definitions: Entries, i: nat, x: string)
    requires i < |nodes|
    requires ResolveTemplateDependencies(nodes, definitions).Ok?
    ensures var r := ResolveTemplateDependencies(nodes, definitions).value;
            (NodeNames(nodes[i].1, "node", x) || NodeNames(nodes[i].1, "relationship", x)) && x != Self && x != nodes[i].0 ==>
              nodes[i].0 in r.deps && x in r.deps[nodes[i].0]
    ensures NodeNames(nodes[i].1, "relationship", x) ==> x in ResolveTemplateDependencies(nodes, definitions).value.relations
  {
    ResolveFromRecordsNamed(nodes, 0, definitions, Resolution(map[], map[]), i, x);
  }

  /** After the whole scan, every dependency of a node is accounted for by
      a node template of that name: its requirements name it, or it is a
      template of a type that node's type requires. */
  lemma DependencyExplained(nodes: Entries, definitions: Entries, n: string, d: string)
    requires ResolveTemplateDependencies(nodes, definitions).Ok?
    ensures var r := ResolveTemplateDependencies(nodes, definitions).value;
            n in r.deps && d in r.deps[n] ==> exists i :: 0 <= i < |nodes| && nodes[i].0 == n && Explained(nodes, definitions, i, d)
  {
    ResolveFromExplained(nodes, 0, definitions, Resolution(map[], map[]));
  }

  /** After the whole scan, every recorded relation was named by the
      requirements of the node recorded as its source. */
  lemma RelationExplained(nodes: Entries, definitions: Entries, x: string)
    requires ResolveTemplateDependencies(nodes, definitions).Ok?
    ensures var r := ResolveTemplateDependencies(nodes, definitions).value;
            x in r.relations ==> exists i :: 0 <= i < |nodes| && nodes[i].0 == r.relations[x].source && NodeNames(nodes[i].1, "relationship", x)
  {
    ResolveFromExplained(nodes, 0, definitions, Resolution(map[], map[]));
  }
}

=== FILE: terraform_tool.dfy ===
/** The Terraform configuration tool: creating a resource writes its
    Terraform JSON document from a shell task, then applies it with the
    Ansible `terraform` module. Its interface operations are those of the
    Ansible tool (`Tasks.GetFromInterface`). */
module TerraformTool {
  import opened Wrappers
  import opened Values
  import Tasks

  const ToolName := "terraform"
  const ProjectPath := "project_path"
  const ForceInit := "force_init"
  const Resource := "resource"
  const Shell := "shell"
  const ShellHead := "|\ncat > main.tf.json << EOF\n"
  const ShellTail := "\nEOF"

  /** The Terraform document of one resource: its configuration arguments
      under `resource`, the module, then the task name. */
  function ResourceDocument(name: string, configArgs: Entries, moduleKey: string): (r: Value)
    ensures r.Dict? && KeySet(r.entries) == {Resource}
    ensures var byModule := Lookup(r.entries, Resource).value;
            && byModule.Dict? && KeySet(byModule.entries) == {moduleKey}
            && var byName := Lookup(byModule.entries, moduleKey).value;
               byName.Dict? && KeySet(byName.entries) == {Tasks.TaskName(name)}
               && Lookup(byName.entries, Tasks.TaskName(name)) == Some(Dict(configArgs))
  {
    Dict([(Resource, Dict([(moduleKey, Dict([(Tasks.TaskName(name), Dict(configArgs))]))]))])
  }

  /** The shell text that writes `document` to `main.tf.json` through a
      here-document. */
  function ShellScript(document: string): (r: string)
    ensures |r| == |ShellHead| + |document| + |ShellTail|
    ensures r[..|ShellHead|] == ShellHead
    ensures r[|ShellHead|..|r| - |ShellTail|] == document
    ensures r[|r| - |ShellTail|..] == ShellTail
  {
    ShellHead + document + ShellTail
  }

  /** The `terraform` module arguments: apply the project named after the
      element, initialising it first. */
  function ApplyArgs(name: string): (r: Entries)
    ensures KeySet(r) == {ProjectPath, Tasks.StateKey, ForceInit}
    ensures Lookup(r, ProjectPath) == Some(Str(Tasks.TaskName(name)))
    ensures Lookup(r, Tasks.StateKey) == Some(Str("present"))
    ensures Lookup(r, ForceInit) == Some(Bool(true))
  {
    Put(Put(Put([], ProjectPath, Str(Tasks.TaskName(name))), Tasks.StateKey, Str("present")), ForceInit, Bool(true))
  }

  function WriteTask(name: string, configArgs: Entries, description: Value, moduleKey: string, dumps: Value -> string): (t: Tasks.Task)
    ensures KeySet(t) == {Tasks.NameKey, Shell}
    ensures Lookup(t, Tasks.NameKey) == Some(description)
    ensures Lookup(t, Shell) == Some(Str(ShellScript(dumps(ResourceDocument(name, configArgs, moduleKey)))))
  {
    Put(Put([], Tasks.NameKey, description), Shell, Str(ShellScript(dumps(ResourceDocument(name, configArgs, moduleKey)))))
  }

  function ApplyTask(name: string, description: Value): (t: Tasks.Task)
    ensures KeySet(t) == {Tasks.NameKey, ToolName, Tasks.Register}
    ensures Lookup(t, ToolName) == Some(Dict(ApplyArgs(name)))
    ensures Lookup(t, Tasks.Register) == Some(Str(Tasks.TaskName(name)))
    ensures Lookup(t, Tasks.NameKey) == Some(description)
  {
    Put(Put(Put([], Tasks.NameKey, description), ToolName, Dict(ApplyArgs(name))), Tasks.Register, Str(Tasks.TaskName(name)))
  }

  /** `get_for_create`: exactly two tasks. The first only writes the
      document (`dumps` is the JSON serialiser) and receives neither a
      register nor the extra arguments; the second applies it, registers
      its result under the task name and takes the element's extra
      arguments last. */
  function GetForCreate(name: string, configArgs: Entries, description: Value, moduleKey: string,
                        additional: Option<Value>, dumps: Value -> string): (r: Result<seq<Tasks.Task>>)
    ensures r.Ok? <==> Tasks.ExtraArgs(additional, Some(name)).Ok?
    ensures r.Ok? ==> |r.value| == 2
    ensures r.Ok? ==>
              var write := r.value[0];
              && KeySet(write) == {Tasks.NameKey, Shell}
              && Lookup(write, Tasks.NameKey) == Some(description)
              && Lookup(write, Shell) == Some(Str(ShellScript(dumps(ResourceDocument(name, configArgs, moduleKey)))))
    ensures r.Ok? ==>
              var extra := Tasks.ExtraArgs(additional, Some(name)).value;
              var apply := r.value[1];
              && KeySet(apply) == {Tasks.NameKey, ToolName, Tasks.Register} + KeySet(extra)
              && (ToolName !in KeySet(extra) ==> Lookup(apply, ToolName) == Some(Dict(ApplyArgs(name))))
              && (Tasks.Register !in KeySet(extra) ==> Lookup(apply, Tasks.Register) == Some(Str(Tasks.TaskName(name))))
              && (Tasks.NameKey !in KeySet(extra) ==> Lookup(apply, Tasks.NameKey) == Some(description))
              && (DistinctKeys(extra) ==> forall k :: k in KeySet(extra) ==> Lookup(apply, k) == Lookup(extra, k))
  {
    var extra :- Tasks.ExtraArgs(additional, Some(name));
    Ok([WriteTask(name, configArgs, description, moduleKey, dumps), Update(ApplyTask(name, description), extra)])
  }

  /** Only the apply task depends on the extra arguments: the document
      written is the same whatever they hold. */
  lemma WriteIgnoresExtraArgs(name: string, configArgs: Entries, description: Value, moduleKey: string,
                              a: Option<Value>, b: Option<Value>, dumps: Value -> string)
    requires GetForCreate(name, configArgs, description, moduleKey, a, dumps).Ok?
    requires GetForCreate(name, configArgs, description, moduleKey, b, dumps).Ok?
    ensures GetForCreate(name, configArgs, description, moduleKey, a, dumps).value[0]
            == GetForCreate(name, configArgs, description, moduleKey, b, dumps).value[0]
  {
  }
}

=== FILE: tool_registry.dfy ===
/** The registry of configuration tools and the lookup of a tool class by
    its name. */
module ToolRegistry {
  import opened Wrappers

  datatype ToolClass = Ansible | Kubernetes | Terraform

  /** The `TOOL_NAME` each class declares. */
  function ToolName(c: ToolClass): string
  {
    match c
    case Ansible => "ansible"
    case Kubernetes => "kubernetes"
    case Terraform => "terraform"
  }

  /** The registered classes, in the order they are tried. */
  const Tools: seq<ToolClass> := [Ansible, Kubernetes, Terraform]

  function Names(tools: seq<ToolClass>): (r: seq<string>)
    ensures |r| == |tools|
    ensures forall i :: 0 <= i < |tools| ==> r[i] == ToolName(tools[i])
  {
    seq(|tools|, i requires 0 <= i < |tools| => ToolName(tools[i]))
  }

  /** `get_configuration_tool_class` over the classes `tools`: the first
      class whose name is exactly `toolName`, together with the names tried
      before it (every name when none matches, which is reported and
      answered with no class rather than an error). */
  function Resolve(tools: seq<ToolClass>, toolName: string): (r: (Option<ToolClass>, seq<string>))
    ensures r.0.Some? <==> toolName in Names(tools)
    ensures r.0.Some? ==> ToolName(r.0.value) == toolName
    ensures r.0.Some? ==> |r.1| < |tools| && tools[|r.1|] == r.0.value && r.1 == Names(tools)[..|r.1|]
    ensures toolName !in r.1
    ensures r.0.None? ==> r.1 == Names(tools)
    decreases |tools|
  {
    if |tools| == 0 then (None, [])
    else if ToolName(tools[0]) == toolName then (Some(tools[0]), [])
    else
      var rest := Resolve(tools[1..], toolName);
      var tried := [ToolName(tools[0])] + rest.1;
      NamesCons(tools);
      TriedPrefix(tools, rest.0, rest.1);
      (rest.0, tried)
  }

  lemma NamesCons(tools: seq<ToolClass>)
    requires |tools| > 0
    ensures Names(tools) == [ToolName(tools[0])] + Names(tools[1..])
  {
  }

  /** The names tried before a match found past the first class are the
      first name followed by those tried in the rest. */
  lemma TriedPrefix(tools: seq<ToolClass>, found: Option<ToolClass>, rest: seq<string>)
    requires |tools| > 0
    requires found.Some? ==> |rest| < |tools| - 1 && tools[1..][|rest|] == found.value && rest == Names(tools[1..])[..|rest|]
    ensures found.Some? ==> tools[|rest| + 1] == found.value && Names(tools)[..|rest| + 1] == [ToolName(tools[0])] + rest
  {
    if found.Some? {
      NamesCons(tools);
      assert Names(tools)[..|rest| + 1] == [Names(tools)[0]] + Names(tools[1..])[..|rest|];
    }
  }

  /** Every registered class is found under its own name, after the names
      of the classes registered before it. */
  lemma RegisteredToolsResolve(c: ToolClass)
    ensures Resolve(Tools, ToolName(c)).0 == Some(c)
    ensures Resolve(Tools, ToolName(c)).1 == Names(Tools)[..IndexOf(c)]
  {
    var names := Names(Tools);
    assert names == ["ansible", "kubernetes", "terraform"];
    var r := Resolve(Tools, ToolName(c));
    assert ToolName(c) in names;
    assert Tools[IndexOf(c)] == c;
    assert |r.1| == IndexOf(c) by {
      assert Tools[|r.1|] == r.0.value;
    }
  }

  function IndexOf(c: ToolClass): (i: nat)
    ensures i < |Tools| && Tools[i] == c
  {
    match c
    case Ansible => 0
    case Kubernetes => 1
    case Terraform => 2
  }
}

=== FILE: type_definitions.dfy ===
/** Flattening of the type hierarchy: every type definition is replaced by
    its parent's full definition deep-updated with its own keys, and the
    types that are, or derive from, a `SoftwareComponent` are collected.

    The recursion of the original code becomes mutually recursive functions
    that carry the set of types whose flattening is under way; a cycle in
    `derived_from` reaches one of them again and is reported as an error,
    as the interpreter's recursion limit would. `corrected` selects between the
    code as written, which stores a full definition only when the outer loop
    reaches its key, and the corrected code, which stores each full
    definition as soon as it is computed. */
module TypeDefinitions {
  import opened Wrappers
  import opened Values
  import opened Utils

  // Error messages, as the source raises or reports them.
  const DefinitionNotMap := "AttributeError: definition is not a map"
  const ParentDefinitionNotMap := "AttributeError: parent definition is not a map"
  const UnknownDerivedFrom := "KeyError: derived_from does not name a type"
  const UnknownParent := "KeyError: unknown parent type"
  const RecursionTooDeep := "RecursionError: maximum recursion depth exceeded"
  const DerivedFromItself := "type is derived from itself"

  const DerivedFrom := "derived_from"
  const SoftwareComponent := "SoftwareComponent"

  /** The mutable state of the flattening: the stored definitions, the
      types already flattened and the software types found so far. */
  datatype FlattenState = FlattenState(defs: Entries, ready: set<string>, software: set<string>)

  /** The parent a definition names, if any; a missing or null
      `derived_from` names none. */
  function ParentOf(definition: Value): (r: Result<Option<string>>)
    requires definition.Dict?
    ensures r == Ok(None) <==> IsNone(Lookup(definition.entries, DerivedFrom))
    ensures r.Ok? && r.value.Some? ==> Lookup(definition.entries, DerivedFrom) == Some(Str(r.value.value))
    ensures r.Err? <==> !IsNone(Lookup(definition.entries, DerivedFrom)) && !Lookup(definition.entries, DerivedFrom).value.Str?
  {
    var p := Lookup(definition.entries, DerivedFrom);
    if IsNone(p) then Ok(None)
    else if p.value.Str? then Ok(Some(p.value.s))
    else Err(UnknownDerivedFrom)
  }

  /** Whether a type's own name makes it a software type. */
  predicate SoftwareByName(t: string)
  {
    ShortTypeName(t) == Some(SoftwareComponent)
  }

  /** A type becomes ready with its full definition. */
  function Finish(st: FlattenState, defType: string, full: Value, software: bool, corrected: bool): (r: (Value, FlattenState))
    ensures r.0 == full
    ensures r.1.ready == st.ready + {defType}
    ensures r.1.software == if software then st.software + {defType} else st.software
    ensures corrected ==> Lookup(r.1.defs, defType) == Some(full)
    ensures corrected ==> forall t :: t != defType ==> Lookup(r.1.defs, t) == Lookup(st.defs, t)
    ensures !corrected ==> r.1.defs == st.defs
  {
    var defs := if corrected then Put(st.defs, defType, full) else st.defs;
    (full, FlattenState(defs, st.ready + {defType}, if software then st.software + {defType} else st.software))
  }

  /** The full definition of `defType`, whose current definition is
      `definition`, with the state after flattening it and its ancestors.
      `visiting` holds the types whose flattening is under way further up
      the recursion: reaching one of them again is a cycle, which the
      original code only leaves through the interpreter's recursion limit. */
  function FullDefinition(st: FlattenState, definition: Value, defType: string, visiting: set<string>, corrected: bool): (r: Result<(Value, FlattenState)>)
    requires defType in KeySet(st.defs) && defType !in visiting
    ensures r.Ok? ==> defType in r.value.1.ready
    ensures r.Ok? ==> r.value.1.ready - st.ready !! visiting
    ensures defType in st.ready ==> r == Ok((definition, st))
    decreases |KeySet(st.defs) - visiting|, 1
  {
    if defType in st.ready then Ok((definition, st))
    else if !definition.Dict? then Err(DefinitionNotMap)
    else
      var parent :- ParentOf(definition);
      if parent.None? then Ok(Finish(st, defType, definition, SoftwareByName(defType), corrected))
      else
        var (parentDef, st1) :- ParentDefinition(st, parent.value, defType, visiting, corrected);
        WithParent(st1, defType, definition, parent.value, parentDef, corrected)
  }

  /** The full definition of the parent `p` of `child`: the stored one when
      `p` is ready, else the one computed for it. */
  function ParentDefinition(st: FlattenState, p: string, child: string, visiting: set<string>, corrected: bool): (r: Result<(Value, FlattenState)>)
    requires child in KeySet(st.defs) && child !in visiting && child !in st.ready
    ensures r.Ok? ==> p != child && p in KeySet(st.defs) && p in r.value.1.ready
    ensures r.Ok? ==> r.value.1.ready - st.ready !! visiting + {child}
    ensures r.Ok? && p in st.ready ==> r.value == (Lookup(st.defs, p).value, st)
    decreases |KeySet(st.defs) - visiting|, 0
  {
    if p == child then Err(DerivedFromItself)
    else
      var stored := Lookup(st.defs, p);
      if stored.None? then Err(UnknownParent)
      else if p in st.ready then Ok((stored.value, st))
      else if p in visiting then Err(RecursionTooDeep)
      else
        Shrinks(KeySet(st.defs), visiting, child);
        FullDefinition(st, stored.value, p, visiting + {child}, corrected)
  }

  /** A definition merged over its parent's full definition. */
  function WithParent(st: FlattenState, defType: string, definition: Value, p: string, parentDef: Value, corrected: bool): (r: Result<(Value, FlattenState)>)
    requires definition.Dict?
    ensures r.Ok? <==> parentDef.Dict?
    ensures r.Ok? ==> r.value.0 == Dict(DeepUpdate(parentDef.entries, definition.entries))
    ensures r.Ok? ==> r.value.1 == Finish(st, defType, r.value.0, SoftwareByName(defType) || p in st.software, corrected).1
  {
    if !parentDef.Dict? then Err(ParentDefinitionNotMap)
    else
      var full := Dict(DeepUpdate(parentDef.entries, definition.entries));
      Ok(Finish(st, defType, full, SoftwareByName(defType) || p in st.software, corrected))
  }

  lemma Shrinks(keys: set<string>, visiting: set<string>, x: string)
    requires x in keys && x !in visiting
    ensures |keys - (visiting + {x})| < |keys - visiting|
  {
    assert keys - (visiting + {x}) == (keys - visiting) - {x};
  }

  /** The outer loop: each key in dictionary order, its current value
      replaced by its full definition. */
  function FulfilFrom(keys: seq<string>, i: nat, st: FlattenState, corrected: bool): Result<FlattenState>
    requires i <= |keys|
    requires forall j :: 0 <= j < |keys| ==> keys[j] in KeySet(st.defs)
    decreases |keys| - i
  {
    if i == |keys| then Ok(st)
    else
      var k := keys[i];
      var step :- FullDefinition(st, Lookup(st.defs, k).value, k, {}, corrected);
      StoreKeepsKeys(st, k, corrected);
      FulfilFrom(keys, i + 1, Store(st, step, k), corrected)
  }

  /** Storing a type's full definition keeps the stored keys. */
  lemma StoreKeepsKeys(st: FlattenState, k: string, corrected: bool)
    requires k in KeySet(st.defs)
    requires FullDefinition(st, Lookup(st.defs, k).value, k, {}, corrected).Ok?
    ensures var step := FullDefinition(st, Lookup(st.defs, k).value, k, {}, corrected).value;
            KeySet(Store(st, step, k).defs) == KeySet(st.defs) && st.ready <= Store(st, step, k).ready
  {
    FullDefinitionExtends(st, Lookup(st.defs, k).value, k, {}, corrected);
  }

  /** One round of the outer loop. */
  lemma FulfilFromStep(keys: seq<string>, i: nat, st: FlattenState, corrected: bool, step: (Value, FlattenState))
    requires i < |keys|
    requires forall j :: 0 <= j < |keys| ==> keys[j] in KeySet(st.defs)
    requires FullDefinition(st, Lookup(st.defs, keys[i]).value, keys[i], {}, corrected) == Ok(step)
    ensures forall j :: 0 <= j < |keys| ==> keys[j] in KeySet(Store(st, step, keys[i]).defs)
    ensures FulfilFrom(keys, i, st, corrected) == FulfilFrom(keys, i + 1, Store(st, step, keys[i]), corrected)
  {
    StoreKeepsKeys(st, keys[i], corrected);
  }

  /** The loop only adds ready types, and every key it passes is ready at
      the end. */
  lemma {:induction false} FulfilFromReady(keys: seq<string>, i: nat, st: FlattenState, corrected: bool)
    requires i <= |keys|
    requires forall j :: 0 <= j < |keys| ==> keys[j] in KeySet(st.defs)
    requires FulfilFrom(keys, i, st, corrected).Ok?
    ensures st.ready <= FulfilFrom(keys, i, st, corrected).value.ready
    ensures forall j :: i <= j < |keys| ==> keys[j] in FulfilFrom(keys, i, st, corrected).value.ready
    decreases |keys| - i
  {
    if i < |keys| {
      var k := keys[i];
      var step := FullDefinition(st, Lookup(st.defs, k).value, k, {}, corrected).value;
      var st2 := Store(st, step, k);
      FulfilFromStep(keys, i, st, corrected, step);
      StoreKeepsKeys(st, k, corrected);
      FulfilFromReady(keys, i + 1, st2, corrected);
      var fin := FulfilFrom(keys, i + 1, st2, corrected).value;
      assert FulfilFrom(keys, i, st, corrected).value == fin;
      assert k in st2.ready;
      forall j | i <= j < |keys| ensures keys[j] in fin.ready {
        if j > i {
          assert i + 1 <= j;
        }
      }
    }
  }

  /** `self.definitions[k] = full` after flattening `k`. */
  function Store(st: FlattenState, step: (Value, FlattenState), k: string): (r: FlattenState)
    ensures r.ready == step.1.ready && r.software == step.1.software
    ensures Lookup(r.defs, k) == Some(step.0)
    ensures forall t :: t != k ==> Lookup(r.defs, t) == Lookup(step.1.defs, t)
    ensures KeySet(r.defs) == KeySet(step.1.defs) + {k}
  {
    step.1.(defs := Put(step.1.defs, k, step.0))
  }

  /** `fulfil_definitions_with_parents`: the state after flattening every
      definition of `defs`. */
  function Fulfil(defs: Entries, corrected: bool): Result<FlattenState>
  {
    KeySetIsKeys(defs);
    FulfilFrom(Keys(defs), 0, FlattenState(defs, {}, {}), corrected)
  }

  /** After the loop every defined type is ready. */
  lemma FulfilReady(defs: Entries, corrected: bool)
    requires Fulfil(defs, corrected).Ok?
    ensures KeySet(defs) <= Fulfil(defs, corrected).value.ready
  {
    KeySetIsKeys(defs);
    FulfilFromReady(Keys(defs), 0, FlattenState(defs, {}, {}), corrected);
  }

  /** How flattening may change the state: types only become ready,
      software types are found only among the newly ready ones, the stored
      keys stay the same, and the stored definition of a type changes only
      when that type becomes ready. */
  ghost predicate Extends(st: FlattenState, st': FlattenState)
  {
    && st.ready <= st'.ready
    && st.software <= st'.software
    && st'.software - st.software <= st'.ready - st.ready
    && KeySet(st'.defs) == KeySet(st.defs)
    && forall t :: t in st.ready || t !in st'.ready ==> Lookup(st'.defs, t) == Lookup(st.defs, t)
  }

  lemma FinishExtends(st0: FlattenState, st: FlattenState, defType: string, full: Value, software: bool, corrected: bool)
    requires Extends(st0, st)
    requires defType in KeySet(st.defs) && defType !in st0.ready
    ensures Extends(st0, Finish(st, defType, full, software, corrected).1)
  {
    var st' := Finish(st, defType, full, software, corrected).1;
    forall t | t in st'.software - st0.software
      ensures t in st'.ready - st0.ready
    {
      if t != defType {
        assert t in st.software - st0.software;
      }
    }
  }

  /** Flattening one type only extends the state. */
  lemma {:induction false} FullDefinitionExtends(st: FlattenState, definition: Value, defType: string, visiting: set<string>, corrected: bool)
    requires defType in KeySet(st.defs) && defType !in visiting
    requires FullDefinition(st, definition, defType, visiting, corrected).Ok?
    ensures Extends(st, FullDefinition(st, definition, defType, visiting, corrected).value.1)
    decreases |KeySet(st.defs) - visiting|, 1
  {
    if defType !in st.ready {
      var parent := ParentOf(definition).value;
      if parent.None? {
        FinishExtends(st, st, defType, definition, SoftwareByName(defType), corrected);
      } else {
        var pr := ParentDefinition(st, parent.value, defType, visiting, corrected).value;
        ParentDefinitionExtends(st, parent.value, defType, visiting, corrected);
        var full := Dict(DeepUpdate(pr.0.entries, definition.entries));
        FinishExtends(st, pr.1, defType, full, SoftwareByName(defType) || parent.value in pr.1.software, corrected);
      }
    }
  }

  lemma {:induction false} ParentDefinitionExtends(st: FlattenState, p: string, child: string, visiting: set<string>, corrected: bool)
    requires child in KeySet(st.defs) && child !in visiting && child !in st.ready
    requires ParentDefinition(st, p, child, visiting, corrected).Ok?
    ensures Extends(st, ParentDefinition(st, p, child, visiting, corrected).value.1)
    decreases |KeySet(st.defs) - visiting|, 0
  {
    if p !in st.ready {
      Shrinks(KeySet(st.defs), visiting, child);
      FullDefinitionExtends(st, Lookup(st.defs, p).value, p, visiting + {child}, corrected);
    }
  }

  /** What flattening promises for type `t` of the original definitions
      `orig`: a type without a parent keeps its definition, a type with a
      parent holds the parent's full definition deep-updated with its own
      keys, and it is a software type exactly when its name says so or its
      parent is one. */
  predicate FullAt(orig: Entries, st: FlattenState, t: string)
  {
    && Lookup(orig, t).Some? && Lookup(orig, t).value.Dict?
    && Lookup(st.defs, t).Some?
    && match ParentOf(Lookup(orig, t).value)
       case Err(_) => false
       case Ok(None) =>
         Lookup(st.defs, t).value == Lookup(orig, t).value && (t in st.software <==> SoftwareByName(t))
       case Ok(Some(p)) =>
         && p in st.ready && Lookup(st.defs, p).Some? && Lookup(st.defs, p).value.Dict?
         && Lookup(st.defs, t).value == Dict(DeepUpdate(Lookup(st.defs, p).value.entries, Lookup(orig, t).value.entries))
         && (t in st.software <==> SoftwareByName(t) || p in st.software)
  }

  /** The invariant of the corrected flattening: every ready type is
      flattened as promised, every other type still has its original
      definition and is not yet known to be software. */
  ghost predicate Flattened(orig: Entries, st: FlattenState)
  {
    && KeySet(st.defs) == KeySet(orig)
    && (forall t :: t !in st.ready ==> Lookup(st.defs, t) == Lookup(orig, t) && t !in st.software)
    && (forall t :: t in st.ready ==> FullAt(orig, st, t))
  }

  lemma FinishKeepsFlattened(orig: Entries, st: FlattenState, defType: string, full: Value, software: bool)
    requires Flattened(orig, st) && defType in KeySet(orig) && defType !in st.ready
    requires FullAt(orig, Finish(st, defType, full, software, true).1, defType)
    ensures Flattened(orig, Finish(st, defType, full, software, true).1)
  {
    var st' := Finish(st, defType, full, software, true).1;
    forall t | t in st'.ready
      ensures FullAt(orig, st', t)
    {
      if t != defType {
        assert FullAt(orig, st, t);
      }
    }
  }

  /** The corrected flattening of one type keeps the invariant and returns
      the definition it stores. */
  lemma {:induction false} FullDefinitionFlattened(orig: Entries, st: FlattenState, definition: Value, defType: string, visiting: set<string>)
    requires Flattened(orig, st) && defType in KeySet(orig) && defType !in visiting
    requires definition == Lookup(st.defs, defType).value
    requires FullDefinition(st, definition, defType, visiting, true).Ok?
    ensures var r := FullDefinition(st, definition, defType, visiting, true).value;
            Flattened(orig, r.1) && Lookup(r.1.defs, defType) == Some(r.0)
    decreases |KeySet(st.defs) - visiting|, 1
  {
    if defType !in st.ready {
      var parent := ParentOf(definition).value;
      if parent.None? {
        FinishKeepsFlattened(orig, st, defType, definition, SoftwareByName(defType));
      } else {
        var p := parent.value;
        ParentDefinitionFlattened(orig, st, p, defType, visiting);
        var pr := ParentDefinition(st, p, defType, visiting, true).value;
        var full := Dict(DeepUpdate(pr.0.entries, definition.entries));
        FinishKeepsFlattened(orig, pr.1, defType, full, SoftwareByName(defType) || p in pr.1.software);
      }
    }
  }

  lemma {:induction false} ParentDefinitionFlattened(orig: Entries, st: FlattenState, p: string, child: string, visiting: set<string>)
    requires Flattened(orig, st) && child in KeySet(orig) && child !in visiting && child !in st.ready
    requires ParentDefinition(st, p, child, visiting, true).Ok?
    ensures var r := ParentDefinition(st, p, child, visiting, true).value;
            Flattened(orig, r.1) && Lookup(r.1.defs, p) == Some(r.0)
    decreases |KeySet(st.defs) - visiting|, 0
  {
    if p !in st.ready {
      Shrinks(KeySet(st.defs), visiting, child);
      FullDefinitionFlattened(orig, st, Lookup(st.defs, p).value, p, visiting + {child});
    }
  }

  lemma {:induction false} FulfilFromFlattened(orig: Entries, keys: seq<string>, i: nat, st: FlattenState)
    requires i <= |keys| && Flattened(orig, st)
    requires forall j :: 0 <= j < |keys| ==> keys[j] in KeySet(st.defs)
    requires FulfilFrom(keys, i, st, true).Ok?
    ensures Flattened(orig, FulfilFrom(keys, i, st, true).value)
    decreases |keys| - i
  {
    if i < |keys| {
      var k := keys[i];
      var step := FullDefinition(st, Lookup(st.defs, k).value, k, {}, true).value;
      FullDefinitionFlattened(orig, st, Lookup(st.defs, k).value, k, {});
      var st2 := Store(st, step, k);
      FulfilFromStep(keys, i, st, true, step);
      assert forall t :: Lookup(st2.defs, t) == Lookup(step.1.defs, t);
      assert KeySet(st2.defs) == KeySet(step.1.defs);
      assert forall t :: FullAt(orig, st2, t) == FullAt(orig, step.1, t);
      FulfilFromFlattened(orig, keys, i + 1, st2);
    }
  }

  /** With each full definition stored as soon as it is computed, every
      type ends up flattened over its parent's full definition. */
  lemma FulfilCorrected(defs: Entries)
    requires Fulfil(defs, true).Ok?
    ensures forall t :: t in KeySet(defs) ==> FullAt(defs, Fulfil(defs, true).value, t)
  {
    KeySetIsKeys(defs);
    FulfilReady(defs, true);
    FulfilFromFlattened(defs, Keys(defs), 0, FlattenState(defs, {}, {}));
  }

  /** Three types, `C` derived from `P` derived from `G`, listed child first. */
  const ThreeGenerations: Entries := [("C", DefC), ("P", DefP), ("G", DefG)]
  const DefC := Dict([(DerivedFrom, Str("P"))])
  const DefP := Dict([(DerivedFrom, Str("G"))])
  const DefG := Dict([("c", Int(3))])
  const FullP := Dict(DeepUpdate(DefG.entries, DefP.entries))
  const FullC := Dict(DeepUpdate(FullP.entries, DefC.entries))

  lemma ThreeGenerationsFacts()
    ensures Lookup(ThreeGenerations, "C") == Some(DefC)
    ensures Lookup(ThreeGenerations, "P") == Some(DefP)
    ensures Lookup(ThreeGenerations, "G") == Some(DefG)
    ensures ParentOf(DefC) == Ok(Some("P")) && ParentOf(DefP) == Ok(Some("G")) && ParentOf(DefG) == Ok(None)
    ensures !SoftwareByName("P") && !SoftwareByName("C") && !SoftwareByName("G")
    ensures Keys(ThreeGenerations) == ["C", "P", "G"]
  {
    assert TypeParse("G").None? && TypeParse("P").None? && TypeParse("C").None? by {
      assert Count("G", '.') == 0 && Count("P", '.') == 0 && Count("C", '.') == 0;
    }
    assert Lookup(ThreeGenerations[2..], "G") == Some(DefG);
    assert Lookup(ThreeGenerations[1..], "G") == Some(DefG);
  }

  lemma FlattenG()
    ensures "G" in KeySet(ThreeGenerations) && FullDefinition(FlattenState(ThreeGenerations, {}, {}), DefG, "G", {"C", "P"}, false)
         == Ok((DefG, FlattenState(ThreeGenerations, {"G"}, {})))
  {
    ThreeGenerationsFacts();
    var st0 := FlattenState(ThreeGenerations, {}, {});
    assert Finish(st0, "G", DefG, false, false).1.ready == {"G"};
  }

  lemma FlattenP()
    ensures "P" in KeySet(ThreeGenerations) && FullDefinition(FlattenState(ThreeGenerations, {}, {}), DefP, "P", {"C"}, false)
         == Ok((FullP, FlattenState(ThreeGenerations, {"G", "P"}, {})))
  {
    ThreeGenerationsFacts();
    FlattenG();
    var st0 := FlattenState(ThreeGenerations, {}, {});
    var stG := FlattenState(ThreeGenerations, {"G"}, {});
    assert ParentDefinition(st0, "G", "P", {"C"}, false) == Ok((DefG, stG));
    assert Finish(stG, "P", FullP, false, false).1.ready == {"G", "P"};
  }

  lemma FlattenC()
    ensures "C" in KeySet(ThreeGenerations) && FullDefinition(FlattenState(ThreeGenerations, {}, {}), DefC, "C", {}, false)
         == Ok((FullC, FlattenState(ThreeGenerations, {"G", "P", "C"}, {})))
  {
    ThreeGenerationsFacts();
    FlattenP();
    var st0 := FlattenState(ThreeGenerations, {}, {});
    var stP := FlattenState(ThreeGenerations, {"G", "P"}, {});
    assert {} + {"C"} == {"C"};
    assert Lookup(st0.defs, "P") == Some(DefP);
    assert ParentDefinition(st0, "P", "C", {}, false) == Ok((FullP, stP));
    var stC := FlattenState(ThreeGenerations, {"G", "P", "C"}, {});
    assert FullP.Dict?;
    assert Finish(stP, "C", FullC, false, false).1.ready == {"G", "P", "C"};
    assert WithParent(stP, "C", DefC, "P", FullP, false) == Ok((FullC, stC));
  }

  /** The states the loop as written passes through on `ThreeGenerations`. */
  const Start := FlattenState(ThreeGenerations, {}, {})
  const AfterC := Store(Start, (FullC, FlattenState(ThreeGenerations, {"G", "P", "C"}, {})), "C")
  const AfterP := Store(AfterC, (DefP, AfterC), "P")
  const AfterG := Store(AfterP, (DefG, AfterP), "G")

  lemma ThreeGenerationsKeys()
    ensures forall j :: 0 <= j < 3 ==> ["C", "P", "G"][j] in KeySet(ThreeGenerations)
  {
    ThreeGenerationsFacts();
    KeySetIsKeys(ThreeGenerations);
  }

  lemma AsWrittenRoundC()
    ensures forall j :: 0 <= j < 3 ==> ["C", "P", "G"][j] in KeySet(Start.defs)
    ensures forall j :: 0 <= j < 3 ==> ["C", "P", "G"][j] in KeySet(AfterC.defs)
    ensures FulfilFrom(["C", "P", "G"], 0, Start, false) == FulfilFrom(["C", "P", "G"], 1, AfterC, false)
  {
    ThreeGenerationsFacts();
    ThreeGenerationsKeys();
    FlattenC();
    FulfilFromStep(["C", "P", "G"], 0, Start, false, (FullC, FlattenState(ThreeGenerations, {"G", "P", "C"}, {})));
  }

  /** `P` is already ready when the loop reaches it: its stored original
      definition is returned and stored again. */
  lemma AsWrittenRoundP()
    requires forall j :: 0 <= j < 3 ==> ["C", "P", "G"][j] in KeySet(AfterC.defs)
    ensures Lookup(AfterC.defs, "P") == Some(DefP)
    ensures forall j :: 0 <= j < 3 ==> ["C", "P", "G"][j] in KeySet(AfterP.defs)
    ensures FulfilFrom(["C", "P", "G"], 1, AfterC, false) == FulfilFrom(["C", "P", "G"], 2, AfterP, false)
  {
    ThreeGenerationsFacts();
    assert Lookup(AfterC.defs, "P") == Some(DefP);
    assert "P" in AfterC.ready;
    FulfilFromStep(["C", "P", "G"], 1, AfterC, false, (DefP, AfterC));
  }

  lemma AsWrittenRoundG()
    requires forall j :: 0 <= j < 3 ==> ["C", "P", "G"][j] in KeySet(AfterP.defs)
    ensures FulfilFrom(["C", "P", "G"], 2, AfterP, false) == Ok(AfterG)
  {
    ThreeGenerationsFacts();
    assert Lookup(AfterP.defs, "G") == Some(DefG);
    assert "G" in AfterP.ready;
    FulfilFromStep(["C", "P", "G"], 2, AfterP, false, (DefG, AfterP));
    assert FulfilFrom(["C", "P", "G"], 3, AfterG, false) == Ok(AfterG);
  }

  /** As written, `P` is flattened while `C` is, and marked ready, but its
      full definition is dropped: when the loop reaches `P` it stores the
      original definition, which lacks the key `c` that `P` inherits. */
  lemma AsWrittenLeavesParentUnflattened()
    ensures Fulfil(ThreeGenerations, false).Ok?
    ensures Lookup(Fulfil(ThreeGenerations, false).value.defs, "P") == Some(DefP)
    ensures !FullAt(ThreeGenerations, Fulfil(ThreeGenerations, false).value, "P")
  {
    ThreeGenerationsFacts();
    AsWrittenRoundC();
    AsWrittenRoundP();
    AsWrittenRoundG();
    assert Fulfil(ThreeGenerations, false) == Ok(AfterG);
    assert Lookup(AfterG.defs, "P") == Some(DefP);
    assert "c" in KeySet(FullP.entries);
    assert "c" !in KeySet(DefP.entries);
  }
}

=== FILE: utils.dfy ===
/** Generic value utilities: TOSCA type-name splitting, the recursive
    dictionary merge, brace escaping and the service URL builders. */
module Utils {
  import opened Wrappers
  import opened Values
  import opened Strings

  // ---------------------------------------------------------------------
  // tosca_type_parse
  // ---------------------------------------------------------------------

  function Count(s: string, c: char): nat
  {
    if |s| == 0 then 0 else (if s[0] == c then 1 else 0) + Count(s[1..], c)
  }

  lemma {:induction false} CountConcat(a: string, b: string, c: char)
    ensures Count(a + b, c) == Count(a, c) + Count(b, c)
  {
    if |a| > 0 {
      CountConcat(a[1..], b, c);
      assert (a + b)[1..] == a[1..] + b;
    } else {
      assert a + b == b;
    }
  }

  lemma {:induction false} CountAbsent(s: string, c: char)
    requires c !in s
    ensures Count(s, c) == 0
  {
    if |s| > 0 {
      CountAbsent(s[1..], c);
    }
  }

  /** Index of the first occurrence of `c`. */
  function IndexOf(s: string, c: char): (r: Option<nat>)
    ensures r.Some? ==> r.value < |s| && s[r.value] == c && c !in s[..r.value]
    ensures r.None? ==> c !in s
  {
    if |s| == 0 then None
    else if s[0] == c then Some(0)
    else
      match IndexOf(s[1..], c)
      case None => None
      case Some(i) =>
        assert s[..i + 1] == [s[0]] + s[1..][..i];
        Some(i + 1)
  }

  /** `_type.split(".", 2)` when it yields three parts: namespace, category
      and type name. Fewer than two dots give `(None, None, None)`. */
  function TypeParse(t: string): (r: Option<(string, string, string)>)
    ensures r.Some? <==> Count(t, '.') >= 2
    ensures r.Some? ==> '.' !in r.value.0 && '.' !in r.value.1
    ensures r.Some? ==> r.value.0 + "." + (r.value.1 + "." + r.value.2) == t
  {
    match IndexOf(t, '.')
    case None =>
      CountAbsent(t, '.');
      None
    case Some(i) =>
      var r := SplitRest(t[..i], t[i + 1..]);
      assert r.Some? <==> Count(t, '.') >= 2 by {
        CountAfterFirst(t, i, '.');
      }
      assert t == t[..i] + "." + t[i + 1..];
      r
  }

  /** The rest of a type name after its first dot, split at its own first
      dot. */
  function SplitRest(ns: string, rest: string): (r: Option<(string, string, string)>)
    requires '.' !in ns
    ensures r.Some? <==> Count(rest, '.') >= 1
    ensures r.Some? ==> r.value.0 == ns && '.' !in r.value.1 && r.value.1 + "." + r.value.2 == rest
  {
    match IndexOf(rest, '.')
    case None =>
      CountAbsent(rest, '.');
      None
    case Some(j) =>
      CountAfterFirst(rest, j, '.');
      assert rest == rest[..j] + "." + rest[j + 1..];
      Some((ns, rest[..j], rest[j + 1..]))
  }

  /** The count of `c` is one more than after its first occurrence. */
  lemma CountAfterFirst(t: string, i: nat, c: char)
    requires i < |t| && t[i] == c && c !in t[..i]
    ensures Count(t, c) == 1 + Count(t[i + 1..], c)
  {
    assert t == t[..i] + ([c] + t[i + 1..]);
    CountAbsent(t[..i], c);
    CountConcat(t[..i], [c] + t[i + 1..], c);
    CountConcat([c], t[i + 1..], c);
  }

  /** Splitting undoes joining: a dot-free namespace and category joined
      with any type name parse back to the same three parts. */
  lemma TypeParseJoin(ns: string, cat: string, name: string)
    requires '.' !in ns && '.' !in cat
    ensures TypeParse(ns + "." + cat + "." + name) == Some((ns, cat, name))
  {
    var rest := cat + "." + name;
    var t := ns + "." + rest;
    assert ns + "." + cat + "." + name == t;
    assert IndexOf(t, '.') == Some(|ns|) by {
      IndexOfJoin(ns, rest, '.');
    }
    assert t[..|ns|] == ns && t[|ns| + 1..] == rest;
    assert SplitRest(ns, rest) == Some((ns, cat, name)) by {
      IndexOfJoin(cat, name, '.');
      assert rest[..|cat|] == cat && rest[|cat| + 1..] == name;
    }
  }

  lemma {:induction false} IndexOfJoin(a: string, rest: string, c: char)
    requires c !in a
    ensures IndexOf(a + [c] + rest, c) == Some(|a|)
  {
    if |a| > 0 {
      IndexOfJoin(a[1..], rest, c);
      assert (a + [c] + rest)[1..] == a[1..] + [c] + rest;
    }
  }

  /** The third part of a parsed type name (`type_name` in the source). */
  function ShortTypeName(t: string): Option<string>
  {
    match TypeParse(t)
    case Some((_, _, n)) => Some(n)
    case None => None
  }

  /** The second part of a parsed type name: `nodes`, `relationships`, ... */
  function TypeCategory(t: string): Option<string>
  {
    match TypeParse(t)
    case Some((_, c, _)) => Some(c)
    case None => None
  }

  // ---------------------------------------------------------------------
  // deep_update_dict
  // ---------------------------------------------------------------------

  /** The value `deep_update_dict` stores under a key: two dictionaries are
      merged recursively; a list, tuple or set on both sides is concatenated
      (a union for sets); anything else is replaced by the override. */
  function MergeValue(prev: Option<Value>, v: Value): (r: Value)
    decreases v, if v.Dict? then |v.entries| + 1 else 0
  {
    if v.Dict? && prev.Some? && prev.value.Dict? then Dict(UpdateFrom(prev.value.entries, v.entries, 0))
    else if v.List? && prev.Some? && prev.value.List? then List(prev.value.items + v.items)
    else if v.Tuple? && prev.Some? && prev.value.Tuple? then Tuple(prev.value.elems + v.elems)
    else if v.Set? && prev.Some? && prev.value.Set? then Set(prev.value.members + v.members)
    else v
  }

  function UpdateFrom(source: Entries, overrides: Entries, i: nat): (r: Entries)
    requires i <= |overrides|
    ensures KeySet(r) == KeySet(source) + KeySet(overrides[i..])
    ensures forall k :: k !in KeySet(overrides[i..]) ==> Lookup(r, k) == Lookup(source, k)
    decreases Dict(overrides), |overrides| - i
  {
    if i == |overrides| then source
    else
      var k := overrides[i].0;
      assert overrides[i..] == [overrides[i]] + overrides[i + 1..];
      UpdateFrom(Put(source, k, MergeValue(Lookup(source, k), overrides[i].1)), overrides, i + 1)
  }

  /** `deep_update_dict(source, overrides)`: the keys of the result are the
      union of both key sets, and a key only in `source` keeps its value. */
  function DeepUpdate(source: Entries, overrides: Entries): (r: Entries)
    ensures KeySet(r) == KeySet(source) + KeySet(overrides)
    ensures forall k :: k !in KeySet(overrides) ==> Lookup(r, k) == Lookup(source, k)
  {
    assert overrides[0..] == overrides;
    UpdateFrom(source, overrides, 0)
  }

  /** Each key of the overrides holds the merge of its old value and its
      override, following the rule of `MergeValue`. */
  lemma DeepUpdateLookup(source: Entries, overrides: Entries, k: string)
    requires DistinctKeys(overrides)
    requires k in KeySet(overrides)
    ensures Lookup(DeepUpdate(source, overrides), k) == Some(MergeValue(Lookup(source, k), Lookup(overrides, k).value))
  {
    assert overrides[0..] == overrides;
    UpdateFromLookup(source, overrides, 0, k);
  }

  lemma {:induction false} UpdateFromLookup(source: Entries, overrides: Entries, i: nat, k: string)
    requires i <= |overrides|
    requires DistinctKeys(overrides[i..])
    requires k in KeySet(overrides[i..])
    ensures Lookup(UpdateFrom(source, overrides, i), k) == Some(MergeValue(Lookup(source, k), Lookup(overrides[i..], k).value))
    decreases |overrides| - i
  {
    assert overrides[i..] == [overrides[i]] + overrides[i + 1..];
    var k0 := overrides[i].0;
    var s1 := Put(source, k0, MergeValue(Lookup(source, k0), overrides[i].1));
    if k0 == k {
      assert k !in KeySet(overrides[i + 1..]);
    } else {
      UpdateFromLookup(s1, overrides, i + 1, k);
    }
  }

  /** The merge rule spelled out case by case. */
  lemma MergeValueCases(prev: Option<Value>, v: Value)
    ensures v.Dict? && prev.Some? && prev.value.Dict? ==>
      MergeValue(prev, v) == Dict(DeepUpdate(prev.value.entries, v.entries))
    ensures v.List? && prev.Some? && prev.value.List? ==> MergeValue(prev, v) == List(prev.value.items + v.items)
    ensures v.Tuple? && prev.Some? && prev.value.Tuple? ==> MergeValue(prev, v) == Tuple(prev.value.elems + v.elems)
    ensures v.Set? && prev.Some? && prev.value.Set? ==> MergeValue(prev, v) == Set(prev.value.members + v.members)
    ensures !(v.Dict? || v.List? || v.Tuple? || v.Set?) ==> MergeValue(prev, v) == v
    ensures prev.None? ==> MergeValue(prev, v) == v
  {
  }

  // ---------------------------------------------------------------------
  // replace_brackets
  // ---------------------------------------------------------------------

  const Backslash: char := '\\'

  /** The escaping direction on a string: `{` then `}` are prefixed with a backslash. */
  function Escape(s: string): string
  {
    Replace(Replace(s, "{", [Backslash, '{']), "}", [Backslash, '}'])
  }

  /** The unescaping direction on a string: the six `str.replace` calls of
      the source, in order. `"\{"` and `"\\{"` denote the same two-character
      Python string, so the second and third calls (and the fifth and sixth)
      coincide. */
  function Unescape(s: string): string
  {
    var s1 := Replace(s, [Backslash, Backslash, '{'], "{");
    var s2 := Replace(s1, [Backslash, '{'], "{");
    var s3 := Replace(s2, [Backslash, '{'], "{");
    var s4 := Replace(s3, [Backslash, Backslash, '}'], "}");
    var s5 := Replace(s4, [Backslash, '}'], "}");
    Replace(s5, [Backslash, '}'], "}")
  }

  /** Reference form of an escaped string, one character at a time:
      `open`/`close` say whether `{`/`}` carry a backslash. */
  function EscapedWith(s: string, open: bool, close: bool): string
  {
    if |s| == 0 then "" else EscapedChar(s[0], open, close) + EscapedWith(s[1..], open, close)
  }

  function EscapedChar(c: char, open: bool, close: bool): string
  {
    if (c == '{' && open) || (c == '}' && close) then [Backslash, c] else [c]
  }

  /** Prefixing brace characters is all `Escape` does. */
  lemma EscapeIsPrefixing(s: string)
    ensures Escape(s) == EscapedWith(s, true, true)
  {
    EscapeOpenStep(s);
    EscapeCloseStep(s);
  }

  lemma {:induction false} EscapeOpenStep(s: string)
    ensures Replace(s, "{", [Backslash, '{']) == EscapedWith(s, true, false)
  {
    if |s| > 0 {
      EscapeOpenStep(s[1..]);
      assert s == [s[0]] + s[1..];
      if s[0] == '{' {
        ReplaceHit("{", s[1..], [Backslash, '{']);
      } else {
        ReplaceMiss(s[0], s[1..], "{", [Backslash, '{']);
      }
    }
  }

  lemma {:induction false} EscapeCloseStep(s: string)
    ensures Replace(EscapedWith(s, true, false), "}", [Backslash, '}']) == EscapedWith(s, true, true)
  {
    if |s| > 0 {
      var t := EscapedWith(s[1..], true, false);
      var u := EscapedWith(s[1..], true, true);
      assert Replace(t, "}", [Backslash, '}']) == u by {
        EscapeCloseStep(s[1..]);
      }
      EscapeCloseChar(s[0], t, u);
    }
  }

  /** One character of the second escaping pass. */
  lemma EscapeCloseChar(c: char, t: string, u: string)
    requires Replace(t, "}", [Backslash, '}']) == u
    ensures Replace(EscapedChar(c, true, false) + t, "}", [Backslash, '}']) == EscapedChar(c, true, true) + u
  {
    var pat := "}";
    var rep := [Backslash, '}'];
    if c == '{' {
      assert EscapedChar(c, true, false) + t == [Backslash] + (['{'] + t);
      assert EscapedChar(c, true, true) + u == [Backslash] + (['{'] + u);
      ReplaceMiss(Backslash, ['{'] + t, pat, rep);
      ReplaceMiss('{', t, pat, rep);
    } else if c == '}' {
      assert EscapedChar(c, true, false) == pat;
      ReplaceHit(pat, t, rep);
    } else {
      ReplaceMiss(c, t, pat, rep);
    }
  }

  /** Unescaping an escaped string that has no backslash of its own gives
      the original string back. */
  lemma UnescapeEscape(s: string)
    requires Backslash !in s
    ensures Unescape(Escape(s)) == s
  {
    EscapeIsPrefixing(s);
    var e := EscapedWith(s, true, true);
    UnescapeStep1(s);
    UnescapeStep2(s);
    UnescapeStep3(s);
    UnescapeStep4(s);
    UnescapeStep5(s);
    UnescapeStep6(s);
  }

  lemma {:induction false} UnescapeStep1(s: string)
    requires Backslash !in s
    ensures Replace(EscapedWith(s, true, true), [Backslash, Backslash, '{'], "{") == EscapedWith(s, true, true)
  {
    if |s| > 0 {
      var t := EscapedWith(s[1..], true, true);
      assert Replace(t, [Backslash, Backslash, '{'], "{") == t by {
        UnescapeStep1(s[1..]);
      }
      assert s[0] != Backslash by {
        assert s[0] in s;
      }
      ReplaceKeepsEscapedChar(s[0], true, true, t, [Backslash, Backslash, '{'], "{");
    }
  }

  lemma {:induction false} UnescapeStep2(s: string)
    requires Backslash !in s
    ensures Replace(EscapedWith(s, true, true), [Backslash, '{'], "{") == EscapedWith(s, false, true)
  {
    if |s| > 0 {
      var t := EscapedWith(s[1..], true, true);
      var u := EscapedWith(s[1..], false, true);
      assert Replace(t, [Backslash, '{'], "{") == u by {
        UnescapeStep2(s[1..]);
      }
      assert s[0] != Backslash by {
        assert s[0] in s;
      }
      UnescapeOpenChar(s[0], t, u);
    }
  }

  /** One character of the second unescaping pass. */
  lemma UnescapeOpenChar(c: char, t: string, u: string)
    requires c != Backslash
    requires Replace(t, [Backslash, '{'], "{") == u
    ensures Replace(EscapedChar(c, true, true) + t, [Backslash, '{'], "{") == EscapedChar(c, false, true) + u
  {
    var pat := [Backslash, '{'];
    if c == '{' {
      assert EscapedChar(c, true, true) == pat;
      ReplaceHit(pat, t, "{");
    } else if c == '}' {
      assert EscapedChar(c, true, true) + t == [Backslash] + (['}'] + t);
      assert EscapedChar(c, false, true) + u == [Backslash] + (['}'] + u);
      ReplaceMissSecond(Backslash, '}', t, pat, "{");
      ReplaceMissFirst('}', t, pat, "{");
    } else {
      ReplaceMissFirst(c, t, pat, "{");
    }
  }

  lemma {:induction false} UnescapeStep3(s: string)
    requires Backslash !in s
    ensures Replace(EscapedWith(s, false, true), [Backslash, '{'], "{") == EscapedWith(s, false, true)
  {
    if |s| > 0 {
      var t := EscapedWith(s[1..], false, true);
      assert Replace(t, [Backslash, '{'], "{") == t by {
        UnescapeStep3(s[1..]);
      }
      assert s[0] != Backslash by {
        assert s[0] in s;
      }
      ReplaceKeepsEscapedChar(s[0], false, true, t, [Backslash, '{'], "{");
    }
  }

  lemma {:induction false} UnescapeStep4(s: string)
    requires Backslash !in s
    ensures Replace(EscapedWith(s, false, true), [Backslash, Backslash, '}'], "}") == EscapedWith(s, false, true)
  {
    if |s| > 0 {
      var t := EscapedWith(s[1..], false, true);
      assert Replace(t, [Backslash, Backslash, '}'], "}") == t by {
        UnescapeStep4(s[1..]);
      }
      assert s[0] != Backslash by {
        assert s[0] in s;
      }
      ReplaceKeepsEscapedChar(s[0], false, true, t, [Backslash, Backslash, '}'], "}");
    }
  }

  lemma {:induction false} UnescapeStep5(s: string)
    requires Backslash !in s
    ensures Replace(EscapedWith(s, false, true), [Backslash, '}'], "}") == s
  {
    if |s| > 0 {
      var t := EscapedWith(s[1..], false, true);
      assert Replace(t, [Backslash, '}'], "}") == s[1..] by {
        UnescapeStep5(s[1..]);
      }
      assert s[0] != Backslash by {
        assert s[0] in s;
      }
      UnescapeCloseChar(s[0], t, s[1..]);
      assert s == [s[0]] + s[1..];
    }
  }

  /** One character of the last unescaping pass that does anything. */
  lemma UnescapeCloseChar(c: char, t: string, u: string)
    requires c != Backslash
    requires Replace(t, [Backslash, '}'], "}") == u
    ensures Replace(EscapedChar(c, false, true) + t, [Backslash, '}'], "}") == [c] + u
  {
    var pat := [Backslash, '}'];
    if c == '}' {
      assert EscapedChar(c, false, true) == pat;
      ReplaceHit(pat, t, "}");
    } else {
      ReplaceMissFirst(c, t, pat, "}");
    }
  }

  /** An escaped character that cannot start the pattern passes through. */
  lemma ReplaceKeepsEscapedChar(c: char, open: bool, close: bool, t: string, pat: string, rep: string)
    requires c != Backslash && |pat| >= 2 && pat[0] == Backslash
    requires EscapedChar(c, open, close) == [c] || c != pat[1]
    ensures Replace(EscapedChar(c, open, close) + t, pat, rep) == EscapedChar(c, open, close) + Replace(t, pat, rep)
  {
    if EscapedChar(c, open, close) == [c] {
      ReplaceMissFirst(c, t, pat, rep);
    } else {
      assert EscapedChar(c, open, close) + t == [Backslash] + ([c] + t);
      ReplaceMissSecond(Backslash, c, t, pat, rep);
      ReplaceMissFirst(c, t, pat, rep);
    }
  }

  lemma {:induction false} UnescapeStep6(s: string)
    requires Backslash !in s
    ensures Replace(s, [Backslash, '}'], "}") == s
  {
    if |s| > 0 {
      UnescapeStep6(s[1..]);
      assert s == [s[0]] + s[1..];
      ReplaceMiss(s[0], s[1..], [Backslash, '}'], "}");
    }
  }

  /** A string without braces is its own escaped form. */
  lemma {:induction false} EscapeNoBraces(s: string)
    requires '{' !in s && '}' !in s
    ensures Escape(s) == s
  {
    EscapeIsPrefixing(s);
    NoBracesEscapedWith(s);
  }

  lemma {:induction false} NoBracesEscapedWith(s: string)
    requires '{' !in s && '}' !in s
    ensures EscapedWith(s, true, true) == s
  {
    if |s| > 0 {
      NoBracesEscapedWith(s[1..]);
      assert s == [s[0]] + s[1..];
    }
  }

  /** `replace_brackets(data, with_splash)`: strings are escaped (or
      unescaped), dictionary keys are ALWAYS escaped (the recursive call on
      a key does not pass `with_splash` on), dictionary values and list
      items are processed recursively, and any other value is returned as
      it is. */
  function ReplaceBrackets(v: Value, withSplash: bool): (r: Value)
    ensures v.Str? ==> r == Str(if withSplash then Escape(v.s) else Unescape(v.s))
    ensures v.Dict? ==> r.Dict? && |r.entries| == |v.entries|
    ensures v.Dict? ==> forall i :: 0 <= i < |v.entries| ==> r.entries[i].0 == Escape(v.entries[i].0)
    ensures v.Dict? ==> forall i :: 0 <= i < |v.entries| ==> r.entries[i].1 == ReplaceBrackets(v.entries[i].1, withSplash)
    ensures v.List? ==> r.List? && |r.items| == |v.items|
    ensures v.List? ==> forall i :: 0 <= i < |v.items| ==> r.items[i] == ReplaceBrackets(v.items[i], withSplash)
    ensures !(v.Str? || v.Dict? || v.List?) ==> r == v
  {
    match v
    case Str(s) => Str(if withSplash then Escape(s) else Unescape(s))
    case Dict(es) =>
      Dict(seq(|es|, i requires 0 <= i < |es| => (Escape(es[i].0), ReplaceBrackets(es[i].1, withSplash))))
    case List(xs) =>
      List(seq(|xs|, i requires 0 <= i < |xs| => ReplaceBrackets(xs[i], withSplash)))
    case _ => v
  }

  /** Every string inside a value (dictionary keys included) is free of backslashes. */
  predicate NoBackslash(v: Value)
  {
    match v
    case Str(s) => Backslash !in s
    case Dict(es) => forall i :: 0 <= i < |es| ==> Backslash !in es[i].0 && NoBackslash(es[i].1)
    case List(xs) => forall i :: 0 <= i < |xs| ==> NoBackslash(xs[i])
    case _ => true
  }

  /** No dictionary key inside a value contains a brace. */
  predicate BraceFreeKeys(v: Value)
  {
    match v
    case Dict(es) => forall i :: 0 <= i < |es| ==> '{' !in es[i].0 && '}' !in es[i].0 && BraceFreeKeys(es[i].1)
    case List(xs) => forall i :: 0 <= i < |xs| ==> BraceFreeKeys(xs[i])
    case _ => true
  }

  /** Escaping then unescaping a value gives it back, provided no string in
      it holds a backslash and no key holds a brace: keys are escaped on
      both passes, so a key with a brace would come back doubly escaped. */
  lemma {:induction false} ReplaceBracketsRoundTrip(v: Value)
    requires NoBackslash(v) && BraceFreeKeys(v)
    ensures ReplaceBrackets(ReplaceBrackets(v, true), false) == v
  {
    match v
    case Str(s) =>
      UnescapeEscape(s);
    case Dict(es) =>
      var r := ReplaceBrackets(ReplaceBrackets(v, true), false);
      forall i | 0 <= i < |es|
        ensures r.entries[i] == es[i]
      {
        EscapeNoBraces(es[i].0);
        ReplaceBracketsRoundTrip(es[i].1);
      }
    case List(xs) =>
      var r := ReplaceBrackets(ReplaceBrackets(v, true), false);
      forall i | 0 <= i < |xs|
        ensures r.items[i] == xs[i]
      {
        ReplaceBracketsRoundTrip(xs[i]);
      }
    case _ =>
  }

  // ---------------------------------------------------------------------
  // URL builders of the dependency service
  // ---------------------------------------------------------------------

  /** `get_url_for_getting_dependencies`. */
  function DependenciesUrl(clusterName: string, endpoint: string, typeName: string): (r: string)
    ensures HasPrefix(r, "http://" + endpoint + "/v0.1/all_dependencies/")
    ensures |r| == |"http://" + endpoint + "/v0.1/all_dependencies/"| + |clusterName| + |"/node_type/"| + |typeName|
    ensures var p := |"http://" + endpoint + "/v0.1/all_dependencies/"|;
            r[p..p + |clusterName|] == clusterName && r[p + |clusterName|..p + |clusterName| + |"/node_type/"|] == "/node_type/"
    ensures r[|r| - |typeName|..] == typeName
  {
    "http://" + endpoint + "/v0.1/all_dependencies/" + clusterName + "/node_type/" + typeName
  }

  /** `get_url_for_loading_to_db`. */
  function LoadingUrl(clusterName: string, endpoint: string): (r: string)
    ensures HasPrefix(r, "http://" + endpoint + "/v0.1/yaml_template/template?cluster_name=")
    ensures |r| == |"http://" + endpoint + "/v0.1/yaml_template/template?cluster_name="| + |clusterName|
    ensures r[|r| - |clusterName|..] == clusterName
  {
    "http://" + endpoint + "/v0.1/yaml_template/template?cluster_name=" + clusterName
  }

  /** For a fixed endpoint and type, different clusters get different URLs. */
  lemma DependenciesUrlInjective(c1: string, c2: string, endpoint: string, typeName: string)
    requires DependenciesUrl(c1, endpoint, typeName) == DependenciesUrl(c2, endpoint, typeName)
    ensures c1 == c2
  {
    var r := DependenciesUrl(c1, endpoint, typeName);
    var p := |"http://" + endpoint + "/v0.1/all_dependencies/"|;
    assert |c1| == |c2|;
    assert c1 == r[p..p + |c1|] == c2;
  }

  /** For a fixed endpoint, different clusters get different loading URLs. */
  lemma LoadingUrlInjective(c1: string, c2: string, endpoint: string)
    requires LoadingUrl(c1, endpoint) == LoadingUrl(c2, endpoint)
    ensures c1 == c2
  {
    var p := "http://" + endpoint + "/v0.1/yaml_template/template?cluster_name=";
    assert LoadingUrl(c1, endpoint) == p + c1 + "";
    assert LoadingUrl(c2, endpoint) == p + c2 + "";
    CancelAffixes(p, c1, c2, "");
  }
}

=== FILE: values.dfy ===
/** JSON-like values standing for the Python objects (parsed YAML, task
    dictionaries, template fragments) that the modelled code manipulates.

    A Python `dict` is an association list in insertion order: `Put` replaces
    the value of an existing key in place and appends a new key at the end,
    exactly as assignment to `d[k]` does. Dictionary keys are strings. */
module Values {
  import opened Wrappers

  // Error messages, as the source raises or reports them.
  const NotIterable := "object is not iterable"

  datatype Value =
    | Null
    | Bool(b: bool)
    | Int(i: int)
    | Str(s: string)
    | List(items: seq<Value>)
    | Tuple(elems: seq<Value>)
    | Set(members: set<Value>)
    | Dict(entries: seq<(string, Value)>)

  type Entries = seq<(string, Value)>

  /** The keys of a dictionary, in iteration order. */
  function Keys(d: Entries): (ks: seq<string>)
    ensures |ks| == |d|
    ensures forall i :: 0 <= i < |d| ==> ks[i] == d[i].0
  {
    if |d| == 0 then [] else [d[0].0] + Keys(d[1..])
  }

  function KeySet(d: Entries): set<string>
  {
    if |d| == 0 then {} else {d[0].0} + KeySet(d[1..])
  }

  /** The key set holds exactly the keys listed by `Keys`. */
  lemma {:induction false} KeySetIsKeys(d: Entries)
    ensures forall k :: k in KeySet(d) <==> k in Keys(d)
  {
    if |d| > 0 {
      KeySetIsKeys(d[1..]);
      assert Keys(d) == [d[0].0] + Keys(d[1..]);
    }
  }

  /** The key at a position is a key of the dictionary. */
  lemma {:induction false} KeyAtIndex(d: Entries, j: nat)
    requires j < |d|
    ensures d[j].0 in KeySet(d)
  {
    if j > 0 {
      KeyAtIndex(d[1..], j - 1);
    }
  }

  /** Python dictionaries never hold a key twice. */
  predicate DistinctKeys(d: Entries)
  {
    |d| == 0 || (d[0].0 !in KeySet(d[1..]) && DistinctKeys(d[1..]))
  }

  /** The keys of a dictionary without duplicates are listed once each. */
  lemma {:induction false} DistinctKeysAreDistinct(d: Entries)
    requires DistinctKeys(d)
    ensures forall i, j :: 0 <= i < j < |Keys(d)| ==> Keys(d)[i] != Keys(d)[j]
  {
    if |d| > 0 {
      DistinctKeysAreDistinct(d[1..]);
      KeySetIsKeys(d[1..]);
      assert Keys(d) == [d[0].0] + Keys(d[1..]);
    }
  }

  /** `d.get(k)`: the value stored under the first occurrence of `k`. */
  function Lookup(d: Entries, k: string): (r: Option<Value>)
    ensures r.Some? <==> k in KeySet(d)
  {
    if |d| == 0 then None
    else if d[0].0 == k then Some(d[0].1)
    else Lookup(d[1..], k)
  }

  /** `d[k] = v` on a copy of `d`. */
  function Put(d: Entries, k: string, v: Value): (r: Entries)
    ensures Lookup(r, k) == Some(v)
    ensures forall k' :: k' != k ==> Lookup(r, k') == Lookup(d, k')
    ensures KeySet(r) == KeySet(d) + {k}
  {
    if |d| == 0 then [(k, v)]
    else if d[0].0 == k then
      assert ([(k, v)] + d[1..])[1..] == d[1..];
      [(k, v)] + d[1..]
    else
      var rest := Put(d[1..], k, v);
      assert ([d[0]] + rest)[1..] == rest;
      [d[0]] + rest
  }

  /** Assignment keeps the position of an existing key and appends a new one. */
  lemma {:induction false} PutKeys(d: Entries, k: string, v: Value)
    ensures k in KeySet(d) ==> Keys(Put(d, k, v)) == Keys(d)
    ensures k !in KeySet(d) ==> Keys(Put(d, k, v)) == Keys(d) + [k]
    ensures DistinctKeys(d) ==> DistinctKeys(Put(d, k, v))
  {
    if |d| > 0 && d[0].0 != k {
      PutKeys(d[1..], k, v);
      assert Put(d, k, v)[1..] == Put(d[1..], k, v);
    }
  }

  /** Python truthiness: `None`, `False`, `0` and empty containers are false. */
  predicate Truthy(v: Value)
  {
    match v
    case Null => false
    case Bool(b) => b
    case Int(i) => i != 0
    case Str(s) => |s| > 0
    case List(xs) => |xs| > 0
    case Tuple(xs) => |xs| > 0
    case Set(xs) => |xs| > 0
    case Dict(es) => |es| > 0
  }

  /** `v.get(k)` for a dictionary value; `None` for a missing key. */
  function Field(v: Value, k: string): Option<Value>
    requires v.Dict?
  {
    Lookup(v.entries, k)
  }

  /** `x is None` for the result of `x.get(k)`: a missing key or an
      explicit `None`. */
  predicate IsNone(o: Option<Value>)
  {
    o.None? || o.value.Null?
  }

  /** `for x in v`: the items of a list or tuple, the keys of a dictionary
      and the characters of a string; iterating `None`, a number or a
      boolean is a `TypeError`. */
  function Iterate(v: Value): (r: Result<seq<Value>>)
    ensures v.List? ==> r == Ok(v.items)
    ensures v.Dict? ==> r.Ok? && |r.value| == |v.entries| && forall i :: 0 <= i < |v.entries| ==> r.value[i] == Str(v.entries[i].0)
    ensures v.Null? || v.Int? || v.Bool? ==> r.Err?
  {
    match v
    case List(xs) => Ok(xs)
    case Tuple(xs) => Ok(xs)
    case Dict(es) => Ok(seq(|es|, i requires 0 <= i < |es| => Str(es[i].0)))
    case Str(s) => Ok(seq(|s|, i requires 0 <= i < |s| => Str([s[i]])))
    case _ => Err(NotIterable)
  }

  /** `x.get(k, {})` followed by use of the result as a dictionary:
      a missing key gives the empty dictionary, a present non-dictionary
      (including an explicit `None`) is the Python error the next `.get`
      or `.items()` raises. */
  function DictOrEmpty(o: Option<Value>, what: string): (r: Result<Entries>)
    ensures o.None? ==> r == Ok([])
    ensures o.Some? && o.value.Dict? ==> r == Ok(o.value.entries)
    ensures o.Some? && !o.value.Dict? ==> r.Err?
  {
    match o
    case None => Ok([])
    case Some(Dict(es)) => Ok(es)
    case Some(_) => Err(what + " is not a dictionary")
  }

  /** `d.update(e)`: every key of `e` is put into `d`, in `e`'s order. */
  function Update(d: Entries, e: Entries): (r: Entries)
    ensures KeySet(r) == KeySet(d) + KeySet(e)
    ensures forall k :: k !in KeySet(e) ==> Lookup(r, k) == Lookup(d, k)
    ensures DistinctKeys(e) ==> forall k :: k in KeySet(e) ==> Lookup(r, k) == Lookup(e, k)
    decreases |e|
  {
    if |e| == 0 then d
    else
      PutKeys(d, e[0].0, e[0].1);
      Update(Put(d, e[0].0, e[0].1), e[1..])
  }
}

=== FILE: wrappers.dfy ===
/** Failure-compatible wrappers used by every module of the model.

    Python code in the modelled system signals failure by raising an
    exception; the model returns `Err` with the message the code raises
    (or a short description of the Python error the code would hit). */
module Wrappers {

  datatype Option<+T> = None | Some(value: T) {

    predicate IsFailure() {
      None?
    }

    function PropagateFailure<U>(): Option<U>
      requires None?
    {
      None
    }

    function Extract(): T
      requires Some?
    {
      value
    }

    /** `dict.get(key, default)` once the lookup has been done. */
    function GetOr(default: T): T
    {
      match this
      case Some(v) => v
      case None => default
    }
  }

  datatype Result<+T> = Ok(value: T) | Err(msg: string) {

    predicate IsFailure() {
      Err?
    }

    function PropagateFailure<U>(): Result<U>
      requires Err?
    {
      Err(msg)
    }

    function Extract(): T
      requires Ok?
    {
      value
    }
  }

  /** Raise `msg` unless `condition` holds. */
  datatype Outcome = Pass | Fail(msg: string) {

    predicate IsFailure() {
      Fail?
    }

    function PropagateFailure<U>(): Result<U>
      requires Fail?
    {
      Err(msg)
    }
  }

  function Need(condition: bool, msg: string): (o: Outcome)
  {
    if condition then Pass else Fail(msg)
  }
}
